=== FILE: README.md ===
# Mailing Manager core, modelled in Dafny

This project models the deterministic core of the Mailing Manager MCP server and proves properties of that model. The server is a TypeScript program that manages e-mail accounts, personas, directives, scheduled tasks and webhooks behind an encrypted vault. The model is one Dafny module per source file:

- **Vault lifecycle.** `EncryptionService` and the server's `ensureMasterKey`/`start`/`stop` (modules `Encryption`, `Vault`, over the symbolic primitives of `Crypto`). The states are: no master-key row, locked, unlocked. Key contracts:
  - which credential source wins;
  - stdio mode without a credential stays locked;
  - a wrong password changes nothing;
  - encrypt/decrypt need a loaded key.
- **Secure capture.** The one-time browser form of `EphemeralSecureServer` (`CaptureServer`). Its helpers are in `SecureInput` and `HtmlTemplates`, and the capped body reader is in `Bodies`. The handlers are pure functions from the session registry, the clock and the request to a response and a new registry, with the promise's settlement kept explicit.
- **Text codec.** `EmailDecoder.decode` and quoted-printable decoding (section 6.7 of RFC 2045) at byte level, before the final UTF-8 decode (`Decoder`).
- **Rule evaluators.** Directive matching with its time windows, conditions and priority sort (`DirectiveEngine`), and the inbound webhook filters.
- **Webhooks.**
  - The inbound decision order, with the fixed-window rate limiter and the replay cache (`WebhookServer`).
  - Outbound retry and backoff chains (`WebhookDispatcher`).
  - The stored counters and secrets (`WebhookManager`).
- **Bookkeeping.**
  - The task scheduler's job map (`TaskEngine`).
  - Account host/port resolution and password storage (`AccountManager`).
  - The sync loop (`SyncService`).
  - The connection pool with idle eviction (`ConnectionPool`).
  - The pure IMAP helpers and fetch-range arithmetic (`ImapClient`).
  - The migration planner, e-mail de-duplication and connection lifecycle (`Database`).
  - The configuration load and deep merge (`ConfigManager`).
  - The zod schemas, read as validity predicates with defaults (`Types`).

Shared modules:
- `Wrappers`: `Option` and `Result`.
- `Text`: hex, ASCII lower-casing, `indexOf`, `split`/`join`, decimal numerals and `parseInt`.
- `JsValues`: JavaScript values, truthiness, property access and `String(v)`.
- `InputRequest`: the secure-input request and field records.

Where the source throws, the model returns `Err`. Randomness (salts, IVs, tokens, secrets, UUIDs, `Math.random`), clocks, the outcome of network calls and library availability are explicit parameters.

Cryptography is symbolic. A derived key *is* the term Argon2id(password, salt, parameters), and a sealed box is the term for its key, IV and plaintext. This gives the three properties the design relies on, as theorems rather than axioms:
- derivation is deterministic;
- decrypt∘encrypt is the identity;
- a wrong key or an altered tag fails.

## Model

| member | source | states |
|---|---|---|
| Encryption.DefaultDerivationConfig | src/security/encryption.ts:28-34 | with no configuration the key is derived with argon2id, time cost 3, memory 65536, parallelism 4 and a 32-byte salt |
| Encryption.DefaultsAccepted | src/security/encryption.ts:28-48 | the default costs with a 32-byte salt are within argon2's input limits |
| Encryption.RandomSaltHasConfiguredLength | src/security/encryption.ts:35-44 | a random salt of the configured length is accepted iff argon2 accepts that length, and the returned salt decodes to exactly that many bytes |
| Encryption.DeriveMasterKey | src/security/encryption.ts:13-55 | without argon2 derivation fails; it succeeds exactly when argon2 accepts the salt's byte length and the costs, and an unusable random-salt length fails first; a success reports the configuration used, the key is the raw 32-byte Argon2id output over the returned salt, and a supplied salt is returned (re-encoded) or else the random one |
| Encryption.ShortSaltRejected | src/security/encryption.ts:36-48 | a supplied salt that decodes to fewer than 8 bytes makes argon2.hash throw |
| Encryption.NonHexSaltRejected | src/security/encryption.ts:36-48 | a salt such as "zz" that is not hex decodes to no bytes and is rejected |
| Encryption.DeriveDeterministic | src/security/encryption.ts:36-54 | deriving again with the returned salt reproduces the same key, salt and configuration |
| Encryption.DeriveDistinguishesPasswords | src/security/encryption.ts:40-48 | under a salt argon2 accepts, derivation succeeds and two different passwords give different keys |
| Encryption.DefaultSaltIsSixtyFourHex | src/security/encryption.ts:36-52 | the default random salt comes back as 64 lower-case hex characters |
| Encryption.SetMasterKey | src/security/encryption.ts:58-60 | after setting, the service is unlocked with exactly that key |
| Encryption.ClearMasterKey | src/security/encryption.ts:63-68 | after clearing the service is locked; clearing a locked service changes nothing |
| Encryption.Encrypt | src/security/encryption.ts:76-96 | encryption fails iff no master key is loaded; the envelope carries version 1 and the given IV, and decrypts back to the plaintext |
| Encryption.Decrypt | src/security/encryption.ts:99-117 | a locked service refuses; a success means the ciphertext and tag are the sealing of the result under the key and IV; any other failure is a tag mismatch |
| Encryption.WrongKeyRejected | src/security/encryption.ts:104-114 | an envelope made under one key fails authentication under another |
| Encryption.AlteredTagRejected | src/security/encryption.ts:111-114 | replacing the tag makes decryption fail |
| Encryption.VersionNeverInspected | src/security/encryption.ts:99-117 | the version field has no influence on decryption |
| Encryption.FreshIvDistinctCiphertexts | src/security/encryption.ts:81-87 | the same plaintext under two different IVs gives two different ciphertexts |
| Encryption.HashMasterKey | src/security/encryption.ts:120-137 | hashing succeeds iff argon2 loads and accepts the hex-decoded salt, a salt under 8 bytes being rejected; the hash records the password, that salt and costs 3 / 65536 / 4 |
| Encryption.VerifyMasterKey | src/security/encryption.ts:140-149 | without argon2 verification fails as unavailable; with it, a stored hash that argon2 cannot parse throws, and any parseable hash gives an answer |
| Encryption.VerifyAgreesWithHash | src/security/encryption.ts:120-149 | a hash that was made verifies exactly the password it was made from |
| Encryption.GenerateSecret | src/security/encryption.ts:152-154 | the secret is the random bytes as lower-case hex, twice as long, and decodes back to them |
| Encryption.SignPayload | src/security/encryption.ts:157-162 | the signature has the digest length of the chosen algorithm |
| Encryption.VerifySignature | src/security/encryption.ts:165-176 | a signature of the wrong length throws; `true` only for the expected digest |
| Encryption.SignThenVerify | src/security/encryption.ts:157-176 | a signature made by `signPayload` verifies, and does not verify for another payload |
| Vault.NewServer | src/core/server.ts:164-170 | a freshly constructed server has no key loaded and is locked |
| Vault.EnvCredential | src/core/server.ts:168 | MAILING_MANAGER_MASTER_KEY wins, else MAILING_MANAGER_UNLOCK_CODE; none exactly when both are missing or empty |
| Vault.Credential | src/core/server.ts:168-221 | an environment credential always wins; nothing is asked exactly when there is none and the transport is stdio |
| Vault.EnsureMasterKey | src/core/server.ts:164-246 | with no credential under stdio nothing changes; an existing row is never rewritten; first-time setup writes row 1 and unlocks; the stored password unlocks a well-formed row; any other password throws 'Invalid master password', and an unparseable stored hash throws, each leaving the server as it was |
| Vault.EnsureMasterKeyKeepsValid | src/core/server.ts:164-246 | every outcome keeps the lifecycle invariant: `vaultUnlocked` mirrors the key slot, and a loaded key is the one the row's verified password derives from its salt |
| Vault.SetupThenUnlockSameKey | src/core/server.ts:191-233 | setup followed by a restart and an unlock with the same password loads the same key, whatever salt the restart would have drawn |
| Vault.NoAlreadyUnlockedShortCircuit | src/core/server.ts:164-233 | an unlocked vault re-verifies the credential and can fail |
| Vault.StdioWithoutCredentialStaysLocked | src/core/server.ts:170-217 | with no env credential under stdio the server stays locked and nothing is persisted, whether or not a row exists |
| Vault.Start | src/core/server.ts:113-158 | stdio connects exactly for 'stdio' or 'both'; an unlock error is swallowed and leaves the server as it was; the webhook server and the scheduler start exactly when their flag is on and the vault is unlocked; the pool always starts |
| Vault.StartWithWrongPasswordStaysLocked | src/core/server.ts:127-147 | a wrong password at start leaves the vault locked and starts neither webhook server nor scheduler |
| Vault.Stop | src/core/server.ts:357-372 | the key is cleared and the vault locked, the stored row stays, and the lifecycle invariant survives |
| Vault.VaultStatusAccountCount | src/core/server.ts:259 | a locked vault reports 0 accounts |
| Vault.WebhookReceivedEffects | src/core/server.ts:331-354 | nothing happens while locked or for an unknown webhook; otherwise at most one effect per action |
| Vault.ActionEffects | src/core/server.ts:336-353 | each trigger_task action executes its task and a notify dispatches `email.received`; no effect comes from anything else |
| CaptureServer.MakeConfig | src/secure-input/ephemeral-server.ts:22-45 | supplied keys override the defaults (local mode, 300000 ms, host 127.0.0.1, tunnel on, no TLS); remote mode forces the host to 0.0.0.0 |
| CaptureServer.NewSession | src/secure-input/ephemeral-server.ts:54-65 | token and csrf are the lowercase hex of their random bytes (64 characters for 32 bytes); the session starts unused at the current time |
| CaptureServer.RequestInput | src/secure-input/ephemeral-server.ts:69-126 | the new session is the only one registered, the listener is bound and the timeout armed, the promise is pending, and a tunnel runs only when configured |
| CaptureServer.AnnouncedUrl | src/secure-input/ephemeral-server.ts:96-109 | `publicUrl || localUrl`: the tunnel's URL when the tunnel is on and gave a host, otherwise the local one; every announced URL ends in `/input/<token>` |
| CaptureServer.FindByToken | src/secure-input/ephemeral-server.ts:298-303 | the first registered session with the token, or none exactly when no session has it |
| CaptureServer.RemoveId | src/secure-input/ephemeral-server.ts:344 | exactly the sessions with another id remain |
| CaptureServer.Cleanup | src/secure-input/ephemeral-server.ts:338-355 | the session is dropped, the tunnel killed and the listener closed; nothing else changes |
| CaptureServer.CleanupIdempotent | src/secure-input/ephemeral-server.ts:338-355 | repeating `cleanup` changes nothing |
| CaptureServer.Settle | src/secure-input/ephemeral-server.ts:69-85 | a promise settles once: a settled outcome stays, a pending one takes the new outcome |
| CaptureServer.Reject | src/secure-input/ephemeral-server.ts:81-85 | the timer is cleared and the listener closed before the promise rejects, and no session is added |
| CaptureServer.Resolve | src/secure-input/ephemeral-server.ts:75-79 | the timer is cleared and the listener closed before the promise resolves |
| CaptureServer.PortFor | src/secure-input/ephemeral-server.ts:327 | a draw in [0, 1) gives a port in [min, max) when min < max, and min when they are equal |
| CaptureServer.FindPort | src/secure-input/ephemeral-server.ts:323-336 | the chosen port is bindable and lies in [min, max); none is found only when no drawn port was bindable |
| CaptureServer.MatchTokenPath | src/secure-input/ephemeral-server.ts:202-208 | a path matches exactly when it is the prefix followed by 64 lowercase hex characters, and the match is those characters |
| CaptureServer.RouteOf | src/secure-input/ephemeral-server.ts:193-214 | OPTIONS is the preflight; only GET `/input/<64 hex>` reaches the form and only POST `/submit/<64 hex>` the submission |
| CaptureServer.Respond | src/secure-input/ephemeral-server.ts:178-191 | every response carries the security and no-cache headers |
| CaptureServer.HandleGetForm | src/secure-input/ephemeral-server.ts:218-235 | unknown or used → 404; else older than `timeoutMs` (strictly) → 410; else 200 with the form; the state is never touched |
| CaptureServer.ProcessSubmission | src/secure-input/ephemeral-server.ts:248-295 | the answer is 200, 400 or 403; 403 exactly for a readable payload whose CSRF token differs from the session's, and then the promise is rejected as a CSRF failure; an unreadable or unparseable body is a 400; every 400 rejects as an invalid payload; a 200 only schedules the flush; no session is ever added |
| CaptureServer.HandleSubmit | src/secure-input/ephemeral-server.ts:237-296 | an unknown or used token is a 403 that changes nothing; otherwise a 400 settles the promise as an invalid payload and a 403 as a CSRF failure, both closing the listener; a 200 schedules the flush and leaves the promise as it was |
| CaptureServer.FailedSubmissionRejects | src/secure-input/ephemeral-server.ts:248-295 | on a live session with the promise pending: 403 exactly on a CSRF mismatch, rejecting with the CSRF failure; every 400, and every unreadable body, rejects as an invalid payload; a 200 leaves it pending with the flush scheduled |
| CaptureServer.Handle | src/secure-input/ephemeral-server.ts:175-216 | security headers on every response; OPTIONS → 204 and an unrouted request → 404, neither touching the state; only a POST can change it |
| CaptureServer.Step | src/secure-input/ephemeral-server.ts:69-85 | a settled promise stays settled under any event |
| CaptureServer.SettledStaysSettled | src/secure-input/ephemeral-server.ts:69-85 | whatever events follow a settlement, the outcome stays |
| CaptureServer.TokenIsRoutable | src/secure-input/ephemeral-server.ts:54-65 | a token made from 32 random bytes is accepted by both routes |
| CaptureServer.SecondSubmitForbidden | src/secure-input/ephemeral-server.ts:240-246 | after any POST to a token, the next POST to it is 403 whatever it carries |
| CaptureServer.SubmitIgnoresAge | src/secure-input/ephemeral-server.ts:237-247 | a POST is judged without the clock: the same submission at any two times gives the same result |
| CaptureServer.HonestSubmissionResolves | src/secure-input/ephemeral-server.ts:249-289 | an honest browser's encrypted submission to a fresh session gets 200, and once the flush fires the promise resolves with its fields, which a later timeout cannot change |
| CaptureServer.TimeoutBeforeFlushRejects | src/secure-input/ephemeral-server.ts:70-73 | if the timeout fires before the flush, the promise rejects as timed out |
| CaptureServer.CsrfMismatchRejects | src/secure-input/ephemeral-server.ts:252-258 | a wrong CSRF value answers 403, spends and removes the session and rejects the promise |
| SecureInput.PasswordRequestOf | src/secure-input/index.ts:17-21 | `password` asks for a password request carrying the message and no field list |
| SecureInput.Password | src/secure-input/index.ts:16-23 | the result is exactly the captured 'password' field; a rejected capture propagates |
| SecureInput.MasterKeyUnlockRequest | src/secure-input/index.ts:59-61 | unlocking asks for a password request |
| SecureInput.MasterKeyUnlock | src/secure-input/index.ts:59-61 | unlocking yields exactly what `password` yields: the captured 'password' field |
| SecureInput.MasterKeySetupRequest | src/secure-input/index.ts:26-50 | the setup form has the two fields 'password' and 'confirm', the first carrying the 12-character minimum as a form attribute |
| SecureInput.MasterKeySetup | src/secure-input/index.ts:52-56 | differing captured fields throw 'Passwords do not match'; a result is the password, equal to its confirmation |
| SecureInput.SetupAcceptsShortPasswords | src/secure-input/index.ts:40-56 | the minimum length is not re-checked after capture: a matching pair shorter than 12 is accepted |
| SecureInput.AccountSetupFields | src/secure-input/index.ts:68-137 | seven fields in form order, prefilled from the initial data; each prefillable field is read-only exactly when its initial value is truthy, and the password never is |
| SecureInput.ReadPort | src/secure-input/index.ts:152-154 | an empty or missing port is undefined; otherwise the base-10 parse, NaN when it fails |
| SecureInput.AccountSetup | src/secure-input/index.ts:142-155 | a missing capture throws; email falls back to '', ports are parsed, every other field is copied as captured |
| SecureInput.PrefilledPortRoundTrip | src/secure-input/index.ts:152 | a non-negative prefilled port submitted unchanged reads back as the same number |
| SecureInput.ZeroPortNotReadOnly | src/secure-input/index.ts:116-117 | port 0 is prefilled as "0" but stays editable, since 0 is falsy |
| HtmlTemplates.ReplaceAllCharConcat | src/secure-input/html-templates.ts:5-9 | a global one-character replacement distributes over concatenation |
| HtmlTemplates.EscapeChar | src/secure-input/html-templates.ts:3-10 | reference definition: an ordinary character stays itself, a special one becomes an entity starting with '&' |
| HtmlTemplates.EscapeHtml | src/secure-input/html-templates.ts:3-10 | text without any of & < > " ' is returned unchanged |
| HtmlTemplates.EscapeHtmlOneChar | src/secure-input/html-templates.ts:3-10 | on one character the five-stage replacement chain equals the per-character entity (ampersand first, so no entity is escaped twice) |
| HtmlTemplates.EscapeHtmlConcat | src/secure-input/html-templates.ts:3-10 | escaping distributes over concatenation |
| HtmlTemplates.EscapeHtmlIsPerCharacter | src/secure-input/html-templates.ts:3-10 | the replacement chain equals escaping each character independently |
| HtmlTemplates.EscapeHtmlProperties | src/secure-input/html-templates.ts:3-10 | the output holds no raw < > " ', is never shorter than the input, and equals the input when it has none of & < > " ' |
| HtmlTemplates.UnescapeEscapeHtml | src/secure-input/html-templates.ts:3-10 | one left-to-right decode of the five entities recovers the input |
| HtmlTemplates.EscapeHtmlInjective | src/secure-input/html-templates.ts:3-10 | distinct strings escape to distinct strings |
| HtmlTemplates.PushIf | src/secure-input/html-templates.ts:33-38 | one conditional push adds the attribute exactly when its condition holds |
| HtmlTemplates.InputAttrsFlags | src/secure-input/html-templates.ts:32-34 | `required` and `readonly` are among an input's attributes exactly when the flags are set |
| HtmlTemplates.InputAttrsValue | src/secure-input/html-templates.ts:35 | a value attribute appears exactly when the value is truthy, and carries it escaped |
| HtmlTemplates.InputAttrsLengths | src/secure-input/html-templates.ts:36-37 | minlength/maxlength appear exactly when the validation number is truthy (non-zero), carrying that number |
| HtmlTemplates.OptionsMarkup | src/secure-input/html-templates.ts:15-20 | one option per input option, value and label escaped, selected exactly when the field's value equals the option's value |
| HtmlTemplates.SelectFieldMarkup | src/secure-input/html-templates.ts:14-30 | a select is required/disabled per its flags and adds a hidden input carrying the escaped value exactly when read-only |
| HtmlTemplates.ReadOnlySelectSubmitsItsValue | src/secure-input/html-templates.ts:15-29 | for a read-only select whose value is one of its options, that option is selected and the hidden input decodes to the value |
| HtmlTemplates.FormFields | src/secure-input/html-templates.ts:60-68 | a password request renders exactly one required password field named 'password' labelled with the message; any other request renders its own fields or none |
| Decoder.Utf16OfLength | src/utils/decoder.ts:35-43 | the code units of a string are as many as its JavaScript `length` |
| Decoder.Ascii | src/utils/decoder.ts:35-37 | an ASCII code unit is pushed as its own byte value, position for position |
| Decoder.Utf8OfScalar | src/utils/decoder.ts:40-43 | `Buffer.from(char, 'utf-8')` of a scalar value yields one to four bytes, per section 3 of RFC 3629 |
| Decoder.Utf8OfCodeUnit | src/utils/decoder.ts:39-43 | a lone surrogate code unit encodes as the replacement character EF BF BD; any other unit as its scalar |
| Decoder.RemoveSoftBreaks | src/utils/decoder.ts:19-20 | removing `=\r?\n` never lengthens the text |
| Decoder.RemoveSoftBreaksNoEquals | src/utils/decoder.ts:20 | text without '=' is left unchanged by the soft-break pass |
| Decoder.RemoveSoftBreaksNoLf | src/utils/decoder.ts:20 | text without a line feed is left unchanged by the soft-break pass |
| Decoder.SoftBreakRemoved | src/utils/decoder.ts:20 | a soft break `=\n` or `=\r\n` after '='-free text disappears and the rest is processed on |
| Decoder.HexUnit | src/utils/decoder.ts:27-29 | a hex digit of either case has a value below 16 |
| Decoder.DecodeLoop | src/utils/decoder.ts:23-45 | the imperative byte loop produces exactly the recursive as-written byte decoding |
| Decoder.StepAt | src/utils/decoder.ts:25-44 | one loop iteration advances by one or three code units and emits exactly the bytes the decoding of the remainder starts with |
| Decoder.AsciiWithoutEqualsUnchanged | src/utils/decoder.ts:35-37 | ASCII text without '=' decodes to its own bytes, in both versions of the decoder |
| Decoder.AsciiUnits | src/utils/decoder.ts:35-37 | the byte loop copies '='-free ASCII byte for byte, in both versions |
| Decoder.LoneEqualsKept | src/utils/decoder.ts:26-37 | an '=' not followed by two hex digits within the text is kept as byte 0x3D |
| Decoder.EscapeAll | src/utils/decoder.ts:26-31 | the reference encoder writes three code units per byte |
| Decoder.ByteEscape | src/utils/decoder.ts:26-29 | an escape written as '=' plus two upper-case digits is recognised by the loop and decodes to its byte |
| Decoder.UpperHexUnit | src/utils/decoder.ts:28 | an upper-case hex digit reads back as its value |
| Decoder.EscapeAllHasNoLineBreak | src/utils/decoder.ts:20 | escaped text contains no line feed, so the soft-break pass cannot touch it |
| Decoder.DecodeEscapeAll | src/utils/decoder.ts:18-48 | escaping any byte sequence and decoding it gives the bytes back (both versions) |
| Decoder.EscapeAllHead | src/utils/decoder.ts:26-31 | the first escape of an escaped run is recognised and consumes three code units |
| Decoder.DecodeUnitsEscapeAll | src/utils/decoder.ts:24-33 | a run of escapes decodes byte for byte whatever follows it |
| Decoder.DecodeUnitsAsWrittenEscapeAll | src/utils/decoder.ts:24-33 | the same for the as-written loop |
| Decoder.DecodeUnitsAsciiPrefix | src/utils/decoder.ts:35-37 | a '='-free ASCII prefix passes through byte for byte, whatever follows |
| Decoder.AsciiUnitStep | src/utils/decoder.ts:35-37 | a '='-free ASCII unit contributes exactly its own byte |
| Decoder.LiteralTextDecodesToUtf8 | src/utils/decoder.ts:34-47 | literal text without '=' decodes to its UTF-8 encoding (corrected decoder) |
| Decoder.NoEqualsUnits | src/utils/decoder.ts:25 | text without '=' has no '=' code unit |
| Decoder.DecodeUnitsOfString | src/utils/decoder.ts:24-45 | the corrected loop turns the code units of '='-free text into its UTF-8 bytes |
| Decoder.BmpTextDecodesToUtf8AsWritten | src/utils/decoder.ts:34-47 | as written, literal text decodes to its UTF-8 only when every character is in the Basic Multilingual Plane |
| Decoder.BmpUnitsAsWritten | src/utils/decoder.ts:39-43 | the as-written loop is correct on text of BMP characters |
| Decoder.AstralCharacterMangledAsWritten | src/utils/decoder.ts:35-43 | a literal U+1F600 is decoded as two replacement characters as written, and as its four UTF-8 bytes by the corrected decoder |
| Decoder.Decode | src/utils/decoder.ts:5-16 | empty text gives ''; an explicit quoted-printable or base64 encoding, in any case, chooses that decoder, quoted-printable being the per-code-unit decoder as written; otherwise QP decoding happens exactly when '=C3', '=\n' or '=\r\n' occurs, and else the text is returned unchanged |
| Decoder.DecodeCorrected | src/utils/decoder.ts:5-16 | the corrected dispatch chooses exactly as `decode` does, and only its quoted-printable result differs, coming from the decoder that keeps astral characters whole |
| Decoder.DecodeEmojiAsWritten | src/utils/decoder.ts:5-43 | as written, a body declared quoted-printable that holds a literal "😀" decodes to EF BF BD EF BF BD; the corrected dispatch gives its UTF-8 bytes |
| Decoder.DecodeCorrectedLiteralText | src/utils/decoder.ts:5-43 | the corrected dispatch turns any '='-free literal text declared quoted-printable into its UTF-8 bytes |
| Decoder.DecodeAgreesOnBmpText | src/utils/decoder.ts:5-43 | on '='-free text of the Basic Multilingual Plane the as-written and corrected dispatches agree |
| Decoder.DecodeAccentExample | src/utils/decoder.ts:18-48 | `pi=C3=A8ce` decodes to the UTF-8 of "pièce" |
| Decoder.Utf8OfAccentWord | src/utils/decoder.ts:40 | the UTF-8 of "pièce" is 70 69 C3 A8 63 65 |
| Decoder.DecodeEmojiExample | src/utils/decoder.ts:18-48 | `=F0=9F=8E=89` decodes to the UTF-8 of U+1F389 |
| Decoder.Utf8OfPartyPopper | src/utils/decoder.ts:40 | the UTF-8 of U+1F389 is F0 9F 8E 89 |
| DirectiveEngine.NumberOrZero | src/directives/directive-engine.ts:190-193 | `Number(piece) \|\| 0`: a blank piece reads as 0, and a piece that is a run of digits once trimmed reads as its decimal value |
| DirectiveEngine.NumberOrZeroIgnoresSpace | src/directives/directive-engine.ts:190-193 | white space on either side of a piece does not change its value, as `Number` trims it |
| DirectiveEngine.NumberOrZeroOfHex | src/directives/directive-engine.ts:190-193 | a `0x` piece reads in base 16: "0x1F" is 31 |
| DirectiveEngine.MinutesOfHoursOnly | src/directives/directive-engine.ts:190-193 | a bound without a colon is that many hours, the missing minutes counting 0 |
| DirectiveEngine.MinutesOfPieces | src/directives/directive-engine.ts:190-193 | a bound "H:M" is the hour piece times 60 plus the minute piece, each read as `Number(x) \|\| 0` |
| DirectiveEngine.MinutesOfSpacedHour | src/directives/directive-engine.ts:190-193 | a space before the hour is skipped: " H:M" is H*60+M minutes |
| DirectiveEngine.MinutesOfNegativeHour | src/directives/directive-engine.ts:190-193 | a negative hour keeps its sign while the minutes still add: "-H:M" is -H*60+M minutes |
| DirectiveEngine.MinutesOfDecimal | src/directives/directive-engine.ts:190-193 | a bound written "H:M" reads back as H*60+M minutes |
| DirectiveEngine.InTimeWindow | src/directives/directive-engine.ts:183-196 | a time inside a window falls on a listed day, and the window's start is not after its end |
| DirectiveEngine.WindowBoundsIncluded | src/directives/directive-engine.ts:187-195 | on a listed day both the start and the end minute are inside the window |
| DirectiveEngine.InvertedWindowNeverMatches | src/directives/directive-engine.ts:183-196 | a window whose start lies after its end matches at no time of any day |
| DirectiveEngine.Addresses | src/directives/directive-engine.ts:120 | the recipient addresses, one per recipient, in order |
| DirectiveEngine.FieldText | src/directives/directive-engine.ts:115-136 | a condition on `attachments` or `date` has no text to compare, every other field does |
| DirectiveEngine.LowerAll | src/directives/directive-engine.ts:162-177 | each list value lower-cased, in order |
| DirectiveEngine.EvaluateCondition | src/directives/directive-engine.ts:112-181 | a field without text and the operators `greater_than`/`less_than` never match; `in` with a single value never matches; `not_in` with a single value matches whenever the field exists; `regex` answers what the pattern test answers, case-insensitive unless `caseSensitive`, and false when the pattern does not compile |
| DirectiveEngine.NegatedOperators | src/directives/directive-engine.ts:143-177 | on an existing field `not_equals`, `not_contains` and (for a list) `not_in` answer the opposite of their positive twins |
| DirectiveEngine.CaseInsensitiveCompare | src/directives/directive-engine.ts:138-151 | without `caseSensitive`, `equals` and `contains` compare the lower-cased field with the lower-cased value, so lower-casing the value first changes nothing |
| DirectiveEngine.ListValueComparesEmpty | src/directives/directive-engine.ts:139-149 | a list value under `equals` compares the field against '' and under `contains` always matches |
| DirectiveEngine.AllHold | src/directives/directive-engine.ts:97-100 | `every` holds iff every condition matches |
| DirectiveEngine.AnyHolds | src/directives/directive-engine.ts:97-101 | `some` holds iff some condition matches |
| DirectiveEngine.Matching | src/directives/directive-engine.ts:84-106 | the loop keeps exactly the directives that are active, inside their window and whose conditions pass |
| DirectiveEngine.Fires | src/directives/directive-engine.ts:86-106 | only an active directive fires; one with a window fires only on a listed day; with no conditions it fires exactly when it is active, is an every-condition directive and is inside its window, as `[].every` is true and `[].some` false |
| DirectiveEngine.Insert | src/directives/directive-engine.ts:109 | inserting adds exactly the one directive |
| DirectiveEngine.InsertSorted | src/directives/directive-engine.ts:109 | inserting into a priority-sorted list keeps it sorted |
| DirectiveEngine.SortedCons | src/directives/directive-engine.ts:109 | a sorted list stays sorted under a head whose priority is at most every element's |
| DirectiveEngine.InsertBounded | src/directives/directive-engine.ts:109 | a lower bound on the priorities survives an insertion |
| DirectiveEngine.SortByPriority | src/directives/directive-engine.ts:109 | the sort by `a.priority - b.priority` yields a priority-sorted permutation |
| DirectiveEngine.WithPriorityConcat | src/directives/directive-engine.ts:109 | the directives of one priority in a concatenation are those of each part, in order |
| DirectiveEngine.InsertStable | src/directives/directive-engine.ts:109 | inserting keeps the order among directives of equal priority |
| DirectiveEngine.SortStable | src/directives/directive-engine.ts:109 | sorting keeps directives of equal priority in their input order (the sort is stable) |
| DirectiveEngine.EvaluateEmail | src/directives/directive-engine.ts:83-110 | the result is sorted by ascending priority and is a permutation of the firing directives |
| DirectiveEngine.EvaluateEmailProperties | src/directives/directive-engine.ts:86-109 | only active directives come back, and directives of equal priority keep their input order |
| DirectiveEngine.MatchAllIsConjunction | src/directives/directive-engine.ts:97-101 | with `matchAll` every condition must match, otherwise one is enough |
| WebhookServer.CheckRateLimit | src/webhooks/webhook-server.ts:229-243 | a first request from an IP, or one strictly after its window ended, opens a window of count 1 and passes; any other increments the count and passes iff the count is within `maxRequests`; other IPs' windows are untouched |
| WebhookServer.RunRateLimit | src/webhooks/webhook-server.ts:229-243 | a run of requests never passes more requests than it holds, and forgets no IP |
| WebhookServer.WindowPassesUpToLimit | src/webhooks/webhook-server.ts:241-242 | inside an open window that already counted c requests, exactly the requests that keep the count within `maxRequests` pass |
| WebhookServer.WindowCap | src/webhooks/webhook-server.ts:233-242 | a window passes at most max(1, maxRequests) requests before it ends, because the opening request always passes |
| WebhookServer.Prune | src/webhooks/webhook-server.ts:252-255 | exactly the entries recorded at or after the cutoff survive, with their timestamps |
| WebhookServer.MarkProcessed | src/webhooks/webhook-server.ts:249-256 | after recording an id at `now`, an id is cached exactly when it is that id (unless the window is negative) or an older entry recorded no earlier than now minus the window; the id carries `now` and the others keep their time |
| WebhookServer.MarkThenReplay | src/webhooks/webhook-server.ts:245-256 | after `markProcessed(id)` the id is a replay; other ids survive iff recorded within the replay window |
| WebhookServer.StaleEntryReplaysUntilNextMark | src/webhooks/webhook-server.ts:245-256 | `isReplay` does not prune: an entry older than the window still counts as a replay until the next recording of another id drops it |
| WebhookServer.NestedValueSteps | src/webhooks/webhook-server.ts:225-227 | a dotted path walks one component at a time from the first component's value |
| WebhookServer.GetNestedValue | src/webhooks/webhook-server.ts:225-227 | a path without a dot is a single property lookup |
| WebhookServer.CheckFilter | src/webhooks/webhook-server.ts:204-220 | one iteration lets the payload through exactly when the filter holds: the field exists and `String(value)` passes the operator |
| WebhookServer.ApplyFilters | src/webhooks/webhook-server.ts:202-223 | the loop passes iff every filter holds, and a failure names a failing filter |
| WebhookServer.FiltersPass | src/webhooks/webhook-server.ts:202-223 | no filters pass every payload, and passing filters means every filtered field is defined |
| WebhookServer.OtherOperatorsOnlyNeedTheField | src/webhooks/webhook-server.ts:203-220 | an operator other than equals/contains/not_contains only requires the field to exist |
| WebhookServer.StringFieldEquals | src/webhooks/webhook-server.ts:207-211 | on a string field, `equals` holds exactly when the texts agree |
| WebhookServer.SlashRun | src/webhooks/webhook-server.ts:90 | the length of the maximal run of leading slashes |
| WebhookServer.CollapseLeadingSlashes | src/webhooks/webhook-server.ts:90 | a leading run of slashes becomes one slash; a path without one is unchanged |
| WebhookServer.EndpointPath | src/webhooks/webhook-server.ts:89-90 | removing the base path and collapsing slashes adds at most one character |
| WebhookServer.ClientIp | src/webhooks/webhook-server.ts:56 | the client address is the socket's non-empty remote address, and "unknown" otherwise; the result is never empty |
| WebhookServer.EndpointUnderBasePath | src/webhooks/webhook-server.ts:89-90 | `/base` followed by any number of slashes and a name reaches the endpoint `/name` |
| WebhookServer.BasePathRemovedAnywhere | src/webhooks/webhook-server.ts:90 | the base path is removed at its first occurrence, even when that is not a prefix |
| WebhookServer.ParsePayload | src/webhooks/webhook-server.ts:143-149 | a body that is not JSON becomes `{ raw: body }` |
| WebhookServer.SignatureVerdict | src/webhooks/webhook-server.ts:103-119 | verification is skipped unless validation is on and the header is non-empty; otherwise a missing secret or a signature of the wrong length is a 500, a signature equal to the HMAC of the body lets the request on, and any other signature of the right length is a 401 |
| WebhookServer.Admit | src/webhooks/webhook-server.ts:121-191 | 403 exactly for a non-whitelisted IP under a non-empty whitelist; past it, a duplicate exactly when replay protection is on and the event id is a replay; past that, filtered exactly when non-empty filters fail on the parsed payload; otherwise accepted, counting a trigger and emitting `webhook.received` with that payload; the replay cache changes only by recording the request's event id |
| WebhookServer.Handle | src/webhooks/webhook-server.ts:50-200 | every request passes through the rate limiter; only an accepted request updates the store and emits `webhook.received`; 403 only for a non-whitelisted IP; a duplicate only for a request with an event id already in the replay cache under replay protection; the replay cache only records the request's own event id |
| WebhookServer.AdmitIgnoresSignatureFlag | src/webhooks/webhook-server.ts:121-191 | admission gives the same outcome whether or not signature validation is on |
| WebhookServer.RateLimitComesFirst | src/webhooks/webhook-server.ts:56-61 | a rate-limited request is 429 whatever it is, preflight and health probe included |
| WebhookServer.PreflightHealthAndMethod | src/webhooks/webhook-server.ts:68-86 | OPTIONS is 204, `/health` is 200, any other non-POST is 405, and none of them touches the replay cache |
| WebhookServer.UnknownEndpointNotFound | src/webhooks/webhook-server.ts:92-98 | a POST to an unknown or inactive endpoint is 404 |
| WebhookServer.UnsignedRequestsSkipVerification | src/webhooks/webhook-server.ts:104-106 | a request without the signature header is handled as if validation were off |
| WebhookServer.EmptyWhitelistAdmitsAll | src/webhooks/webhook-server.ts:122 | an empty whitelist never answers 403 |
| WebhookServer.NoEventIdNoReplayTracking | src/webhooks/webhook-server.ts:132-140 | without `x-webhook-id` a request is never a duplicate and never recorded |
| WebhookServer.FilteredIsNotCounted | src/webhooks/webhook-server.ts:152-166 | a filtered request changes no counter and emits nothing |
| WebhookServer.EndpointLookupAfterStats | src/webhooks/webhook-manager.ts:70-75 | counting a trigger keeps the endpoint lookup on the same webhook, changing only its count |
| WebhookServer.SecretAfterStats | src/webhooks/webhook-manager.ts:70-75 | counting a trigger does not change the stored secret |
| WebhookServer.HandleReachesAdmit | src/webhooks/webhook-server.ts:50-141 | a request that passes the rate limit, method, endpoint, body and signature stages is decided by the admission stage |
| WebhookServer.LegitimateRequestAccepted | src/webhooks/webhook-server.ts:50-191 | a request that passes every stage, whitelist, replay cache and filters included, is accepted, emits its parsed payload and counts one trigger |
| WebhookServer.PlainRequestAccepted | src/webhooks/webhook-server.ts:50-191 | an unsigned POST without an event id to an active, unfiltered endpoint, under an empty whitelist and within the rate limit and size cap, is accepted |
| WebhookServer.RecordedEventIsThenDuplicate | src/webhooks/webhook-server.ts:130-141 | a request whose event id was recorded is answered 'duplicate' when it comes again and the rate limit lets it through |
| WebhookServer.StillReaches | src/webhooks/webhook-server.ts:88-119 | a request that reached admission once reaches it again later, whether or not the first one counted a trigger |
| Bodies.TotalSizePrefix | src/webhooks/webhook-server.ts:262-264 | the running size of any prefix of the chunks never exceeds the total size |
| Bodies.ReadBody | src/webhooks/webhook-server.ts:258-274 | the streaming loop, which rejects at the first chunk that takes the running total past the limit, settles exactly as the whole-body definition: the concatenated body when the total is within the limit, the size error otherwise |
| WebhookManager.CreateInbound | src/webhooks/webhook-manager.ts:17-38 | a locked vault throws before anything is stored; otherwise exactly one row is appended, with trigger count 0, `active` unless explicitly false and description defaulting to ''; an empty account id is stored as null (`data.accountId \|\| null`) and any other is kept |
| WebhookManager.FindInbound | src/webhooks/webhook-manager.ts:55-60 | the position of the first row with the id, or none exactly when no row has it |
| WebhookManager.InboundByEndpoint | src/webhooks/webhook-manager.ts:45-48 | a stored webhook listening on the endpoint, or none exactly when no webhook listens there |
| WebhookManager.GetInboundSecret | src/webhooks/webhook-manager.ts:55-63 | an unknown id throws 'not found'; a locked vault throws 'Master key not set' |
| WebhookManager.InboundSecretRoundTrip | src/webhooks/webhook-manager.ts:17-63 | the secret generated at creation is the one `getInboundSecret` returns under the same key |
| WebhookManager.CreatedFoundLast | src/webhooks/webhook-manager.ts:23-37 | a newly inserted id is found at the new row |
| WebhookManager.FindFirst | src/webhooks/webhook-manager.ts:56-58 | the lookup answers the first row carrying the id |
| WebhookManager.UpdateInboundStats | src/webhooks/webhook-manager.ts:70-75 | the rows with the id gain exactly one trigger and a last-triggered time, keeping their secret; every other row is unchanged |
| WebhookManager.TriggerCountCountsAcceptedRequests | src/webhooks/webhook-manager.ts:70-75 | a new webhook's trigger count is 0 and one stats update makes it 1 |
| WebhookManager.CreateOutbound | src/webhooks/webhook-manager.ts:79-106 | a new outbound webhook has fire, success and failure counts 0 and no stored credentials, whatever its auth type |
| WebhookManager.UpdateOutboundStats | src/webhooks/webhook-manager.ts:136-147 | one more fire and exactly one more success or failure; only a success sets `last_fired`; other rows unchanged |
| WebhookManager.CountersStayBalanced | src/webhooks/webhook-manager.ts:136-147 | fire = success + failure holds for new webhooks and is preserved by every stats update |
| WebhookManager.OutboundsByEvent | src/webhooks/webhook-manager.ts:118-121 | exactly the active webhooks whose event list contains the event |
| WebhookManager.UpdateOutboundAuth | src/webhooks/webhook-manager.ts:128-134 | a locked vault throws; otherwise the rows with the id hold an envelope that decrypts to the credentials, and nothing else changes |
| WebhookDispatcher.PayloadFor | src/webhooks/webhook-dispatcher.ts:40-56 | the metadata carries the current attempt and the webhook's `maxAttempts`; a falsy account id or e-mail becomes '' |
| WebhookDispatcher.AssignKeeps | src/webhooks/webhook-dispatcher.ts:66-78 | a header no later source sets keeps its earlier value |
| WebhookDispatcher.AssignLastWins | src/webhooks/webhook-dispatcher.ts:66-78 | the last source that sets a header decides its value |
| WebhookDispatcher.HeadersFor | src/webhooks/webhook-dispatcher.ts:81-85 | `X-Webhook-Signature` always carries the signature |
| WebhookDispatcher.HeaderPrecedence | src/webhooks/webhook-dispatcher.ts:66-85 | built-in defaults < webhook headers < auth headers (only for an auth type other than 'none'), with the signature set last |
| WebhookDispatcher.SignatureUsesThrowawaySecret | src/webhooks/webhook-dispatcher.ts:81-84 | the signature is made under a freshly generated secret, so a receiver holding any other secret cannot verify it |
| WebhookDispatcher.RetryDelayDoubles | src/webhooks/webhook-dispatcher.ts:147 | the first retry waits the configured backoff, and each later retry waits twice as long as the one before |
| WebhookDispatcher.Chain | src/webhooks/webhook-dispatcher.ts:33-165 | attempts are numbered consecutively from the first; the delay before attempt n+1 is backoffMs·2^(n−1); every attempt but the last failed; a retry happens only when enabled and under `maxAttempts`; stats record success exactly when the last attempt succeeded, failure only when no retry is left, and nothing when rendering threw |
| WebhookDispatcher.AttemptBound | src/webhooks/webhook-dispatcher.ts:146-156 | a chain makes at most max(1, maxAttempts) attempts, and exactly one when retries are disabled |
| WebhookDispatcher.AllFailuresExhaustRetries | src/webhooks/webhook-dispatcher.ts:146-163 | when every attempt fails, an enabled policy makes exactly max(1, maxAttempts) attempts and records one failure |
| WebhookDispatcher.SuccessStopsTheChain | src/webhooks/webhook-dispatcher.ts:102-107 | the first successful attempt ends the chain with one success and no further attempts |
| WebhookDispatcher.Dispatch | src/webhooks/webhook-dispatcher.ts:17-31 | every webhook gets its own full chain, whatever happened to the others |
| WebhookDispatcher.DispatchEvent | src/webhooks/webhook-dispatcher.ts:17-20 | one chain per active webhook subscribed to the event |
| WebhookDispatcher.DispatchKeepsCountersBalanced | src/webhooks/webhook-dispatcher.ts:131-163 | after a dispatch every webhook's fire count still equals its successes plus failures |
| WebhookDispatcher.DispatchTouchesOnlyItsWebhooks | src/webhooks/webhook-dispatcher.ts:17-31 | webhooks outside the dispatch keep their counters |
| TaskEngine.OrNone | src/tasks/task-engine.ts:243-248 | `x \|\| undefined` keeps a non-empty string and drops an empty or missing one |
| TaskEngine.JobFor | src/tasks/task-engine.ts:186-224 | a job is started iff the schedule is cron or interval with a value and croner does not reject it; a cron job runs the task's expression in its time zone, UTC by default |
| TaskEngine.ScheduleTask | src/tasks/task-engine.ts:186-224 | scheduling throws iff croner rejects a cron expression; otherwise the task has a job iff it had one or its schedule is recurring, and no other task's job changes |
| TaskEngine.IntervalJob | src/tasks/task-engine.ts:198-222 | an interval of n seconds becomes the croner expression `*/max(1,n) * * * * *`, or a `setInterval` of n*1000 ms when croner refuses it |
| TaskEngine.IntervalStepReadsBack | src/tasks/task-engine.ts:199-200 | the step field of the interval expression reads back as the interval, at least one second |
| TaskEngine.RescheduleKeeps | src/tasks/task-engine.ts:88-93 | unscheduling a changed row and rescheduling it when active keeps the job map equal to the jobs of the active recurring tasks |
| TaskEngine.RescheduleExpected | src/tasks/task-engine.ts:88-93 | after one row changes, the expected job map is the old one without that task's job, plus its new job when it is active and its schedule yields one |
| TaskEngine.ExpectedOffRow | src/tasks/task-engine.ts:88-93 | unscheduling a task leaves exactly the expected jobs of all the other tasks |
| TaskEngine.ScheduledJobs | src/tasks/task-engine.ts:186-224 | a successful `scheduleTask` adds exactly the task's job when its schedule yields one and otherwise leaves the map alone |
| TaskEngine.Create | src/tasks/task-engine.ts:15-40 | `create` inserts a row under the new id with 0 runs, no last run or error, the status defaulting to 'active' and the given description, returns the row read back, and fails after the insert only when croner rejects the expression |
| TaskEngine.CreateSchedules | src/tasks/task-engine.ts:33-36 | a created task gets a job iff it is active with a recurring schedule; immediate and trigger tasks never get one |
| TaskEngine.CreateKeepsConsistent | src/tasks/task-engine.ts:15-40 | `create` keeps the job map equal to the jobs of the active recurring tasks |
| TaskEngine.Apply | src/tasks/task-engine.ts:69-77 | writing an update changes exactly the supplied fields and never the id, account, type or run count |
| TaskEngine.ApplyIdempotent | src/tasks/task-engine.ts:69-85 | writing the same fields twice changes nothing more |
| TaskEngine.Update | src/tasks/task-engine.ts:61-96 | an unknown id throws and changes nothing; otherwise only that row changes, to the task with the supplied fields; a non-active result has no job; a failure means croner rejected the expression and the task has no job |
| TaskEngine.UpdateStampsOnlyWrites | src/tasks/task-engine.ts:79-86 | `updated_at` moves to now iff some field was supplied |
| TaskEngine.EmptyUpdateKeepsRows | src/tasks/task-engine.ts:79-86 | an update that supplies nothing leaves the table as it was |
| TaskEngine.UpdateKeepsConsistent | src/tasks/task-engine.ts:61-96 | `update` keeps the job map equal to the jobs of the active recurring tasks |
| TaskEngine.Delete | src/tasks/task-engine.ts:98-102 | the task's row and job are gone and every other row and job stays |
| TaskEngine.DeleteKeepsConsistent | src/tasks/task-engine.ts:98-102 | `delete` keeps the job map equal to the jobs of the active recurring tasks |
| TaskEngine.Pause | src/tasks/task-engine.ts:104-106 | an unknown id throws not-found and changes nothing; a known task is returned paused without a job, and no other row changes |
| TaskEngine.Resume | src/tasks/task-engine.ts:108-110 | an unknown id throws not-found and changes nothing; a known task ends active with no other row changed, and an error means croner rejected its schedule and it has no job |
| TaskEngine.PauseStopsJob | src/tasks/task-engine.ts:104-106 | pausing a known task succeeds, marks it paused and leaves it without a job |
| TaskEngine.ResumeRestartsJob | src/tasks/task-engine.ts:108-110 | resuming marks the task active, throws iff its cron expression is rejected, and gives it a job iff its schedule yields one |
| TaskEngine.ExecuteAsWritten | src/tasks/task-engine.ts:113-161 | as written: an unknown id throws; only the task's row changes; a run succeeds iff nothing throws, and then counts one more run, sets 'active', clears the error and records the run time; a failure rethrows its message and leaves the task 'failed' with that error; either way the task ends without a job |
| TaskEngine.RecurringTaskRunsOnce | src/tasks/task-engine.ts:119-135 | a scheduled task that runs successfully is 'active' again but has lost its job, so the scheduler is out of step with the table |
| TaskEngine.Execute | src/tasks/task-engine.ts:113-161 | the corrected `execute` of the Findings table, which reschedules after the reset: an unknown id throws; only the task's row changes; a success counts one more run, sets 'active', clears the error and records the run time; a failure leaves it 'failed' without a job |
| TaskEngine.ExecuteAsWrittenAgreesOnRows | src/tasks/task-engine.ts:113-161 | when croner accepts the task's schedule, the as-written and corrected `execute` leave the same table and give the same result; they differ only in the job map |
| TaskEngine.ExecuteFailureRecorded | src/tasks/task-engine.ts:146-159 | a failing run rethrows, records the message as the last error, and counts the run only if the reset had happened |
| TaskEngine.ExecuteKeepsConsistent | src/tasks/task-engine.ts:113-161 | the corrected `execute` keeps the job map equal to the jobs of the active recurring tasks |
| TaskEngine.ExecuteKeepsJob | src/tasks/task-engine.ts:119-135 | with the rescheduling step, a scheduled task that runs successfully is 'active' again and still has its job |
| TaskEngine.UpdateRepairs | src/tasks/task-engine.ts:146-148 | the catch branch's update to 'failed' restores consistency after a partly written run |
| TaskEngine.ExpectedIgnoresInactive | src/tasks/task-engine.ts:146-148 | changing one task that had no expected job into an inactive one leaves the expected job map unchanged |
| TaskEngine.StopScheduler | src/tasks/task-engine.ts:178-184 | stopping empties the job map and leaves the table alone |
| TaskEngine.StartScheduler | src/tasks/task-engine.ts:164-175 | starting schedules the active rows in order, succeeds iff no cron expression is rejected, then gives each a job exactly as `scheduleTask` would, adds no job for anything else and keeps the jobs of other tasks |
| TaskEngine.StartStep | src/tasks/task-engine.ts:169-172 | scheduling the next active row extends what the loop has established: the rows visited, their jobs placed, and no other job added |
| TaskEngine.Restart | src/tasks/task-engine.ts:164-184 | stopping then starting over all active rows leaves the job map equal to the jobs of the active recurring tasks |
| AccountManager.ResolveHost | src/accounts/account-manager.ts:20-25 | a non-empty given host wins, else the preset's non-empty host, else none; a resolved host is never empty |
| AccountManager.ResolvePort | src/accounts/account-manager.ts:20-25 | a non-zero given port wins, else the preset's non-zero port, else the fallback, so the port is never zero |
| AccountManager.AuthFor | src/accounts/account-manager.ts:34 | the method is `password` iff a non-empty password was given, otherwise `oauth2`, never `app_password` |
| AccountManager.PasswordCheckUnreachable | src/accounts/account-manager.ts:36-39 | the "password required" check can never throw: a password method implies a non-empty password |
| AccountManager.AddAccount | src/accounts/account-manager.ts:17-69 | the unknown-provider error is raised iff a host cannot be resolved, and writes nothing; otherwise the account (named after its address, active, TLS on both servers, method from the password) is inserted under the id, and the password row exists iff the method is `password`; the only other failure is a locked key, after the account row was written |
| AccountManager.ServerPrecedence | src/accounts/account-manager.ts:20-25 | the created account's hosts and ports are the explicit ones, else the preset's, ports falling back to 993 and 587 |
| AccountManager.UnknownProviderWritesNothing | src/accounts/account-manager.ts:27-32 | a provider without a preset and without both explicit hosts is refused before anything is written |
| AccountManager.RemoveAccount | src/accounts/account-manager.ts:120-131 | an unknown id throws and changes nothing; otherwise the account and its password row both go and every other row stays |
| AccountManager.GetAccountPassword | src/accounts/account-manager.ts:133-143 | no stored password row throws "no password"; any other failure comes from decryption |
| AccountManager.UpdateAccountPassword | src/accounts/account-manager.ts:145-164 | the update fails iff the key is locked, writing nothing; otherwise the account's password row exists afterwards and no other account's row appears or disappears |
| AccountManager.AddThenGetPassword | src/accounts/account-manager.ts:133-143 | the password given at creation reads back unchanged, and an account created without one has none |
| AccountManager.UpdateThenGetPassword | src/accounts/account-manager.ts:133-164 | a password stored by `updateAccountPassword` reads back unchanged under the same key |
| AccountManager.RemoveForgetsPassword | src/accounts/account-manager.ts:120-143 | after removal the account's password cannot be read |
| SyncService.Cap | src/accounts/sync-service.ts:20 | the listing cap is never zero: a set non-zero `syncMaxEmails` is used as is, a missing or zero one becomes 100 |
| SyncService.SyncCriteria | src/accounts/sync-service.ts:22-26 | the criteria carry the cap as limit and ask for UIDs above the last synced one exactly when one was synced |
| SyncService.RowOf | src/accounts/sync-service.ts:48-58 | the saved row is keyed by the listed message's id, the account and the folder |
| SyncService.SyncAccount | src/accounts/sync-service.ts:15-76 | no IMAP client or a closed database is an error that writes nothing; otherwise exactly the planned rows are appended, `synced` counts them, `total` counts the listed messages, `synced <= total`, and an activity row is logged iff something was synced |
| SyncService.Listed | src/accounts/sync-service.ts:19-28 | the listing returns at most the cap, and exactly min(cap, mailbox size) for a positive cap |
| SyncService.SaveAll | src/accounts/sync-service.ts:29-64 | the loop appends exactly the planned rows and counts one per saved row, never more than listed |
| SyncService.Plan | src/accounts/sync-service.ts:31-64 | the rows to save are no more than the listed messages, and each carries the synced account and folder |
| SyncService.PlanBound | src/accounts/sync-service.ts:31-64 | at most one row is saved per listed message |
| SyncService.StopsAtFirstStored | src/accounts/sync-service.ts:33-42 | nothing listed at or after the first message already stored for the account is saved |
| SyncService.SkipsFailedReads | src/accounts/sync-service.ts:45-46 | a message whose read found nothing (or threw, lines 61-63) is skipped and the loop continues with the next |
| SyncService.PlanKeepsUnique | src/accounts/sync-service.ts:36-58 | if no message id was stored twice for an account before the sync, none is after it |
| SyncService.PlanRowsFromListed | src/accounts/sync-service.ts:45-58 | every saved row belongs to the account and folder and comes from a listed message whose read succeeded |
| SyncService.SavesAllFresh | src/accounts/sync-service.ts:31-64 | when no listed message is stored yet, their ids are distinct and every read succeeds, every listed message is saved |
| ConnectionPool.NewPool | src/email/connection-pool.ts:15-21 | a new pool holds no connection and no timer, and its idle limit defaults to 300000 ms |
| ConnectionPool.Start | src/email/connection-pool.ts:23-25 | starting arms the cleanup timer and leaves the connections alone |
| ConnectionPool.Stop | src/email/connection-pool.ts:27-38 | stopping cancels the timer and forgets every connection |
| ConnectionPool.Acquire | src/email/connection-pool.ts:40-72 | a success leaves the account's entry cached with `lastUsed` set to now; a failure leaves the pool unchanged; no other account's entry changes |
| ConnectionPool.CachedEntryReused | src/email/connection-pool.ts:52-54 | a cached entry is returned whatever the account table, key or network say, with its account and password unchanged |
| ConnectionPool.CachedOnlyWhenConnected | src/email/connection-pool.ts:55-68 | for an uncached id, an entry is cached iff the account exists, its password decrypts and both clients connect, and it is built from that account and password; an unknown account fails with "not found" |
| ConnectionPool.RemoveConnection | src/email/connection-pool.ts:74-81 | the id is gone afterwards, an unknown id changes nothing, and the other ids stay |
| ConnectionPool.Cleanup | src/email/connection-pool.ts:83-91 | cleanup only removes entries and keeps the survivors unchanged |
| ConnectionPool.CleanupRemovesExactlyIdle | src/email/connection-pool.ts:86 | an entry is removed iff strictly more than `maxIdleMs` passed since its last use; one exactly at the limit stays |
| ConnectionPool.IdleStaysIdle | src/email/connection-pool.ts:86 | an entry idle at one time is still idle at any later time |
| ConnectionPool.CleanupIsRemoval | src/email/connection-pool.ts:85-89 | cleanup agrees with removing an idle id first through `removeConnection` |
| ConnectionPool.FreshEntrySurvives | src/email/connection-pool.ts:40-43 | an entry just acquired survives a cleanup at the same time (non-negative limit) |
| ImapClient.EnsureConnected | src/email/imap-client.ts:41-46 | every mailbox operation succeeds past this point iff the client is connected |
| ImapClient.Connect | src/email/imap-client.ts:17-31 | after `connect` the client is connected |
| ImapClient.Disconnect | src/email/imap-client.ts:33-39 | after `disconnect` the client is not connected; disconnecting twice does nothing more |
| ImapClient.DisconnectedClientRefuses | src/email/imap-client.ts:33-46 | a disconnected client refuses every operation until it connects again |
| ImapClient.MapAddress | src/email/imap-client.ts:299-305 | a missing address maps to 'unknown'; a given address field is kept, else it is rebuilt as mailbox@host; a name appears iff one is given; the address is never empty |
| ImapClient.AttachmentOf | src/email/imap-client.ts:283-288 | the file name is the part's filename when given, else its name parameter when given, else "unnamed"; the content type is the part's type when given, else application/octet-stream |
| ImapClient.Walk | src/email/imap-client.ts:280-293 | an attachment part is listed before anything below it |
| ImapClient.AttachmentsAmongAppend | src/email/imap-client.ts:290-292 | the attachments of two consecutive lists of nodes are those of the first, then those of the second |
| ImapClient.FlatMapAppend | src/email/imap-client.ts:290-292 | mapping and concatenating over two lists in a row is doing so over each and concatenating |
| ImapClient.WalkIsPreOrder | src/email/imap-client.ts:276-297 | `extractAttachments` lists exactly the attachment parts of the tree, in pre-order |
| ImapClient.WalkAllIsPreOrder | src/email/imap-client.ts:290-292 | the same for a list of child parts, left to right |
| ImapClient.ExtractAttachments | src/email/imap-client.ts:276-297 | no body structure gives no attachments; otherwise the attachments are those of the tree's parts in pre-order |
| ImapClient.NamelessAttachment | src/email/imap-client.ts:281-284 | a part marked as an attachment without any name is listed as 'unnamed' |
| ImapClient.MapAddresses | src/email/imap-client.ts:262 | the recipients map one to one, in order |
| ImapClient.MapMessage | src/email/imap-client.ts:252-274 | the id is the UID in decimal; `read` and `flagged` hold iff the flags contain \Seen and \Flagged; the subject is never empty; attachments come from the body structure; the body is not fetched |
| ImapClient.BareMessage | src/email/imap-client.ts:253-272 | a message without envelope, flags or structure maps to '(no subject)', sender 'unknown', no recipients, no cc, empty message id, unread, unflagged, no attachments and size 0 |
| ImapClient.BuildSearchQuery | src/email/imap-client.ts:231-250 | the query always asks for all; each string filter appears iff given; flagged/unflagged and seen/unseen follow the booleans; a UID range appears iff a non-zero minimum UID is given; dates pass through |
| ImapClient.MinUidRange | src/email/imap-client.ts:239 | a positive minimum UID m becomes the range 'm:*' whose start reads back as m |
| ImapClient.QueryFlagsExclusive | src/email/imap-client.ts:240-247 | the query never asks for a flag and its negation together |
| ImapClient.RangeStart | src/email/imap-client.ts:89 | the range start is at least 1, and for a positive limit it is max(1, total - limit + 1) |
| ImapClient.PageSize | src/email/imap-client.ts:84 | the page size is never 0: a missing or zero limit gives 50, and any other limit is used as given |
| ImapClient.Reverse | src/email/imap-client.ts:102 | `reverse` puts the i-th element from the end at position i |
| ImapClient.MapMessages | src/email/imap-client.ts:92-100 | each fetched message is mapped, in order |
| ImapClient.ListEmails | src/email/imap-client.ts:75-106 | listing fails iff not connected; an empty mailbox gives []; at most the mailbox is returned, exactly min(limit, size) for a positive limit, newest first |
| ImapClient.NewestFirst | src/email/imap-client.ts:92-102 | the fetched range, mapped and reversed, lists the mailbox from its newest message backwards, one entry per fetched message |
| ImapClient.ListIgnoresFilters | src/email/imap-client.ts:75-106 | `listEmails` reads nothing of the criteria but `limit` |
| ImapClient.NegativeLimitFetchesNewest | src/email/imap-client.ts:84-90 | a negative limit makes the range start past the end, so only the newest message comes back |
| ImapClient.ReadEmail | src/email/imap-client.ts:108-140 | as written: reading fails iff not connected; `fetchOne` without `{ uid: true }` addresses the message by sequence number, so the result is null iff no message has that sequence number, and otherwise it maps that message with the body text downloaded by UID |
| ImapClient.FindByUid | src/email/imap-client.ts:126 | the lookup by UID finds a message carrying the UID iff one exists |
| ImapClient.ReadEmailByUid | src/email/imap-client.ts:108-140 | corrected: the result is null iff no message has the UID, and otherwise the record of a message with that UID, whose id is the UID |
| ImapClient.ReadByUidFindsMessage | src/email/imap-client.ts:108-140 | with distinct UIDs, every message of the folder reads back by its own UID, wherever it sits |
| ImapClient.ReadEmailAgreesOnDenseUids | src/email/imap-client.ts:113-126 | when UIDs are exactly 1..n, sequence number and UID coincide and both reads agree |
| ImapClient.ReadEmailBySequenceNumber | src/email/imap-client.ts:113-120 | in a folder with UIDs 10, 11, 12, reading UID 12 as written gives null and reading UID 1 gives the message with UID 10; the read by UID finds message 12 |
| Database.LessEqTotal | src/storage/database.ts:74 | the default string order of `sort()` is total |
| Database.Insert | src/storage/database.ts:74 | inserting into a sorted list keeps it sorted and adds exactly the one element |
| Database.Sort | src/storage/database.ts:72-74 | `sort()` yields a sorted permutation of the listing |
| Database.SqlFiles | src/storage/database.ts:72-73 | the filter keeps exactly the names ending in `.sql` |
| Database.Unrecorded | src/storage/database.ts:82-83 | the files the loop runs are exactly the listed ones not yet recorded |
| Database.Members | src/storage/database.ts:76-80 | the set of recorded names holds exactly the names of the list |
| Database.RunMigrations | src/storage/database.ts:37-94 | without a migrations directory nothing happens; otherwise the files run are a prefix of the sorted unrecorded `.sql` files, all of them when none fails, the first failing one ends the run uncommitted, and exactly the files run are added to the record |
| Database.ApplyInOrder | src/storage/database.ts:82-93 | the loop runs a prefix of the unrecorded files, each in a transaction with its record, stopping at the first failure |
| Database.Step | src/storage/database.ts:82-83 | one more file extends the plan by that file exactly when it is unrecorded |
| Database.UnrecordedSnoc | src/storage/database.ts:82-83 | the plan of a longer listing extends the plan of the shorter one |
| Database.UnrecordedPrefix | src/storage/database.ts:82-83 | the plan of a prefix of the listing is a prefix of the plan |
| Database.RerunAppliesNothing | src/storage/database.ts:76-89 | after a successful run every `.sql` file is recorded, so the next run has nothing to do |
| Database.UnrecordedAllRecorded | src/storage/database.ts:83 | when every file is recorded nothing runs |
| Database.PendingDistinct | src/storage/database.ts:72-89 | a run never repeats a file and never reruns a recorded one |
| Database.SqlFilesDistinct | src/storage/database.ts:73 | filtering a duplicate-free listing keeps it duplicate-free |
| Database.UnrecordedDistinct | src/storage/database.ts:82-83 | skipping recorded files keeps the list duplicate-free |
| Database.SortedDistinct | src/storage/database.ts:74 | sorting a duplicate-free list keeps it duplicate-free |
| Database.Open | src/storage/database.ts:13-35 | `initialize` opens a connection over the same stored e-mails |
| Database.Close | src/storage/database.ts:103-109 | `close` leaves the connection closed and the tables as they were; closing a closed database changes nothing |
| Database.GetDb | src/storage/database.ts:96-101 | `getDb` succeeds iff a connection is open |
| Database.CloseIdempotent | src/storage/database.ts:96-109 | closing twice is closing once, `getDb` then throws, and `initialize` opens it again |
| Database.SaveEmail | src/storage/database.ts:117-150 | saving fails iff the database is closed; afterwards the (message id, account) pair is stored; an already stored pair changes nothing, otherwise exactly the row is appended |
| Database.SaveEmailIdempotent | src/storage/database.ts:130-134 | saving the same e-mail twice is the same as saving it once |
| Database.SaveEmailKeepsUnique | src/storage/database.ts:130-149 | the index never holds two rows for one message of one account |
| Database.MaxUid | src/storage/database.ts:154-155 | the maximum is absent iff no row of the account's folder exists |
| Database.CastIntegerOfDecimal | src/storage/database.ts:154 | `CAST(String(n) AS INTEGER)` is n |
| Database.CastIntegerOfWord | src/storage/database.ts:154 | a message id that starts with neither a digit, a sign nor white space casts to 0 |
| Database.MaxUidIsMaximum | src/storage/database.ts:154 | the maximum bounds the UID of every row of the account's folder and is the UID of one of them |
| Database.GetLastSyncedUid | src/storage/database.ts:152-157 | the query fails iff the database is closed, and gives 0 when the folder has no rows |
| Database.SavedUidBoundsLast | src/storage/database.ts:117-157 | after saving a new row, the last synced UID of its folder is at least the row's UID |
| ConfigManager.Merge | src/core/config.ts:153-175 | merging fails exactly when the override is `null` or `undefined` (`Object.keys` throws), always yields an object otherwise, and merging an empty object returns the base |
| ConfigManager.EntriesBelow | src/core/config.ts:156-169 | every object-valued entry of the override is structurally smaller, so the recursion terminates |
| ConfigManager.MergeStepLookup | src/core/config.ts:157-172 | one loop iteration sets its key to the merged entry and leaves every other key alone |
| ConfigManager.MergeEntriesLookup | src/core/config.ts:156-173 | after the loop a key of the override holds its merged entry and any other key keeps its value |
| ConfigManager.MergeLookup | src/core/config.ts:153-175 | keys of the override hold their merged entries (deep merge of two non-array objects, else the defined override value), base-only keys keep their values |
| ConfigManager.MergeKeepsBaseKeys | src/core/config.ts:154 | every key of the base survives a merge |
| ConfigManager.DefaultKeysUnique | src/core/config.ts:8-63 | no key of the default configuration appears twice |
| ConfigManager.DataDir | src/core/config.ts:70 | the data directory is the non-empty argument, else a non-empty `MAILING_MANAGER_DATA_DIR`, else the default |
| ConfigManager.ParseIntValue | src/core/config.ts:92 | `parseInt` gives a number or `NaN` |
| ConfigManager.SetIn | src/core/config.ts:92-120 | an assignment `config[section][key] = x` of a named key succeeds iff the section is an object or an array (which a file can put there), keeps its kind, and the entry then reads back as x |
| ConfigManager.ArraySectionLoads | src/core/config.ts:91-121 | a file whose `tasks` is `[]` loads: the sync limit is read back from the array and the array stays empty |
| ConfigManager.ArraySectionLoadsOver | src/core/config.ts:91-121 | the same over any defaults that have all four sections |
| ConfigManager.ArrayTasksMerge | src/core/config.ts:158-171 | the merge copies the file's array over the `tasks` object as it is, so every section stays assignable |
| ConfigManager.ArrayTasksOverrides | src/core/config.ts:91-121 | the overrides over an empty `tasks` array succeed, set the sync limit and leave the length at 0 |
| ConfigManager.EnvLeavesLength | src/core/config.ts:91-121 | no override writes `tasks.length` |
| JsValues.SetProperty | src/core/config.ts:92-120 | assigning a named key succeeds exactly on objects and arrays, keeps the kind, reads back, and changes no other key |
| JsValues.ArrayPutFrame | src/core/config.ts:92-120 | a named property set on an array reads back and leaves its elements, length and other properties as they were |
| ConfigManager.SyncLimit | src/core/config.ts:107-114 | with the variable unset the limit is 20; a numeric limit is at most 100; the result is `NaN` iff the variable is set but not an integer |
| ConfigManager.SetInOpt | src/core/config.ts:91-121 | an assignment after a failure stays failed and otherwise keeps an object |
| ConfigManager.Override | src/core/config.ts:91-105 | an override whose variable is unset or empty changes nothing |
| ConfigManager.ApplyEnv | src/core/config.ts:90-121 | the environment overrides keep the configuration an object |
| ConfigManager.ServerOverrides | src/core/config.ts:91-105 | the listener overrides keep the configuration an object |
| ConfigManager.TaskOverrides | src/core/config.ts:107-121 | the task and logging overrides keep the configuration an object |
| ConfigManager.EnvValueReach | src/core/config.ts:91-121 | an environment override exists only for one of the eight keys the loader knows; the sync limit always gets one, and with an empty environment it is the only one |
| ConfigManager.Load | src/core/config.ts:69-124 | a read failure other than a missing file is thrown; on success the result is an object and the defaults were saved iff the file was missing |
| ConfigManager.LoadOver | src/core/config.ts:75-124 | loading succeeds iff reading does and the overrides apply, and the result is the overrides applied to what was read |
| ConfigManager.ReadConfig | src/core/config.ts:72-88 | a missing file gives the constructor's configuration, a readable one is parsed and merged over the defaults (a syntax error or a `null` document throws), any other read error is thrown |
| ConfigManager.Initial | src/core/config.ts:72 | the constructor's configuration is the defaults with `dataDir` replaced by the chosen directory |
| ConfigManager.Update | src/core/config.ts:139-143 | `update` fails only on a `null` or `undefined` partial, and an empty partial changes nothing |
| ConfigManager.SetInAt | src/core/config.ts:91-121 | one assignment changes its own entry only, never `dataDir`, and keeps the sections in place |
| ConfigManager.SetInOther | src/core/config.ts:92 | an assignment leaves the other sections alone |
| ConfigManager.SetInSibling | src/core/config.ts:92 | an assignment leaves the other entries of its section alone |
| ConfigManager.OverrideAt | src/core/config.ts:91-105 | an override changes its own entry exactly when its variable is set, and nothing else |
| ConfigManager.ApplyEnvAt | src/core/config.ts:90-121 | after the overrides each entry is what the environment imposes, else what the file and defaults had; `dataDir` is never written; a configuration with all its sections never fails |
| ConfigManager.EnvValueLayers | src/core/config.ts:91-121 | the task-section overrides laid over the server overrides give exactly the environment's value for a setting |
| ConfigManager.ServerOverridesAt | src/core/config.ts:91-105 | the listener overrides, entry by entry |
| ConfigManager.HttpOverridesAt | src/core/config.ts:91-96 | the HTTP port and host overrides set exactly their entries when their variables are set |
| ConfigManager.WebhookOverridesAt | src/core/config.ts:97-105 | the webhook port, host and switch overrides set exactly their entries when their variables are set |
| ConfigManager.TaskOverridesAt | src/core/config.ts:107-121 | the sync limit, auto-sync and log-level overrides, entry by entry |
| ConfigManager.DefaultSections | src/core/config.ts:8-63 | the defaults hold every section the overrides write into, and their `dataDir` is the default directory |
| ConfigManager.DefaultHttpHost | src/core/config.ts:12-15 | the default HTTP host is 127.0.0.1 |
| ConfigManager.DefaultHttpSection | src/core/config.ts:12-15 | the default HTTP section is port 3000 on 127.0.0.1 |
| ConfigManager.DefaultTopLevel | src/core/config.ts:9-11 | the default version is 1.0.1 and the default transport stdio |
| ConfigManager.DefaultLogLevel | src/core/config.ts:60-62 | the default log level is info |
| ConfigManager.DefaultPorts | src/core/config.ts:12-19 | the default HTTP port is 3000, the default webhook port 3100, and the webhook server is off by default |
| ConfigManager.SyncLimitIgnoresFile | src/core/config.ts:107-114 | the loaded sync limit is always the environment's (or 20), clamped to 100, whatever the file says |
| ConfigManager.FirstRunUsesDefaults | src/core/config.ts:81-85 | without a file, loading succeeds with the defaults, the chosen data directory and the environment on top, and writes the defaults back |
| ConfigManager.FirstRunOver | src/core/config.ts:81-85 | the same over any defaults holding every section |
| ConfigManager.FileThenEnvPrecedence | src/core/config.ts:79-96 | with `http.host` in the file, the loaded host is the file's unless `MAILING_MANAGER_HTTP_HOST` is set |
| ConfigManager.LoadedHttpHost | src/core/config.ts:91-96 | after loading a file that sets `http.host`, the host is the environment's if set, else the file's |
| ConfigManager.HostOverride | src/core/config.ts:94-96 | the environment imposes `http.host` exactly when `MAILING_MANAGER_HTTP_HOST` is set |
| ConfigManager.FileThenEnvOver | src/core/config.ts:79-121 | a file entry beats the default, and the environment beats the file, for every entry |
| ConfigManager.FileEntryWins | src/core/config.ts:158-172 | a nested file entry replaces the base's when both hold the section as an object |
| ConfigManager.ReadFileDropsChosenDataDir | src/core/config.ts:70-80 | once a file without `dataDir` exists, the loaded data directory is the default one: the constructor argument and `MAILING_MANAGER_DATA_DIR` are dropped by the merge |
| ConfigManager.ReadFileDataDirOver | src/core/config.ts:80 | the same over any defaults |
| Types.ParseAccount | src/core/types.ts:26-49 | the schema accepts exactly a non-empty name with positive IMAP and SMTP ports; TLS on both sides and `active` default to true |
| Types.ParseDirective | src/core/types.ts:276-296 | an accepted directive is valid (name 1..100 and description ≤ 500 UTF-16 code units, integer priority 0..1000, ≥ 1 condition, ≥ 1 action, days 0..6), with priority defaulting to 100 and matchAll to true |
| Types.ParseDirectiveRoundTrip | src/core/types.ts:276-296 | the schema accepts a fully spelled-out directive exactly when it is valid, its name and description measured in UTF-16 code units as zod measures them, and returns it unchanged |
| Types.BmpLimitsCountCharacters | src/core/types.ts:182-183 | on text of the Basic Multilingual Plane the `min(1).max(100)` and `max(500)` limits count characters |
| Types.AstralNameTooLong | src/core/types.ts:279 | a name of 60 emoji is 120 code units and fails `max(100)` |
| Types.ParseDirectiveDefaults | src/core/types.ts:280-286 | leaving out description, priority, active and matchAll never makes a directive invalid: priority becomes 100, matchAll and active true |
| Types.ParseTask | src/core/types.ts:334-354 | an accepted task is valid (name 1..100 and description ≤ 500 UTF-16 code units), with status defaulting to 'active', run count to 0 and timezone to 'UTC' |
| Types.ParseTaskDefaults | src/core/types.ts:339-350 | a task given without status or run count starts 'active' with 0 runs |
| Types.RetryWithDefaults | src/core/types.ts:458-462 | retry defaults to enabled, 3 attempts and 5000 ms |
| Types.OutboundWithDefaults | src/core/types.ts:440-468 | method defaults to POST, retry attempts to 3, `active` to true, the counters start at 0, and the identifying fields are copied |
| Types.ParseOutbound | src/core/types.ts:440-468 | the schema accepts exactly the inputs whose defaulted form is valid (name 1..100 and description ≤ 500 UTF-16 code units, ≥ 1 event, 1..10 attempts, positive backoff) and returns that form |
| Types.ParseOutboundDefaults | src/core/types.ts:452-462 | the retry and payload defaults are acceptable on their own and give retry (true, 3, 5000) |
| JsValues.Or | src/webhooks/webhook-dispatcher.ts:45-46 | `v \|\| fallback` keeps a truthy value and otherwise yields the fallback |
| JsValues.Put | src/core/config.ts:160-172 | after `o[key] = v` the key reads v and every other key reads as before |
| JsValues.PutKeys | src/core/config.ts:160-172 | assigning an existing key keeps the key order; a new key is appended |
| JsValues.PutUnique | src/core/config.ts:160-172 | assignment keeps an object's keys unique |
| JsValues.Get | src/webhooks/webhook-server.ts:226 | `o?.[key]` is undefined on null or undefined and the stored property on an object |
| JsValues.BmpStringLength | src/webhooks/webhook-server.ts:226 | a string's `length` equals its number of characters exactly when every character lies in the Basic Multilingual Plane |
| JsValues.GetArrayElement | src/webhooks/webhook-server.ts:226 | an array element is reached through its decimal index |
| JsValues.GetPathUndefined | src/webhooks/webhook-server.ts:226 | once a step of the path is missing, the rest of the walk stays undefined |
| JsValues.ToJsString | src/webhooks/webhook-server.ts:207 | `String(v)` of a string is itself and of an object is "[object Object]" |
| JsValues.ArrayOfStringsToString | src/webhooks/webhook-server.ts:207 | `String(arr)` of strings joins them with commas |
| JsValues.OwnEntries | src/core/config.ts:156 | `Object.keys` throws exactly on null and undefined, and lists an object's own fields |
| Text.HexChar | src/security/encryption.ts:50-54 | each nibble becomes one lower-case hex digit that reads back as that nibble |
| Text.HexEncode | src/security/encryption.ts:50-54 | two lower-case hex digits per byte |
| Text.HexDecode | src/security/encryption.ts:37 | decoding never yields more than one byte per two characters, and exactly one per two on lower-case hex |
| Text.HexDecodeEncode | src/security/encryption.ts:36-54 | decoding the hex of any bytes gives the bytes back, so a returned salt re-derives the same key |
| Text.HexEncodeDecode | src/security/encryption.ts:36-52 | an even-length lower-case hex string is re-encoded unchanged |
| Text.Lower | src/directives/directive-engine.ts:138-141 | lower-casing keeps the length |
| Text.Utf16LengthBmp | src/core/types.ts:182-183 | JavaScript's `length` counts code units: it is the number of characters exactly when all lie in the Basic Multilingual Plane |
| Text.Utf16LengthAstral | src/core/types.ts:182-183 | characters outside the Basic Multilingual Plane count two code units each |
| Text.LowerIdempotent | src/directives/directive-engine.ts:138-141 | lower-casing twice is lower-casing once |
| Text.IndexOfFromSpec | src/webhooks/webhook-server.ts:90 | the search finds the first occurrence at or after the start, and none only when there is none |
| Text.IndexOf | src/webhooks/webhook-server.ts:90 | `indexOf` gives the first occurrence, and none only when the substring does not occur |
| Text.ContainsIff | src/directives/directive-engine.ts:146 | `includes` holds exactly when the substring occurs somewhere |
| Text.Split | src/webhooks/webhook-server.ts:226 | splitting yields at least one piece and no piece holds the separator |
| Text.JoinSplit | src/webhooks/webhook-server.ts:226 | joining the pieces with the separator gives the string back |
| Text.SplitWithoutSeparator | src/directives/directive-engine.ts:190-191 | a string without the separator is one piece |
| Text.SplitAtSeparator | src/directives/directive-engine.ts:190-191 | a separator after a separator-free prefix ends the first piece |
| Text.NatToDecimal | src/secure-input/index.ts:116 | `String(n)` is a non-empty string of digits |
| Text.DigitRun | src/secure-input/index.ts:152-154 | the longest prefix of digits: all digits before it, a non-digit (or the end) at it |
| Text.DigitsValueOfDecimal | src/secure-input/index.ts:152 | the digits of `String(n)` have the value n |
| Text.ParseIntOfDecimal | src/secure-input/index.ts:152 | `parseInt(String(n), 10)` is n for every natural number |
| Text.ParseIntDecimalPrefix | src/secure-input/index.ts:152-154 | `parseInt` reads a numeral and stops at the first non-digit after it |
| Text.TrimStartSpec | src/directives/directive-engine.ts:190 | `trimStart` drops exactly a leading run of ECMAScript white space and line terminators, leaving a suffix that starts with a non-space |
| Text.TrimEndSpec | src/directives/directive-engine.ts:190 | `trimEnd` drops exactly a trailing run of white space, leaving a prefix that ends with a non-space |
| Text.TrimStartSpacePrefix | src/directives/directive-engine.ts:190 | white space put in front of a string is trimmed away |
| Text.TrimEndSpaceSuffix | src/directives/directive-engine.ts:190 | white space put after a string is trimmed away |
| Text.TrimSpaceSuffix | src/directives/directive-engine.ts:190 | trimming both ends ignores trailing white space |
| Text.IntegerLiteral | src/directives/directive-engine.ts:190 | a trimmed run of digits reads as its decimal value |
| Text.StringToInteger | src/directives/directive-engine.ts:190 | `Number(s)` on integer text: a blank string is 0, and a run of digits with white space around it is its decimal value |
| Text.StringToIntegerIgnoresSpace | src/directives/directive-engine.ts:190 | white space on either side does not change what `Number` reads |
| Text.TrimUnspaced | src/directives/directive-engine.ts:190 | a string that neither starts nor ends with white space is its own trim |
| Text.StringToIntegerOfDecimal | src/directives/directive-engine.ts:190 | `Number(String(n))` is n |
| Text.StringToIntegerOfSigned | src/directives/directive-engine.ts:190 | a leading + keeps the value and a leading - negates it |
| Text.StringToIntegerOfRadix | src/directives/directive-engine.ts:190 | a `0x`, `0o` or `0b` literal reads as its digits in base 16, 8 or 2 |
| Text.ParseIntSkipsSpace | src/secure-input/index.ts:152 | `parseInt` skips leading white space |
| Text.ParseIntAfterIdeographicSpace | src/secure-input/index.ts:152 | `parseInt` skips Unicode spaces too: U+3000 followed by "993" reads as 993 |
| Crypto.Open | src/security/encryption.ts:104-116 | opening succeeds exactly for the box sealed with this key, IV and tag, and then yields the sealed plaintext |
| Crypto.KeyAgreement | src/secure-input/ephemeral-server.ts:261-263 | the key the server computes from the browser's public point equals the one the browser computes |

## Left out

- Real cryptography is out. Argon2id (section 3 of RFC 9106), AES-256-GCM (section 7 of NIST SP 800-38D), ECDH on P-256, SHA-256 and HMAC (section 2 of RFC 2104) are symbolic terms in `Crypto`. Zero-filling a key is observable only as "key cleared", and the ECDH "wipe" in `cleanup` is not modelled.
- Sockets, HTTP listeners, request streaming, TLS, the ssh/pinggy tunnel process and its 15 s timer, `openBrowser`, and `fetch` with its 30 s abort timer are out. A request arrives as a record, a tunnel as "public host or failure", and a fetch as "outcome of attempt n".
- Timers (`setTimeout`, `setInterval`, croner jobs) are explicit events or a job map. Async interleavings are out: calls are sequential, and there is one capture session per server instance.
- SQL is out. Tables are maps and sequences. The FTS5 `searchEmails` query, `logEmailActivity` and `logWebhookExecution` rows, and the row-mapping bodies of the managers are not modelled.
- `src/personas/persona-manager.ts`, the MCP tools under `src/tools/`, the SMTP client and the event bus are not part of this model. The event bus appears only as the effects `Vault.WebhookReceivedEffects` lists.
- Plain CRUD is not modelled, because it has no logic beyond a query:
  - directive create/update/delete/get/list;
  - task get/list;
  - webhook get/list/delete;
  - account getAccountByEmail/listAccounts/updateAccount/getActiveCount.
- The IMAP mailbox operations are not modelled, because they are library calls: listFolders, move, delete, flag, download and testConnection. `stripRawHeaders` and the message date conversion are also out, because they are regex and `Date` work.
- `decodeBase64` and `stripHtml` in the decoder are not modelled, because they are library and regex work. `Decoder.Decode` reports only which decoder it dispatches to for base64.
- The final UTF-8 decode of the quoted-printable bytes is not modelled: the model stops at the byte sequence.
- Text.Lower: lower-cases ASCII letters only, whereas `toLowerCase` folds all of Unicode.
- JsValues.Get: properties inherited from `Object.prototype` (`constructor`, `toString`, `hasOwnProperty`, `__proto__`, …) read as undefined, where `o?.[key]` finds them. A webhook filter on such a field, such as `{field: "constructor", operator: "contains", value: "Object"}` on the payload `{}`, therefore fails in the model, while the source stringifies `Object` to "function Object() { [native code] }" and lets the request through. A string's index keys address characters, not UTF-16 code units, because a lone surrogate is not a character; its `length` does count code units.
- JsValues: numbers are integers. `NaN` appears only where `parseInt` produces it, and floating point is not modelled.
- A directive `regex` condition is an abstract predicate (`matches`, `compiles`) in place of JavaScript regular expressions. Zod string formats (e-mail, URL) are not checked.
- ConfigManager.DataDir: `path.join` normalisation and the home-directory expansion of the default directory are not modelled; paths are plain strings.
- ConfigManager.Load: file I/O is an input ("missing", "unreadable", or the parsed text).
- AccountManager.AddAccount: requires the fresh UUID not to be in use already, as `crypto.randomUUID` guarantees in practice.
- CaptureServer.FindPort: takes a finite list of random draws, where the source retries without bound; running out of draws is `None`.
- TaskEngine.JobFor: croner's cron parser is a parameter (`accepts`). The task `parameters` payload and the per-type execution (a TODO in the source) are not modelled.
- WebhookDispatcher.HeadersFor: auth headers are always `{}` in the source (`getAuthHeaders` returns `{}`); the model takes them as a parameter and states precedence for any value.
- WebhookDispatcher.Chain: Handlebars rendering is reduced to "renders or throws".
- SyncService.SyncAccount: requires nothing, but the listing and saving helpers assume an open database, which `SyncAccount` checks first. Activity-row contents and emitted events are not modelled, and a message date is a parameter.
- SyncService.SyncAccount: the per-message read outcome is a parameter; composed with the as-written `ImapClient.ReadEmail` (see Findings) a listed message with UID n would be saved with the body of UID n but the attachments of the message numbered n.
- Encryption.DeriveMasterKey: argon2's checks are the input limits of the Argon2 reference implementation (`Argon2Accepts`); every rejection by argon2 is one `Argon2Rejected` error, without its message.
- Encryption.VerifyMasterKey: a stored hash is either a parsed encoding or malformed; the PHC string format itself is not parsed.
- DirectiveEngine.NumberOrZero: integers only. Decimal fractions, exponents, `Infinity` and numeric separators read as 0 instead of their JavaScript values, and integers past 2^53 are not rounded.
- CaptureServer.MakeConfig: the listener binds 0.0.0.0 in every mode (ephemeral-server.ts:95), and `host` reaches only the probe in `findPort` (ephemeral-server.ts:328). The listen call is not modelled, so the model says nothing about the bound address.
- Types: a directive condition always carries its `caseSensitive` flag. The schema's `default(false)` for a missing flag (types.ts:248) is not modelled.
- WebhookServer.Handle: a request arrives with its path already parsed. The 500 answer when `new URL` throws on the request URL (webhook-server.ts:89, 193-198) is not modelled.
- ConfigManager.Load: configuration values are immutable. In the source, the first-run configuration is a shallow copy of `DEFAULT_CONFIG` (config.ts:72). Its nested sections are shared, so the environment overrides (config.ts:91-121) also change the module's defaults for later loads in the same process. The model's defaults never change.
- Vault.EnsureMasterKey: the fire-and-forget auto-sync after an unlock (src/core/server.ts:235-244, when `tasks.autoSyncOnLoad` is set) is not modelled: it starts `syncAccount` for every active account without awaiting it, and its failures are only logged. `SyncService.SyncAccount` models one such run.
- Database.LessEq: compares characters by scalar value, where `sort()` (src/storage/database.ts:74) compares UTF-16 code units; the orders differ only when a character above U+FFFF meets one in U+E000..U+FFFF, so ASCII file names sort the same.
- The connection pool's concurrent `getOrCreate` calls are not modelled: two simultaneous first uses of one account are a race in the source.

## Findings

| source | as written | input that shows it | evidently intended | confidence | as-written member | corrected member |
|---|---|---|---|---|---|---|
| src/utils/decoder.ts:35-43 | each UTF-16 code unit at or above 128 is passed to `Buffer.from(char, 'utf-8')` on its own, so a surrogate pair becomes two replacement characters | the literal text "😀" (U+1F600, code units D83D DE00) decodes to EF BF BD EF BF BD | literal characters outside the Basic Multilingual Plane keep their UTF-8 bytes F0 9F 98 80 | not executed | Decoder.DecodeEmojiAsWritten | Decoder.DecodeCorrectedLiteralText |
| src/tasks/task-engine.ts:119-135 | `execute` first calls `update(id, {status: 'running'})`, which unschedules the task, then resets the status to 'active' with raw SQL that does not reschedule it | any active cron or interval task with a job, executed once successfully, ends 'active' with no job | an 'active' recurring task keeps its job after a run | not executed | TaskEngine.RecurringTaskRunsOnce | TaskEngine.ExecuteKeepsJob |
| src/email/imap-client.ts:113-120 | `fetchOne(String(uid), …)` is called without the `{ uid: true }` option, so the envelope, flags and structure come from the message with that sequence number, while the body is downloaded by UID (line 126) | a folder holding UIDs 10, 11, 12: `readEmail(folder, 12)` gives null, and `readEmail(folder, 1)` pairs the message with UID 10 with UID 1's body | the message is fetched by UID, like its body | not executed | ImapClient.ReadEmailBySequenceNumber | ImapClient.ReadByUidFindsMessage |

=== FILE: account_manager.dfy ===
// The account manager: adding an account from credentials and a provider
// preset, removing it, and keeping its password encrypted in the credentials
// table.  The two tables are maps keyed by account id; the UUID, the IV and
// the encryption service's key slot are parameters.
module AccountManager {
  import opened Wrappers
  import opened Text
  import opened Types
  import Encryption

  /** The server part of a `ProviderPreset`. */
  datatype Server = Server(host: string, port: int)

  /** A `ProviderPreset`'s IMAP (`incoming`) and SMTP (`outgoing`) servers. */
  datatype Preset = Preset(incoming: Server, outgoing: Server)

  /** `AccountCredentials`: everything but the address and provider may be missing. */
  datatype Credentials = Credentials(
    email: string,
    password: Option<string>,
    provider: Provider,
    imapHost: Option<string>,
    imapPort: Option<int>,
    smtpHost: Option<string>,
    smtpPort: Option<int>)

  /** The `accounts` table and the password rows of the `credentials` table, by account id. */
  datatype Store = Store(accounts: map<string, Account>, passwords: map<string, Encryption.Envelope>)

  datatype AccountError =
    | UnknownProvider(provider: Provider)
    | AccountNotFound(id: string)
    | NoPassword(accountId: string)
    | EncryptionFailed(cause: Encryption.Error)

  /** The tables after an operation and its result; a thrown error keeps the writes made before it. */
  datatype Outcome<T> = Outcome(store: Store, result: Result<T, AccountError>)

  const DefaultImapPort := 993
  const DefaultSmtpPort := 587

  // ---------------------------------------------------------------- resolution

  /** `given || preset?.host`: a non-empty given host, else the preset's non-empty one. */
  function ResolveHost(given: Option<string>, preset: Option<Server>): (h: Option<string>)
    ensures h.Some? ==> h.value != ""
    ensures given.Some? && given.value != "" ==> h == given
    ensures (given.None? || given.value == "") ==>
              h == (if preset.Some? && preset.value.host != "" then Some(preset.value.host) else None)
  {
    if given.Some? && given.value != "" then given
    else if preset.Some? && preset.value.host != "" then Some(preset.value.host)
    else None
  }

  /** `given || preset?.port || fallback`: zero counts as missing. */
  function ResolvePort(given: Option<int>, preset: Option<Server>, fallback: int): (p: int)
    ensures fallback != 0 ==> p != 0
    ensures given.Some? && given.value != 0 ==> p == given.value
    ensures (given.None? || given.value == 0) && (preset.None? || preset.value.port == 0) ==> p == fallback
  {
    if given.Some? && given.value != 0 then given.value
    else if preset.Some? && preset.value.port != 0 then preset.value.port
    else fallback
  }

  /** `credentials.password ? 'password' : 'oauth2'`. */
  function AuthFor(password: Option<string>): (m: AuthMethod)
    ensures m == PasswordAuth <==> password.Some? && password.value != ""
    ensures m != AppPassword
  {
    if password.Some? && password.value != "" then PasswordAuth else OAuth2
  }

  /** The follow-up "password required" check can never fire: a password method implies a password. */
  lemma PasswordCheckUnreachable(password: Option<string>)
    ensures AuthFor(password) == PasswordAuth ==> password.Some? && password.value != ""
  {
  }

  // ---------------------------------------------------------------- add

  /**
   * `addAccount`: resolves the servers (throwing before any write when a host
   * is missing), inserts the account named after its address, then stores the
   * encrypted password when one is given.
   */
  function AddAccount(s: Store, id: string, c: Credentials, presets: map<Provider, Preset>,
                      service: Encryption.Service, iv: seq<byte>): (r: Outcome<Account>)
    requires id !in s.accounts && id !in s.passwords
    ensures r.result.Err? && r.result.error.UnknownProvider? <==>
              ResolveHost(c.imapHost, PresetServer(presets, c.provider, true)).None?
              || ResolveHost(c.smtpHost, PresetServer(presets, c.provider, false)).None?
    ensures r.result.Err? && r.result.error.UnknownProvider? ==> r.store == s
    ensures r.result.Err? && !r.result.error.UnknownProvider? ==>
              r.result.error == EncryptionFailed(Encryption.MasterKeyNotSet) && id in r.store.accounts
    ensures r.result.Ok? ==> r.store.accounts == s.accounts[id := r.result.value]
    ensures r.result.Ok? ==>
              var a := r.result.value;
              a.id == id && a.email == c.email && a.name == c.email && a.provider == c.provider
              && a.active && a.imapServer.tls && a.smtpServer.tls && a.defaultPersonaId.None?
              && a.authMethod == AuthFor(c.password)
    ensures r.result.Ok? ==> (id in r.store.passwords <==> AuthFor(c.password) == PasswordAuth)
    ensures forall x :: x != id ==> (x in r.store.passwords <==> x in s.passwords)
  {
    var incoming := PresetServer(presets, c.provider, true);
    var outgoing := PresetServer(presets, c.provider, false);
    var imapHost := ResolveHost(c.imapHost, incoming);
    var imapPort := ResolvePort(c.imapPort, incoming, DefaultImapPort);
    var smtpHost := ResolveHost(c.smtpHost, outgoing);
    var smtpPort := ResolvePort(c.smtpPort, outgoing, DefaultSmtpPort);
    if imapHost.None? || smtpHost.None? then Outcome(s, Err(UnknownProvider(c.provider)))
    else
      var account := Account(id, c.email, c.email, c.provider, AuthFor(c.password),
                             Endpoint(imapHost.value, imapPort, true), Endpoint(smtpHost.value, smtpPort, true),
                             true, None);
      var inserted := s.(accounts := s.accounts[id := account]);
      if AuthFor(c.password) == PasswordAuth then
        match Encryption.Encrypt(service, c.password.value, iv)
        case Ok(envelope) => Outcome(inserted.(passwords := s.passwords[id := envelope]), Ok(account))
        case Err(e) => Outcome(inserted, Err(EncryptionFailed(e)))
      else Outcome(inserted, Ok(account))
  }

  /** `getProviderPreset(provider)?.imap` (or `.smtp`). */
  function PresetServer(presets: map<Provider, Preset>, p: Provider, incoming: bool): Option<Server>
  {
    if p in presets then Some(if incoming then presets[p].incoming else presets[p].outgoing) else None
  }

  /** Explicit hosts and ports win over the provider preset; ports fall back to 993 and 587. */
  lemma ServerPrecedence(s: Store, id: string, c: Credentials, presets: map<Provider, Preset>,
                         service: Encryption.Service, iv: seq<byte>)
    requires id !in s.accounts && id !in s.passwords
    ensures var r := AddAccount(s, id, c, presets, service, iv);
            r.result.Ok? ==>
              var a := r.result.value;
              Some(a.imapServer.host) == ResolveHost(c.imapHost, PresetServer(presets, c.provider, true))
              && Some(a.smtpServer.host) == ResolveHost(c.smtpHost, PresetServer(presets, c.provider, false))
              && a.imapServer.port == ResolvePort(c.imapPort, PresetServer(presets, c.provider, true), 993)
              && a.smtpServer.port == ResolvePort(c.smtpPort, PresetServer(presets, c.provider, false), 587)
  {
  }

  /** An unknown provider without both explicit hosts is refused before anything is written. */
  lemma UnknownProviderWritesNothing(s: Store, id: string, c: Credentials, presets: map<Provider, Preset>,
                                     service: Encryption.Service, iv: seq<byte>)
    requires id !in s.accounts && id !in s.passwords
    requires c.provider !in presets
    requires c.imapHost.None? || c.imapHost == Some("") || c.smtpHost.None? || c.smtpHost == Some("")
    ensures AddAccount(s, id, c, presets, service, iv) == Outcome(s, Err(UnknownProvider(c.provider)))
  {
  }

  // ---------------------------------------------------------------- remove

  /** `removeAccount`: an unknown id throws; otherwise the credentials and the account go together. */
  function RemoveAccount(s: Store, id: string): (r: Outcome<()>)
    ensures id !in s.accounts ==> r == Outcome(s, Err(AccountNotFound(id)))
    ensures id in s.accounts ==> r.result.Ok? && id !in r.store.accounts && id !in r.store.passwords
    ensures forall x :: x != id && x in s.accounts ==> x in r.store.accounts && r.store.accounts[x] == s.accounts[x]
    ensures forall x :: x != id && x in s.passwords ==> x in r.store.passwords && r.store.passwords[x] == s.passwords[x]
    ensures r.store.accounts.Keys <= s.accounts.Keys && r.store.passwords.Keys <= s.passwords.Keys
  {
    if id !in s.accounts then Outcome(s, Err(AccountNotFound(id)))
    else Outcome(Store(s.accounts - {id}, s.passwords - {id}), Ok(()))
  }

  // ---------------------------------------------------------------- passwords

  /** `getAccountPassword`: decrypts the stored password row; none stored throws. */
  function GetAccountPassword(s: Store, service: Encryption.Service, id: string): (r: Result<string, AccountError>)
    ensures id !in s.passwords ==> r == Err(NoPassword(id))
    ensures r.Err? && id in s.passwords ==> r.error.EncryptionFailed?
  {
    if id !in s.passwords then Err(NoPassword(id))
    else match Encryption.Decrypt(service, s.passwords[id])
      case Ok(p) => Ok(p)
      case Err(e) => Err(EncryptionFailed(e))
  }

  /** `updateAccountPassword`: encrypts first, then updates the password row or inserts one. */
  function UpdateAccountPassword(s: Store, service: Encryption.Service, id: string, password: string,
                                 iv: seq<byte>): (r: Outcome<()>)
    ensures r.result.Err? <==> !Encryption.IsUnlocked(service)
    ensures r.result.Err? ==> r.store == s
    ensures r.result.Ok? ==> id in r.store.passwords && r.store.accounts == s.accounts
    ensures forall x :: x != id ==> (x in r.store.passwords <==> x in s.passwords)
  {
    match Encryption.Encrypt(service, password, iv)
    case Err(e) => Outcome(s, Err(EncryptionFailed(e)))
    case Ok(envelope) => Outcome(s.(passwords := s.passwords[id := envelope]), Ok(()))
  }

  /** A password given at creation reads back unchanged under the same key. */
  lemma AddThenGetPassword(s: Store, id: string, c: Credentials, presets: map<Provider, Preset>,
                           service: Encryption.Service, iv: seq<byte>)
    requires id !in s.accounts && id !in s.passwords
    requires AddAccount(s, id, c, presets, service, iv).result.Ok?
    ensures var r := AddAccount(s, id, c, presets, service, iv);
            GetAccountPassword(r.store, service, id)
              == if c.password.Some? && c.password.value != "" then Ok(c.password.value) else Err(NoPassword(id))
  {
  }

  /** A password stored by `updateAccountPassword` reads back unchanged under the same key. */
  lemma UpdateThenGetPassword(s: Store, service: Encryption.Service, id: string, password: string, iv: seq<byte>)
    requires Encryption.IsUnlocked(service)
    ensures GetAccountPassword(UpdateAccountPassword(s, service, id, password, iv).store, service, id) == Ok(password)
  {
  }

  /** After removal the account's password cannot be read. */
  lemma RemoveForgetsPassword(s: Store, service: Encryption.Service, id: string)
    requires id in s.accounts
    ensures GetAccountPassword(RemoveAccount(s, id).store, service, id) == Err(NoPassword(id))
  {
  }
}

=== FILE: body.dfy ===
/**
 * Request bodies read from a stream of `data` events, with a size cap: the
 * `readBody` helper both HTTP listeners use (only the cap differs).
 */
module Bodies {
  import opened Wrappers
  import opened Text

  function TotalSize(chunks: seq<seq<byte>>): nat
  {
    if chunks == [] then 0 else TotalSize(chunks[..|chunks| - 1]) + |chunks[|chunks| - 1]|
  }

  function Concat(chunks: seq<seq<byte>>): seq<byte>
  {
    if chunks == [] then [] else Concat(chunks[..|chunks| - 1]) + chunks[|chunks| - 1]
  }

  /** What `readBody` settles with: the whole body, or the size error. */
  function BodyOutcome(chunks: seq<seq<byte>>, limit: nat): Option<seq<byte>>
  {
    if TotalSize(chunks) > limit then None else Some(Concat(chunks))
  }

  lemma {:induction false} TotalSizePrefix(chunks: seq<seq<byte>>, i: nat)
    requires i <= |chunks|
    ensures TotalSize(chunks[..i]) <= TotalSize(chunks)
    decreases |chunks| - i
  {
    if i < |chunks| {
      TotalSizePrefix(chunks, i + 1);
      assert chunks[..i + 1][..i] == chunks[..i];
    } else {
      assert chunks[..i] == chunks;
    }
  }

  /**
   * `readBody` over the data events of a request: sizes accumulate, and the
   * first chunk that takes the running total past `limit` rejects the body.
   */
  method ReadBody(chunks: seq<seq<byte>>, limit: nat) returns (r: Option<seq<byte>>)
    ensures r == BodyOutcome(chunks, limit)
  {
    var size := 0;
    var body: seq<byte> := [];
    var i := 0;
    while i < |chunks|
      invariant 0 <= i <= |chunks|
      invariant size == TotalSize(chunks[..i]) && size <= limit
      invariant body == Concat(chunks[..i])
    {
      assert chunks[..i + 1][..i] == chunks[..i];
      size := size + |chunks[i]|;
      if size > limit {
        TotalSizePrefix(chunks, i + 1);
        return None;
      }
      body := body + chunks[i];
      i := i + 1;
    }
    assert chunks[..i] == chunks;
    return Some(body);
  }
}

=== FILE: capture_server.dfy ===
/**
 * `EphemeralSecureServer` (src/secure-input/ephemeral-server.ts) as a pure
 * state machine. One `requestInput` call owns the instance: a session
 * registry, the listener and tunnel flags, the timeout timer, the pending
 * 2-second flush and the settlement of the returned promise. Each HTTP
 * request and each timer is one step; the clock, random bytes, the ECDH key
 * pair and the parsers for the JSON bodies are inputs to the step.
 */
module CaptureServer {
  import opened Wrappers
  import opened Text
  import opened Crypto
  import opened InputRequest
  import opened Bodies

  // ---------------------------------------------------------------- configuration

  datatype Mode = Local | Remote

  datatype Config = Config(mode: Mode, timeoutMs: int, host: string, portMin: int, portMax: int, tls: bool, tunnel: bool)

  /** `Partial<EphemeralConfig>`: a missing key keeps the default. */
  datatype PartialConfig = PartialConfig(
    mode: Option<Mode>, timeoutMs: Option<int>, host: Option<string>,
    portRange: Option<(int, int)>, tls: Option<bool>, tunnel: Option<bool>)

  const DefaultConfig := Config(Local, 300000, "127.0.0.1", 10000, 65535, false, true)

  /**
   * The constructor: defaults overlaid by the supplied keys, and remote mode
   * forces the host to 0.0.0.0. The host is only the address `findPort`
   * probes; the listener itself always binds 0.0.0.0.
   */
  function MakeConfig(p: PartialConfig): (c: Config)
    ensures c.mode == p.mode.GetOr(Local) && c.timeoutMs == p.timeoutMs.GetOr(300000)
    ensures c.mode == Remote ==> c.host == "0.0.0.0"
    ensures c.mode == Local ==> c.host == p.host.GetOr("127.0.0.1")
    ensures c.tunnel == p.tunnel.GetOr(true) && c.tls == p.tls.GetOr(false)
  {
    var range := p.portRange.GetOr((10000, 65535));
    var merged := Config(p.mode.GetOr(Local), p.timeoutMs.GetOr(300000), p.host.GetOr("127.0.0.1"),
                         range.0, range.1, p.tls.GetOr(false), p.tunnel.GetOr(true));
    if merged.mode == Remote then merged.(host := "0.0.0.0") else merged
  }

  // ---------------------------------------------------------------- state

  datatype Session = Session(
    id: string, token: string, csrf: string, keyPair: nat,
    request: Request, used: bool, createdAt: int)

  type Fields = map<string, string>

  /** Why the promise of `requestInput` was rejected. */
  datatype Failure = TimedOut | CsrfFailed | InvalidPayload | ListenerFailed

  datatype Settlement = Pending | Resolved(fields: Fields) | Rejected(reason: Failure)

  datatype Capture = Capture(
    config: Config,
    sessionId: string,          // the id of the session this call created
    sessions: seq<Session>,     // the registry, in insertion order
    listening: bool,
    tunnelRunning: bool,
    timerArmed: bool,
    flush: Option<Fields>,      // the fields waiting for the 2-second flush timer
    outcome: Settlement)

  /** The session `requestInput` creates: tokens are the hex of fresh random bytes. */
  function NewSession(id: string, tokenBytes: seq<byte>, csrfBytes: seq<byte>, keyPair: nat,
                      request: Request, now: int): (s: Session)
    ensures s.token == HexEncode(tokenBytes) && s.csrf == HexEncode(csrfBytes)
    ensures IsLowerHex(s.token) && |s.token| == 2 * |tokenBytes|
    ensures IsLowerHex(s.csrf) && |s.csrf| == 2 * |csrfBytes|
    ensures !s.used && s.createdAt == now && s.id == id && s.keyPair == keyPair
  {
    Session(id, HexEncode(tokenBytes), HexEncode(csrfBytes), keyPair, request, false, now)
  }

  /** `requestInput` up to the listener being bound: the session registered and the timeout armed. */
  function RequestInput(config: Config, session: Session, tunnelStarted: bool): (c: Capture)
    ensures c.sessions == [session] && c.sessionId == session.id
    ensures c.listening && c.timerArmed && c.outcome == Pending && c.flush.None?
    ensures c.tunnelRunning ==> config.tunnel
  {
    Capture(config, session.id, [session], true, config.tunnel && tunnelStarted, true, None, Pending)
  }

  /** The URL handed to the user: the tunnel's public URL when one was obtained, else the local one. */
  function AnnouncedUrl(config: Config, port: int, token: string, tunnelHost: Option<string>): (url: string)
    ensures var local := (if config.tls then "https" else "http") + "://localhost:" + IntToDecimal(port) + "/input/" + token;
            (!config.tunnel || tunnelHost.None?) ==> url == local
    ensures config.tunnel && tunnelHost.Some? ==> url == tunnelHost.value + "/input/" + token
    ensures |url| >= |"/input/" + token| && url[|url| - |"/input/" + token|..] == "/input/" + token
  {
    var local := (if config.tls then "https" else "http") + "://localhost:" + IntToDecimal(port) + "/input/" + token;
    var publicUrl := if config.tunnel && tunnelHost.Some? then Some(tunnelHost.value + "/input/" + token) else None;
    var url := if publicUrl.Some? && publicUrl.value != "" then publicUrl.value else local;
    assert local == ((if config.tls then "https" else "http") + "://localhost:" + IntToDecimal(port)) + ("/input/" + token);
    assert publicUrl.Some? ==> publicUrl.value == tunnelHost.value + ("/input/" + token);
    url
  }

  // ---------------------------------------------------------------- registry helpers

  /** `findByToken`: the first registered session with that token. */
  function FindByToken(sessions: seq<Session>, token: string): (r: Option<nat>)
    ensures r.Some? ==> r.value < |sessions| && sessions[r.value].token == token
    ensures r.Some? ==> forall j :: 0 <= j < r.value ==> sessions[j].token != token
    ensures r.None? ==> forall j :: 0 <= j < |sessions| ==> sessions[j].token != token
  {
    if sessions == [] then None
    else if sessions[0].token == token then Some(0)
    else match FindByToken(sessions[1..], token)
         case None => None
         case Some(k) => Some(k + 1)
  }

  function RemoveId(sessions: seq<Session>, id: string): (r: seq<Session>)
    ensures forall s :: s in r <==> s in sessions && s.id != id
    ensures |r| <= |sessions|
  {
    if sessions == [] then []
    else (if sessions[0].id == id then [] else [sessions[0]]) + RemoveId(sessions[1..], id)
  }

  /** `cleanup(id)`: drop the session, kill the tunnel, close the listener. */
  function Cleanup(c: Capture, id: string): (r: Capture)
    ensures forall s :: s in r.sessions <==> s in c.sessions && s.id != id
    ensures !r.listening && !r.tunnelRunning
    ensures r.outcome == c.outcome && r.timerArmed == c.timerArmed && r.flush == c.flush
  {
    c.(sessions := RemoveId(c.sessions, id), listening := false, tunnelRunning := false)
  }

  lemma {:induction false} RemoveIdTwice(sessions: seq<Session>, id: string)
    ensures RemoveId(RemoveId(sessions, id), id) == RemoveId(sessions, id)
  {
    if sessions != [] {
      RemoveIdTwice(sessions[1..], id);
      var rest := RemoveId(sessions[1..], id);
      if sessions[0].id != id {
        assert RemoveId(sessions, id) == [sessions[0]] + rest;
        assert ([sessions[0]] + rest)[1..] == rest;
      } else {
        assert RemoveId(sessions, id) == rest;
      }
    }
  }

  /** Repeating `cleanup` changes nothing. */
  lemma CleanupIdempotent(c: Capture, id: string)
    ensures Cleanup(Cleanup(c, id), id) == Cleanup(c, id)
  {
    RemoveIdTwice(c.sessions, id);
  }

  /** A promise settles once: later resolve/reject calls are ignored. */
  function Settle(o: Settlement, next: Settlement): (r: Settlement)
    ensures o != Pending ==> r == o
    ensures o == Pending ==> r == next
  {
    if o.Pending? then next else o
  }

  /** `session.reject(err)`: clear the timer, clean up, settle as rejected. */
  function Reject(c: Capture, why: Failure): (r: Capture)
    ensures !r.timerArmed && !r.listening && r.outcome == Settle(c.outcome, Rejected(why))
    ensures forall x :: x in r.sessions ==> x in c.sessions
  {
    Cleanup(c.(timerArmed := false), c.sessionId).(outcome := Settle(c.outcome, Rejected(why)))
  }

  /** `session.resolve(fields)`: clear the timer, clean up, settle as resolved. */
  function Resolve(c: Capture, fields: Fields): (r: Capture)
    ensures !r.timerArmed && !r.listening && r.outcome == Settle(c.outcome, Resolved(fields))
  {
    Cleanup(c.(timerArmed := false), c.sessionId).(outcome := Settle(c.outcome, Resolved(fields)))
  }

  // ---------------------------------------------------------------- body reading

  /** `readBody` rejects a submission whose bytes add up to more than 100 KiB. */
  const MaxBodyBytes := 102400

  // ---------------------------------------------------------------- port choice

  /** `min + Math.floor(r * (max - min))` for a draw `r` of `Math.random()`. */
  function PortFor(min: int, max: int, r: real): (p: int)
    requires 0.0 <= r < 1.0
    ensures min < max ==> min <= p < max
    ensures min == max ==> p == min
  {
    var span := (max - min) as real;
    var off := (r * span).Floor;
    if min < max then
      MulBounds(r, span);
      FloorBelow(r * span, max - min);
      min + off
    else if min == max then
      assert r * span == 0.0;
      min + off
    else
      min + off
  }

  lemma FloorBelow(x: real, n: int)
    requires 0.0 <= x < n as real
    ensures 0 <= x.Floor < n
  {
  }

  lemma MulBounds(r: real, span: real)
    requires 0.0 <= r < 1.0 && span > 0.0
    ensures 0.0 <= r * span < span
  {
    assert r * span + (1.0 - r) * span == span;
  }

  /**
   * `findPort` over a finite list of draws: the first port the listener can
   * bind. The source retries without bound; running out of draws is `None`.
   */
  function FindPort(min: int, max: int, draws: seq<real>, bindable: int -> bool): (r: Option<int>)
    requires forall i :: 0 <= i < |draws| ==> 0.0 <= draws[i] < 1.0
    ensures r.Some? ==> bindable(r.value) && (min < max ==> min <= r.value < max)
    ensures r.None? ==> forall i :: 0 <= i < |draws| ==> !bindable(PortFor(min, max, draws[i]))
  {
    if draws == [] then None
    else
      var p := PortFor(min, max, draws[0]);
      if bindable(p) then Some(p) else FindPort(min, max, draws[1..], bindable)
  }

  // ---------------------------------------------------------------- requests

  datatype Method = Get | Post | Options | OtherMethod(name: string)

  /** Where `createHandler` sends a request. */
  datatype Route = Preflight | GetForm(token: string) | SubmitForm(token: string) | NoRoute

  /** `^/<prefix>/([a-f0-9]{64})$`: the token part, if the path has exactly that shape. */
  function MatchTokenPath(path: string, prefix: string): (r: Option<string>)
    ensures r.Some? <==> |path| == |prefix| + 64 && path[..|prefix|] == prefix && IsLowerHex(path[|prefix|..])
    ensures r.Some? ==> path == prefix + r.value && |r.value| == 64 && IsLowerHex(r.value)
  {
    if |path| == |prefix| + 64 && path[..|prefix|] == prefix && IsLowerHex(path[|prefix|..])
    then Some(path[|prefix|..]) else None
  }

  function RouteOf(m: Method, path: string): (r: Route)
    ensures r == Preflight <==> m == Options
    ensures r.GetForm? <==> m == Get && MatchTokenPath(path, "/input/").Some?
    ensures r.SubmitForm? <==> m == Post && MatchTokenPath(path, "/submit/").Some?
    ensures r.GetForm? ==> path == "/input/" + r.token && |r.token| == 64 && IsLowerHex(r.token)
    ensures r.SubmitForm? ==> path == "/submit/" + r.token && |r.token| == 64 && IsLowerHex(r.token)
  {
    if m == Options then Preflight
    else if m == Get && MatchTokenPath(path, "/input/").Some? then GetForm(MatchTokenPath(path, "/input/").value)
    else if m == Post && MatchTokenPath(path, "/submit/").Some? then SubmitForm(MatchTokenPath(path, "/submit/").value)
    else NoRoute
  }

  /** The headers set on every response before routing. */
  const SecurityHeaders: seq<(string, string)> := [
    ("Access-Control-Allow-Origin", "*"),
    ("Access-Control-Allow-Methods", "GET, POST, OPTIONS"),
    ("Access-Control-Allow-Headers", "Content-Type"),
    ("X-Content-Type-Options", "nosniff"),
    ("X-Frame-Options", "DENY"),
    ("X-XSS-Protection", "1; mode=block"),
    ("Cache-Control", "no-store, no-cache, must-revalidate"),
    ("Pragma", "no-cache"),
    ("Referrer-Policy", "no-referrer"),
    ("Content-Security-Policy", "default-src * 'unsafe-inline' 'unsafe-eval'; script-src * 'unsafe-inline' 'unsafe-eval'; connect-src * 'unsafe-inline'; img-src * data: blob: 'unsafe-inline'; frame-src *; style-src * 'unsafe-inline';")
  ]

  datatype Page = NoBody | ExpiredPage | FormPage(session: Session) | SuccessPage | JsonError(message: string) | NotFoundText

  datatype Response = Response(status: int, headers: seq<(string, string)>, page: Page)

  function Respond(status: int, page: Page): (r: Response)
    ensures SecurityHeaders <= r.headers && r.status == status
  {
    Response(status, SecurityHeaders, page)
  }

  /** The decoded JSON body of a submission; a missing or non-string csrf is `None`. */
  datatype Payload = Payload(
    csrf: Option<string>, clientPublicKey: PublicKey, iv: seq<byte>,
    tag: Tag<string>, encrypted: Ciphertext<string>)

  /** What one request brings along besides method and path. */
  datatype Incoming = Incoming(
    chunks: seq<seq<byte>>,
    parsePayload: seq<byte> -> Option<Payload>,   // JSON.parse of the body, None when it throws
    parseFields: string -> Option<Fields>,        // JSON.parse of the decrypted text
    debugLogWritable: bool)                       // the debug append of the received fields succeeds

  /** `handleGetForm`: looks, never touches the state. */
  function HandleGetForm(c: Capture, token: string, now: int): (r: Response)
    ensures var i := FindByToken(c.sessions, token);
            ((i.None? || c.sessions[i.value].used) ==> r.status == 404 && r.page == ExpiredPage)
            && ((i.Some? && !c.sessions[i.value].used && now - c.sessions[i.value].createdAt > c.config.timeoutMs)
                ==> r.status == 410)
            && ((i.Some? && !c.sessions[i.value].used && now - c.sessions[i.value].createdAt <= c.config.timeoutMs)
                ==> r.status == 200 && r.page == FormPage(c.sessions[i.value]))
  {
    match FindByToken(c.sessions, token)
    case None => Respond(404, ExpiredPage)
    case Some(i) =>
      var s := c.sessions[i];
      if s.used then Respond(404, ExpiredPage)
      else if now - s.createdAt > c.config.timeoutMs then Respond(410, ExpiredPage)
      else Respond(200, FormPage(s))
  }

  /** The body of a submission parsed as JSON, if it was read within the cap and parses. */
  function ParsedSubmission(inc: Incoming): Option<Payload>
  {
    match BodyOutcome(inc.chunks, MaxBodyBytes)
    case None => None
    case Some(body) => inc.parsePayload(body)
  }

  /**
   * The submission after the session has been marked used: 403 and a CSRF
   * rejection exactly for a parsed body with the wrong token, 400 and an
   * invalid-payload rejection for every other failure, 200 with the flush
   * armed and the promise untouched on success.
   */
  function ProcessSubmission(c: Capture, s: Session, inc: Incoming): (r: (Response, Capture))
    ensures forall x :: x in r.1.sessions ==> x in c.sessions
    ensures r.0.status in {200, 400, 403}
    ensures r.0.status == 403 <==> ParsedSubmission(inc).Some? && ParsedSubmission(inc).value.csrf != Some(s.csrf)
    ensures ParsedSubmission(inc).None? ==> r.0.status == 400
    ensures r.0.status == 403 ==> r.1 == Reject(c, CsrfFailed)
    ensures r.0.status == 400 ==> r.1 == Reject(c, InvalidPayload)
    ensures r.0.status == 200 ==> r.1.flush.Some? && r.1 == c.(flush := r.1.flush)
  {
    match BodyOutcome(inc.chunks, MaxBodyBytes)
    case None => (Respond(400, JsonError("Invalid payload")), Reject(c, InvalidPayload))
    case Some(body) =>
      match inc.parsePayload(body)
      case None => (Respond(400, JsonError("Invalid payload")), Reject(c, InvalidPayload))
      case Some(p) =>
        if p.csrf != Some(s.csrf) then (Respond(403, JsonError("CSRF validation failed")), Reject(c, CsrfFailed))
        else
          match ServerAgreedKey(s.keyPair, p.clientPublicKey)
          case None => (Respond(400, JsonError("Invalid payload")), Reject(c, InvalidPayload))
          case Some(key) =>
            if |p.iv| == 0 then (Respond(400, JsonError("Invalid payload")), Reject(c, InvalidPayload))
            else
              match Open(key, p.iv, p.encrypted, p.tag)
              case None => (Respond(400, JsonError("Invalid payload")), Reject(c, InvalidPayload))
              case Some(text) =>
                match inc.parseFields(text)
                case None => (Respond(400, JsonError("Invalid payload")), Reject(c, InvalidPayload))
                case Some(fields) =>
                  if !inc.debugLogWritable then (Respond(400, JsonError("Invalid payload")), Reject(c, InvalidPayload))
                  else (Respond(200, SuccessPage), c.(flush := Some(fields)))
  }

  /** `handleSubmit`: unknown or used tokens are refused untouched; otherwise the session is spent first. */
  function HandleSubmit(c: Capture, token: string, inc: Incoming): (r: (Response, Capture))
    ensures var i := FindByToken(c.sessions, token);
            i.None? || c.sessions[i.value].used ==> r.0.status == 403 && r.1 == c
    ensures r.0.status == 200 ==> r.1.flush.Some? && r.1.outcome == c.outcome
    ensures r.0.status == 400 ==> r.1.outcome == Settle(c.outcome, Rejected(InvalidPayload)) && !r.1.listening
    ensures var i := FindByToken(c.sessions, token);
            i.Some? && !c.sessions[i.value].used && r.0.status == 403 ==>
              r.1.outcome == Settle(c.outcome, Rejected(CsrfFailed)) && !r.1.listening
    ensures r.0.status in {200, 400, 403}
  {
    match FindByToken(c.sessions, token)
    case None => (Respond(403, JsonError("Invalid or expired session")), c)
    case Some(i) =>
      var s := c.sessions[i];
      if s.used then (Respond(403, JsonError("Invalid or expired session")), c)
      else
        var spent := c.(sessions := c.sessions[i := s.(used := true)]);
        ProcessSubmission(spent, s, inc)
  }

  /**
   * On a live session with the promise still pending, a failed submission
   * settles it: a CSRF mismatch (403) rejects with the CSRF failure, and every
   * other failure (400), an unreadable or unparseable body first of all,
   * rejects as an invalid payload.
   */
  lemma FailedSubmissionRejects(c: Capture, token: string, inc: Incoming)
    requires c.outcome == Pending
    requires var i := FindByToken(c.sessions, token); i.Some? && !c.sessions[i.value].used
    ensures var r := HandleSubmit(c, token, inc);
            var s := c.sessions[FindByToken(c.sessions, token).value];
            && (r.0.status == 403 <==> ParsedSubmission(inc).Some? && ParsedSubmission(inc).value.csrf != Some(s.csrf))
            && (r.0.status == 403 ==> r.1.outcome == Rejected(CsrfFailed))
            && (r.0.status == 400 ==> r.1.outcome == Rejected(InvalidPayload))
            && (ParsedSubmission(inc).None? ==> r.1.outcome == Rejected(InvalidPayload))
            && (r.0.status == 200 ==> r.1.outcome == Pending && r.1.flush.Some?)
  {
  }

  datatype HttpRequest = HttpRequest(m: Method, path: string, body: Incoming)

  /** The request handler: security headers, then the route. */
  function Handle(c: Capture, req: HttpRequest, now: int): (r: (Response, Capture))
    ensures SecurityHeaders <= r.0.headers
    ensures req.m == Options ==> r.0.status == 204 && r.1 == c
    ensures RouteOf(req.m, req.path) == NoRoute ==> r.0.status == 404 && r.1 == c
    ensures req.m != Post ==> r.1 == c
  {
    match RouteOf(req.m, req.path)
    case Preflight => (Respond(204, NoBody), c)
    case GetForm(t) => (HandleGetForm(c, t, now), c)
    case SubmitForm(t) => HandleSubmit(c, t, req.body)
    case NoRoute => (Respond(404, NotFoundText), c)
  }

  // ---------------------------------------------------------------- events

  datatype Event =
    | Http(req: HttpRequest, now: int)
    | TimeoutFires                 // the timeoutMs timer
    | FlushFires                   // the 2-second timer after a successful submit
    | ListenerError

  function Step(c: Capture, e: Event): (r: Capture)
    ensures c.outcome != Pending ==> r.outcome == c.outcome
  {
    match e
    case Http(req, now) => Handle(c, req, now).1
    case TimeoutFires =>
      if c.timerArmed then Reject(c, TimedOut) else c
    case FlushFires =>
      (match c.flush
       case Some(fields) => Resolve(c.(flush := None), fields)
       case None => c)
    case ListenerError => Reject(c, ListenerFailed)
  }

  function Run(c: Capture, es: seq<Event>): Capture
    decreases |es|
  {
    if es == [] then c else Run(Step(c, es[0]), es[1..])
  }

  /** Whatever happens after the promise settled, its outcome stays. */
  lemma {:induction false} SettledStaysSettled(c: Capture, es: seq<Event>)
    requires c.outcome != Pending
    ensures Run(c, es).outcome == c.outcome
    decreases |es|
  {
    if es != [] {
      SettledStaysSettled(Step(c, es[0]), es[1..]);
    }
  }

  // ---------------------------------------------------------------- session protocol lemmas

  /** A 32-byte random token is exactly what the two routes accept. */
  lemma TokenIsRoutable(tokenBytes: seq<byte>, csrfBytes: seq<byte>, id: string, kp: nat, req: Request, now: int)
    requires |tokenBytes| == 32
    ensures var s := NewSession(id, tokenBytes, csrfBytes, kp, req, now);
            RouteOf(Get, "/input/" + s.token) == GetForm(s.token)
            && RouteOf(Post, "/submit/" + s.token) == SubmitForm(s.token)
  {
    var s := NewSession(id, tokenBytes, csrfBytes, kp, req, now);
    assert ("/input/" + s.token)[..|"/input/"|] == "/input/";
    assert ("/input/" + s.token)[|"/input/"|..] == s.token;
    assert ("/submit/" + s.token)[..|"/submit/"|] == "/submit/";
    assert ("/submit/" + s.token)[|"/submit/"|..] == s.token;
  }

  /** A submission is single-use: after any POST to a token, the next POST to it gets 403. */
  lemma SecondSubmitForbidden(c: Capture, token: string, first: Incoming, second: Incoming)
    requires forall j, k :: 0 <= j < k < |c.sessions| ==> c.sessions[j].token != c.sessions[k].token
    ensures var c1 := HandleSubmit(c, token, first).1;
            HandleSubmit(c1, token, second).0.status == 403
  {
    var i := FindByToken(c.sessions, token);
    if i.Some? && !c.sessions[i.value].used {
      var s := c.sessions[i.value];
      var spent := c.(sessions := c.sessions[i.value := s.(used := true)]);
      var c1 := HandleSubmit(c, token, first).1;
      assert c1 == ProcessSubmission(spent, s, first).1;
      forall x | x in spent.sessions && x.token == token
        ensures x.used
      {
        var j :| 0 <= j < |spent.sessions| && spent.sessions[j] == x;
      }
      var i1 := FindByToken(c1.sessions, token);
      if i1.Some? {
        var s1 := c1.sessions[i1.value];
        assert s1 in c1.sessions;
        assert s1 in spent.sessions;
      }
    }
  }

  /** A POST is judged without the clock: the same request at any two times gives the same step. */
  lemma SubmitIgnoresAge(c: Capture, path: string, inc: Incoming, now1: int, now2: int)
    ensures Handle(c, HttpRequest(Post, path, inc), now1) == Handle(c, HttpRequest(Post, path, inc), now2)
  {
  }

  /** The browser's side of a submission: the fields encrypted under the agreed key. */
  function ClientPayload(session: Session, clientKeyPair: nat, iv: seq<byte>, text: string): Payload
  {
    var key := ClientAgreedKey(session.keyPair, clientKeyPair);
    var (ct, tag) := Seal(key, iv, text);
    Payload(Some(session.csrf), Point(clientKeyPair), iv, tag, ct)
  }

  /**
   * An honest browser's submission to a fresh session is accepted, and once the
   * flush timer fires before the timeout, the promise resolves with its fields.
   */
  lemma HonestSubmissionResolves(config: Config, s: Session, tunnel: bool, clientKeyPair: nat,
                                 iv: seq<byte>, text: string, fields: Fields, inc: Incoming)
    requires !s.used && |iv| > 0 && inc.debugLogWritable
    requires BodyOutcome(inc.chunks, MaxBodyBytes).Some?
    requires inc.parsePayload(BodyOutcome(inc.chunks, MaxBodyBytes).value) == Some(ClientPayload(s, clientKeyPair, iv, text))
    requires inc.parseFields(text) == Some(fields)
    ensures var c0 := RequestInput(config, s, tunnel);
            var (resp, c1) := HandleSubmit(c0, s.token, inc);
            resp.status == 200 && Step(c1, FlushFires).outcome == Resolved(fields)
            && Step(Step(c1, FlushFires), TimeoutFires).outcome == Resolved(fields)
  {
    KeyAgreement(s.keyPair, clientKeyPair);
  }

  /** If the timeout fires before the flush, the submission is lost and the promise rejects. */
  lemma TimeoutBeforeFlushRejects(c: Capture)
    requires c.timerArmed && c.outcome == Pending
    ensures Step(Step(c, TimeoutFires), FlushFires).outcome == Rejected(TimedOut)
  {
  }

  /** A wrong CSRF value spends the session, answers 403 and rejects the promise. */
  lemma CsrfMismatchRejects(config: Config, s: Session, tunnel: bool, p: Payload, inc: Incoming)
    requires !s.used && p.csrf != Some(s.csrf)
    requires BodyOutcome(inc.chunks, MaxBodyBytes).Some? && inc.parsePayload(BodyOutcome(inc.chunks, MaxBodyBytes).value) == Some(p)
    ensures var (resp, c1) := HandleSubmit(RequestInput(config, s, tunnel), s.token, inc);
            resp.status == 403 && c1.outcome == Rejected(CsrfFailed) && c1.sessions == []
  {
  }
}

=== FILE: config.dfy ===
/**
 * `ConfigManager`: the application configuration as a JavaScript object,
 * the recursive merge of a configuration file over the defaults, and the
 * environment overrides applied after it (environment > file > default).
 *
 * The file system is reduced to the outcome of reading `config.json`, and
 * `JSON.parse` is a parameter. The home directory's `.mailing-manager` path
 * is a parameter too.
 */
module ConfigManager {
  import opened Wrappers
  import opened Text
  import opened JsValues

  // ---------------------------------------------------------------- merge

  /**
   * `merge(base, override)`: a copy of `base` in which every own entry of
   * `override` is merged in, in `Object.keys` order; `None` where
   * `Object.keys(override)` throws (on `null` and `undefined`).
   */
  function Merge(base: Value, ov: Value): (r: Option<Value>)
    requires IsObjectLike(base)
    ensures r.None? <==> ov.Null? || ov.Undefined?
    ensures r.Some? ==> r.value.Obj?
    ensures base.Obj? && ov == Obj([]) ==> r == Some(base)
    decreases ov, 1
  {
    match OwnEntries(ov)
    case None => None
    case Some(entries) =>
      EntriesBelow(ov);
      Some(Obj(MergeEntries(Spread(base), entries, ov)))
  }

  /** The merge of the entries of `ov` into `result`, one at a time. */
  function MergeEntries(result: seq<Field>, entries: seq<Field>, ov: Value): (r: seq<Field>)
    requires forall j :: 0 <= j < |entries| ==> entries[j].val.Obj? ==> entries[j].val < ov
    decreases ov, 0, |entries|
  {
    if entries == [] then result
    else
      var e := entries[0];
      var next := MergeStep(result, e.key, e.val, Lookup(result, e.key), ov);
      MergeEntries(next, entries[1..], ov)
  }

  /** One iteration of the loop: recurse into two objects, let a defined value replace, skip `undefined`. */
  function MergeStep(result: seq<Field>, key: string, val: Value, current: Option<Value>, ov: Value): (r: seq<Field>)
    requires val.Obj? ==> val < ov
    requires current == Lookup(result, key)
    decreases ov, 0, 0
  {
    match current
    case Some(cur) =>
      if val.Obj? && IsObjectLike(cur) then JsValues.Put(result, key, Merge(cur, val).value)
      else if !val.Undefined? then JsValues.Put(result, key, val)
      else result
    case None =>
      if !val.Undefined? then JsValues.Put(result, key, val) else result
  }

  /** Every object-valued own entry of a value is smaller than the value. */
  lemma EntriesBelow(v: Value)
    requires OwnEntries(v).Some?
    ensures var es := OwnEntries(v).value;
            forall j :: 0 <= j < |es| ==> es[j].val.Obj? ==> es[j].val < v
  {
    var es := OwnEntries(v).value;
    if v.Obj? {
      forall j | 0 <= j < |es|
        ensures es[j].val < v
      {
        assert es[j] in v.fields;
      }
    } else if v.Arr? {
      var n := |IndexFields(v.items, 0)|;
      forall j | 0 <= j < |es|
        ensures es[j].val < v
      {
        if j < n {
          assert es[j].val == v.items[j];
        } else {
          assert es[j] == v.props[j - n];
        }
      }
    }
  }

  /**
   * What `merge` leaves under a key the override holds: the merge of two
   * objects when both sides are objects (and the override's is no array),
   * the override's value when it is defined, else the base's.
   */
  function MergedEntry(baseVal: Option<Value>, val: Value): Option<Value>
  {
    if val.Obj? && baseVal.Some? && IsObjectLike(baseVal.value) then Merge(baseVal.value, val)
    else if val.Undefined? then baseVal
    else Some(val)
  }

  /** One loop iteration sets the key to its merged entry and leaves the other keys alone. */
  lemma MergeStepLookup(result: seq<Field>, key: string, val: Value, ov: Value, k: string)
    requires val.Obj? ==> val < ov
    ensures var r := MergeStep(result, key, val, Lookup(result, key), ov);
            Lookup(r, k) == if k == key then MergedEntry(Lookup(result, key), val) else Lookup(result, k)
  {
  }

  /**
   * The merge loop, key by key: a key of the override ends up as its merged
   * entry, any other key keeps its value.
   */
  lemma {:induction false} MergeEntriesLookup(result: seq<Field>, entries: seq<Field>, ov: Value, k: string)
    requires forall j :: 0 <= j < |entries| ==> entries[j].val.Obj? ==> entries[j].val < ov
    requires UniqueKeys(entries)
    ensures k !in Keys(entries) ==> Lookup(MergeEntries(result, entries, ov), k) == Lookup(result, k)
    ensures k in Keys(entries) ==>
              Lookup(MergeEntries(result, entries, ov), k) == MergedEntry(Lookup(result, k), Lookup(entries, k).value)
    decreases |entries|
  {
    if entries != [] {
      var e := entries[0];
      var next := MergeStep(result, e.key, e.val, Lookup(result, e.key), ov);
      var rest := entries[1..];
      assert forall j :: 0 <= j < |rest| ==> rest[j] == entries[j + 1];
      assert UniqueKeys(rest);
      MergeStepLookup(result, e.key, e.val, ov, k);
      MergeEntriesLookup(next, rest, ov, k);
      if k == e.key {
        assert k !in Keys(rest) by {
          forall j | 0 <= j < |rest|
            ensures Keys(rest)[j] != k
          {
            assert entries[j + 1].key != entries[0].key;
          }
        }
      }
    }
  }

  /**
   * The merge of an object with unique keys: keys it holds get their merged
   * entries, base-only keys keep their values, and nothing else appears.
   */
  lemma MergeLookup(base: Value, ov: Value, k: string)
    requires IsObjectLike(base) && ov.Obj? && UniqueKeys(ov.fields)
    ensures k in Keys(ov.fields) ==>
              Lookup(Merge(base, ov).value.fields, k) == MergedEntry(Lookup(Spread(base), k), Lookup(ov.fields, k).value)
    ensures k !in Keys(ov.fields) ==> Lookup(Merge(base, ov).value.fields, k) == Lookup(Spread(base), k)
  {
    EntriesBelow(ov);
    MergeEntriesLookup(Spread(base), ov.fields, ov, k);
  }

  /** Every key of the base survives a merge. */
  lemma MergeKeepsBaseKeys(base: Value, ov: Value, k: string)
    requires base.Obj? && ov.Obj? && UniqueKeys(ov.fields)
    requires k in Keys(base.fields)
    ensures k in Keys(Merge(base, ov).value.fields)
  {
    MergeLookup(base, ov, k);
  }

  // ---------------------------------------------------------------- defaults

  function O(fs: seq<Field>): Value { Obj(fs) }

  /** `DEFAULT_CONFIG`, with the default data directory as a parameter. */
  function DefaultConfig(defaultDataDir: string): (c: Value)
    ensures c.Obj?
  {
    O([
      Field("version", Str("1.0.1")),
      Field("dataDir", Str(defaultDataDir)),
      Field("transport", Str("stdio")),
      Field("http", DefaultHttp()),
      Field("webhooks", DefaultWebhooks()),
      Field("tasks", DefaultTasks()),
      Field("security", DefaultSecurity()),
      Field("logging", O([Field("level", Str("info"))]))])
  }

  function DefaultHttp(): Value
  {
    O([Field("port", Num(3000)), Field("host", Str("127.0.0.1"))])
  }

  function DefaultWebhooks(): Value
  {
    O([
      Field("enabled", Bool(false)),
      Field("port", Num(3100)),
      Field("host", Str("127.0.0.1")),
      Field("basePath", Str("/webhooks")),
      Field("ssl", O([Field("enabled", Bool(false))])),
      Field("rateLimit", O([Field("windowMs", Num(900000)), Field("maxRequests", Num(100))])),
      Field("security", O([
        Field("signatureValidation", Bool(true)),
        Field("signatureHeader", Str("x-webhook-signature")),
        Field("signatureAlgorithm", Str("sha256")),
        Field("ipWhitelist", Arr([], [])),
        Field("replayProtection", Bool(true)),
        Field("replayWindowSeconds", Num(300))])),
      Field("queue", O([
        Field("maxRetries", Num(3)),
        Field("retryBackoff", Str("exponential")),
        Field("retryDelayMs", Num(5000)),
        Field("persistQueue", Bool(true)),
        Field("maxQueueSize", Num(10000))]))])
  }

  function DefaultTasks(): Value
  {
    O([
      Field("schedulerEnabled", Bool(true)),
      Field("maxConcurrent", Num(5)),
      Field("syncMaxEmails", Num(20)),
      Field("autoSyncOnLoad", Bool(false))])
  }

  function DefaultSecurity(): Value
  {
    O([
      Field("autoLockTimeoutMinutes", Num(30)),
      Field("keyDerivation", O([
        Field("algorithm", Str("argon2id")),
        Field("timeCost", Num(3)),
        Field("memoryCost", Num(65536)),
        Field("parallelism", Num(4)),
        Field("saltLength", Num(32))]))])
  }

  // ---------------------------------------------------------------- environment

  /** `process.env[name]`, with an unset variable read as the empty (falsy) string. */
  function EnvVar(env: map<string, string>, name: string): string
  {
    if name in env then env[name] else ""
  }

  /** The data directory: the constructor argument, else `MAILING_MANAGER_DATA_DIR`, else the default. */
  function DataDir(arg: string, env: map<string, string>, defaultDataDir: string): (dir: string)
    ensures arg != "" ==> dir == arg
    ensures arg == "" && EnvVar(env, "MAILING_MANAGER_DATA_DIR") != "" ==> dir == env["MAILING_MANAGER_DATA_DIR"]
    ensures arg == "" && EnvVar(env, "MAILING_MANAGER_DATA_DIR") == "" ==> dir == defaultDataDir
  {
    if arg != "" then arg
    else if EnvVar(env, "MAILING_MANAGER_DATA_DIR") != "" then EnvVar(env, "MAILING_MANAGER_DATA_DIR")
    else defaultDataDir
  }

  /** `parseInt(s, 10)` as a JavaScript number. */
  function ParseIntValue(s: string): (v: Value)
    ensures v.Num? || v.NotANumber?
  {
    match ParseInt(s)
    case Some(n) => Num(n)
    case None => NotANumber
  }

  /**
   * `config[section][key] = x`. An object or an array section takes the
   * entry (a file may hold an array where the defaults hold an object, and
   * the merge copies it in as it is); assigning a property of a primitive,
   * `null` or `undefined` section throws in a module (strict mode): `None`.
   * The source assigns only the named keys `port`, `host`, `enabled`,
   * `syncMaxEmails`, `autoSyncOnLoad` and `level`.
   */
  function SetIn(config: Value, section: string, key: string, x: Value): (r: Option<Value>)
    requires config.Obj? && NamedKey(key)
    ensures r.Some? <==> IsObjectLike(Get(config, section))
    ensures r.Some? ==> r.value.Obj? && IsObjectLike(Get(r.value, section)) && At(r.value, section, key) == x
    ensures r.Some? ==> (Get(r.value, section).Obj? <==> Get(config, section).Obj?)
  {
    match SetProperty(Get(config, section), key, x)
    case Some(updated) => Some(Obj(JsValues.Put(config.fields, section, updated)))
    case None => None
  }

  /** The sync limit: `min(parseInt(MAILING_MANAGER_SYNC_LIMIT) or 20, 100)`; `NaN` stays `NaN`. */
  function SyncLimit(env: map<string, string>): (v: Value)
    ensures EnvVar(env, "MAILING_MANAGER_SYNC_LIMIT") == "" ==> v == Num(20)
    ensures v.Num? ==> v.n <= 100
    ensures v.NotANumber? <==> EnvVar(env, "MAILING_MANAGER_SYNC_LIMIT") != ""
                               && ParseInt(EnvVar(env, "MAILING_MANAGER_SYNC_LIMIT")).None?
  {
    var raw := EnvVar(env, "MAILING_MANAGER_SYNC_LIMIT");
    var limit := if raw != "" then ParseIntValue(raw) else Num(20);
    match limit
    case Num(n) => Num(if n < 100 then n else 100)
    case _ => NotANumber
  }

  /** An assignment made whatever the environment holds. */
  function SetInOpt(config: Option<Value>, section: string, key: string, x: Value): (r: Option<Value>)
    requires config.Some? ==> config.value.Obj?
    requires NamedKey(key)
    ensures r.Some? ==> r.value.Obj?
  {
    match config
    case None => None
    case Some(c) => SetIn(c, section, key, x)
  }

  /** An override applied only when its variable is set to a non-empty string. */
  function Override(config: Option<Value>, env: map<string, string>, name: string, section: string, key: string, x: Value): (r: Option<Value>)
    requires config.Some? ==> config.value.Obj?
    requires NamedKey(key)
    ensures r.Some? ==> r.value.Obj?
    ensures EnvVar(env, name) == "" ==> r == config
  {
    match config
    case None => None
    case Some(c) => if EnvVar(env, name) != "" then SetIn(c, section, key, x) else config
  }

  /** The environment overrides `load` applies after the file merge, in the source's order. */
  function ApplyEnv(config: Value, env: map<string, string>): (r: Option<Value>)
    requires config.Obj?
    ensures r.Some? ==> r.value.Obj?
  {
    TaskOverrides(ServerOverrides(Some(config), env), env)
  }

  /** The listener overrides: HTTP port and host, then webhook port, host and switch. */
  function ServerOverrides(c0: Option<Value>, env: map<string, string>): (r: Option<Value>)
    requires c0.Some? ==> c0.value.Obj?
    ensures r.Some? ==> r.value.Obj?
  {
    WebhookOverrides(HttpOverrides(c0, env), env)
  }

  function HttpOverrides(c0: Option<Value>, env: map<string, string>): (r: Option<Value>)
    requires c0.Some? ==> c0.value.Obj?
    ensures r.Some? ==> r.value.Obj?
  {
    var c1 := Override(c0, env, "MAILING_MANAGER_HTTP_PORT", "http", "port",
                       ParseIntValue(EnvVar(env, "MAILING_MANAGER_HTTP_PORT")));
    Override(c1, env, "MAILING_MANAGER_HTTP_HOST", "http", "host", Str(EnvVar(env, "MAILING_MANAGER_HTTP_HOST")))
  }

  function WebhookOverrides(c2: Option<Value>, env: map<string, string>): (r: Option<Value>)
    requires c2.Some? ==> c2.value.Obj?
    ensures r.Some? ==> r.value.Obj?
  {
    var c3 := Override(c2, env, "MAILING_MANAGER_WEBHOOK_PORT", "webhooks", "port",
                       ParseIntValue(EnvVar(env, "MAILING_MANAGER_WEBHOOK_PORT")));
    var c4 := Override(c3, env, "MAILING_MANAGER_WEBHOOK_HOST", "webhooks", "host",
                       Str(EnvVar(env, "MAILING_MANAGER_WEBHOOK_HOST")));
    Override(c4, env, "MAILING_MANAGER_WEBHOOK_ENABLED", "webhooks", "enabled",
             Bool(EnvVar(env, "MAILING_MANAGER_WEBHOOK_ENABLED") == "true"))
  }

  /** The sync limit (always written), the auto-sync switch and the log level. */
  function TaskOverrides(c5: Option<Value>, env: map<string, string>): (r: Option<Value>)
    requires c5.Some? ==> c5.value.Obj?
    ensures r.Some? ==> r.value.Obj?
  {
    var c6 := SetInOpt(c5, "tasks", "syncMaxEmails", SyncLimit(env));
    var c7 := Override(c6, env, "MAILING_MANAGER_AUTO_SYNC_ON_LOAD", "tasks", "autoSyncOnLoad",
                       Bool(EnvVar(env, "MAILING_MANAGER_AUTO_SYNC_ON_LOAD") == "true"));
    Override(c7, env, "LOG_LEVEL", "logging", "level", Str(EnvVar(env, "LOG_LEVEL")))
  }

  // ---------------------------------------------------------------- load

  /** What reading `config.json` (after creating the data directory) produced. */
  datatype FileRead =
    | Missing                  // ENOENT
    | Failed(code: string)     // any other file-system error
    | Contents(raw: string)

  datatype LoadError = FileError(code: string) | SyntaxError | NotAnObject | CannotOverride

  /** The loaded configuration and whether `load` wrote the defaults back to disk. */
  datatype Loaded = Loaded(config: Value, saved: bool)

  /**
   * `new ConfigManager(dataDir).load()`. A missing file keeps the constructor's
   * configuration (the defaults with the chosen data directory) and saves it;
   * a readable file is merged over the defaults; every other failure throws.
   */
  function Load(arg: string, env: map<string, string>, defaultDataDir: string, file: FileRead,
                parseJson: string -> Option<Value>): (r: Result<Loaded, LoadError>)
    ensures file.Failed? ==> r == Err(FileError(file.code))
    ensures r.Ok? ==> r.value.config.Obj? && (r.value.saved <==> file.Missing?)
  {
    LoadOver(DefaultConfig(defaultDataDir), DataDir(arg, env, defaultDataDir), env, file, parseJson)
  }

  /** `load` over a given `DEFAULT_CONFIG` object and a data directory chosen by the constructor. */
  function LoadOver(defaults: Value, dir: string, env: map<string, string>, file: FileRead,
                    parseJson: string -> Option<Value>): (r: Result<Loaded, LoadError>)
    requires defaults.Obj?
    ensures file.Failed? ==> r == Err(FileError(file.code))
    ensures r.Ok? ==> r.value.config.Obj? && (r.value.saved <==> file.Missing?)
    ensures r.Ok? <==> ReadConfig(defaults, dir, file, parseJson).Ok?
                       && ApplyEnv(ReadConfig(defaults, dir, file, parseJson).value, env).Some?
    ensures r.Ok? ==> r.value.config == ApplyEnv(ReadConfig(defaults, dir, file, parseJson).value, env).value
  {
    match ReadConfig(defaults, dir, file, parseJson)
    case Err(e) => Err(e)
    case Ok(c) =>
      match ApplyEnv(c, env)
      case None => Err(CannotOverride)
      case Some(c') => Ok(Loaded(c', file.Missing?))
  }

  /**
   * The configuration before the environment overrides: the constructor's
   * (defaults with the chosen data directory) when the file is missing, the
   * file merged over the defaults when it is readable.
   */
  function ReadConfig(defaults: Value, dir: string, file: FileRead, parseJson: string -> Option<Value>): (r: Result<Value, LoadError>)
    requires defaults.Obj?
    ensures r.Ok? ==> r.value.Obj?
    ensures file.Failed? ==> r == Err(FileError(file.code))
    ensures file.Missing? ==> r == Ok(Initial(defaults, dir))
    ensures file.Contents? ==>
              r == (match parseJson(file.raw)
                    case None => Err(SyntaxError)
                    case Some(loaded) => if loaded.Null? || loaded.Undefined? then Err(NotAnObject)
                                         else Ok(Merge(defaults, loaded).value))
  {
    match file
    case Missing => Ok(Initial(defaults, dir))
    case Failed(code) => Err(FileError(code))
    case Contents(raw) =>
      match parseJson(raw)
      case None => Err(SyntaxError)
      case Some(loaded) =>
        match Merge(defaults, loaded)
        case None => Err(NotAnObject)
        case Some(c) => Ok(c)
  }

  /** `{ ...DEFAULT_CONFIG, dataDir: dir }`, the constructor's configuration. */
  function Initial(defaults: Value, dir: string): (c: Value)
    requires defaults.Obj?
    ensures c.Obj? && Get(c, "dataDir") == Str(dir)
    ensures forall s :: s != "dataDir" ==> Get(c, s) == Get(defaults, s)
  {
    Obj(JsValues.Put(defaults.fields, "dataDir", Str(dir)))
  }

  /** `update(partial)`: the current configuration with `partial` merged in. */
  function Update(config: Value, partial: Value): (r: Option<Value>)
    requires config.Obj?
    ensures r.Some? <==> !(partial.Null? || partial.Undefined?)
    ensures partial == Obj([]) ==> r == Some(config)
  {
    Merge(config, partial)
  }

  // ---------------------------------------------------------------- precedence

  /** `config[section][key]`. */
  function At(c: Value, section: string, key: string): Value
  {
    Get(Get(c, section), key)
  }

  /** The sections the overrides write into, each an object or an array. */
  predicate HasSections(c: Value)
  {
    && c.Obj?
    && IsObjectLike(Get(c, "http")) && IsObjectLike(Get(c, "webhooks"))
    && IsObjectLike(Get(c, "tasks")) && IsObjectLike(Get(c, "logging"))
  }

  /** The eight settings the environment can override. */
  const EnvKeys: set<(string, string)> :=
    {("http", "port"), ("http", "host"), ("webhooks", "port"), ("webhooks", "host"), ("webhooks", "enabled"),
     ("tasks", "syncMaxEmails"), ("tasks", "autoSyncOnLoad"), ("logging", "level")}

  /**
   * The value the environment imposes on `config[section][key]`, if any:
   * each override of `load` listed once, independently of its order.
   */
  function EnvValue(env: map<string, string>, section: string, key: string): Option<Value>
  {
    var tasks := TaskEnvValue(env, section, key);
    if tasks.Some? then tasks else ServerEnvValue(env, section, key)
  }

  /**
   * The environment reaches only the eight settings, and `syncMaxEmails` is
   * imposed whatever the environment holds, even when it is empty.
   */
  lemma EnvValueReach(env: map<string, string>, section: string, key: string)
    ensures EnvValue(env, section, key).Some? ==> (section, key) in EnvKeys
    ensures (section, key) == ("tasks", "syncMaxEmails") ==> EnvValue(env, section, key).Some?
    ensures env == map[] ==> (EnvValue(env, section, key).Some? <==> (section, key) == ("tasks", "syncMaxEmails"))
  {
  }

  function ServerEnvValue(env: map<string, string>, section: string, key: string): Option<Value>
  {
    var webhooks := WebhookEnvValue(env, section, key);
    if webhooks.Some? then webhooks else HttpEnvValue(env, section, key)
  }

  function HttpEnvValue(env: map<string, string>, section: string, key: string): Option<Value>
  {
    if (section, key) == ("http", "port") && EnvVar(env, "MAILING_MANAGER_HTTP_PORT") != ""
    then Some(ParseIntValue(env["MAILING_MANAGER_HTTP_PORT"]))
    else if (section, key) == ("http", "host") && EnvVar(env, "MAILING_MANAGER_HTTP_HOST") != ""
    then Some(Str(env["MAILING_MANAGER_HTTP_HOST"]))
    else None
  }

  function WebhookEnvValue(env: map<string, string>, section: string, key: string): Option<Value>
  {
    if (section, key) == ("webhooks", "port") && EnvVar(env, "MAILING_MANAGER_WEBHOOK_PORT") != ""
    then Some(ParseIntValue(env["MAILING_MANAGER_WEBHOOK_PORT"]))
    else if (section, key) == ("webhooks", "host") && EnvVar(env, "MAILING_MANAGER_WEBHOOK_HOST") != ""
    then Some(Str(env["MAILING_MANAGER_WEBHOOK_HOST"]))
    else if (section, key) == ("webhooks", "enabled") && EnvVar(env, "MAILING_MANAGER_WEBHOOK_ENABLED") != ""
    then Some(Bool(env["MAILING_MANAGER_WEBHOOK_ENABLED"] == "true"))
    else None
  }

  function TaskEnvValue(env: map<string, string>, section: string, key: string): Option<Value>
  {
    if (section, key) == ("tasks", "syncMaxEmails")
    then Some(SyncLimit(env))
    else if (section, key) == ("tasks", "autoSyncOnLoad") && EnvVar(env, "MAILING_MANAGER_AUTO_SYNC_ON_LOAD") != ""
    then Some(Bool(env["MAILING_MANAGER_AUTO_SYNC_ON_LOAD"] == "true"))
    else if (section, key) == ("logging", "level") && EnvVar(env, "LOG_LEVEL") != ""
    then Some(Str(env["LOG_LEVEL"]))
    else None
  }

  /** One assignment: its own entry changes, every other entry and `dataDir` stay. */
  lemma SetInAt(c: Option<Value>, section: string, key: string, x: Value, s: string, k: string)
    requires c.Some? ==> c.value.Obj?
    requires section != "dataDir" && NamedKey(key)
    ensures var r := SetInOpt(c, section, key, x);
            && (r.Some? ==> c.Some? && Get(r.value, "dataDir") == Get(c.value, "dataDir")
                            && At(r.value, s, k) == (if (s, k) == (section, key) then x else At(c.value, s, k)))
            && (c.Some? && HasSections(c.value) && (section == "http" || section == "webhooks" || section == "tasks" || section == "logging")
                ==> r.Some? && HasSections(r.value))
  {
    if c.Some? && IsObjectLike(Get(c.value, section)) {
      SetInOther(c.value, section, key, x, "dataDir");
      if s != section {
        SetInOther(c.value, section, key, x, s);
      } else if k != key {
        SetInSibling(c.value, section, key, x, k);
      }
      SetInOther(c.value, section, key, x, "http");
      SetInOther(c.value, section, key, x, "webhooks");
      SetInOther(c.value, section, key, x, "tasks");
      SetInOther(c.value, section, key, x, "logging");
    }
  }

  /** An assignment leaves the other sections alone. */
  lemma SetInOther(c: Value, section: string, key: string, x: Value, s: string)
    requires c.Obj? && IsObjectLike(Get(c, section)) && NamedKey(key)
    ensures s != section ==> Get(SetIn(c, section, key, x).value, s) == Get(c, s)
  {
    var updated := SetProperty(Get(c, section), key, x).value;
    assert SetIn(c, section, key, x).value == Obj(JsValues.Put(c.fields, section, updated));
  }

  /** An assignment leaves the other entries of its section alone. */
  lemma SetInSibling(c: Value, section: string, key: string, x: Value, k: string)
    requires c.Obj? && IsObjectLike(Get(c, section)) && NamedKey(key)
    ensures k != key ==> At(SetIn(c, section, key, x).value, section, k) == At(c, section, k)
  {
    var updated := SetProperty(Get(c, section), key, x).value;
    assert SetIn(c, section, key, x).value == Obj(JsValues.Put(c.fields, section, updated));
  }

  /** One override: `SetInAt` when its variable is set, nothing otherwise. */
  lemma OverrideAt(c: Option<Value>, env: map<string, string>, name: string, section: string, key: string, x: Value, s: string, k: string)
    requires c.Some? ==> c.value.Obj?
    requires section != "dataDir" && NamedKey(key)
    ensures var r := Override(c, env, name, section, key, x);
            && (r.Some? ==> c.Some? && Get(r.value, "dataDir") == Get(c.value, "dataDir")
                            && At(r.value, s, k)
                               == (if (s, k) == (section, key) && EnvVar(env, name) != "" then x else At(c.value, s, k)))
            && (c.Some? && HasSections(c.value) && (section == "http" || section == "webhooks" || section == "tasks" || section == "logging")
                ==> r.Some? && HasSections(r.value))
  {
    if EnvVar(env, name) != "" {
      SetInAt(c, section, key, x, s, k);
      assert Override(c, env, name, section, key, x) == SetInOpt(c, section, key, x);
    }
  }

  /**
   * The environment overrides as a whole: each entry ends up as the
   * environment imposes it, or as the file and the defaults had it; `dataDir`
   * is never written; on a configuration with all its sections nothing fails.
   */
  lemma ApplyEnvAt(config: Value, env: map<string, string>, s: string, k: string)
    requires config.Obj?
    ensures var r := ApplyEnv(config, env);
            && (r.Some? ==> At(r.value, s, k) == EnvValue(env, s, k).GetOr(At(config, s, k))
                            && Get(r.value, "dataDir") == Get(config, "dataDir"))
            && (HasSections(config) ==> r.Some?)
  {
    var c5 := ServerOverrides(Some(config), env);
    ServerOverridesAt(Some(config), env, s, k);
    TaskOverridesAt(c5, env, s, k);
    EnvValueLayers(env, s, k, At(config, s, k));
  }

  /** The task overrides are applied over the server overrides, which together give `EnvValue`. */
  lemma EnvValueLayers(env: map<string, string>, s: string, k: string, base: Value)
    ensures EnvValue(env, s, k).GetOr(base) == TaskEnvValue(env, s, k).GetOr(ServerEnvValue(env, s, k).GetOr(base))
  {
  }

  lemma ServerOverridesAt(c0: Option<Value>, env: map<string, string>, s: string, k: string)
    requires c0.Some? ==> c0.value.Obj?
    ensures var r := ServerOverrides(c0, env);
            && (r.Some? ==> c0.Some? && Get(r.value, "dataDir") == Get(c0.value, "dataDir")
                            && At(r.value, s, k)
                               == ServerEnvValue(env, s, k).GetOr(At(c0.value, s, k)))
            && (c0.Some? && HasSections(c0.value) ==> r.Some? && HasSections(r.value))
  {
    HttpOverridesAt(c0, env, s, k);
    WebhookOverridesAt(HttpOverrides(c0, env), env, s, k);
  }

  lemma HttpOverridesAt(c0: Option<Value>, env: map<string, string>, s: string, k: string)
    requires c0.Some? ==> c0.value.Obj?
    ensures var r := HttpOverrides(c0, env);
            && (r.Some? ==> c0.Some? && Get(r.value, "dataDir") == Get(c0.value, "dataDir")
                            && At(r.value, s, k)
                               == HttpEnvValue(env, s, k).GetOr(At(c0.value, s, k)))
            && (c0.Some? && HasSections(c0.value) ==> r.Some? && HasSections(r.value))
  {
    ServerKeysNamed();
    var x1 := ParseIntValue(EnvVar(env, "MAILING_MANAGER_HTTP_PORT"));
    OverrideAt(c0, env, "MAILING_MANAGER_HTTP_PORT", "http", "port", x1, s, k);
    var c1 := Override(c0, env, "MAILING_MANAGER_HTTP_PORT", "http", "port", x1);
    var x2 := Str(EnvVar(env, "MAILING_MANAGER_HTTP_HOST"));
    OverrideAt(c1, env, "MAILING_MANAGER_HTTP_HOST", "http", "host", x2, s, k);
  }

  lemma WebhookOverridesAt(c2: Option<Value>, env: map<string, string>, s: string, k: string)
    requires c2.Some? ==> c2.value.Obj?
    ensures var r := WebhookOverrides(c2, env);
            && (r.Some? ==> c2.Some? && Get(r.value, "dataDir") == Get(c2.value, "dataDir")
                            && At(r.value, s, k)
                               == WebhookEnvValue(env, s, k).GetOr(At(c2.value, s, k)))
            && (c2.Some? && HasSections(c2.value) ==> r.Some? && HasSections(r.value))
  {
    ServerKeysNamed();
    var x3 := ParseIntValue(EnvVar(env, "MAILING_MANAGER_WEBHOOK_PORT"));
    OverrideAt(c2, env, "MAILING_MANAGER_WEBHOOK_PORT", "webhooks", "port", x3, s, k);
    var c3 := Override(c2, env, "MAILING_MANAGER_WEBHOOK_PORT", "webhooks", "port", x3);
    var x4 := Str(EnvVar(env, "MAILING_MANAGER_WEBHOOK_HOST"));
    OverrideAt(c3, env, "MAILING_MANAGER_WEBHOOK_HOST", "webhooks", "host", x4, s, k);
    var c4 := Override(c3, env, "MAILING_MANAGER_WEBHOOK_HOST", "webhooks", "host", x4);
    var x5 := Bool(EnvVar(env, "MAILING_MANAGER_WEBHOOK_ENABLED") == "true");
    OverrideAt(c4, env, "MAILING_MANAGER_WEBHOOK_ENABLED", "webhooks", "enabled", x5, s, k);
  }

  /** The keys the listener overrides assign are named keys. */
  lemma ServerKeysNamed()
    ensures NamedKey("port") && NamedKey("host") && NamedKey("enabled")
  {
    LetterKeyNamed("port");
    LetterKeyNamed("host");
    LetterKeyNamed("enabled");
  }

  lemma TaskOverridesAt(c5: Option<Value>, env: map<string, string>, s: string, k: string)
    requires c5.Some? ==> c5.value.Obj?
    ensures var r := TaskOverrides(c5, env);
            && (r.Some? ==> c5.Some? && Get(r.value, "dataDir") == Get(c5.value, "dataDir")
                            && At(r.value, s, k)
                               == TaskEnvValue(env, s, k).GetOr(At(c5.value, s, k)))
            && (c5.Some? && HasSections(c5.value) ==> r.Some? && HasSections(r.value))
  {
    SetInAt(c5, "tasks", "syncMaxEmails", SyncLimit(env), s, k);
    var c6 := SetInOpt(c5, "tasks", "syncMaxEmails", SyncLimit(env));
    var x7 := Bool(EnvVar(env, "MAILING_MANAGER_AUTO_SYNC_ON_LOAD") == "true");
    OverrideAt(c6, env, "MAILING_MANAGER_AUTO_SYNC_ON_LOAD", "tasks", "autoSyncOnLoad", x7, s, k);
    var c7 := Override(c6, env, "MAILING_MANAGER_AUTO_SYNC_ON_LOAD", "tasks", "autoSyncOnLoad", x7);
    var x8 := Str(EnvVar(env, "LOG_LEVEL"));
    OverrideAt(c7, env, "LOG_LEVEL", "logging", "level", x8, s, k);
  }

  /** The key order of `DEFAULT_CONFIG` holds no key twice. */
  lemma DefaultSections(defaultDataDir: string)
    ensures HasSections(DefaultConfig(defaultDataDir))
    ensures Get(DefaultConfig(defaultDataDir), "http") == DefaultHttp()
    ensures Get(DefaultConfig(defaultDataDir), "webhooks") == DefaultWebhooks()
    ensures Get(DefaultConfig(defaultDataDir), "dataDir") == Str(defaultDataDir)
  {
    var fs := DefaultConfig(defaultDataDir).fields;
    assert UniqueKeys(fs);
    LookupAt(fs, 1);
    LookupAt(fs, 3);
    LookupAt(fs, 4);
    LookupAt(fs, 5);
    LookupAt(fs, 7);
  }

  /** No key of `DEFAULT_CONFIG` appears twice. */
  lemma DefaultKeysUnique(defaultDataDir: string)
    ensures UniqueKeys(DefaultConfig(defaultDataDir).fields)
  {
    var fs := DefaultConfig(defaultDataDir).fields;
    assert UniqueKeys(fs);
  }

  /** The top-level defaults: version 1.0.1 and the stdio transport. */
  lemma DefaultTopLevel(defaultDataDir: string)
    ensures Get(DefaultConfig(defaultDataDir), "version") == Str("1.0.1")
    ensures Get(DefaultConfig(defaultDataDir), "transport") == Str("stdio")
  {
    DefaultKeysUnique(defaultDataDir);
    var fs := DefaultConfig(defaultDataDir).fields;
    LookupAt(fs, 0);
    LookupAt(fs, 2);
  }

  /** The default log level is 'info'. */
  lemma DefaultLogLevel(defaultDataDir: string)
    ensures At(DefaultConfig(defaultDataDir), "logging", "level") == Str("info")
  {
    DefaultKeysUnique(defaultDataDir);
    LookupAt(DefaultConfig(defaultDataDir).fields, 7);
  }

  /** The default ports: HTTP on 3000 and webhooks on 3100, with the webhook server off. */
  lemma DefaultPorts(defaultDataDir: string)
    ensures At(DefaultConfig(defaultDataDir), "http", "port") == Num(3000)
    ensures At(DefaultConfig(defaultDataDir), "webhooks", "port") == Num(3100)
    ensures At(DefaultConfig(defaultDataDir), "webhooks", "enabled") == Bool(false)
  {
    DefaultSections(defaultDataDir);
    assert DefaultWebhooks().fields[0].key != "port";
  }

  lemma DefaultHttpHost(defaultDataDir: string)
    ensures At(DefaultConfig(defaultDataDir), "http", "host") == Str("127.0.0.1")
  {
    DefaultHttpSection(defaultDataDir);
    assert DefaultHttp().fields[0].key != "host";
    assert Get(DefaultHttp(), "host") == Str("127.0.0.1");
  }

  lemma DefaultHttpSection(defaultDataDir: string)
    ensures Get(DefaultConfig(defaultDataDir), "http") == DefaultHttp()
  {
    DefaultSections(defaultDataDir);
  }

  /** The sync limit comes from the environment alone: a value in the file is always overwritten. */
  lemma SyncLimitIgnoresFile(arg: string, env: map<string, string>, defaultDataDir: string, file: FileRead,
                             parseJson: string -> Option<Value>)
    requires Load(arg, env, defaultDataDir, file, parseJson).Ok?
    ensures At(Load(arg, env, defaultDataDir, file, parseJson).value.config, "tasks", "syncMaxEmails") == SyncLimit(env)
  {
    var d := DefaultConfig(defaultDataDir);
    var dir := DataDir(arg, env, defaultDataDir);
    ApplyEnvAt(ReadConfig(d, dir, file, parseJson).value, env, "tasks", "syncMaxEmails");
  }

  /**
   * Without a file, loading succeeds with the defaults, the chosen data
   * directory, and the environment on top; the defaults are written back.
   */
  lemma FirstRunUsesDefaults(arg: string, env: map<string, string>, defaultDataDir: string,
                             parseJson: string -> Option<Value>, s: string, k: string)
    ensures var r := Load(arg, env, defaultDataDir, Missing, parseJson);
            && r.Ok? && r.value.saved
            && Get(r.value.config, "dataDir") == Str(DataDir(arg, env, defaultDataDir))
            && (s != "dataDir" ==> At(r.value.config, s, k) == EnvValue(env, s, k).GetOr(At(DefaultConfig(defaultDataDir), s, k)))
  {
    DefaultSections(defaultDataDir);
    FirstRunOver(DefaultConfig(defaultDataDir), DataDir(arg, env, defaultDataDir), env, parseJson, s, k);
  }

  lemma FirstRunOver(defaults: Value, dir: string, env: map<string, string>, parseJson: string -> Option<Value>, s: string, k: string)
    requires HasSections(defaults)
    ensures var r := LoadOver(defaults, dir, env, Missing, parseJson);
            && r.Ok? && r.value.saved
            && Get(r.value.config, "dataDir") == Str(dir)
            && (s != "dataDir" ==> At(r.value.config, s, k) == EnvValue(env, s, k).GetOr(At(defaults, s, k)))
  {
    var initial := Initial(defaults, dir);
    assert HasSections(initial);
    ApplyEnvAt(initial, env, s, k);
  }

  /**
   * A file entry beats the default and the environment beats the file: with
   * `http.host` in the file, the loaded host is the file's unless
   * `MAILING_MANAGER_HTTP_HOST` is set.
   */
  lemma FileThenEnvPrecedence(arg: string, env: map<string, string>, defaultDataDir: string, raw: string,
                              parseJson: string -> Option<Value>, fs: seq<Field>, hs: seq<Field>, host: Value)
    requires parseJson(raw) == Some(Obj(fs)) && UniqueKeys(fs)
    requires Lookup(fs, "http") == Some(Obj(hs)) && UniqueKeys(hs)
    requires Lookup(hs, "host") == Some(host) && !host.Undefined?
    requires Load(arg, env, defaultDataDir, Contents(raw), parseJson).Ok?
    ensures At(Load(arg, env, defaultDataDir, Contents(raw), parseJson).value.config, "http", "host")
            == (if EnvVar(env, "MAILING_MANAGER_HTTP_HOST") != "" then Str(env["MAILING_MANAGER_HTTP_HOST"]) else host)
  {
    LoadedHttpHost(arg, env, defaultDataDir, raw, parseJson, fs, hs, host);
    HostOverride(env, host);
  }

  /** The loaded `http.host` is the file's unless the environment imposes one. */
  lemma LoadedHttpHost(arg: string, env: map<string, string>, defaultDataDir: string, raw: string,
                       parseJson: string -> Option<Value>, fs: seq<Field>, hs: seq<Field>, host: Value)
    requires parseJson(raw) == Some(Obj(fs)) && UniqueKeys(fs)
    requires Lookup(fs, "http") == Some(Obj(hs)) && UniqueKeys(hs)
    requires Lookup(hs, "host") == Some(host) && !host.Undefined?
    requires Load(arg, env, defaultDataDir, Contents(raw), parseJson).Ok?
    ensures At(Load(arg, env, defaultDataDir, Contents(raw), parseJson).value.config, "http", "host")
            == EnvValue(env, "http", "host").GetOr(host)
  {
    var d := DefaultConfig(defaultDataDir);
    var dir := DataDir(arg, env, defaultDataDir);
    assert Load(arg, env, defaultDataDir, Contents(raw), parseJson) == LoadOver(d, dir, env, Contents(raw), parseJson);
    assert d.Obj? && Get(d, "http").Obj? && !IsObjectLike(At(d, "http", "host")) by {
      DefaultHttpSection(defaultDataDir);
      DefaultHttpHost(defaultDataDir);
    }
    FileThenEnvOver(d, dir, env, raw, parseJson, fs, "http", hs, "host", host);
  }

  /** The environment's say on `http.host`. */
  lemma HostOverride(env: map<string, string>, host: Value)
    ensures EnvValue(env, "http", "host").GetOr(host)
            == (if EnvVar(env, "MAILING_MANAGER_HTTP_HOST") != "" then Str(env["MAILING_MANAGER_HTTP_HOST"]) else host)
  {
  }

  lemma FileThenEnvOver(defaults: Value, dir: string, env: map<string, string>, raw: string,
                        parseJson: string -> Option<Value>, fs: seq<Field>, s: string, hs: seq<Field>, k: string, x: Value)
    requires defaults.Obj? && Get(defaults, s).Obj?
    requires parseJson(raw) == Some(Obj(fs)) && UniqueKeys(fs)
    requires Lookup(fs, s) == Some(Obj(hs)) && UniqueKeys(hs)
    requires Lookup(hs, k) == Some(x) && !x.Undefined?
    requires !x.Obj? || !IsObjectLike(At(defaults, s, k))
    requires LoadOver(defaults, dir, env, Contents(raw), parseJson).Ok?
    ensures At(LoadOver(defaults, dir, env, Contents(raw), parseJson).value.config, s, k) == EnvValue(env, s, k).GetOr(x)
  {
    FileEntryWins(defaults, fs, s, hs, k, x);
    var m := Merge(defaults, Obj(fs)).value;
    assert ReadConfig(defaults, dir, Contents(raw), parseJson) == Ok(m);
    ApplyEnvAt(m, env, s, k);
  }

  /** A nested entry of the file replaces the base's when both sides hold the section as an object. */
  lemma FileEntryWins(base: Value, fs: seq<Field>, s: string, hs: seq<Field>, k: string, x: Value)
    requires base.Obj? && Get(base, s).Obj? && UniqueKeys(fs)
    requires Lookup(fs, s) == Some(Obj(hs)) && UniqueKeys(hs)
    requires Lookup(hs, k) == Some(x) && !x.Undefined?
    requires !x.Obj? || !IsObjectLike(At(base, s, k))
    ensures At(Merge(base, Obj(fs)).value, s, k) == x
  {
    var m := Merge(base, Obj(fs)).value;
    var section := Get(base, s);
    MergeLookup(base, Obj(fs), s);
    assert Get(m, s) == Merge(section, Obj(hs)).value;
    MergeLookup(section, Obj(hs), k);
  }

  /**
   * Once a file exists, the data directory comes from the file or the
   * defaults: the constructor argument and `MAILING_MANAGER_DATA_DIR` are
   * dropped by the merge over `DEFAULT_CONFIG`.
   */
  lemma ReadFileDropsChosenDataDir(arg: string, env: map<string, string>, defaultDataDir: string, raw: string,
                                   parseJson: string -> Option<Value>, fs: seq<Field>)
    requires parseJson(raw) == Some(Obj(fs)) && UniqueKeys(fs)
    requires "dataDir" !in Keys(fs)
    requires Load(arg, env, defaultDataDir, Contents(raw), parseJson).Ok?
    ensures Get(Load(arg, env, defaultDataDir, Contents(raw), parseJson).value.config, "dataDir") == Str(defaultDataDir)
  {
    DefaultSections(defaultDataDir);
    ReadFileDataDirOver(DefaultConfig(defaultDataDir), DataDir(arg, env, defaultDataDir), env, raw, parseJson, fs);
  }

  lemma ReadFileDataDirOver(defaults: Value, dir: string, env: map<string, string>, raw: string,
                            parseJson: string -> Option<Value>, fs: seq<Field>)
    requires defaults.Obj?
    requires parseJson(raw) == Some(Obj(fs)) && UniqueKeys(fs)
    requires "dataDir" !in Keys(fs)
    requires LoadOver(defaults, dir, env, Contents(raw), parseJson).Ok?
    ensures Get(LoadOver(defaults, dir, env, Contents(raw), parseJson).value.config, "dataDir") == Get(defaults, "dataDir")
  {
    MergeLookup(defaults, Obj(fs), "dataDir");
    var m := Merge(defaults, Obj(fs)).value;
    assert ReadConfig(defaults, dir, Contents(raw), parseJson) == Ok(m);
    ApplyEnvAt(m, env, "", "");
  }

  /**
   * A file whose `tasks` section is an array still loads: the merge copies
   * the array in as it is, and the sync limit becomes a named property of
   * the array while its elements stay as they were.
   */
  lemma ArraySectionLoads(arg: string, env: map<string, string>, defaultDataDir: string, raw: string,
                          parseJson: string -> Option<Value>)
    requires parseJson(raw) == Some(Obj([Field("tasks", Arr([], []))]))
    ensures var r := Load(arg, env, defaultDataDir, Contents(raw), parseJson);
            && r.Ok?
            && At(r.value.config, "tasks", "syncMaxEmails") == SyncLimit(env)
            && At(r.value.config, "tasks", "length") == Num(0)
  {
    DefaultSections(defaultDataDir);
    ArraySectionLoadsOver(DefaultConfig(defaultDataDir), DataDir(arg, env, defaultDataDir), env, raw, parseJson);
  }

  lemma ArraySectionLoadsOver(defaults: Value, dir: string, env: map<string, string>, raw: string,
                              parseJson: string -> Option<Value>)
    requires HasSections(defaults)
    requires parseJson(raw) == Some(Obj([Field("tasks", Arr([], []))]))
    ensures var r := LoadOver(defaults, dir, env, Contents(raw), parseJson);
            && r.Ok?
            && At(r.value.config, "tasks", "syncMaxEmails") == SyncLimit(env)
            && At(r.value.config, "tasks", "length") == Num(0)
  {
    var m := Merge(defaults, Obj([Field("tasks", Arr([], []))])).value;
    ArrayTasksMerge(defaults);
    assert ReadConfig(defaults, dir, Contents(raw), parseJson) == Ok(m);
    ArrayTasksOverrides(m, env);
    assert LoadOver(defaults, dir, env, Contents(raw), parseJson) == Ok(Loaded(ApplyEnv(m, env).value, false));
  }

  /** The overrides over an empty `tasks` array: the limit is set and the array stays empty. */
  lemma ArrayTasksOverrides(m: Value, env: map<string, string>)
    requires HasSections(m) && Get(m, "tasks") == Arr([], [])
    ensures ApplyEnv(m, env).Some?
    ensures At(ApplyEnv(m, env).value, "tasks", "syncMaxEmails") == SyncLimit(env)
    ensures At(ApplyEnv(m, env).value, "tasks", "length") == Num(0)
  {
    ApplyEnvAt(m, env, "tasks", "syncMaxEmails");
    ApplyEnvAt(m, env, "tasks", "length");
    EnvLeavesLength(env);
    assert At(m, "tasks", "length") == Num(0);
  }

  /** No override touches `tasks.length`. */
  lemma EnvLeavesLength(env: map<string, string>)
    ensures EnvValue(env, "tasks", "length") == None
  {
  }

  /** Merging `{"tasks": []}` keeps every section object-like, with `tasks` the empty array. */
  lemma ArrayTasksMerge(defaults: Value)
    requires HasSections(defaults)
    ensures var m := Merge(defaults, Obj([Field("tasks", Arr([], []))])).value;
            HasSections(m) && Get(m, "tasks") == Arr([], [])
  {
    var file := Obj([Field("tasks", Arr([], []))]);
    MergeLookup(defaults, file, "tasks");
    MergeLookup(defaults, file, "http");
    MergeLookup(defaults, file, "webhooks");
    MergeLookup(defaults, file, "logging");
  }
}

=== FILE: connection_pool.dfy ===
// The connection pool: one cached IMAP/SMTP pair per account, created on
// first use from the stored account and its decrypted password, refreshed on
// every use, and closed when idle for longer than `maxIdleMs`.  The clock and
// the outcome of the two network connects are parameters.
module ConnectionPool {
  import opened Wrappers
  import opened Types
  import AccountManager
  import Encryption

  const DefaultMaxIdleMs := 300000
  const CleanupPeriodMs := 60000

  /** A cached pair of connected clients, built for `account` with `password`. */
  datatype Entry = Entry(account: Account, password: string, lastUsed: int)

  datatype Pool = Pool(connections: map<string, Entry>, cleanupTimer: bool, maxIdleMs: int)

  datatype PoolError =
    | AccountNotFound(id: string)
    | PasswordUnavailable(cause: AccountManager.AccountError)
    | ImapConnectFailed
    | SmtpConnectFailed

  /** The constructor: no connections, no timer, five minutes of idleness unless told otherwise. */
  function NewPool(maxIdleMs: Option<int>): (p: Pool)
    ensures p.connections == map[] && !p.cleanupTimer
    ensures maxIdleMs.None? ==> p.maxIdleMs == 300000
  {
    Pool(map[], false, maxIdleMs.GetOr(DefaultMaxIdleMs))
  }

  /** `start`: arms the once-a-minute cleanup. */
  function Start(p: Pool): (r: Pool)
    ensures r.cleanupTimer && r.connections == p.connections
  {
    p.(cleanupTimer := true)
  }

  /** `stop`: cancels the cleanup and disconnects and forgets every entry. */
  function Stop(p: Pool): (r: Pool)
    ensures !r.cleanupTimer && r.connections == map[] && r.maxIdleMs == p.maxIdleMs
  {
    Pool(map[], false, p.maxIdleMs)
  }

  /**
   * `getOrCreate` followed by the `lastUsed` refresh of `getImap`/`getSmtp`:
   * a cached entry is reused; otherwise the account must exist, its password
   * must decrypt and both clients must connect before anything is cached.
   */
  function Acquire(p: Pool, store: AccountManager.Store, service: Encryption.Service, id: string, now: int,
                   imapConnects: bool, smtpConnects: bool): (r: (Pool, Result<Entry, PoolError>))
    ensures r.1.Ok? ==> id in r.0.connections && r.0.connections[id] == r.1.value && r.1.value.lastUsed == now
    ensures r.1.Err? ==> r.0 == p
    ensures r.0.cleanupTimer == p.cleanupTimer && r.0.maxIdleMs == p.maxIdleMs
    ensures forall x :: x != id ==> (x in r.0.connections <==> x in p.connections)
    ensures forall x :: x != id && x in p.connections ==> r.0.connections[x] == p.connections[x]
  {
    if id in p.connections then
      var e := p.connections[id].(lastUsed := now);
      (p.(connections := p.connections[id := e]), Ok(e))
    else if id !in store.accounts then (p, Err(AccountNotFound(id)))
    else match AccountManager.GetAccountPassword(store, service, id)
      case Err(cause) => (p, Err(PasswordUnavailable(cause)))
      case Ok(password) =>
        if !imapConnects then (p, Err(ImapConnectFailed))
        else if !smtpConnects then (p, Err(SmtpConnectFailed))
        else
          var e := Entry(store.accounts[id], password, now);
          (p.(connections := p.connections[id := e]), Ok(e))
  }

  /** A cached entry is reused as is: no lookup, no connect, only `lastUsed` moves. */
  lemma CachedEntryReused(p: Pool, s1: AccountManager.Store, s2: AccountManager.Store,
                          v1: Encryption.Service, v2: Encryption.Service, id: string, now: int,
                          i1: bool, s1Ok: bool, i2: bool, s2Ok: bool)
    requires id in p.connections
    ensures Acquire(p, s1, v1, id, now, i1, s1Ok) == Acquire(p, s2, v2, id, now, i2, s2Ok)
    ensures var e := Acquire(p, s1, v1, id, now, i1, s1Ok).1;
            e.Ok? && e.value.account == p.connections[id].account && e.value.password == p.connections[id].password
  {
  }

  /** A new entry is cached iff the account exists, its password decrypts and both clients connect. */
  lemma CachedOnlyWhenConnected(p: Pool, store: AccountManager.Store, service: Encryption.Service, id: string,
                                now: int, imapConnects: bool, smtpConnects: bool)
    requires id !in p.connections
    ensures var r := Acquire(p, store, service, id, now, imapConnects, smtpConnects);
            (id in r.0.connections <==> r.1.Ok?)
            && (r.1.Ok? <==> id in store.accounts && AccountManager.GetAccountPassword(store, service, id).Ok?
                             && imapConnects && smtpConnects)
            && (r.1.Ok? ==> r.1.value.account == store.accounts[id]
                            && r.1.value.password == AccountManager.GetAccountPassword(store, service, id).value)
    ensures id !in store.accounts ==> Acquire(p, store, service, id, now, imapConnects, smtpConnects).1
                                        == Err(AccountNotFound(id))
  {
  }

  /** `removeConnection`: disconnects and forgets the entry; nothing happens for an unknown id. */
  function RemoveConnection(p: Pool, id: string): (r: Pool)
    ensures id !in r.connections
    ensures id !in p.connections ==> r == p
    ensures forall x :: x != id ==> (x in r.connections <==> x in p.connections)
  {
    if id in p.connections then p.(connections := p.connections - {id}) else p
  }

  /** An entry is idle once strictly more than `maxIdleMs` has passed since its last use. */
  predicate Idle(p: Pool, e: Entry, now: int)
  {
    now - e.lastUsed > p.maxIdleMs
  }

  /** Idleness is permanent while the entry is not used again: an idle entry stays idle at every later time. */
  lemma IdleStaysIdle(p: Pool, e: Entry, now: int, later: int)
    requires Idle(p, e, now) && now <= later
    ensures Idle(p, e, later)
  {
  }

  /** `cleanup`: removes every idle entry and keeps the rest untouched. */
  function Cleanup(p: Pool, now: int): (r: Pool)
    ensures forall x :: x in r.connections ==> x in p.connections && r.connections[x] == p.connections[x]
    ensures r.cleanupTimer == p.cleanupTimer && r.maxIdleMs == p.maxIdleMs
  {
    p.(connections := map x | x in p.connections && !Idle(p, p.connections[x], now) :: p.connections[x])
  }

  /** Exactly the idle entries go; one used exactly `maxIdleMs` ago stays. */
  lemma CleanupRemovesExactlyIdle(p: Pool, now: int, id: string)
    requires id in p.connections
    ensures id !in Cleanup(p, now).connections <==> now - p.connections[id].lastUsed > p.maxIdleMs
    ensures now - p.connections[id].lastUsed == p.maxIdleMs ==> id in Cleanup(p, now).connections
  {
  }

  /** Cleanup removes entries the same way `removeConnection` does, one idle id at a time. */
  lemma CleanupIsRemoval(p: Pool, now: int, id: string)
    requires id in p.connections && Idle(p, p.connections[id], now)
    ensures Cleanup(p, now) == Cleanup(RemoveConnection(p, id), now)
  {
  }

  /** An account used at the current time survives a cleanup at that time (for a non-negative limit). */
  lemma FreshEntrySurvives(p: Pool, store: AccountManager.Store, service: Encryption.Service, id: string,
                           now: int, imapConnects: bool, smtpConnects: bool)
    requires p.maxIdleMs >= 0
    ensures var r := Acquire(p, store, service, id, now, imapConnects, smtpConnects);
            r.1.Ok? ==> id in Cleanup(r.0, now).connections
  {
  }
}

=== FILE: crypto.dfy ===
/**
 * Symbolic cryptographic primitives.
 *
 * Argon2id, AES-256-GCM, HMAC and P-256 ECDH are not computed: each output is
 * the term that records its inputs (an idealised, collision-free primitive in
 * the Dolev-Yao style). Bytes that did not come from a primitive are `Junk`.
 * This gives exactly the laws the rest of the model relies on: derivation is
 * deterministic and distinguishes passwords, opening a sealed box needs the
 * same key, IV and an unaltered tag, and a MAC verifies only against itself.
 */
module Crypto {
  import opened Wrappers
  import opened Text

  datatype KdfAlgorithm = Argon2id

  /** The derivation parameters stored with the master key (`KeyDerivationConfig`). */
  datatype KdfParams = KdfParams(
    algorithm: KdfAlgorithm,
    timeCost: int,
    memoryCost: int,
    parallelism: int,
    saltLength: int)

  /** Number of key bytes Argon2 is asked for (`hashLength: 32`). */
  const KeyLength := 32

  /** Symmetric key material. */
  datatype Key =
    | Argon2Raw(password: string, salt: seq<byte>, params: KdfParams)
      // raw Argon2id output of KeyLength bytes
    | HandshakeKey(serverKeyPair: nat, clientKeyPair: nat)
      // SHA-256 of the P-256 shared secret of two ephemeral key pairs

  /** An AES-256-GCM ciphertext over plaintexts of type P. */
  datatype Ciphertext<P> = Sealed(key: Key, iv: seq<byte>, plaintext: P) | Junk(bytes: seq<byte>)

  /** A GCM authentication tag. */
  datatype Tag<P> = GcmTag(key: Key, iv: seq<byte>, plaintext: P) | JunkTag(bytes: seq<byte>)

  function Seal<P>(key: Key, iv: seq<byte>, plaintext: P): (Ciphertext<P>, Tag<P>)
  {
    (Sealed(key, iv, plaintext), GcmTag(key, iv, plaintext))
  }

  /**
   * `decipher.update` + `final()` under `key`/`iv` with the given tag: the
   * plaintext when the box was sealed with this very key and IV and the tag is
   * the one sealing produced, `None` when `final()` throws.
   */
  function Open<P(==,!new)>(key: Key, iv: seq<byte>, ct: Ciphertext<P>, tag: Tag<P>): (r: Option<P>)
    ensures r.Some? ==> Seal(key, iv, r.value) == (ct, tag)
    ensures forall p :: Seal(key, iv, p) == (ct, tag) ==> r == Some(p)
  {
    if ct.Sealed? && ct.key == key && ct.iv == iv && tag == GcmTag(key, iv, ct.plaintext)
    then Some(ct.plaintext)
    else None
  }

  // ---------------------------------------------------------------- argon2 encoded hash

  /**
   * A stored verification hash: the encoded Argon2id string `argon2.hash`
   * returns without `raw`, or text that `argon2.verify` cannot parse.
   */
  datatype PasswordHash =
    | Argon2Encoded(password: string, salt: seq<byte>, timeCost: int, memoryCost: int, parallelism: int)
    | Malformed(text: string)

  // ---------------------------------------------------------------- HMAC

  datatype HmacAlgorithm = Sha256 | Sha512

  function DigestLength(alg: HmacAlgorithm): nat
  {
    match alg
    case Sha256 => 32
    case Sha512 => 64
  }

  /** Byte strings a signature header can decode to. */
  datatype SigBytes = Hmac(alg: HmacAlgorithm, secret: string, payload: string) | RawBytes(bytes: seq<byte>)

  function SigLength(s: SigBytes): nat
  {
    match s
    case Hmac(alg, _, _) => DigestLength(alg)
    case RawBytes(bs) => |bs|
  }

  // ---------------------------------------------------------------- P-256 ECDH

  /** A public key as received from a browser: a curve point or undecodable bytes. */
  datatype PublicKey = Point(keyPair: nat) | BadPoint(bytes: seq<byte>)

  /**
   * `ecdh.computeSecret(clientPub)` hashed with SHA-256, on the server's side;
   * `None` when the point is invalid and `computeSecret` throws.
   */
  function ServerAgreedKey(serverKeyPair: nat, clientPublic: PublicKey): Option<Key>
  {
    match clientPublic
    case Point(c) => Some(HandshakeKey(serverKeyPair, c))
    case BadPoint(_) => None
  }

  /** The same key, computed by the browser from its private key and the server's public key. */
  function ClientAgreedKey(serverPublic: nat, clientKeyPair: nat): Key
  {
    HandshakeKey(serverPublic, clientKeyPair)
  }

  lemma KeyAgreement(server: nat, client: nat)
    ensures ServerAgreedKey(server, Point(client)) == Some(ClientAgreedKey(server, client))
  {
  }
}

=== FILE: database.dfy ===
// The storage layer: the connection lifecycle, the migration planner, the
// de-duplicating e-mail index and the highest synced UID.  Tables are values:
// the `email_search` rows are a sequence in insertion order and the
// `migrations` table is the set of recorded file names.
module Database {
  import opened Wrappers
  import opened Text

  // ---------------------------------------------------------------- file names

  /**
   * The order of JavaScript's default `sort` on strings, compared character by
   * character (by scalar value), a prefix first. JavaScript compares UTF-16
   * code units instead; the two orders agree unless a character outside the
   * Basic Multilingual Plane meets one in U+E000..U+FFFF.
   */
  predicate LessEq(a: string, b: string)
    decreases |a|
  {
    |a| == 0 || (|b| > 0 && (a[0] < b[0] || (a[0] == b[0] && LessEq(a[1..], b[1..]))))
  }

  lemma {:induction false} LessEqTotal(a: string, b: string)
    ensures LessEq(a, b) || LessEq(b, a)
    decreases |a|
  {
    if |a| > 0 && |b| > 0 && a[0] == b[0] {
      LessEqTotal(a[1..], b[1..]);
    }
  }

  predicate Sorted(s: seq<string>)
  {
    forall i :: 0 < i < |s| ==> LessEq(s[i - 1], s[i])
  }

  function Insert(x: string, s: seq<string>): (r: seq<string>)
    requires Sorted(s)
    ensures Sorted(r) && multiset(r) == multiset(s) + multiset{x}
    ensures |r| > 0 && (r[0] == x || (|s| > 0 && r[0] == s[0]))
  {
    if |s| == 0 then [x]
    else if LessEq(x, s[0]) then [x] + s
    else
      LessEqTotal(x, s[0]);
      var rest := Insert(x, s[1..]);
      assert s == [s[0]] + s[1..];
      [s[0]] + rest
  }

  /** `Array.prototype.sort()` without a comparator: a sorted permutation. */
  function Sort(s: seq<string>): (r: seq<string>)
    ensures Sorted(r) && multiset(r) == multiset(s)
  {
    if |s| == 0 then []
    else
      assert s == [s[0]] + s[1..];
      Insert(s[0], Sort(s[1..]))
  }

  predicate EndsWith(s: string, suffix: string)
  {
    |suffix| <= |s| && s[|s| - |suffix|..] == suffix
  }

  function SqlFiles(names: seq<string>): (r: seq<string>)
    ensures forall x :: x in r <==> x in names && EndsWith(x, ".sql")
    ensures |r| <= |names|
  {
    if |names| == 0 then []
    else (if EndsWith(names[0], ".sql") then [names[0]] else []) + SqlFiles(names[1..])
  }

  // ---------------------------------------------------------------- migrations

  /** The reference plan: the sorted '.sql' files not yet recorded. */
  function Pending(listing: seq<string>, recorded: set<string>): seq<string>
  {
    var files := Sort(SqlFiles(listing));
    Unrecorded(files, recorded)
  }

  function Unrecorded(files: seq<string>, recorded: set<string>): (r: seq<string>)
    ensures forall x :: x in r <==> x in files && x !in recorded
  {
    if |files| == 0 then []
    else (if files[0] in recorded then [] else [files[0]]) + Unrecorded(files[1..], recorded)
  }

  predicate Distinct(s: seq<string>)
  {
    forall i, j :: 0 <= i < j < |s| ==> s[i] != s[j]
  }

  function Members(s: seq<string>): (r: set<string>)
    ensures forall x :: x in r <==> x in s
  {
    set x | x in s
  }

  /**
   * `runMigrations`: with no migrations directory nothing happens; otherwise
   * each pending file runs in its own transaction together with its record,
   * in sorted order, and the first file whose SQL fails ends the run
   * (`executes` says which files run cleanly).  `ran` lists the files
   * committed by this run.
   */
  method RunMigrations(directory: Option<seq<string>>, recorded: set<string>, executes: string -> bool)
    returns (recorded': set<string>, ran: seq<string>, failure: Option<string>)
    ensures directory.None? ==> recorded' == recorded && ran == [] && failure.None?
    ensures recorded' == recorded + Members(ran)
    ensures directory.Some? ==> ran <= Pending(directory.value, recorded)
    ensures directory.Some? && failure.None? ==> ran == Pending(directory.value, recorded)
    ensures failure.Some? ==>
              (directory.Some? && !executes(failure.value)
               && ran + [failure.value] <= Pending(directory.value, recorded))
    ensures forall x :: x in ran ==> executes(x)
  {
    if directory.None? {
      return recorded, [], None;
    }
    recorded', ran, failure := ApplyInOrder(Sort(SqlFiles(directory.value)), recorded, executes);
  }

  /** The loop of `runMigrations` over the sorted files: skip the recorded ones, stop at the first failure. */
  method ApplyInOrder(files: seq<string>, recorded: set<string>, executes: string -> bool)
    returns (recorded': set<string>, ran: seq<string>, failure: Option<string>)
    ensures recorded' == recorded + Members(ran)
    ensures ran <= Unrecorded(files, recorded)
    ensures failure.None? ==> ran == Unrecorded(files, recorded)
    ensures failure.Some? ==> !executes(failure.value) && ran + [failure.value] <= Unrecorded(files, recorded)
    ensures forall x :: x in ran ==> executes(x)
  {
    recorded' := recorded;
    ran := [];
    failure := None;
    var i := 0;
    while i < |files|
      invariant 0 <= i <= |files|
      invariant ran == Unrecorded(files[..i], recorded)
      invariant recorded' == recorded + Members(ran)
      invariant forall x :: x in ran ==> executes(x)
    {
      var f := files[i];
      Step(files, i, recorded);
      if f !in recorded {
        if !executes(f) {
          failure := Some(f);
          return;
        }
        ran := ran + [f];
        recorded' := recorded' + {f};
      }
      i := i + 1;
    }
    assert files[..i] == files;
    UnrecordedPrefix(files, i, recorded);
  }

  lemma Step(files: seq<string>, i: nat, recorded: set<string>)
    requires i < |files|
    ensures Unrecorded(files[..i + 1], recorded)
              == Unrecorded(files[..i], recorded) + (if files[i] in recorded then [] else [files[i]])
    ensures Unrecorded(files[..i + 1], recorded) <= Unrecorded(files, recorded)
  {
    assert files[..i + 1] == files[..i] + [files[i]];
    UnrecordedSnoc(files[..i], files[i], recorded);
    UnrecordedPrefix(files, i + 1, recorded);
  }

  lemma {:induction false} UnrecordedSnoc(files: seq<string>, x: string, recorded: set<string>)
    ensures Unrecorded(files + [x], recorded) == Unrecorded(files, recorded) + (if x in recorded then [] else [x])
  {
    if |files| == 0 {
      assert files + [x] == [x];
    } else {
      assert (files + [x])[1..] == files[1..] + [x];
      UnrecordedSnoc(files[1..], x, recorded);
    }
  }

  lemma {:induction false} UnrecordedPrefix(files: seq<string>, k: nat, recorded: set<string>)
    requires k <= |files|
    ensures Unrecorded(files[..k], recorded) <= Unrecorded(files, recorded)
  {
    if k > 0 {
      assert files[..k][1..] == files[1..][..k - 1];
      UnrecordedPrefix(files[1..], k - 1, recorded);
    }
  }

  /** A run that succeeds records every '.sql' file, so the next run has nothing to do. */
  lemma RerunAppliesNothing(listing: seq<string>, recorded: set<string>, ran: seq<string>)
    requires ran == Pending(listing, recorded)
    ensures Pending(listing, recorded + Members(ran)) == []
    ensures forall f :: f in listing && EndsWith(f, ".sql") ==> f in recorded + Members(ran)
  {
    var files := Sort(SqlFiles(listing));
    var after := recorded + Members(ran);
    forall f | f in listing && EndsWith(f, ".sql") ensures f in after {
      assert f in multiset(SqlFiles(listing));
      assert f in multiset(files);
      if f !in recorded {
        assert f in ran;
      }
    }
    forall f | f in files ensures f in after {
      assert f in multiset(files);
    }
    UnrecordedAllRecorded(files, after);
  }

  lemma {:induction false} UnrecordedAllRecorded(files: seq<string>, recorded: set<string>)
    requires forall f :: f in files ==> f in recorded
    ensures Unrecorded(files, recorded) == []
  {
    if |files| > 0 {
      assert files[0] in files;
      UnrecordedAllRecorded(files[1..], recorded);
    }
  }

  /** Every file is applied at most once: a run never repeats a file nor one already recorded. */
  lemma PendingDistinct(listing: seq<string>, recorded: set<string>)
    requires Distinct(listing)
    ensures Distinct(Pending(listing, recorded))
    ensures forall x :: x in Pending(listing, recorded) ==> x !in recorded
  {
    var sql := SqlFiles(listing);
    SqlFilesDistinct(listing);
    var files := Sort(sql);
    SortedDistinct(sql, files);
    UnrecordedDistinct(files, recorded);
  }

  lemma {:induction false} SqlFilesDistinct(names: seq<string>)
    requires Distinct(names)
    ensures Distinct(SqlFiles(names))
  {
    if |names| > 0 {
      SqlFilesDistinct(names[1..]);
      assert names[0] !in names[1..];
    }
  }

  lemma {:induction false} UnrecordedDistinct(files: seq<string>, recorded: set<string>)
    requires Distinct(files)
    ensures Distinct(Unrecorded(files, recorded))
  {
    if |files| > 0 {
      UnrecordedDistinct(files[1..], recorded);
      assert files[0] !in files[1..];
    }
  }

  /** A permutation of a duplicate-free sequence is duplicate-free. */
  lemma SortedDistinct(a: seq<string>, b: seq<string>)
    requires Distinct(a) && multiset(a) == multiset(b)
    ensures Distinct(b)
  {
    forall x ensures multiset(a)[x] <= 1 {
      DistinctCount(a, x);
    }
    forall i, j | 0 <= i < j < |b| ensures b[i] != b[j] {
      if b[i] == b[j] {
        TwoOccurrences(b, i, j);
        assert false;
      }
    }
  }

  lemma {:induction false} DistinctCount(s: seq<string>, x: string)
    requires Distinct(s)
    ensures multiset(s)[x] <= 1
  {
    if |s| > 0 {
      assert s == [s[0]] + s[1..];
      DistinctCount(s[1..], x);
      if s[0] == x {
        assert x !in s[1..];
      }
    }
  }

  lemma {:induction false} TwoOccurrences(s: seq<string>, i: nat, j: nat)
    requires i < j < |s| && s[i] == s[j]
    ensures multiset(s)[s[i]] >= 2
  {
    var x := s[i];
    assert s == s[..i] + [x] + s[i + 1..j] + [x] + s[j + 1..];
    assert multiset(s) == multiset(s[..i]) + multiset{x} + multiset(s[i + 1..j]) + multiset{x} + multiset(s[j + 1..]);
  }

  // ---------------------------------------------------------------- connection

  /** The database manager: whether a connection is open, and the tables on disk. */
  datatype Store = Store(open: bool, emails: seq<EmailRow>, migrations: set<string>)

  datatype DbError = NotInitialized

  /** `initialize` with the migrations applied: the connection opens over the same file. */
  function Open(d: Store): (r: Store)
    ensures r.open && r.emails == d.emails
  {
    d.(open := true)
  }

  /** `close`: closes an open connection; a second call does nothing. */
  function Close(d: Store): (r: Store)
    ensures !r.open && r.emails == d.emails && r.migrations == d.migrations
    ensures !d.open ==> r == d
  {
    if d.open then d.(open := false) else d
  }

  /** `getDb`: the connection, or an error before `initialize` and after `close`. */
  function GetDb(d: Store): (r: Result<(), DbError>)
    ensures r.Ok? <==> d.open
  {
    if d.open then Ok(()) else Err(NotInitialized)
  }

  lemma CloseIdempotent(d: Store)
    ensures Close(Close(d)) == Close(d)
    ensures GetDb(Close(d)) == Err(NotInitialized)
    ensures GetDb(Open(Close(d))).Ok?
  {
  }

  // ---------------------------------------------------------------- e-mail index

  /** A row of `email_search`; `messageId` holds the IMAP UID as text. */
  datatype EmailRow = EmailRow(
    messageId: string,
    accountId: string,
    folder: string,
    sender: string,
    recipients: string,
    subject: string,
    bodyText: string,
    attachments: string,
    date: string)

  predicate Stored(rows: seq<EmailRow>, messageId: string, accountId: string)
  {
    exists i :: 0 <= i < |rows| && rows[i].messageId == messageId && rows[i].accountId == accountId
  }

  /** No two rows share a message id and account. */
  predicate UniquePerAccount(rows: seq<EmailRow>)
  {
    forall i, j :: 0 <= i < j < |rows| ==>
      rows[i].messageId != rows[j].messageId || rows[i].accountId != rows[j].accountId
  }

  /** `saveEmail`: an already stored (message id, account) pair is left alone; otherwise the row is appended. */
  function SaveEmail(d: Store, row: EmailRow): (r: Result<Store, DbError>)
    ensures r.Err? <==> !d.open
    ensures r.Ok? ==> Stored(r.value.emails, row.messageId, row.accountId)
    ensures r.Ok? && Stored(d.emails, row.messageId, row.accountId) ==> r.value == d
    ensures r.Ok? && !Stored(d.emails, row.messageId, row.accountId) ==> r.value.emails == d.emails + [row]
  {
    if !d.open then Err(NotInitialized)
    else if Stored(d.emails, row.messageId, row.accountId) then Ok(d)
    else
      assert (d.emails + [row])[|d.emails|] == row;
      Ok(d.(emails := d.emails + [row]))
  }

  /** Saving the same e-mail twice is the same as saving it once. */
  lemma SaveEmailIdempotent(d: Store, row: EmailRow)
    requires d.open
    ensures SaveEmail(SaveEmail(d, row).value, row) == SaveEmail(d, row)
  {
  }

  /** The index never holds two rows for one message of one account. */
  lemma SaveEmailKeepsUnique(d: Store, row: EmailRow)
    requires d.open && UniquePerAccount(d.emails)
    ensures UniquePerAccount(SaveEmail(d, row).value.emails)
  {
    if !Stored(d.emails, row.messageId, row.accountId) {
      var rows := d.emails + [row];
      forall i, j | 0 <= i < j < |rows|
        ensures rows[i].messageId != rows[j].messageId || rows[i].accountId != rows[j].accountId
      {
        if j == |d.emails| {
          assert rows[i] == d.emails[i];
        }
      }
    }
  }

  /**
   * `CAST(message_id AS INTEGER)`: the leading integer, 0 when there is none.
   * SQLite skips only ASCII space, tab and the line breaks before the number,
   * where this reading skips all ECMAScript white space; the ids stored are
   * written by `String(uid)` and carry no white space, so the two agree on them.
   */
  function CastInteger(s: string): int
  {
    ParseInt(s).GetOr(0)
  }

  /** A message id written in decimal casts back to its number. */
  lemma CastIntegerOfDecimal(n: nat)
    ensures CastInteger(NatToDecimal(n)) == n
  {
    ParseIntOfDecimal(n);
  }

  /** A message id that starts with a letter or other non-numeric character casts to 0. */
  lemma CastIntegerOfWord(s: string)
    requires s != [] && !IsDigit(s[0]) && !IsJsSpace(s[0]) && s[0] != '-' && s[0] != '+'
    ensures CastInteger(s) == 0
  {
    assert TrimStart(s) == s;
  }

  predicate InFolder(r: EmailRow, accountId: string, folder: string)
  {
    r.accountId == accountId && r.folder == folder
  }

  /** `MAX(CAST(message_id AS INTEGER))` over the account's rows in the folder, `None` for no rows. */
  function MaxUid(rows: seq<EmailRow>, accountId: string, folder: string): (m: Option<int>)
    ensures m.None? <==> forall i :: 0 <= i < |rows| ==> !InFolder(rows[i], accountId, folder)
  {
    if |rows| == 0 then None
    else
      var last := rows[|rows| - 1];
      var rest := MaxUid(rows[..|rows| - 1], accountId, folder);
      if !InFolder(last, accountId, folder) then rest
      else
        var v := CastInteger(last.messageId);
        if rest.Some? && rest.value >= v then rest else Some(v)
  }

  /** The maximum bounds every matching row's UID and is the UID of one of them. */
  lemma {:induction false} MaxUidIsMaximum(rows: seq<EmailRow>, accountId: string, folder: string)
    ensures var m := MaxUid(rows, accountId, folder);
            m.Some? ==>
              (forall i :: 0 <= i < |rows| && InFolder(rows[i], accountId, folder) ==>
                 CastInteger(rows[i].messageId) <= m.value)
              && (exists i :: 0 <= i < |rows| && InFolder(rows[i], accountId, folder)
                   && CastInteger(rows[i].messageId) == m.value)
  {
    if |rows| > 0 {
      var init, last := rows[..|rows| - 1], rows[|rows| - 1];
      MaxUidIsMaximum(init, accountId, folder);
      assert forall i :: 0 <= i < |init| ==> init[i] == rows[i];
      var m := MaxUid(rows, accountId, folder);
      var rest := MaxUid(init, accountId, folder);
      var v := CastInteger(last.messageId);
      if m.Some? {
        if !InFolder(last, accountId, folder) || (rest.Some? && rest.value >= v) {
          assert m == rest;
          var k :| 0 <= k < |init| && InFolder(init[k], accountId, folder) && CastInteger(init[k].messageId) == rest.value;
          assert InFolder(rows[k], accountId, folder);
        } else {
          assert m == Some(v);
          assert InFolder(rows[|rows| - 1], accountId, folder) && CastInteger(rows[|rows| - 1].messageId) == v;
        }
      }
    }
  }

  /** `getLastSyncedUid`: the largest UID stored for the account's folder, `|| 0`. */
  function GetLastSyncedUid(d: Store, accountId: string, folder: string): (r: Result<int, DbError>)
    ensures r.Err? <==> !d.open
    ensures r.Ok? && (forall i :: 0 <= i < |d.emails| ==> !InFolder(d.emails[i], accountId, folder)) ==> r.value == 0
  {
    if !d.open then Err(NotInitialized)
    else Ok(MaxUid(d.emails, accountId, folder).GetOr(0))
  }

  /** Saving a message with a numeric UID makes the last synced UID at least that UID. */
  lemma SavedUidBoundsLast(d: Store, row: EmailRow, uid: nat)
    requires d.open && CastInteger(row.messageId) == uid
    ensures GetLastSyncedUid(SaveEmail(d, row).value, row.accountId, row.folder).value >= uid
              || Stored(d.emails, row.messageId, row.accountId)
  {
    var d' := SaveEmail(d, row).value;
    if !Stored(d.emails, row.messageId, row.accountId) {
      assert d'.emails[|d'.emails| - 1] == row;
      assert InFolder(d'.emails[|d'.emails| - 1], row.accountId, row.folder);
    }
  }
}

=== FILE: decoder.dfy ===
/**
 * `EmailDecoder.decode` and `decodeQuotedPrintable` (src/utils/decoder.ts),
 * quoted-printable as in section 6.7 of RFC 2045, at byte level: the result
 * is the byte sequence handed to the final UTF-8 decode. A JavaScript string
 * is a sequence of UTF-16 code units, so the input is one too.
 */
module Decoder {
  import opened Wrappers
  import opened Text

  type CodeUnit = x: int | 0 <= x < 0x1_0000
  type Utf16 = seq<CodeUnit>

  const Equals: CodeUnit := 0x3D
  const Cr: CodeUnit := 0x0D
  const Lf: CodeUnit := 0x0A

  predicate IsHighSurrogate(u: int) { 0xD800 <= u < 0xDC00 }
  predicate IsLowSurrogate(u: int) { 0xDC00 <= u < 0xE000 }

  /** A JavaScript string literal: each character as one code unit, or a surrogate pair above U+FFFF. */
  function Utf16Of(s: string): (r: Utf16)
  {
    if s == [] then []
    else
      var c := s[0] as int;
      (if c < 0x1_0000 then [c as CodeUnit]
       else [(0xD800 + (c - 0x1_0000) / 0x400) as CodeUnit, (0xDC00 + (c - 0x1_0000) % 0x400) as CodeUnit])
      + Utf16Of(s[1..])
  }

  /** The code units of a literal are as many as its JavaScript `length`. */
  lemma {:induction false} Utf16OfLength(s: string)
    ensures |Utf16Of(s)| == Utf16Length(s)
  {
    if s != [] {
      Utf16OfLength(s[1..]);
    }
  }

  /** ASCII text as code units. */
  function Ascii(s: string): (r: Utf16)
    requires forall i :: 0 <= i < |s| ==> s[i] as int < 128
    ensures |r| == |s| && forall i :: 0 <= i < |s| ==> r[i] == s[i] as int
  {
    seq(|s|, i requires 0 <= i < |s| => s[i] as int as CodeUnit)
  }

  // ---------------------------------------------------------------- UTF-8

  /** UTF-8 of a Unicode scalar value (RFC 3629, section 3). */
  function Utf8OfScalar(cp: int): (r: seq<byte>)
    requires 0 <= cp < 0x11_0000
    ensures 1 <= |r| <= 4
  {
    if cp < 0x80 then [cp]
    else if cp < 0x800 then [0xC0 + cp / 64, 0x80 + cp % 64]
    else if cp < 0x1_0000 then [0xE0 + cp / 4096, 0x80 + (cp / 64) % 64, 0x80 + cp % 64]
    else [0xF0 + cp / 0x4_0000, 0x80 + (cp / 4096) % 64, 0x80 + (cp / 64) % 64, 0x80 + cp % 64]
  }

  /** `Buffer.from(char, 'utf-8')` of a one-code-unit string: a lone surrogate becomes U+FFFD. */
  function Utf8OfCodeUnit(u: CodeUnit): (r: seq<byte>)
    ensures IsHighSurrogate(u) || IsLowSurrogate(u) ==> r == [0xEF, 0xBF, 0xBD]
    ensures !(IsHighSurrogate(u) || IsLowSurrogate(u)) ==> r == Utf8OfScalar(u)
  {
    if IsHighSurrogate(u) || IsLowSurrogate(u) then Utf8OfScalar(0xFFFD) else Utf8OfScalar(u)
  }

  /** UTF-8 of a whole string, the reference for decoding text that holds no escapes. */
  function Utf8Of(s: string): seq<byte>
  {
    if s == [] then [] else Utf8OfScalar(s[0] as int) + Utf8Of(s[1..])
  }

  // ---------------------------------------------------------------- soft line breaks

  /** `text.replace(/=\r?\n/g, '')`: one left-to-right pass. */
  function RemoveSoftBreaks(s: Utf16): (r: Utf16)
    ensures |r| <= |s|
  {
    if s == [] then []
    else if s[0] == Equals && |s| >= 2 && s[1] == Lf then RemoveSoftBreaks(s[2..])
    else if s[0] == Equals && |s| >= 3 && s[1] == Cr && s[2] == Lf then RemoveSoftBreaks(s[3..])
    else [s[0]] + RemoveSoftBreaks(s[1..])
  }

  lemma {:induction false} RemoveSoftBreaksNoEquals(s: Utf16)
    requires Equals !in s
    ensures RemoveSoftBreaks(s) == s
  {
    if s != [] {
      RemoveSoftBreaksNoEquals(s[1..]);
    }
  }

  /** Soft breaks vanish, and text without '=' before one is untouched. */
  lemma {:induction false} SoftBreakRemoved(a: Utf16, b: Utf16, crlf: bool)
    requires Equals !in a
    ensures RemoveSoftBreaks(a + (if crlf then [Equals, Cr, Lf] else [Equals, Lf]) + b) == a + RemoveSoftBreaks(b)
  {
    var brk: Utf16 := if crlf then [Equals, Cr, Lf] else [Equals, Lf];
    if a == [] {
      assert a + brk + b == brk + b;
      assert (brk + b)[|brk|..] == b;
    } else {
      var x := a + brk + b;
      calc {
        RemoveSoftBreaks(x);
      == { assert x[0] == a[0] && x[0] != Equals && x[1..] == a[1..] + brk + b; }
        [a[0]] + RemoveSoftBreaks(a[1..] + brk + b);
      == { SoftBreakRemoved(a[1..], b, crlf); }
        [a[0]] + (a[1..] + RemoveSoftBreaks(b));
      == { assert a == [a[0]] + a[1..]; }
        a + RemoveSoftBreaks(b);
      }
    }
  }

  // ---------------------------------------------------------------- hex escapes

  /** The value of a hexadecimal digit code unit, either case. */
  function HexUnit(u: CodeUnit): Option<nat>
    ensures HexUnit(u).Some? ==> HexUnit(u).value < 16
  {
    if 0x30 <= u <= 0x39 then Some(u - 0x30)
    else if 0x41 <= u <= 0x46 then Some(u - 0x41 + 10)
    else if 0x61 <= u <= 0x66 then Some(u - 0x61 + 10)
    else None
  }

  /** Whether an '=' starts a hex escape at the front of `s`: `i + 2 < length` and two hex digits. */
  predicate EscapeAt(s: Utf16)
  {
    |s| >= 3 && s[0] == Equals && HexUnit(s[1]).Some? && HexUnit(s[2]).Some?
  }

  function EscapeByte(s: Utf16): byte
    requires EscapeAt(s)
  {
    HexUnit(s[1]).value * 16 + HexUnit(s[2]).value
  }

  /** The byte loop exactly as written: each unescaped code unit is encoded on its own. */
  function DecodeUnitsAsWritten(s: Utf16): seq<byte>
  {
    if s == [] then []
    else if EscapeAt(s) then [EscapeByte(s)] + DecodeUnitsAsWritten(s[3..])
    else Utf8OfCodeUnit(s[0]) + DecodeUnitsAsWritten(s[1..])
  }

  /** The byte loop with a surrogate pair encoded as the one character it stands for. */
  function DecodeUnits(s: Utf16): seq<byte>
  {
    if s == [] then []
    else if EscapeAt(s) then [EscapeByte(s)] + DecodeUnits(s[3..])
    else if |s| >= 2 && IsHighSurrogate(s[0]) && IsLowSurrogate(s[1]) then
      var cp: int := 0x1_0000 + (s[0] as int - 0xD800) * 0x400 + (s[1] as int - 0xDC00);
      Utf8OfScalar(cp) + DecodeUnits(s[2..])
    else Utf8OfCodeUnit(s[0]) + DecodeUnits(s[1..])
  }

  /** `decodeQuotedPrintable` as written. */
  function DecodeQuotedPrintableAsWritten(text: Utf16): seq<byte>
  {
    DecodeUnitsAsWritten(RemoveSoftBreaks(text))
  }

  /** `decodeQuotedPrintable` with astral characters kept whole. */
  function DecodeQuotedPrintable(text: Utf16): seq<byte>
  {
    DecodeUnits(RemoveSoftBreaks(text))
  }

  /**
   * The loop of lines 23-45 as written: `i` walks the working text, an escape
   * consumes three code units, anything else one.
   */
  method DecodeLoop(work: Utf16) returns (bytes: seq<byte>)
    ensures bytes == DecodeUnitsAsWritten(work)
  {
    bytes := [];
    var i := 0;
    while i < |work|
      invariant 0 <= i <= |work|
      invariant bytes + DecodeUnitsAsWritten(work[i..]) == DecodeUnitsAsWritten(work)
      decreases |work| - i
    {
      var (chunk, next) := StepAt(work, i);
      ghost var tail := DecodeUnitsAsWritten(work[next..]);
      AppendAssoc(bytes, chunk, tail);
      bytes := bytes + chunk;
      i := next;
    }
    assert work[i..] == [];
  }

  lemma AppendAssoc(a: seq<byte>, b: seq<byte>, c: seq<byte>)
    ensures a + b + c == a + (b + c)
  {
  }

  /**
   * One pass of the loop body at `i`: a hex escape gives its byte and moves
   * three code units on, anything else gives its UTF-8 bytes and moves one.
   */
  function StepAt(work: Utf16, i: nat): (r: (seq<byte>, nat))
    requires i < |work|
    ensures i < r.1 <= |work|
    ensures DecodeUnitsAsWritten(work[i..]) == r.0 + DecodeUnitsAsWritten(work[r.1..])
  {
    var rest := work[i..];
    assert rest[0] == work[i];
    if work[i] == Equals && i + 2 < |work| && HexUnit(work[i + 1]).Some? && HexUnit(work[i + 2]).Some? then
      assert rest[1] == work[i + 1] && rest[2] == work[i + 2];
      assert EscapeAt(rest) && rest[3..] == work[i + 3..];
      ([HexUnit(work[i + 1]).value * 16 + HexUnit(work[i + 2]).value], i + 3)
    else
      assert |rest| >= 3 ==> rest[1] == work[i + 1] && rest[2] == work[i + 2];
      assert !EscapeAt(rest) && rest[1..] == work[i + 1..];
      (Utf8OfCodeUnit(work[i]), i + 1)
  }

  // ---------------------------------------------------------------- properties

  /** ASCII text without '=' decodes to its own bytes. */
  lemma {:induction false} AsciiWithoutEqualsUnchanged(s: Utf16)
    requires forall i :: 0 <= i < |s| ==> s[i] < 128 && s[i] != Equals
    ensures DecodeQuotedPrintable(s) == s && DecodeQuotedPrintableAsWritten(s) == s
  {
    RemoveSoftBreaksNoEquals(s);
    AsciiUnits(s);
  }

  lemma {:induction false} AsciiUnits(s: Utf16)
    requires forall i :: 0 <= i < |s| ==> s[i] < 128 && s[i] != Equals
    ensures DecodeUnits(s) == s && DecodeUnitsAsWritten(s) == s
  {
    if s != [] {
      AsciiUnits(s[1..]);
    }
  }

  /** An '=' that does not start a hex escape is kept as the byte 0x3D. */
  lemma LoneEqualsKept(rest: Utf16)
    requires !EscapeAt([Equals] + rest)
    ensures DecodeUnits([Equals] + rest) == [0x3D] + DecodeUnits(rest)
  {
    assert ([Equals] + rest)[1..] == rest;
  }

  /** The reference encoder: every byte as '=' and two upper-case hex digits. */
  function EscapeAll(bs: seq<byte>): (r: Utf16)
    ensures |r| == 3 * |bs|
  {
    if bs == [] then [] else ByteEscape(bs[0]) + EscapeAll(bs[1..])
  }

  /** One byte as '=' and two upper-case hex digits. */
  function ByteEscape(b: byte): (u: Utf16)
    ensures |u| == 3 && u[0] == Equals && u[1] != Lf && u[2] != Lf
    ensures EscapeAt(u) && EscapeByte(u) == b
  {
    [Equals, UpperHexUnit(b / 16), UpperHexUnit(b % 16)]
  }

  function UpperHexUnit(d: nat): (u: CodeUnit)
    requires d < 16
    ensures HexUnit(u) == Some(d)
  {
    if d < 10 then 0x30 + d else 0x41 + d - 10
  }

  lemma {:induction false} EscapeAllHasNoLineBreak(bs: seq<byte>)
    ensures Lf !in EscapeAll(bs)
  {
    if bs != [] {
      EscapeAllHasNoLineBreak(bs[1..]);
      var u := ByteEscape(bs[0]);
      assert Lf !in u;
    }
  }

  /** Escaping every byte and decoding gives the bytes back, so escaped UTF-8 sequences reassemble. */
  lemma DecodeEscapeAll(bs: seq<byte>)
    ensures DecodeQuotedPrintable(EscapeAll(bs)) == bs
    ensures DecodeQuotedPrintableAsWritten(EscapeAll(bs)) == bs
  {
    EscapeAllHasNoLineBreak(bs);
    RemoveSoftBreaksNoLf(EscapeAll(bs));
    DecodeUnitsEscapeAll(bs, []);
    DecodeUnitsAsWrittenEscapeAll(bs, []);
    assert EscapeAll(bs) + [] == EscapeAll(bs);
  }

  lemma {:induction false} EscapeAllHead(bs: seq<byte>, rest: Utf16)
    requires bs != []
    ensures var e := EscapeAll(bs) + rest;
            EscapeAt(e) && EscapeByte(e) == bs[0] && e[3..] == EscapeAll(bs[1..]) + rest
  {
    var u := ByteEscape(bs[0]);
    var tail := EscapeAll(bs[1..]) + rest;
    var e := EscapeAll(bs) + rest;
    assert e == u + tail;
    assert e[..3] == u;
  }

  /** Decoding consumes a run of escapes byte for byte, whatever follows it. */
  lemma {:induction false} DecodeUnitsEscapeAll(bs: seq<byte>, rest: Utf16)
    ensures DecodeUnits(EscapeAll(bs) + rest) == bs + DecodeUnits(rest)
  {
    if bs != [] {
      var e := EscapeAll(bs) + rest;
      calc {
        DecodeUnits(e);
      == { EscapeAllHead(bs, rest); }
        [bs[0]] + DecodeUnits(EscapeAll(bs[1..]) + rest);
      == { DecodeUnitsEscapeAll(bs[1..], rest); }
        [bs[0]] + (bs[1..] + DecodeUnits(rest));
      == { assert bs == [bs[0]] + bs[1..]; }
        bs + DecodeUnits(rest);
      }
    } else {
      assert EscapeAll(bs) + rest == rest;
    }
  }

  lemma {:induction false} DecodeUnitsAsWrittenEscapeAll(bs: seq<byte>, rest: Utf16)
    ensures DecodeUnitsAsWritten(EscapeAll(bs) + rest) == bs + DecodeUnitsAsWritten(rest)
  {
    if bs != [] {
      var e := EscapeAll(bs) + rest;
      calc {
        DecodeUnitsAsWritten(e);
      == { EscapeAllHead(bs, rest); }
        [bs[0]] + DecodeUnitsAsWritten(EscapeAll(bs[1..]) + rest);
      == { DecodeUnitsAsWrittenEscapeAll(bs[1..], rest); }
        [bs[0]] + (bs[1..] + DecodeUnitsAsWritten(rest));
      == { assert bs == [bs[0]] + bs[1..]; }
        bs + DecodeUnitsAsWritten(rest);
      }
    } else {
      assert EscapeAll(bs) + rest == rest;
    }
  }

  /** Plain ASCII without '=' in front passes through byte for byte. */
  lemma {:induction false} DecodeUnitsAsciiPrefix(a: Utf16, rest: Utf16)
    requires forall i :: 0 <= i < |a| ==> a[i] < 128 && a[i] != Equals
    ensures DecodeUnits(a + rest) == a + DecodeUnits(rest)
  {
    if a != [] {
      var x := a + rest;
      calc {
        DecodeUnits(x);
      == { assert x[0] == a[0] && x[1..] == a[1..] + rest; AsciiUnitStep(x); }
        [a[0]] + DecodeUnits(a[1..] + rest);
      == { DecodeUnitsAsciiPrefix(a[1..], rest); }
        [a[0]] + (a[1..] + DecodeUnits(rest));
      == { assert a == [a[0]] + a[1..]; }
        a + DecodeUnits(rest);
      }
    } else {
      assert a + rest == rest;
    }
  }

  lemma AsciiUnitStep(x: Utf16)
    requires x != [] && x[0] < 128 && x[0] != Equals
    ensures DecodeUnits(x) == [x[0]] + DecodeUnits(x[1..])
  {
    assert !EscapeAt(x) && !IsHighSurrogate(x[0]);
  }

  /** Characters outside the ASCII range become their UTF-8 bytes: literal text decodes to its UTF-8 encoding. */
  lemma {:induction false} LiteralTextDecodesToUtf8(s: string)
    requires '=' !in s
    ensures DecodeQuotedPrintable(Utf16Of(s)) == Utf8Of(s)
  {
    NoEqualsUnits(s);
    RemoveSoftBreaksNoEquals(Utf16Of(s));
    DecodeUnitsOfString(s);
  }

  lemma {:induction false} NoEqualsUnits(s: string)
    requires '=' !in s
    ensures Equals !in Utf16Of(s)
  {
    if s != [] {
      NoEqualsUnits(s[1..]);
    }
  }

  lemma {:induction false} DecodeUnitsOfString(s: string)
    requires '=' !in s
    ensures DecodeUnits(Utf16Of(s)) == Utf8Of(s)
  {
    if s != [] {
      var c := s[0] as int;
      var u := Utf16Of(s);
      DecodeUnitsOfString(s[1..]);
      if c < 0x1_0000 {
        assert u[0] == c && u[1..] == Utf16Of(s[1..]);
        assert !EscapeAt(u);
      } else {
        var hi := 0xD800 + (c - 0x1_0000) / 0x400;
        var lo := 0xDC00 + (c - 0x1_0000) % 0x400;
        assert u[0] == hi && u[1] == lo && u[2..] == Utf16Of(s[1..]);
        assert !EscapeAt(u);
        assert 0x1_0000 + (hi - 0xD800) * 0x400 + (lo - 0xDC00) == c;
      }
    }
  }

  /** The same holds as written only when every character lies in the Basic Multilingual Plane. */
  lemma {:induction false} BmpTextDecodesToUtf8AsWritten(s: string)
    requires '=' !in s
    requires forall i :: 0 <= i < |s| ==> (s[i] as int) < 0x1_0000
    ensures DecodeQuotedPrintableAsWritten(Utf16Of(s)) == Utf8Of(s)
  {
    NoEqualsUnits(s);
    RemoveSoftBreaksNoEquals(Utf16Of(s));
    BmpUnitsAsWritten(s);
  }

  lemma {:induction false} BmpUnitsAsWritten(s: string)
    requires '=' !in s
    requires forall i :: 0 <= i < |s| ==> (s[i] as int) < 0x1_0000
    ensures DecodeUnitsAsWritten(Utf16Of(s)) == Utf8Of(s)
  {
    if s != [] {
      var u := Utf16Of(s);
      assert u[0] == s[0] as int && u[1..] == Utf16Of(s[1..]);
      assert !EscapeAt(u);
      BmpUnitsAsWritten(s[1..]);
    }
  }

  /** A literal emoji is turned into two replacement characters instead of its own four bytes. */
  lemma AstralCharacterMangledAsWritten()
    ensures Utf16Of("\U{1F600}") == [0xD83D, 0xDE00]
    ensures DecodeQuotedPrintableAsWritten([0xD83D, 0xDE00]) == [0xEF, 0xBF, 0xBD, 0xEF, 0xBF, 0xBD]
    ensures Utf8Of("\U{1F600}") == [0xF0, 0x9F, 0x98, 0x80]
    ensures DecodeQuotedPrintable([0xD83D, 0xDE00]) == [0xF0, 0x9F, 0x98, 0x80]
  {
    var u: Utf16 := [0xD83D, 0xDE00];
    assert RemoveSoftBreaks(u) == u by {
      assert RemoveSoftBreaks(u[1..]) == u[1..];
    }
    assert !EscapeAt(u) && !EscapeAt(u[1..]);
    assert DecodeUnitsAsWritten(u[1..]) == [0xEF, 0xBF, 0xBD];
  }

  // ---------------------------------------------------------------- dispatch

  /** What `decode` does with a body: nothing, QP bytes, a base64 decode, or return it unchanged. */
  datatype Decoded = Empty | QuotedPrintable(bytes: seq<byte>) | Base64(source: Utf16) | Unchanged(text: Utf16)

  /** `'=C3'`, `'=\n'`, `'=\r\n'`: the auto-detection triggers. */
  predicate LooksQuotedPrintable(text: Utf16)
  {
    Contains(text, [Equals, 0x43, 0x33]) || Contains(text, [Equals, Lf]) || Contains(text, [Equals, Cr, Lf])
  }

  /**
   * `EmailDecoder.decode(text, encoding)` as written, with the per-code-unit
   * quoted-printable decoder; the encoding is compared after lower-casing.
   */
  function Decode(text: Utf16, encoding: Option<string>): (r: Decoded)
    ensures text == [] <==> r == Empty
    ensures r.QuotedPrintable? ==> r.bytes == DecodeQuotedPrintableAsWritten(text)
    ensures text != [] && encoding.Some? && Lower(encoding.value) == "quoted-printable" ==>
              r == QuotedPrintable(DecodeQuotedPrintableAsWritten(text))
    ensures text != [] && encoding.Some? && Lower(encoding.value) == "base64" ==> r == Base64(text)
    ensures text != [] && !(encoding.Some? && Lower(encoding.value) in {"quoted-printable", "base64"}) ==>
              (r.QuotedPrintable? <==> LooksQuotedPrintable(text))
              && (!LooksQuotedPrintable(text) ==> r == Unchanged(text))
  {
    if text == [] then Empty
    else
      var enc := if encoding.Some? then Some(Lower(encoding.value)) else None;
      if enc == Some("quoted-printable") then QuotedPrintable(DecodeQuotedPrintableAsWritten(text))
      else if enc == Some("base64") then Base64(text)
      else if LooksQuotedPrintable(text) then QuotedPrintable(DecodeQuotedPrintableAsWritten(text))
      else Unchanged(text)
  }

  /** The same dispatch with the corrected quoted-printable decoder, which keeps astral characters whole. */
  function DecodeCorrected(text: Utf16, encoding: Option<string>): (r: Decoded)
    ensures r.QuotedPrintable? <==> Decode(text, encoding).QuotedPrintable?
    ensures r.QuotedPrintable? ==> r.bytes == DecodeQuotedPrintable(text)
    ensures !r.QuotedPrintable? ==> r == Decode(text, encoding)
  {
    match Decode(text, encoding)
    case QuotedPrintable(_) => QuotedPrintable(DecodeQuotedPrintable(text))
    case other => other
  }

  /** As written, a body declared quoted-printable holding a literal emoji decodes to two replacement characters. */
  lemma DecodeEmojiAsWritten()
    ensures Decode(Utf16Of("\U{1F600}"), Some("quoted-printable")) == QuotedPrintable([0xEF, 0xBF, 0xBD, 0xEF, 0xBF, 0xBD])
    ensures DecodeCorrected(Utf16Of("\U{1F600}"), Some("quoted-printable")) == QuotedPrintable(Utf8Of("\U{1F600}"))
  {
    AstralCharacterMangledAsWritten();
    assert Lower("quoted-printable") == "quoted-printable";
  }

  /** The corrected dispatch turns any '='-free literal text declared quoted-printable into its UTF-8 bytes. */
  lemma DecodeCorrectedLiteralText(s: string)
    requires '=' !in s && s != []
    ensures DecodeCorrected(Utf16Of(s), Some("quoted-printable")) == QuotedPrintable(Utf8Of(s))
  {
    assert Lower("quoted-printable") == "quoted-printable";
    assert Utf16Of(s) != [];
    LiteralTextDecodesToUtf8(s);
  }

  /** On Basic Multilingual Plane text the two dispatchers agree. */
  lemma DecodeAgreesOnBmpText(s: string, encoding: Option<string>)
    requires '=' !in s
    requires forall i :: 0 <= i < |s| ==> (s[i] as int) < 0x1_0000
    ensures DecodeCorrected(Utf16Of(s), encoding) == Decode(Utf16Of(s), encoding)
  {
    var t := Utf16Of(s);
    if Decode(t, encoding).QuotedPrintable? {
      LiteralTextDecodesToUtf8(s);
      BmpTextDecodesToUtf8AsWritten(s);
      assert DecodeQuotedPrintable(t) == DecodeQuotedPrintableAsWritten(t);
    }
  }

  /** Worked example: an accented word written with two escapes. */
  lemma DecodeAccentExample()
    ensures DecodeQuotedPrintable([0x70, 0x69] + EscapeAll([0xC3, 0xA8]) + [0x63, 0x65]) == Utf8Of("pi\U{E8}ce")
  {
    var pi: Utf16 := [0x70, 0x69];
    var ce: Utf16 := [0x63, 0x65];
    var mid := EscapeAll([0xC3, 0xA8]);
    var a := pi + mid + ce;
    assert a == pi + (mid + ce);
    assert Lf !in a by {
      EscapeAllHasNoLineBreak([0xC3, 0xA8]);
    }
    RemoveSoftBreaksNoLf(a);
    DecodeUnitsAsciiPrefix(pi, mid + ce);
    DecodeUnitsEscapeAll([0xC3, 0xA8], ce);
    DecodeUnitsAsciiPrefix(ce, []);
    assert ce + [] == ce;
    assert DecodeQuotedPrintable(a) == [0x70, 0x69, 0xC3, 0xA8, 0x63, 0x65];
    Utf8OfAccentWord();
  }

  lemma Utf8OfAccentWord()
    ensures Utf8Of("pi\U{E8}ce") == [0x70, 0x69, 0xC3, 0xA8, 0x63, 0x65]
  {
    var w := "pi\U{E8}ce";
    assert Utf8Of(w[4..]) == [0x65] by { assert w[4..][1..] == []; }
    assert Utf8Of(w[3..]) == [0x63, 0x65] by { assert w[3..][1..] == w[4..]; }
    assert Utf8Of(w[2..]) == [0xC3, 0xA8, 0x63, 0x65] by { assert w[2..][1..] == w[3..]; }
    assert Utf8Of(w[1..]) == [0x69, 0xC3, 0xA8, 0x63, 0x65] by { assert w[1..][1..] == w[2..]; }
  }

  /** Worked example: an emoji written as four escapes. */
  lemma DecodeEmojiExample()
    ensures DecodeQuotedPrintable(EscapeAll([0xF0, 0x9F, 0x8E, 0x89])) == Utf8Of("\U{1F389}")
  {
    DecodeEscapeAll([0xF0, 0x9F, 0x8E, 0x89]);
    Utf8OfPartyPopper();
  }

  lemma Utf8OfPartyPopper()
    ensures Utf8Of("\U{1F389}") == [0xF0, 0x9F, 0x8E, 0x89]
  {
    assert Utf8OfScalar(0x1F389) == [0xF0, 0x9F, 0x8E, 0x89];
    assert Utf8Of("\U{1F389}") == Utf8OfScalar(0x1F389) + Utf8Of([]);
  }

  lemma {:induction false} RemoveSoftBreaksNoLf(s: Utf16)
    requires Lf !in s
    ensures RemoveSoftBreaks(s) == s
  {
    if s != [] {
      RemoveSoftBreaksNoLf(s[1..]);
    }
  }
}

=== FILE: directive_engine.dfy ===
/**
 * `DirectiveEngine.evaluateEmail` and its helpers
 * (src/directives/directive-engine.ts): which directives fire for an email.
 * The clock is a parameter (weekday, hour, minute) and the `regex` operator
 * is an oracle that answers `None` when the pattern does not compile.
 */
module DirectiveEngine {
  import opened Wrappers
  import opened Text
  import opened Types

  /** `new Date()` as the engine reads it: `getDay()`, `getHours()`, `getMinutes()`. */
  datatype Clock = Clock(day: int, hours: int, minutes: int)

  /** `new RegExp(pattern, ignoreCase ? 'i' : '').test(subject)`, `None` when the constructor throws. */
  type RegexTest = (string, bool, string) -> Option<bool>

  // ---------------------------------------------------------------- time window

  /**
   * `Number(s) || 0` for one piece of "HH:MM": the piece is trimmed, may carry
   * a sign or a `0x`/`0o`/`0b` prefix, and reads as 0 when empty or not a number.
   */
  function NumberOrZero(s: string): (n: int)
    ensures Trim(s) == [] ==> n == 0
    ensures IsDecimal(Trim(s)) ==> n == DigitsValue(Trim(s))
  {
    match StringToInteger(s)
    case Some(v) => v
    case None => 0
  }

  /** White space around a piece does not change what it reads as. */
  lemma NumberOrZeroIgnoresSpace(w1: string, s: string, w2: string)
    requires AllSpace(w1) && AllSpace(w2)
    ensures NumberOrZero(w1 + s + w2) == NumberOrZero(s)
  {
    StringToIntegerIgnoresSpace(w1, s, w2);
  }

  /** A hexadecimal piece is read in base 16, as `Number` does. */
  lemma NumberOrZeroOfHex()
    ensures NumberOrZero("0x1F") == 31
  {
    assert "1F"[..1] == "1" && RadixDigit('F', 16) == Some(15);
    StringToIntegerOfRadix('x', "1F", 31);
    assert ['0', 'x'] + "1F" == "0x1F";
  }

  /** `const [h, m] = s.split(':').map(Number); (h || 0) * 60 + (m || 0)` */
  function MinutesOf(s: string): int
  {
    var parts := Split(s, ':');
    var h := NumberOrZero(parts[0]);
    var m := if |parts| > 1 then NumberOrZero(parts[1]) else 0;
    h * 60 + m
  }

  /** `isInTimeWindow`: today is listed and start <= now <= end, both bounds included. */
  predicate InTimeWindow(w: TimeWindow, clock: Clock)
    ensures InTimeWindow(w, clock) ==> clock.day in w.days && MinutesOf(w.start) <= MinutesOf(w.end)
  {
    clock.day in w.days && MinutesOf(w.start) <= clock.hours * 60 + clock.minutes <= MinutesOf(w.end)
  }

  /** Both bounds of a window are inside it on a listed day. */
  lemma WindowBoundsIncluded(w: TimeWindow, clock: Clock)
    requires clock.day in w.days && MinutesOf(w.start) <= MinutesOf(w.end)
    requires clock.hours * 60 + clock.minutes in {MinutesOf(w.start), MinutesOf(w.end)}
    ensures InTimeWindow(w, clock)
  {
  }

  /** A canonical "H:M" bound reads back as H * 60 + M minutes. */
  lemma MinutesOfDecimal(h: nat, m: nat)
    ensures MinutesOf(NatToDecimal(h) + ":" + NatToDecimal(m)) == h * 60 + m
  {
    var hs, ms := NatToDecimal(h), NatToDecimal(m);
    assert ':' !in hs;
    assert ':' !in ms;
    SplitAtSeparator(hs, ':', ms);
    SplitWithoutSeparator(ms, ':');
    assert hs + ":" + ms == hs + [':'] + ms;
    StringToIntegerOfDecimal(h);
    StringToIntegerOfDecimal(m);
  }

  /** A bound without a colon is a number of hours. */
  lemma MinutesOfHoursOnly(s: string)
    requires ':' !in s
    ensures MinutesOf(s) == 60 * NumberOrZero(s)
  {
    SplitWithoutSeparator(s, ':');
  }

  /** The pieces of "H:M" for a minute piece without a colon. */
  lemma MinutesOfPieces(h: string, m: string)
    requires ':' !in h && ':' !in m
    ensures MinutesOf(h + ":" + m) == NumberOrZero(h) * 60 + NumberOrZero(m)
  {
    SplitAtSeparator(h, ':', m);
    SplitWithoutSeparator(m, ':');
    assert h + ":" + m == h + [':'] + m;
  }

  /** A space before the hour is skipped, as `Number` trims it. */
  lemma MinutesOfSpacedHour(h: nat, m: nat)
    ensures MinutesOf(" " + NatToDecimal(h) + ":" + NatToDecimal(m)) == h * 60 + m
  {
    var hs, ms := NatToDecimal(h), NatToDecimal(m);
    assert NumberOrZero(" " + hs) == h by {
      NumberOrZeroIgnoresSpace(" ", hs, "");
      assert " " + hs + "" == " " + hs;
      StringToIntegerOfDecimal(h);
    }
    assert NumberOrZero(ms) == m by {
      StringToIntegerOfDecimal(m);
    }
    assert ':' !in " " + hs && ':' !in ms;
    MinutesOfPieces(" " + hs, ms);
  }

  /**
   * A negative hour keeps its sign while the minutes still add, so "-1:30"
   * is half an hour before midnight rather than an hour and a half.
   */
  lemma MinutesOfNegativeHour(h: nat, m: nat)
    ensures MinutesOf("-" + NatToDecimal(h) + ":" + NatToDecimal(m)) == -(h as int) * 60 + m
  {
    var hs, ms := NatToDecimal(h), NatToDecimal(m);
    assert NumberOrZero("-" + hs) == -(h as int) by {
      StringToIntegerOfSigned(h);
    }
    assert NumberOrZero(ms) == m by {
      StringToIntegerOfDecimal(m);
    }
    assert ':' !in "-" + hs && ':' !in ms;
    MinutesOfPieces("-" + hs, ms);
  }

  /** A window whose start lies after its end matches at no time of any day. */
  lemma InvertedWindowNeverMatches(w: TimeWindow, clock: Clock)
    requires MinutesOf(w.start) > MinutesOf(w.end)
    ensures !InTimeWindow(w, clock)
  {
  }

  // ---------------------------------------------------------------- conditions

  function Addresses(xs: seq<EmailAddress>): (r: seq<string>)
    ensures |r| == |xs| && forall i :: 0 <= i < |xs| ==> r[i] == xs[i].address
  {
    seq(|xs|, i requires 0 <= i < |xs| => xs[i].address)
  }

  /** The text a condition inspects; `attachments` and `date` have none. */
  function FieldText(f: ConditionField, e: EmailMessage): (r: Option<string>)
    ensures r.None? <==> f == Attachments || f == Date
  {
    match f
    case Sender => Some(e.from.address)
    case Recipient => Some(Join(Addresses(e.to), ", "))
    case Subject => Some(e.subject)
    case Body => Some(e.bodyText.GetOr(""))
    case Folder => Some(e.folder)
    case Flags => Some(Join(e.flags, ", "))
    case Attachments => None
    case Date => None
  }

  function LowerAll(xs: seq<string>): (r: seq<string>)
    ensures |r| == |xs| && forall i :: 0 <= i < |xs| ==> r[i] == Lower(xs[i])
  {
    seq(|xs|, i requires 0 <= i < |xs| => Lower(xs[i]))
  }

  /** `evaluateCondition`. */
  function EvaluateCondition(c: Condition, e: EmailMessage, regex: RegexTest): (r: bool)
    ensures FieldText(c.field, e).None? ==> !r
    ensures c.operator == OpGreaterThan || c.operator == OpLessThan ==> !r
    ensures c.operator == OpIn && c.value.Single? ==> !r
    ensures c.operator == OpNotIn && c.value.Single? ==> (r <==> FieldText(c.field, e).Some?)
    ensures c.operator == OpRegex && FieldText(c.field, e).Some? ==>
              (r <==> regex(if c.value.Single? then c.value.text else "", !c.caseSensitive,
                            FieldText(c.field, e).value) == Some(true))
  {
    match FieldText(c.field, e)
    case None => false
    case Some(fieldValue) =>
      var compare := if c.caseSensitive then fieldValue else Lower(fieldValue);
      var target := if c.value.Many? then "" else if c.caseSensitive then c.value.text else Lower(c.value.text);
      match c.operator
      case OpEquals => compare == target
      case OpNotEquals => compare != target
      case OpContains => Contains(compare, target)
      case OpNotContains => !Contains(compare, target)
      case OpRegex =>
        (match regex(if c.value.Single? then c.value.text else "", !c.caseSensitive, fieldValue)
         case None => false
         case Some(b) => b)
      case OpIn =>
        if c.value.Many? then compare in (if c.caseSensitive then c.value.items else LowerAll(c.value.items))
        else false
      case OpNotIn =>
        if c.value.Many? then compare !in (if c.caseSensitive then c.value.items else LowerAll(c.value.items))
        else true
      case OpGreaterThan => false
      case OpLessThan => false
  }

  /** On a field that exists, each negated operator answers the opposite of its positive twin. */
  lemma NegatedOperators(c: Condition, e: EmailMessage, regex: RegexTest)
    requires FieldText(c.field, e).Some?
    ensures EvaluateCondition(c.(operator := OpNotEquals), e, regex) == !EvaluateCondition(c.(operator := OpEquals), e, regex)
    ensures EvaluateCondition(c.(operator := OpNotContains), e, regex) == !EvaluateCondition(c.(operator := OpContains), e, regex)
    ensures c.value.Many? ==>
              EvaluateCondition(c.(operator := OpNotIn), e, regex) == !EvaluateCondition(c.(operator := OpIn), e, regex)
  {
  }

  /** Without caseSensitive, 'equals' and 'contains' compare lower-cased text on both sides. */
  lemma CaseInsensitiveCompare(c: Condition, e: EmailMessage, regex: RegexTest)
    requires !c.caseSensitive && c.value.Single? && FieldText(c.field, e).Some?
    ensures c.operator == OpEquals ==>
              (EvaluateCondition(c, e, regex) <==> Lower(FieldText(c.field, e).value) == Lower(c.value.text))
    ensures c.operator == OpContains ==>
              (EvaluateCondition(c, e, regex) <==>
               exists i :: OccursAt(Lower(FieldText(c.field, e).value), Lower(c.value.text), i))
    ensures c.operator != OpRegex ==>
              EvaluateCondition(c.(value := Single(Lower(c.value.text))), e, regex) == EvaluateCondition(c, e, regex)
  {
    ContainsIff(Lower(FieldText(c.field, e).value), Lower(c.value.text));
    LowerIdempotent(c.value.text);
  }

  /** A list value under 'equals' or 'contains' is compared against the empty string. */
  lemma ListValueComparesEmpty(c: Condition, e: EmailMessage, regex: RegexTest)
    requires c.value.Many? && FieldText(c.field, e).Some?
    ensures c.operator == OpEquals ==> (EvaluateCondition(c, e, regex) <==>
              (if c.caseSensitive then FieldText(c.field, e).value else Lower(FieldText(c.field, e).value)) == "")
    ensures c.operator == OpContains ==> EvaluateCondition(c, e, regex)
  {
    var t := if c.caseSensitive then FieldText(c.field, e).value else Lower(FieldText(c.field, e).value);
    assert OccursAt(t, "", 0);
    ContainsIff(t, "");
  }

  // ---------------------------------------------------------------- combination

  /** `results.every(Boolean)` */
  function AllHold(cs: seq<Condition>, e: EmailMessage, regex: RegexTest): (r: bool)
    ensures r <==> forall i :: 0 <= i < |cs| ==> EvaluateCondition(cs[i], e, regex)
  {
    if cs == [] then true
    else EvaluateCondition(cs[0], e, regex) && AllHold(cs[1..], e, regex)
  }

  /** `results.some(Boolean)` */
  function AnyHolds(cs: seq<Condition>, e: EmailMessage, regex: RegexTest): (r: bool)
    ensures r <==> exists i :: 0 <= i < |cs| && EvaluateCondition(cs[i], e, regex)
  {
    if cs == [] then false
    else EvaluateCondition(cs[0], e, regex) || AnyHolds(cs[1..], e, regex)
  }

  /** Whether directive `d` fires: active, inside its window if it has one, and its conditions pass. */
  predicate Fires(d: Directive, e: EmailMessage, clock: Clock, regex: RegexTest)
    ensures Fires(d, e, clock, regex) ==> d.active
    ensures Fires(d, e, clock, regex) && d.trigger.timeWindow.Some? ==> clock.day in d.trigger.timeWindow.value.days
    ensures d.trigger.conditions == [] ==>
              (Fires(d, e, clock, regex) <==>
                 d.active && d.trigger.matchAll
                 && (d.trigger.timeWindow.Some? ==> InTimeWindow(d.trigger.timeWindow.value, clock)))
  {
    && d.active
    && (d.trigger.timeWindow.Some? ==> InTimeWindow(d.trigger.timeWindow.value, clock))
    && (if d.trigger.matchAll then AllHold(d.trigger.conditions, e, regex)
        else AnyHolds(d.trigger.conditions, e, regex))
  }

  /** The loop of `evaluateEmail`: the firing directives, in input order. */
  function Matching(ds: seq<Directive>, e: EmailMessage, clock: Clock, regex: RegexTest): (r: seq<Directive>)
    ensures forall d :: d in r <==> d in ds && Fires(d, e, clock, regex)
    ensures |r| <= |ds|
  {
    if ds == [] then []
    else
      var rest := Matching(ds[1..], e, clock, regex);
      assert forall d :: d in ds <==> d == ds[0] || d in ds[1..];
      if Fires(ds[0], e, clock, regex) then [ds[0]] + rest else rest
  }

  // ---------------------------------------------------------------- priority order

  predicate SortedByPriority(s: seq<Directive>)
  {
    forall i, j :: 0 <= i < j < |s| ==> s[i].priority <= s[j].priority
  }

  /** The directives of priority `p`, in order. */
  function WithPriority(s: seq<Directive>, p: int): seq<Directive>
  {
    if s == [] then [] else (if s[0].priority == p then [s[0]] else []) + WithPriority(s[1..], p)
  }

  /** Place `x` before the first element whose priority is not below its own. */
  function Insert(x: Directive, s: seq<Directive>): (r: seq<Directive>)
    ensures |r| == |s| + 1
    ensures r[0] == x || (s != [] && r[0] == s[0])
    ensures multiset(r) == multiset(s) + multiset{x}
  {
    if s == [] then [x]
    else if x.priority <= s[0].priority then [x] + s
    else
      var t := Insert(x, s[1..]);
      assert s == [s[0]] + s[1..];
      [s[0]] + t
  }

  /** Inserting into a priority-sorted list keeps it sorted. */
  lemma {:induction false} InsertSorted(x: Directive, s: seq<Directive>)
    requires SortedByPriority(s)
    ensures SortedByPriority(Insert(x, s))
  {
    if s != [] && x.priority > s[0].priority {
      SortedTail(s);
      InsertSorted(x, s[1..]);
      InsertBounded(x, s[1..], s[0].priority);
      SortedCons(s[0], Insert(x, s[1..]));
    } else if s != [] {
      SortedCons(x, s);
    }
  }

  lemma SortedTail(s: seq<Directive>)
    requires s != [] && SortedByPriority(s)
    ensures SortedByPriority(s[1..]) && forall i :: 0 <= i < |s[1..]| ==> s[1..][i].priority >= s[0].priority
  {
  }

  /** A sorted list stays sorted under a head no higher than any of its elements. */
  lemma SortedCons(h: Directive, t: seq<Directive>)
    requires SortedByPriority(t) && forall i :: 0 <= i < |t| ==> t[i].priority >= h.priority
    ensures SortedByPriority([h] + t)
  {
    var r := [h] + t;
    forall i, j | 0 <= i < j < |r| ensures r[i].priority <= r[j].priority {
      assert r[j] == t[j - 1];
      if i > 0 {
        assert r[i] == t[i - 1];
      }
    }
  }

  /** Every element after an insertion is at least a bound that `x` and all of `s` meet. */
  lemma {:induction false} InsertBounded(x: Directive, s: seq<Directive>, b: int)
    requires x.priority >= b && forall i :: 0 <= i < |s| ==> s[i].priority >= b
    ensures forall i :: 0 <= i < |Insert(x, s)| ==> Insert(x, s)[i].priority >= b
  {
    if s != [] && x.priority > s[0].priority {
      InsertBounded(x, s[1..], b);
      var t := Insert(x, s[1..]);
      assert Insert(x, s) == [s[0]] + t;
      forall i | 0 < i < |Insert(x, s)| ensures Insert(x, s)[i].priority >= b {
        assert Insert(x, s)[i] == t[i - 1];
      }
    }
  }

  /** `Array.prototype.sort` with `(a, b) => a.priority - b.priority`, which is stable. */
  function SortByPriority(s: seq<Directive>): (r: seq<Directive>)
    ensures SortedByPriority(r)
    ensures multiset(r) == multiset(s)
  {
    if s == [] then []
    else
      assert s == [s[0]] + s[1..];
      InsertSorted(s[0], SortByPriority(s[1..]));
      Insert(s[0], SortByPriority(s[1..]))
  }

  lemma {:induction false} WithPriorityConcat(a: seq<Directive>, b: seq<Directive>, p: int)
    ensures WithPriority(a + b, p) == WithPriority(a, p) + WithPriority(b, p)
  {
    if a != [] {
      assert (a + b)[0] == a[0] && (a + b)[1..] == a[1..] + b;
      WithPriorityConcat(a[1..], b, p);
    } else {
      assert a + b == b;
    }
  }

  lemma {:induction false} InsertStable(x: Directive, s: seq<Directive>, p: int)
    ensures WithPriority(Insert(x, s), p) == WithPriority([x] + s, p)
  {
    if s != [] && x.priority > s[0].priority {
      InsertStable(x, s[1..], p);
      WithPriorityConcat([s[0]], Insert(x, s[1..]), p);
      WithPriorityConcat([x], s[1..], p);
      WithPriorityConcat([x, s[0]], s[1..], p);
      WithPriorityConcat([x], [s[0]], p);
      assert [x] + s == [x, s[0]] + s[1..];
    }
  }

  /** Sorting keeps directives of equal priority in their input order. */
  lemma {:induction false} SortStable(s: seq<Directive>, p: int)
    ensures WithPriority(SortByPriority(s), p) == WithPriority(s, p)
  {
    if s != [] {
      SortStable(s[1..], p);
      InsertStable(s[0], SortByPriority(s[1..]), p);
      WithPriorityConcat([s[0]], SortByPriority(s[1..]), p);
      WithPriorityConcat([s[0]], s[1..], p);
      assert s == [s[0]] + s[1..];
    }
  }

  /** `evaluateEmail`. */
  function EvaluateEmail(e: EmailMessage, ds: seq<Directive>, clock: Clock, regex: RegexTest): (r: seq<Directive>)
    ensures SortedByPriority(r)
    ensures multiset(r) == multiset(Matching(ds, e, clock, regex))
    ensures forall d :: d in r <==> d in ds && Fires(d, e, clock, regex)
  {
    var m := Matching(ds, e, clock, regex);
    var r := SortByPriority(m);
    assert forall d :: d in r <==> d in multiset(r);
    assert forall d :: d in m <==> d in multiset(m);
    r
  }

  /** Only active directives come back, and equal priorities keep their input order. */
  lemma EvaluateEmailProperties(e: EmailMessage, ds: seq<Directive>, clock: Clock, regex: RegexTest, p: int)
    ensures forall d :: d in EvaluateEmail(e, ds, clock, regex) ==> d.active
    ensures WithPriority(EvaluateEmail(e, ds, clock, regex), p) == WithPriority(Matching(ds, e, clock, regex), p)
  {
    SortStable(Matching(ds, e, clock, regex), p);
  }

  /** With matchAll every condition must hold; otherwise one is enough. */
  lemma MatchAllIsConjunction(d: Directive, e: EmailMessage, clock: Clock, regex: RegexTest)
    requires d.active && d.trigger.timeWindow.None?
    ensures d.trigger.matchAll ==>
              (Fires(d, e, clock, regex) <==> forall i :: 0 <= i < |d.trigger.conditions| ==>
                                               EvaluateCondition(d.trigger.conditions[i], e, regex))
    ensures !d.trigger.matchAll ==>
              (Fires(d, e, clock, regex) <==> exists i :: 0 <= i < |d.trigger.conditions| &&
                                               EvaluateCondition(d.trigger.conditions[i], e, regex))
  {
  }
}

=== FILE: encryption.dfy ===
/**
 * `EncryptionService` (src/security/encryption.ts): master-key derivation,
 * the in-memory key slot, the AES-256-GCM envelope, the Argon2 verification
 * hash and HMAC signing. Randomness (salts, IVs, secrets) and whether the
 * argon2 package could be loaded are parameters.
 */
module Encryption {
  import opened Wrappers
  import opened Text
  import opened Crypto

  const IvLength := 12
  const TagLength := 16
  const CurrentVersion := 1

  datatype Error =
    | Argon2Unavailable        // the dynamic import of argon2 failed
    | Argon2Rejected           // argon2.hash refuses its salt or cost parameters
    | MalformedHash            // argon2.verify cannot parse the stored hash
    | InvalidSaltLength        // crypto.randomBytes rejects the requested size
    | MasterKeyNotSet
    | AuthTagMismatch          // decipher.final() throws
    | SignatureLengthMismatch  // crypto.timingSafeEqual throws

  /** `Partial<KeyDerivationConfig>`: every field may be missing. */
  datatype PartialKdfConfig = PartialKdfConfig(
    timeCost: Option<int>, memoryCost: Option<int>, parallelism: Option<int>, saltLength: Option<int>)

  const NoConfig := PartialKdfConfig(None, None, None, None)

  /** The parameters `deriveMasterKey` uses: each supplied value, else its default. */
  function DerivationConfig(c: PartialKdfConfig): KdfParams
  {
    KdfParams(Argon2id, c.timeCost.GetOr(3), c.memoryCost.GetOr(65536),
              c.parallelism.GetOr(4), c.saltLength.GetOr(32))
  }

  lemma DefaultDerivationConfig()
    ensures DerivationConfig(NoConfig) == KdfParams(Argon2id, 3, 65536, 4, 32)
  {
  }

  /**
   * The input limits of the Argon2 reference implementation that the argon2
   * package binds and checks before hashing: a salt of 8 to 2^32-1 bytes, 1 to
   * 2^32-1 passes, 1 to 2^24-1 lanes, and 8 KiB per lane up to 2^32-1 KiB of
   * memory.
   */
  predicate Argon2Accepts(saltBytes: int, timeCost: int, memoryCost: int, parallelism: int)
  {
    8 <= saltBytes <= 0xFFFF_FFFF && 1 <= timeCost <= 0xFFFF_FFFF
    && 1 <= parallelism <= 0xFF_FFFF && 8 * parallelism <= memoryCost <= 0xFFFF_FFFF
  }

  /** `argon2.hash` accepts a salt of `saltBytes` bytes under the parameters `p`. */
  predicate ParamsAccepted(saltBytes: int, p: KdfParams)
  {
    Argon2Accepts(saltBytes, p.timeCost, p.memoryCost, p.parallelism)
  }

  /** The default parameters with a 32-byte salt are within argon2's limits. */
  lemma DefaultsAccepted()
    ensures ParamsAccepted(32, DerivationConfig(NoConfig))
    ensures Argon2Accepts(32, 3, 65536, 4)
  {
  }

  datatype Derived = Derived(key: Key, salt: string, config: KdfParams)

  /** A salt argument counts only when it is a non-empty string (`salt ? … : …`). */
  predicate SaltSupplied(salt: Option<string>)
  {
    salt.Some? && salt.value != ""
  }

  /**
   * `deriveMasterKey(password, salt?, config?)`. `randomSalt` stands for the
   * bytes `crypto.randomBytes(saltLength)` returns when no salt is supplied,
   * which are exactly `saltLength` many (`RandomSaltHasConfiguredLength`).
   */
  function DeriveMasterKey(argon2Loaded: bool, password: string, salt: Option<string>,
                           config: PartialKdfConfig, randomSalt: seq<byte>): (r: Result<Derived, Error>)
    ensures !argon2Loaded ==> r == Err(Argon2Unavailable)
    ensures r.Ok? ==> r.value.config == DerivationConfig(config)
    ensures r.Ok? ==> r.value.key == Argon2Raw(password, HexDecode(r.value.salt), r.value.config)
    ensures r.Ok? && SaltSupplied(salt) ==> r.value.salt == HexEncode(HexDecode(salt.value))
    ensures r.Ok? && !SaltSupplied(salt) ==> r.value.salt == HexEncode(randomSalt)
    ensures argon2Loaded && SaltSupplied(salt) ==>
              (r.Ok? <==> ParamsAccepted(|HexDecode(salt.value)|, DerivationConfig(config)))
    ensures argon2Loaded && !SaltSupplied(salt) && 0 <= DerivationConfig(config).saltLength < 0x8000_0000 ==>
              (r.Ok? <==> ParamsAccepted(|randomSalt|, DerivationConfig(config)))
    ensures argon2Loaded && !SaltSupplied(salt) && !(0 <= DerivationConfig(config).saltLength < 0x8000_0000) ==>
              r == Err(InvalidSaltLength)
    ensures argon2Loaded && r.Err? && r.error != InvalidSaltLength ==> r.error == Argon2Rejected
  {
    if !argon2Loaded then Err(Argon2Unavailable)
    else
      var params := DerivationConfig(config);
      if !SaltSupplied(salt) && !(0 <= params.saltLength < 0x8000_0000) then Err(InvalidSaltLength)
      else
        var saltBytes := if SaltSupplied(salt) then HexDecode(salt.value) else randomSalt;
        if !ParamsAccepted(|saltBytes|, params) then Err(Argon2Rejected)
        else
          HexDecodeEncode(saltBytes);
          Ok(Derived(Argon2Raw(password, saltBytes, params), HexEncode(saltBytes), params))
  }

  /** A supplied salt that decodes to fewer than 8 bytes makes argon2 throw. */
  lemma ShortSaltRejected(password: string, salt: string, config: PartialKdfConfig, randomSalt: seq<byte>)
    requires salt != "" && |HexDecode(salt)| < 8
    ensures DeriveMasterKey(true, password, Some(salt), config, randomSalt) == Err(Argon2Rejected)
  {
  }

  /** Text that is not hex decodes to no bytes at all, so it is rejected as a salt. */
  lemma NonHexSaltRejected(password: string, randomSalt: seq<byte>)
    ensures DeriveMasterKey(true, password, Some("zz"), NoConfig, randomSalt) == Err(Argon2Rejected)
  {
    assert HexDecode("zz") == [];
  }

  /** Re-deriving from the returned salt reproduces the key (tests/unit/encryption.test.ts:19-23). */
  lemma DeriveDeterministic(password: string, salt: Option<string>, config: PartialKdfConfig,
                            randomSalt: seq<byte>, other: seq<byte>)
    requires DeriveMasterKey(true, password, salt, config, randomSalt).Ok?
    ensures var first := DeriveMasterKey(true, password, salt, config, randomSalt).value;
            first.salt != "" ==>
            DeriveMasterKey(true, password, Some(first.salt), config, other)
              == Ok(first)
  {
    var first := DeriveMasterKey(true, password, salt, config, randomSalt).value;
    var bytes := HexDecode(first.salt);
    HexEncodeDecode(first.salt);
  }

  /** Different passwords under the same accepted salt give different keys. */
  lemma DeriveDistinguishesPasswords(p1: string, p2: string, salt: string, config: PartialKdfConfig, rnd: seq<byte>)
    requires p1 != p2 && salt != ""
    requires ParamsAccepted(|HexDecode(salt)|, DerivationConfig(config))
    ensures DeriveMasterKey(true, p1, Some(salt), config, rnd).Ok?
    ensures DeriveMasterKey(true, p1, Some(salt), config, rnd).value.key
         != DeriveMasterKey(true, p2, Some(salt), config, rnd).value.key
  {
  }

  /**
   * With a random salt of the configured length, derivation succeeds iff
   * argon2 accepts that length, and the salt returned decodes to that many bytes.
   */
  lemma RandomSaltHasConfiguredLength(password: string, config: PartialKdfConfig, randomSalt: seq<byte>)
    requires 0 <= DerivationConfig(config).saltLength < 0x8000_0000
    requires |randomSalt| == DerivationConfig(config).saltLength
    ensures var r := DeriveMasterKey(true, password, None, config, randomSalt);
            && (r.Ok? <==> ParamsAccepted(DerivationConfig(config).saltLength, DerivationConfig(config)))
            && (r.Ok? ==> |HexDecode(r.value.salt)| == DerivationConfig(config).saltLength)
  {
    HexDecodeEncode(randomSalt);
  }

  /** With the default salt length the salt comes back as 64 hex characters. */
  lemma DefaultSaltIsSixtyFourHex(password: string, randomSalt: seq<byte>)
    requires |randomSalt| == DerivationConfig(NoConfig).saltLength
    ensures var r := DeriveMasterKey(true, password, None, NoConfig, randomSalt);
            r.Ok? && |r.value.salt| == 64 && IsLowerHex(r.value.salt)
  {
  }

  // ---------------------------------------------------------------- key slot

  /** The service's only state: the loaded master key, if any. */
  datatype Service = Service(masterKey: Option<Key>)

  const Locked := Service(None)

  predicate IsUnlocked(s: Service)
  {
    s.masterKey.Some?
  }

  function SetMasterKey(s: Service, key: Key): (r: Service)
    ensures IsUnlocked(r) && r.masterKey.value == key
  {
    Service(Some(key))
  }

  /** Zero-fills and drops the key; nothing happens when no key is loaded. */
  function ClearMasterKey(s: Service): (r: Service)
    ensures !IsUnlocked(r)
    ensures !IsUnlocked(s) ==> r == s
  {
    if s.masterKey.Some? then Service(None) else s
  }

  // ---------------------------------------------------------------- envelope

  /** `EncryptedData`, with base64 transport encoding abstracted away. */
  datatype Envelope = Envelope(ciphertext: Ciphertext<string>, iv: seq<byte>, tag: Tag<string>, version: int)

  /** `encrypt(plaintext)`; `iv` is the output of `crypto.randomBytes(12)`. */
  function Encrypt(s: Service, plaintext: string, iv: seq<byte>): (r: Result<Envelope, Error>)
    ensures r.Err? <==> !IsUnlocked(s)
    ensures r.Err? ==> r.error == MasterKeyNotSet
    ensures r.Ok? ==> r.value.version == CurrentVersion && r.value.iv == iv
    ensures r.Ok? ==> Decrypt(s, r.value) == Ok(plaintext)
  {
    match s.masterKey
    case None => Err(MasterKeyNotSet)
    case Some(k) =>
      var (ct, tag) := Seal(k, iv, plaintext);
      Ok(Envelope(ct, iv, tag, CurrentVersion))
  }

  /** `decrypt(data)`: the version field is never read. */
  function Decrypt(s: Service, e: Envelope): (r: Result<string, Error>)
    ensures !IsUnlocked(s) ==> r == Err(MasterKeyNotSet)
    ensures r.Ok? ==> Seal(s.masterKey.value, e.iv, r.value) == (e.ciphertext, e.tag)
    ensures IsUnlocked(s) && r.Err? ==> r.error == AuthTagMismatch
  {
    match s.masterKey
    case None => Err(MasterKeyNotSet)
    case Some(k) =>
      match Open(k, e.iv, e.ciphertext, e.tag)
      case Some(p) => Ok(p)
      case None => Err(AuthTagMismatch)
  }

  /** An envelope made under one key does not open under another. */
  lemma WrongKeyRejected(s: Service, other: Service, plaintext: string, iv: seq<byte>)
    requires IsUnlocked(s) && IsUnlocked(other) && s.masterKey != other.masterKey
    ensures Decrypt(other, Encrypt(s, plaintext, iv).value) == Err(AuthTagMismatch)
  {
  }

  /** Replacing the tag with any other value makes decryption fail. */
  lemma AlteredTagRejected(s: Service, plaintext: string, iv: seq<byte>, tag: Tag<string>)
    requires IsUnlocked(s)
    requires tag != Encrypt(s, plaintext, iv).value.tag
    ensures Decrypt(s, Encrypt(s, plaintext, iv).value.(tag := tag)) == Err(AuthTagMismatch)
  {
  }

  /** The envelope version has no influence on decryption. */
  lemma VersionNeverInspected(s: Service, e: Envelope, v: int)
    ensures Decrypt(s, e.(version := v)) == Decrypt(s, e)
  {
  }

  /** Two encryptions of the same text under fresh IVs never share a ciphertext. */
  lemma FreshIvDistinctCiphertexts(s: Service, plaintext: string, iv1: seq<byte>, iv2: seq<byte>)
    requires IsUnlocked(s) && iv1 != iv2
    ensures Encrypt(s, plaintext, iv1).value.ciphertext != Encrypt(s, plaintext, iv2).value.ciphertext
  {
  }

  // ---------------------------------------------------------------- verification hash

  /** `hashMasterKey(password, salt)`: Argon2id with fixed costs 3 / 65536 / 4. */
  function HashMasterKey(argon2Loaded: bool, password: string, saltHex: string): (r: Result<PasswordHash, Error>)
    ensures r.Ok? <==> argon2Loaded && Argon2Accepts(|HexDecode(saltHex)|, 3, 65536, 4)
    ensures argon2Loaded && r.Err? ==> r.error == Argon2Rejected
    ensures argon2Loaded && |HexDecode(saltHex)| < 8 ==> r == Err(Argon2Rejected)
    ensures r.Ok? ==> r.value.Argon2Encoded? && r.value.password == password && r.value.salt == HexDecode(saltHex)
    ensures r.Ok? ==> (r.value.timeCost, r.value.memoryCost, r.value.parallelism) == (3, 65536, 4)
  {
    if !argon2Loaded then Err(Argon2Unavailable)
    else if !Argon2Accepts(|HexDecode(saltHex)|, 3, 65536, 4) then Err(Argon2Rejected)
    else Ok(Argon2Encoded(password, HexDecode(saltHex), 3, 65536, 4))
  }

  /** `verifyMasterKey(password, storedHash)`: a hash it cannot parse makes `argon2.verify` throw. */
  function VerifyMasterKey(argon2Loaded: bool, password: string, stored: PasswordHash): (r: Result<bool, Error>)
    ensures r.Ok? <==> argon2Loaded && stored.Argon2Encoded?
    ensures !argon2Loaded ==> r == Err(Argon2Unavailable)
    ensures argon2Loaded && stored.Malformed? ==> r == Err(MalformedHash)
  {
    if !argon2Loaded then Err(Argon2Unavailable)
    else match stored
      case Malformed(_) => Err(MalformedHash)
      case Argon2Encoded(p, _, _, _, _) => Ok(p == password)
  }

  /** Verification accepts exactly the password the hash was made from. */
  lemma VerifyAgreesWithHash(password: string, candidate: string, saltHex: string)
    requires HashMasterKey(true, password, saltHex).Ok?
    ensures VerifyMasterKey(true, candidate, HashMasterKey(true, password, saltHex).value)
         == Ok(candidate == password)
  {
  }

  // ---------------------------------------------------------------- HMAC

  /** `generateSecret(length)`: the random bytes, hex encoded. */
  function GenerateSecret(randomBytes: seq<byte>): (r: string)
    ensures |r| == 2 * |randomBytes| && IsLowerHex(r)
    ensures HexDecode(r) == randomBytes
  {
    HexDecodeEncode(randomBytes);
    HexEncode(randomBytes)
  }

  /** `signPayload(payload, secret, algorithm)`, as the digest bytes. */
  function SignPayload(payload: string, secret: string, alg: HmacAlgorithm): (r: SigBytes)
    ensures SigLength(r) == DigestLength(alg)
  {
    Hmac(alg, secret, payload)
  }

  /**
   * `verifySignature`: compares the decoded signature with the expected digest;
   * `timingSafeEqual` throws instead of answering when the lengths differ.
   */
  function VerifySignature(payload: string, signature: SigBytes, secret: string, alg: HmacAlgorithm): (r: Result<bool, Error>)
    ensures r.Err? <==> SigLength(signature) != DigestLength(alg)
    ensures r.Err? ==> r.error == SignatureLengthMismatch
    ensures r == Ok(true) ==> signature == SignPayload(payload, secret, alg)
  {
    var expected := SignPayload(payload, secret, alg);
    if SigLength(signature) != SigLength(expected) then Err(SignatureLengthMismatch)
    else Ok(signature == expected)
  }

  /** A signature made by `signPayload` verifies; the same signature fails for another payload. */
  lemma SignThenVerify(payload: string, other: string, secret: string, alg: HmacAlgorithm)
    requires other != payload
    ensures VerifySignature(payload, SignPayload(payload, secret, alg), secret, alg) == Ok(true)
    ensures VerifySignature(other, SignPayload(payload, secret, alg), secret, alg) == Ok(false)
  {
  }
}

=== FILE: html_templates.dfy ===
/**
 * The parts of src/secure-input/html-templates.ts that carry meaning:
 * HTML escaping, the attribute rules for input and select fields, and the
 * choice of fields for the form page. Page layout and styling are plain
 * text and are not modelled.
 */
module HtmlTemplates {
  import opened Wrappers
  import opened Text
  import opened InputRequest

  // ---------------------------------------------------------------- escaping

  /** `str.replace(/c/g, rep)`: every occurrence of the character `c` replaced. */
  function ReplaceAllChar(s: string, c: char, rep: string): (r: string)
    ensures c !in s ==> r == s
  {
    if s == [] then []
    else (if s[0] == c then rep else [s[0]]) + ReplaceAllChar(s[1..], c, rep)
  }

  lemma {:induction false} ReplaceAllCharConcat(a: string, b: string, c: char, rep: string)
    ensures ReplaceAllChar(a + b, c, rep) == ReplaceAllChar(a, c, rep) + ReplaceAllChar(b, c, rep)
  {
    if a == [] {
      assert a + b == b;
    } else {
      assert (a + b)[0] == a[0];
      assert (a + b)[1..] == a[1..] + b;
      ReplaceAllCharConcat(a[1..], b, c, rep);
    }
  }

  /** `escapeHtml`: the five global replacements, ampersand first. */
  function EscapeHtml(s: string): (r: string)
    ensures (forall i :: 0 <= i < |s| ==> !IsSpecial(s[i])) ==> r == s
  {
    ReplaceAllChar(ReplaceAllChar(ReplaceAllChar(ReplaceAllChar(ReplaceAllChar(
      s, '&', "&amp;"), '<', "&lt;"), '>', "&gt;"), '"', "&quot;"), '\'', "&#039;")
  }

  predicate IsSpecial(c: char)
  {
    c == '&' || c == '<' || c == '>' || c == '"' || c == '\''
  }

  /** The entity each special character becomes, as a reference definition. */
  function EscapeChar(c: char): (r: string)
    ensures !IsSpecial(c) ==> r == [c]
    ensures IsSpecial(c) ==> |r| >= 4 && r[0] == '&'
  {
    match c
    case '&' => "&amp;"
    case '<' => "&lt;"
    case '>' => "&gt;"
    case '"' => "&quot;"
    case '\'' => "&#039;"
    case _ => [c]
  }

  /** Escaping character by character, each character independently. */
  function EscapeEach(s: string): string
  {
    if s == [] then [] else EscapeChar(s[0]) + EscapeEach(s[1..])
  }

  lemma EscapeHtmlOneChar(c: char)
    ensures EscapeHtml([c]) == EscapeChar(c)
  {
    if IsSpecial(c) {
      EscapeSpecial(c);
    } else {
      Untouched([c], '&', "&amp;");
      Untouched([c], '<', "&lt;");
      Untouched([c], '>', "&gt;");
      Untouched([c], '"', "&quot;");
      Untouched([c], '\'', "&#039;");
    }
  }

  lemma Untouched(s: string, c: char, rep: string)
    requires c !in s
    ensures ReplaceAllChar(s, c, rep) == s
  {
  }

  /** On a one-character string the replacement acts exactly when that character is the target. */
  lemma ReplaceSingle(x: char, c: char, rep: string)
    ensures ReplaceAllChar([x], c, rep) == if x == c then rep else [x]
  {
    assert [x][1..] == [];
  }

  lemma EscapeSpecial(c: char)
    requires IsSpecial(c)
    ensures EscapeHtml([c]) == EscapeChar(c)
  {
    if c == '&' { EscapeAmp(); }
    else if c == '<' { EscapeLt(); }
    else if c == '>' { EscapeGt(); }
    else if c == '"' { EscapeQuot(); }
    else { EscapeApos(); }
  }

  lemma EscapeAmp()
    ensures EscapeHtml("&") == "&amp;"
  {
    var e := "&amp;";
    calc {
      EscapeHtml("&");
    == { ReplaceSingle('&', '&', e); }
      ReplaceAllChar(ReplaceAllChar(ReplaceAllChar(ReplaceAllChar(e, '<', "&lt;"), '>', "&gt;"), '"', "&quot;"), '\'', "&#039;");
    == { Untouched(e, '<', "&lt;"); }
      ReplaceAllChar(ReplaceAllChar(ReplaceAllChar(e, '>', "&gt;"), '"', "&quot;"), '\'', "&#039;");
    == { Untouched(e, '>', "&gt;"); }
      ReplaceAllChar(ReplaceAllChar(e, '"', "&quot;"), '\'', "&#039;");
    == { Untouched(e, '"', "&quot;"); }
      ReplaceAllChar(e, '\'', "&#039;");
    == { Untouched(e, '\'', "&#039;"); }
      e;
    }
  }

  lemma EscapeLt()
    ensures EscapeHtml("<") == "&lt;"
  {
    var e := "&lt;";
    calc {
      EscapeHtml("<");
    == { ReplaceSingle('<', '&', "&amp;"); }
      ReplaceAllChar(ReplaceAllChar(ReplaceAllChar(ReplaceAllChar(['<'], '<', "&lt;"), '>', "&gt;"), '"', "&quot;"), '\'', "&#039;");
    == { ReplaceSingle('<', '<', "&lt;"); }
      ReplaceAllChar(ReplaceAllChar(ReplaceAllChar(e, '>', "&gt;"), '"', "&quot;"), '\'', "&#039;");
    == { Untouched(e, '>', "&gt;"); }
      ReplaceAllChar(ReplaceAllChar(e, '"', "&quot;"), '\'', "&#039;");
    == { Untouched(e, '"', "&quot;"); }
      ReplaceAllChar(e, '\'', "&#039;");
    == { Untouched(e, '\'', "&#039;"); }
      e;
    }
  }

  lemma EscapeGt()
    ensures EscapeHtml(">") == "&gt;"
  {
    var e := "&gt;";
    calc {
      EscapeHtml(">");
    == { ReplaceSingle('>', '&', "&amp;"); }
      ReplaceAllChar(ReplaceAllChar(ReplaceAllChar(ReplaceAllChar(['>'], '<', "&lt;"), '>', "&gt;"), '"', "&quot;"), '\'', "&#039;");
    == { ReplaceSingle('>', '<', "&lt;"); }
      ReplaceAllChar(ReplaceAllChar(ReplaceAllChar(['>'], '>', "&gt;"), '"', "&quot;"), '\'', "&#039;");
    == { ReplaceSingle('>', '>', "&gt;"); }
      ReplaceAllChar(ReplaceAllChar(e, '"', "&quot;"), '\'', "&#039;");
    == { Untouched(e, '"', "&quot;"); }
      ReplaceAllChar(e, '\'', "&#039;");
    == { Untouched(e, '\'', "&#039;"); }
      e;
    }
  }

  lemma EscapeQuot()
    ensures EscapeHtml("\"") == "&quot;"
  {
    var e := "&quot;";
    calc {
      EscapeHtml("\"");
    == { ReplaceSingle('"', '&', "&amp;"); }
      ReplaceAllChar(ReplaceAllChar(ReplaceAllChar(ReplaceAllChar(['"'], '<', "&lt;"), '>', "&gt;"), '"', "&quot;"), '\'', "&#039;");
    == { ReplaceSingle('"', '<', "&lt;"); }
      ReplaceAllChar(ReplaceAllChar(ReplaceAllChar(['"'], '>', "&gt;"), '"', "&quot;"), '\'', "&#039;");
    == { ReplaceSingle('"', '>', "&gt;"); }
      ReplaceAllChar(ReplaceAllChar(['"'], '"', "&quot;"), '\'', "&#039;");
    == { ReplaceSingle('"', '"', "&quot;"); }
      ReplaceAllChar(e, '\'', "&#039;");
    == { Untouched(e, '\'', "&#039;"); }
      e;
    }
  }

  lemma EscapeApos()
    ensures EscapeHtml("'") == "&#039;"
  {
    var e := "&#039;";
    calc {
      EscapeHtml("'");
    == { ReplaceSingle('\'', '&', "&amp;"); }
      ReplaceAllChar(ReplaceAllChar(ReplaceAllChar(ReplaceAllChar(['\''], '<', "&lt;"), '>', "&gt;"), '"', "&quot;"), '\'', "&#039;");
    == { ReplaceSingle('\'', '<', "&lt;"); }
      ReplaceAllChar(ReplaceAllChar(ReplaceAllChar(['\''], '>', "&gt;"), '"', "&quot;"), '\'', "&#039;");
    == { ReplaceSingle('\'', '>', "&gt;"); }
      ReplaceAllChar(ReplaceAllChar(['\''], '"', "&quot;"), '\'', "&#039;");
    == { ReplaceSingle('\'', '"', "&quot;"); }
      ReplaceAllChar(['\''], '\'', "&#039;");
    == { ReplaceSingle('\'', '\'', "&#039;"); }
      e;
    }
  }

  lemma {:induction false} EscapeHtmlConcat(a: string, b: string)
    ensures EscapeHtml(a + b) == EscapeHtml(a) + EscapeHtml(b)
  {
    var s1 := ReplaceAllChar(a + b, '&', "&amp;");
    ReplaceAllCharConcat(a, b, '&', "&amp;");
    var a1, b1 := ReplaceAllChar(a, '&', "&amp;"), ReplaceAllChar(b, '&', "&amp;");
    ReplaceAllCharConcat(a1, b1, '<', "&lt;");
    var a2, b2 := ReplaceAllChar(a1, '<', "&lt;"), ReplaceAllChar(b1, '<', "&lt;");
    ReplaceAllCharConcat(a2, b2, '>', "&gt;");
    var a3, b3 := ReplaceAllChar(a2, '>', "&gt;"), ReplaceAllChar(b2, '>', "&gt;");
    ReplaceAllCharConcat(a3, b3, '"', "&quot;");
    var a4, b4 := ReplaceAllChar(a3, '"', "&quot;"), ReplaceAllChar(b3, '"', "&quot;");
    ReplaceAllCharConcat(a4, b4, '\'', "&#039;");
  }

  /** The replacement chain equals the independent per-character escape. */
  lemma {:induction false} EscapeHtmlIsPerCharacter(s: string)
    ensures EscapeHtml(s) == EscapeEach(s)
  {
    if s != [] {
      assert s == [s[0]] + s[1..];
      EscapeHtmlConcat([s[0]], s[1..]);
      EscapeHtmlOneChar(s[0]);
      EscapeHtmlIsPerCharacter(s[1..]);
    }
  }

  /** No entity and no ordinary character carries raw markup. */
  lemma EscapeCharNoMarkup(c: char)
    ensures var r := EscapeChar(c);
            '<' !in r && '>' !in r && '"' !in r && '\'' !in r
  {
  }

  lemma {:induction false} EscapeEachHasNoMarkup(s: string)
    ensures var r := EscapeEach(s);
            '<' !in r && '>' !in r && '"' !in r && '\'' !in r
  {
    if s != [] {
      EscapeCharNoMarkup(s[0]);
      EscapeEachHasNoMarkup(s[1..]);
      var a, b := EscapeChar(s[0]), EscapeEach(s[1..]);
      assert EscapeEach(s) == a + b;
      assert forall x :: x in a + b ==> x in a || x in b;
    }
  }

  lemma {:induction false} EscapeEachNeverShortens(s: string)
    ensures |EscapeEach(s)| >= |s|
  {
    if s != [] {
      EscapeEachNeverShortens(s[1..]);
    }
  }

  lemma {:induction false} EscapeEachFixesPlain(s: string)
    requires forall i :: 0 <= i < |s| ==> !IsSpecial(s[i])
    ensures EscapeEach(s) == s
  {
    if s != [] {
      assert forall i :: 0 <= i < |s[1..]| ==> s[1..][i] == s[i + 1];
      EscapeEachFixesPlain(s[1..]);
      assert s == [s[0]] + s[1..];
    }
  }

  /** `escapeHtml` leaves no raw < > " ', never shortens, and fixes strings without specials. */
  lemma EscapeHtmlProperties(s: string)
    ensures var r := EscapeHtml(s);
            '<' !in r && '>' !in r && '"' !in r && '\'' !in r
    ensures |EscapeHtml(s)| >= |s|
    ensures (forall i :: 0 <= i < |s| ==> !IsSpecial(s[i])) ==> EscapeHtml(s) == s
  {
    EscapeHtmlIsPerCharacter(s);
    EscapeEachHasNoMarkup(s);
    EscapeEachNeverShortens(s);
    if forall i :: 0 <= i < |s| ==> !IsSpecial(s[i]) {
      EscapeEachFixesPlain(s);
    }
  }

  /** A single left-to-right pass that turns the five entities back into characters. */
  function Unescape(s: string): string
    decreases |s|
  {
    if s == [] then []
    else if |s| >= 5 && s[..5] == "&amp;" then ['&'] + Unescape(s[5..])
    else if |s| >= 4 && s[..4] == "&lt;" then ['<'] + Unescape(s[4..])
    else if |s| >= 4 && s[..4] == "&gt;" then ['>'] + Unescape(s[4..])
    else if |s| >= 6 && s[..6] == "&quot;" then ['"'] + Unescape(s[6..])
    else if |s| >= 6 && s[..6] == "&#039;" then ['\''] + Unescape(s[6..])
    else [s[0]] + Unescape(s[1..])
  }

  lemma UnescapeHead(c: char, rest: string)
    ensures Unescape(EscapeChar(c) + rest) == [c] + Unescape(rest)
  {
    if IsSpecial(c) {
      UnescapeEntityHead(c, rest);
    } else {
      UnescapePlainHead(c, rest);
    }
  }

  lemma UnescapePlainHead(c: char, rest: string)
    requires !IsSpecial(c)
    ensures Unescape(EscapeChar(c) + rest) == [c] + Unescape(rest)
  {
    var s := [c] + rest;
    assert s[0] == c && s[1..] == rest;
    assert |s| >= 4 ==> s[..4][0] != '&';
    assert |s| >= 5 ==> s[..5][0] != '&';
    assert |s| >= 6 ==> s[..6][0] != '&';
  }

  lemma UnescapeEntityHead(c: char, rest: string)
    requires IsSpecial(c)
    ensures Unescape(EscapeChar(c) + rest) == [c] + Unescape(rest)
  {
    var s := EscapeChar(c) + rest;
    match c
    case '&' =>
      assert s[..5] == "&amp;" && s[5..] == rest;
    case '<' =>
      assert |s| >= 5 ==> s[..5][1] != "&amp;"[1];
      assert s[..4] == "&lt;" && s[4..] == rest;
    case '>' =>
      assert |s| >= 5 ==> s[..5][1] != "&amp;"[1];
      assert s[..4] != "&lt;";
      assert s[..4] == "&gt;" && s[4..] == rest;
    case '"' =>
      assert s[1] == 'q';
      assert s[..5][1] != "&amp;"[1] && s[..4][1] != "&lt;"[1] && s[..4][1] != "&gt;"[1];
      assert s[..6] == "&quot;" && s[6..] == rest;
    case '\'' =>
      assert s[1] == '#';
      assert s[..5][1] != "&amp;"[1] && s[..4][1] != "&lt;"[1] && s[..4][1] != "&gt;"[1] && s[..6][1] != "&quot;"[1];
      assert s[..6] == "&#039;" && s[6..] == rest;
  }

  /** Unescaping inverts escaping, so `escapeHtml` is injective. */
  lemma {:induction false} UnescapeEscapeHtml(s: string)
    ensures Unescape(EscapeHtml(s)) == s
  {
    EscapeHtmlIsPerCharacter(s);
    UnescapeEscapeEach(s);
  }

  lemma {:induction false} UnescapeEscapeEach(s: string)
    ensures Unescape(EscapeEach(s)) == s
  {
    if s != [] {
      UnescapeHead(s[0], EscapeEach(s[1..]));
      UnescapeEscapeEach(s[1..]);
    }
  }

  lemma EscapeHtmlInjective(a: string, b: string)
    requires EscapeHtml(a) == EscapeHtml(b)
    ensures a == b
  {
    UnescapeEscapeHtml(a);
    UnescapeEscapeHtml(b);
  }

  // ---------------------------------------------------------------- field markup

  /** One attribute of a rendered `<input>`, in the order they are pushed. */
  datatype Attr =
    | RequiredAttr
    | ReadonlyAttr
    | ValueAttr(escaped: string)
    | MinLengthAttr(n: int)
    | MaxLengthAttr(n: int)
    | PatternAttr(escaped: string)

  function AttrText(a: Attr): string
  {
    match a
    case RequiredAttr => "required"
    case ReadonlyAttr => "readonly"
    case ValueAttr(v) => "value=\"" + v + "\""
    case MinLengthAttr(n) => "minlength=\"" + IntToDecimal(n) + "\""
    case MaxLengthAttr(n) => "maxlength=\"" + IntToDecimal(n) + "\""
    case PatternAttr(p) => "pattern=\"" + p + "\""
  }

  /** `[a]` when `b` holds, else nothing: one conditional `attrs.push`. */
  function PushIf(b: bool, a: Attr): (r: seq<Attr>)
    ensures b ==> r == [a]
    ensures !b ==> r == []
  {
    if b then [a] else []
  }

  /** The attribute list of a non-select field, in push order. */
  function InputAttrs(f: Field): seq<Attr>
  {
    PushIf(f.required, RequiredAttr) + PushIf(TruthyFlag(f.readOnly), ReadonlyAttr) + TailAttrs(f)
  }

  /** The four attributes after `required` and `readonly`. */
  function TailAttrs(f: Field): seq<Attr>
  {
    PushIf(TruthyString(f.value), ValueAttr(EscapeHtml(f.value.GetOr("")))) + LengthAttrs(f)
  }

  /** The three attributes after `value`. */
  function LengthAttrs(f: Field): seq<Attr>
  {
    var v := f.validation;
    PushIf(v.Some? && TruthyInt(v.value.minLength), MinLengthAttr(MinLengthOf(f)))
    + PushIf(v.Some? && TruthyInt(v.value.maxLength), MaxLengthAttr(MaxLengthOf(f)))
    + PushIf(v.Some? && TruthyString(v.value.pattern), PatternAttr(EscapeHtml(PatternOf(f))))
  }

  function MinLengthOf(f: Field): int
  {
    if f.validation.Some? then f.validation.value.minLength.GetOr(0) else 0
  }

  function MaxLengthOf(f: Field): int
  {
    if f.validation.Some? then f.validation.value.maxLength.GetOr(0) else 0
  }

  function PatternOf(f: Field): string
  {
    if f.validation.Some? then f.validation.value.pattern.GetOr("") else ""
  }

  lemma LengthAttrsKinds(f: Field)
    ensures forall x: Attr :: x in LengthAttrs(f) ==> x.MinLengthAttr? || x.MaxLengthAttr? || x.PatternAttr?
  {
  }

  /** `required` and `readonly` appear exactly when the flags are set. */
  lemma InputAttrsFlags(f: Field)
    ensures RequiredAttr in InputAttrs(f) <==> f.required
    ensures ReadonlyAttr in InputAttrs(f) <==> TruthyFlag(f.readOnly)
  {
    TailAttrsKinds(f);
    FlagsIn(PushIf(f.required, RequiredAttr), PushIf(TruthyFlag(f.readOnly), ReadonlyAttr), TailAttrs(f));
  }

  lemma TailAttrsKinds(f: Field)
    ensures RequiredAttr !in TailAttrs(f) && ReadonlyAttr !in TailAttrs(f)
  {
    var v := PushIf(TruthyString(f.value), ValueAttr(EscapeHtml(f.value.GetOr(""))));
    LengthAttrsKinds(f);
    NotInEither(RequiredAttr, v, LengthAttrs(f));
    NotInEither(ReadonlyAttr, v, LengthAttrs(f));
  }

  lemma NotInEither(x: Attr, a: seq<Attr>, b: seq<Attr>)
    requires x !in a && x !in b
    ensures x !in a + b
  {
  }

  lemma FlagsIn(a: seq<Attr>, b: seq<Attr>, t: seq<Attr>)
    requires a == [] || a == [RequiredAttr]
    requires b == [] || b == [ReadonlyAttr]
    requires RequiredAttr !in t && ReadonlyAttr !in t
    ensures RequiredAttr in a + b + t <==> a != []
    ensures ReadonlyAttr in a + b + t <==> b != []
  {
  }

  /** A value attribute appears exactly when the value is truthy, and carries it escaped. */
  lemma InputAttrsValue(f: Field, s: string)
    ensures ValueAttr(s) in InputAttrs(f) <==> TruthyString(f.value) && s == EscapeHtml(f.value.value)
  {
    LengthAttrsKinds(f);
    assert ValueAttr(s) !in LengthAttrs(f);
  }

  lemma LengthAttrsMembership(f: Field, n: int)
    ensures MinLengthAttr(n) in LengthAttrs(f) <==>
              f.validation.Some? && TruthyInt(f.validation.value.minLength) && n == MinLengthOf(f)
    ensures MaxLengthAttr(n) in LengthAttrs(f) <==>
              f.validation.Some? && TruthyInt(f.validation.value.maxLength) && n == MaxLengthOf(f)
  {
  }

  /** minlength / maxlength appear exactly when the validation value is truthy, and carry it. */
  lemma InputAttrsLengths(f: Field, n: int)
    ensures MinLengthAttr(n) in InputAttrs(f) <==>
              f.validation.Some? && TruthyInt(f.validation.value.minLength) && n == MinLengthOf(f)
    ensures MaxLengthAttr(n) in InputAttrs(f) <==>
              f.validation.Some? && TruthyInt(f.validation.value.maxLength) && n == MaxLengthOf(f)
  {
    LengthAttrsMembership(f, n);
    var a, b := PushIf(f.required, RequiredAttr), PushIf(TruthyFlag(f.readOnly), ReadonlyAttr);
    var v := PushIf(TruthyString(f.value), ValueAttr(EscapeHtml(f.value.GetOr(""))));
    InputAttrsSplit(f, a, b, v);
    NotInFront(MinLengthAttr(n), a, b, v, LengthAttrs(f));
    NotInFront(MaxLengthAttr(n), a, b, v, LengthAttrs(f));
  }

  lemma InputAttrsSplit(f: Field, a: seq<Attr>, b: seq<Attr>, v: seq<Attr>)
    requires a == PushIf(f.required, RequiredAttr) && b == PushIf(TruthyFlag(f.readOnly), ReadonlyAttr)
    requires v == PushIf(TruthyString(f.value), ValueAttr(EscapeHtml(f.value.GetOr(""))))
    ensures InputAttrs(f) == (a + b + v) + LengthAttrs(f)
  {
    calc {
      InputAttrs(f);
      a + b + TailAttrs(f);
      a + b + (v + LengthAttrs(f));
      { AttrsAssoc(a + b, v, LengthAttrs(f)); }
      (a + b + v) + LengthAttrs(f);
    }
  }

  lemma AttrsAssoc(x: seq<Attr>, y: seq<Attr>, z: seq<Attr>)
    ensures x + (y + z) == (x + y) + z
  {
  }

  lemma NotInFront(x: Attr, a: seq<Attr>, b: seq<Attr>, v: seq<Attr>, rest: seq<Attr>)
    requires x.MinLengthAttr? || x.MaxLengthAttr?
    requires a == [] || a == [RequiredAttr]
    requires b == [] || b == [ReadonlyAttr]
    requires v == [] || (|v| == 1 && v[0].ValueAttr?)
    ensures x in (a + b + v) + rest <==> x in rest
  {
    assert x !in a + b + v;
  }

  /** The space-separated attribute text inserted into the `<input>` tag. */
  function InputAttrsText(f: Field): string
  {
    Join(seq(|InputAttrs(f)|, i requires 0 <= i < |InputAttrs(f)| => AttrText(InputAttrs(f)[i])), " ")
  }

  /** One rendered `<option>` of a select: the escaped value and label, and whether it is selected. */
  datatype OptionMarkup = OptionMarkup(value: string, labelText: string, selected: bool)

  /** The markup of a select field, and the hidden input a read-only select adds. */
  datatype SelectMarkup = SelectMarkup(
    name: string, labelText: string, required: bool, disabled: bool,
    options: seq<OptionMarkup>, hidden: Option<string>)

  function OptionsMarkup(opts: seq<SelectOption>, fieldValue: Option<string>): (r: seq<OptionMarkup>)
    ensures |r| == |opts|
    ensures forall i :: 0 <= i < |opts| ==>
              r[i].value == EscapeHtml(opts[i].value) && r[i].labelText == EscapeHtml(opts[i].labelText)
              && (r[i].selected <==> fieldValue == Some(opts[i].value))
  {
    if opts == [] then []
    else [OptionMarkup(EscapeHtml(opts[0].value), EscapeHtml(opts[0].labelText), fieldValue == Some(opts[0].value))]
         + OptionsMarkup(opts[1..], fieldValue)
  }

  function SelectFieldMarkup(f: Field): (r: SelectMarkup)
    ensures r.required == f.required && r.disabled == TruthyFlag(f.readOnly)
    ensures |r.options| == |f.options.GetOr([])|
    ensures forall i :: 0 <= i < |r.options| ==>
              (r.options[i].selected <==> f.value == Some(f.options.value[i].value))
    ensures r.hidden.Some? <==> TruthyFlag(f.readOnly)
    ensures r.hidden.Some? ==> r.hidden.value == EscapeHtml(if TruthyString(f.value) then f.value.value else "")
  {
    SelectMarkup(EscapeHtml(f.name), EscapeHtml(f.labelText), f.required, TruthyFlag(f.readOnly),
                 OptionsMarkup(f.options.GetOr([]), f.value),
                 if TruthyFlag(f.readOnly) then Some(EscapeHtml(if TruthyString(f.value) then f.value.value else "")) else None)
  }

  /** A select's own value, selected in the list, is what a read-only select submits through its hidden input. */
  lemma ReadOnlySelectSubmitsItsValue(f: Field, i: int)
    requires f.kind == SelectField && TruthyFlag(f.readOnly) && TruthyString(f.value)
    requires f.options.Some? && 0 <= i < |f.options.value| && f.options.value[i].value == f.value.value
    ensures SelectFieldMarkup(f).options[i].selected
    ensures Unescape(SelectFieldMarkup(f).hidden.value) == f.value.value
  {
    UnescapeEscapeHtml(f.value.value);
  }

  // ---------------------------------------------------------------- form page

  /** The fields `generateFormPage` renders for a request. */
  function FormFields(req: Request): (r: seq<Field>)
    ensures req.kind == PasswordRequest ==>
              |r| == 1 && r[0].name == "password" && r[0].labelText == req.message
              && r[0].kind == PasswordField && r[0].required
    ensures req.kind != PasswordRequest ==> r == req.fields.GetOr([])
  {
    if req.kind == PasswordRequest
    then [PlainField("password", req.message, PasswordField, true, "\U{2022}\U{2022}\U{2022}\U{2022}\U{2022}\U{2022}\U{2022}\U{2022}")]
    else req.fields.GetOr([])
  }
}

=== FILE: imap_client.dfy ===
// The pure part of the IMAP client: the connection guard, the sequence range
// `listEmails` fetches, the search query builder, and the mapping of fetched
// messages (addresses, flags, attachments) into `EmailMessage` records.  The
// mailbox is a sequence of fetched messages in sequence-number order.
module ImapClient {
  import opened Wrappers
  import opened Text
  import opened Types

  datatype ImapError = NotConnected

  /** The client holds an `ImapFlow` connection or nothing. */
  datatype Client = Client(connected: bool)

  /** `ensureConnected`: every mailbox operation starts here. */
  function EnsureConnected(c: Client): (r: Result<(), ImapError>)
    ensures r.Ok? <==> c.connected
  {
    if c.connected then Ok(()) else Err(NotConnected)
  }

  function Connect(c: Client): (r: Client)
    ensures r.connected
  {
    Client(true)
  }

  /** `disconnect`: logs out when connected; a second call does nothing. */
  function Disconnect(c: Client): (r: Client)
    ensures !r.connected
    ensures !c.connected ==> r == c
  {
    Client(false)
  }

  lemma DisconnectedClientRefuses(c: Client)
    ensures EnsureConnected(Disconnect(c)) == Err(NotConnected)
    ensures EnsureConnected(Connect(Disconnect(c))).Ok?
  {
  }

  /** A JavaScript-truthy optional string. */
  predicate Given(o: Option<string>)
  {
    o.Some? && o.value != ""
  }

  // ---------------------------------------------------------------- addresses

  /** An address object from an envelope. */
  datatype RawAddress = RawAddress(name: Option<string>, address: Option<string>, mailbox: Option<string>, host: Option<string>)

  /** `mapAddress`: an absent address is 'unknown'; a missing address field is rebuilt as mailbox@host. */
  function MapAddress(addr: Option<RawAddress>): (r: EmailAddress)
    ensures addr.None? ==> r == EmailAddress(None, "unknown")
    ensures addr.Some? && Given(addr.value.address) ==> r.address == addr.value.address.value
    ensures addr.Some? && !Given(addr.value.address) ==>
              r.address == addr.value.mailbox.GetOr("") + "@" + addr.value.host.GetOr("")
    ensures r.name.Some? <==> addr.Some? && Given(addr.value.name)
    ensures r.address != ""
  {
    match addr
    case None => EmailAddress(None, "unknown")
    case Some(a) =>
      EmailAddress(if Given(a.name) then a.name else None,
                   if Given(a.address) then a.address.value else a.mailbox.GetOr("") + "@" + a.host.GetOr(""))
  }

  // ---------------------------------------------------------------- attachments

  /**
   * A node of a body structure.  `disposition` is the disposition type,
   * whether imapflow gives it as a string or as an object with a `type`.
   */
  datatype BodyPart = BodyPart(
    disposition: Option<string>,
    filename: Option<string>,
    paramName: Option<string>,
    mime: Option<string>,
    size: Option<int>,
    part: Option<string>,
    children: seq<BodyPart>)

  predicate IsAttachment(p: BodyPart)
  {
    p.disposition == Some("attachment") || Given(p.filename) || Given(p.paramName)
  }

  /** The attachment record of a part: its file name, else its `name` parameter, else 'unnamed'. */
  function AttachmentOf(p: BodyPart): (a: Attachment)
    ensures a.filename != "" && a.contentType != ""
    ensures Given(p.filename) ==> a.filename == p.filename.value
    ensures !Given(p.filename) && Given(p.paramName) ==> a.filename == p.paramName.value
    ensures !Given(p.filename) && !Given(p.paramName) ==> a.filename == "unnamed"
    ensures Given(p.mime) ==> a.contentType == p.mime.value
    ensures !Given(p.mime) ==> a.contentType == "application/octet-stream"
  {
    Attachment(if Given(p.filename) then p.filename.value else if Given(p.paramName) then p.paramName.value else "unnamed",
               if Given(p.mime) then p.mime.value else "application/octet-stream",
               if p.size.Some? then p.size.value else 0,
               p.part)
  }

  /** The walk of `extractAttachments`: the node first, then its children left to right. */
  function Walk(p: BodyPart): (r: seq<Attachment>)
    ensures IsAttachment(p) ==> |r| > 0 && r[0] == AttachmentOf(p)
    decreases p, 1
  {
    Own(p) + WalkAll(p.children)
  }

  /** The part's own attachment record, if it is one. */
  function Own(p: BodyPart): seq<Attachment>
  {
    if IsAttachment(p) then [AttachmentOf(p)] else []
  }

  function WalkAll(ps: seq<BodyPart>): seq<Attachment>
    decreases ps, 0
  {
    if |ps| == 0 then [] else Walk(ps[0]) + WalkAll(ps[1..])
  }

  function ExtractAttachments(structure: Option<BodyPart>): (r: seq<Attachment>)
    ensures structure.None? ==> r == []
    ensures structure.Some? ==> r == AttachmentsAmong(PreOrder(structure.value))
  {
    match structure
    case None => []
    case Some(p) =>
      WalkIsPreOrder(p);
      Walk(p)
  }

  /** The reference order: every node of the tree in pre-order. */
  function PreOrder(p: BodyPart): seq<BodyPart>
    decreases p, 1
  {
    [p] + PreOrderAll(p.children)
  }

  function PreOrderAll(ps: seq<BodyPart>): seq<BodyPart>
    decreases ps, 0
  {
    if |ps| == 0 then [] else PreOrder(ps[0]) + PreOrderAll(ps[1..])
  }

  /** `f` applied to every element, the results concatenated in order. */
  function FlatMap<T, U>(f: T -> seq<U>, xs: seq<T>): seq<U>
  {
    if |xs| == 0 then [] else f(xs[0]) + FlatMap(f, xs[1..])
  }

  lemma {:induction false} FlatMapAppend<T, U>(f: T -> seq<U>, a: seq<T>, b: seq<T>)
    ensures FlatMap(f, a + b) == FlatMap(f, a) + FlatMap(f, b)
    decreases |a|
  {
    if |a| == 0 {
      assert a + b == b;
    } else {
      assert (a + b)[0] == a[0] && (a + b)[1..] == a[1..] + b;
      FlatMapAppend(f, a[1..], b);
    }
  }

  /** The attachment records of those nodes that are attachments, in order. */
  function AttachmentsAmong(nodes: seq<BodyPart>): seq<Attachment>
  {
    if |nodes| == 0 then []
    else Own(nodes[0]) + AttachmentsAmong(nodes[1..])
  }

  lemma {:induction false} AttachmentsAmongIsFlatMap(nodes: seq<BodyPart>)
    ensures AttachmentsAmong(nodes) == FlatMap(Own, nodes)
    decreases |nodes|
  {
    if |nodes| > 0 {
      AttachmentsAmongIsFlatMap(nodes[1..]);
    }
  }

  lemma AttachmentsAmongAppend(a: seq<BodyPart>, b: seq<BodyPart>)
    ensures AttachmentsAmong(a + b) == AttachmentsAmong(a) + AttachmentsAmong(b)
  {
    AttachmentsAmongIsFlatMap(a + b);
    AttachmentsAmongIsFlatMap(a);
    AttachmentsAmongIsFlatMap(b);
    FlatMapAppend(Own, a, b);
  }

  /** `extractAttachments` lists exactly the attachment parts of the tree, in pre-order. */
  lemma {:induction false} WalkIsPreOrder(p: BodyPart)
    ensures Walk(p) == AttachmentsAmong(PreOrder(p))
    decreases p, 1
  {
    WalkAllIsPreOrder(p.children);
    AttachmentsAmongAppend([p], PreOrderAll(p.children));
    assert AttachmentsAmong([p]) == Own(p) by {
      assert [p][1..] == [];
    }
  }

  lemma {:induction false} WalkAllIsPreOrder(ps: seq<BodyPart>)
    ensures WalkAll(ps) == AttachmentsAmong(PreOrderAll(ps))
    decreases ps, 0
  {
    if |ps| > 0 {
      WalkIsPreOrder(ps[0]);
      WalkAllIsPreOrder(ps[1..]);
      AttachmentsAmongAppend(PreOrder(ps[0]), PreOrderAll(ps[1..]));
    }
  }

  /** A part marked as an attachment without any name is listed as 'unnamed'. */
  lemma NamelessAttachment(p: BodyPart)
    requires p.disposition == Some("attachment") && !Given(p.filename) && !Given(p.paramName)
    ensures Walk(p)[0].filename == "unnamed"
  {
  }

  // ---------------------------------------------------------------- messages

  datatype Envelope = Envelope(
    messageId: Option<string>,
    from: Option<seq<RawAddress>>,
    to: Option<seq<RawAddress>>,
    cc: Option<seq<RawAddress>>,
    subject: Option<string>)

  /** A message as `fetch` yields it. */
  datatype RawMessage = RawMessage(
    uid: nat,
    envelope: Option<Envelope>,
    flags: Option<seq<string>>,
    structure: Option<BodyPart>,
    size: Option<int>)

  function MapAddresses(xs: seq<RawAddress>): (r: seq<EmailAddress>)
    ensures |r| == |xs| && forall i :: 0 <= i < |xs| ==> r[i] == MapAddress(Some(xs[i]))
  {
    if |xs| == 0 then [] else [MapAddress(Some(xs[0]))] + MapAddresses(xs[1..])
  }

  /** `mapMessage`: the envelope's fields with their fallbacks, and the read/flagged bits from the flags. */
  function MapMessage(msg: RawMessage, folder: string, accountId: string): (m: EmailMessage)
    ensures m.id == NatToDecimal(msg.uid) && m.folder == folder && m.accountId == accountId
    ensures m.read <==> "\\Seen" in m.flags
    ensures m.flagged <==> "\\Flagged" in m.flags
    ensures m.flags == (if msg.flags.Some? then msg.flags.value else [])
    ensures m.subject != ""
    ensures m.attachments == ExtractAttachments(msg.structure)
    ensures m.bodyText.None?
  {
    var env := msg.envelope.GetOr(Envelope(None, None, None, None, None));
    var flags := msg.flags.GetOr([]);
    EmailMessage(
      NatToDecimal(msg.uid),
      accountId,
      if Given(env.messageId) then env.messageId.value else "",
      folder,
      MapAddress(if env.from.Some? && |env.from.value| > 0 then Some(env.from.value[0]) else None),
      MapAddresses(env.to.GetOr([])),
      if env.cc.Some? then Some(MapAddresses(env.cc.value)) else None,
      if Given(env.subject) then env.subject.value else "(no subject)",
      None,
      flags,
      ExtractAttachments(msg.structure),
      if msg.size.Some? then msg.size.value else 0,
      "\\Seen" in flags,
      "\\Flagged" in flags)
  }

  /** A message without subject, sender or recipients still maps to a complete record. */
  lemma BareMessage(uid: nat, folder: string, accountId: string)
    ensures var m := MapMessage(RawMessage(uid, None, None, None, None), folder, accountId);
            m.subject == "(no subject)" && m.from == EmailAddress(None, "unknown") && m.to == []
            && m.cc.None? && m.messageId == "" && !m.read && !m.flagged && m.attachments == [] && m.size == 0
  {
  }

  // ---------------------------------------------------------------- search criteria

  /** `EmailSearchCriteria`; dates are opaque strings. */
  datatype Criteria = Criteria(
    folder: Option<string>,
    from: Option<string>,
    to: Option<string>,
    subject: Option<string>,
    body: Option<string>,
    since: Option<string>,
    before: Option<string>,
    minUid: Option<int>,
    flagged: Option<bool>,
    read: Option<bool>,
    hasAttachments: Option<bool>,
    limit: Option<int>,
    offset: Option<int>)

  /** An imapflow search object; `all` is always set. */
  datatype Query = Query(
    all: bool,
    from: Option<string>,
    to: Option<string>,
    subject: Option<string>,
    since: Option<string>,
    before: Option<string>,
    uid: Option<string>,
    flagged: bool,
    unflagged: bool,
    seen: bool,
    unseen: bool)

  /** `buildSearchQuery`. */
  function BuildSearchQuery(c: Criteria): (q: Query)
    ensures q.all
    ensures q.flagged <==> c.flagged == Some(true)
    ensures q.unflagged <==> c.flagged == Some(false)
    ensures q.seen <==> c.read == Some(true)
    ensures q.unseen <==> c.read == Some(false)
    ensures q.uid.Some? <==> c.minUid.Some? && c.minUid.value != 0
    ensures q.from.Some? <==> Given(c.from)
    ensures q.to.Some? <==> Given(c.to)
    ensures q.subject.Some? <==> Given(c.subject)
    ensures q.since == c.since && q.before == c.before
  {
    Query(true,
          if Given(c.from) then c.from else None,
          if Given(c.to) then c.to else None,
          if Given(c.subject) then c.subject else None,
          c.since,
          c.before,
          if c.minUid.Some? && c.minUid.value != 0 then Some(IntToDecimal(c.minUid.value) + ":*") else None,
          c.flagged == Some(true),
          c.flagged == Some(false),
          c.read == Some(true),
          c.read == Some(false))
  }

  /** A positive minimum UID m becomes the open range 'm:*', whose start reads back as m. */
  lemma MinUidRange(c: Criteria, m: nat)
    requires c.minUid == Some(m) && m > 0
    ensures var q := BuildSearchQuery(c);
            q.uid.Some? && q.uid.value == NatToDecimal(m) + ":*" && ParseInt(q.uid.value) == Some(m)
  {
    ParseIntDecimalPrefix(m, ":*");
  }

  /** The query never asks for a flag and its negation together. */
  lemma QueryFlagsExclusive(c: Criteria)
    ensures var q := BuildSearchQuery(c);
            !(q.flagged && q.unflagged) && !(q.seen && q.unseen)
  {
  }

  // ---------------------------------------------------------------- listing

  /** `criteria.limit || 50`. */
  function PageSize(c: Criteria): (n: int)
    ensures n != 0
    ensures c.limit.None? || c.limit == Some(0) ==> n == 50
    ensures c.limit.Some? && c.limit.value != 0 ==> n == c.limit.value
  {
    if c.limit.Some? && c.limit.value != 0 then c.limit.value else 50
  }

  /** The lower end of the fetched sequence range `total:start`, with `start = max(1, total - limit + 1)`. */
  function RangeStart(total: nat, limit: int): (start: int)
    requires total > 0
    ensures 1 <= start
    ensures limit >= 1 ==> start == (if total - limit + 1 > 1 then total - limit + 1 else 1)
  {
    var s := total - limit + 1;
    if s > 1 then s else 1
  }

  function Reverse<T>(s: seq<T>): (r: seq<T>)
    ensures |r| == |s| && forall i :: 0 <= i < |s| ==> r[i] == s[|s| - 1 - i]
  {
    if |s| == 0 then [] else Reverse(s[1..]) + [s[0]]
  }

  function MapMessages(msgs: seq<RawMessage>, folder: string, accountId: string): (r: seq<EmailMessage>)
    ensures |r| == |msgs| && forall i :: 0 <= i < |msgs| ==> r[i] == MapMessage(msgs[i], folder, accountId)
  {
    if |msgs| == 0 then [] else [MapMessage(msgs[0], folder, accountId)] + MapMessages(msgs[1..], folder, accountId)
  }

  /**
   * `listEmails`: an empty mailbox gives []; otherwise the messages whose
   * sequence numbers lie between `start` and `total` (the range is unordered,
   * and numbers past `total` do not exist) are fetched in ascending order
   * and returned newest first.  Only `limit` of the criteria is read.
   */
  function ListEmails(client: Client, folder: string, c: Criteria, accountId: string, mailbox: seq<RawMessage>)
    : (r: Result<seq<EmailMessage>, ImapError>)
    ensures r.Err? <==> !client.connected
    ensures r.Ok? && |mailbox| == 0 ==> r.value == []
    ensures r.Ok? && PageSize(c) >= 1 ==> |r.value| == (if PageSize(c) < |mailbox| then PageSize(c) else |mailbox|)
    ensures r.Ok? ==> |r.value| <= |mailbox|
    ensures r.Ok? ==> forall i :: 0 <= i < |r.value| ==>
              r.value[i] == MapMessage(mailbox[|mailbox| - 1 - i], folder, accountId)
  {
    if !client.connected then Err(NotConnected)
    else if |mailbox| == 0 then Ok([])
    else
      var total := |mailbox|;
      var start := RangeStart(total, PageSize(c));
      var low := if start < total then start else total;
      NewestFirst(mailbox, low, folder, accountId);
      Ok(Reverse(MapMessages(mailbox[low - 1..], folder, accountId)))
  }

  /** The fetched suffix, reversed, lists the mailbox from its newest message backwards. */
  lemma NewestFirst(mailbox: seq<RawMessage>, low: int, folder: string, accountId: string)
    requires 1 <= low <= |mailbox|
    ensures var r := Reverse(MapMessages(mailbox[low - 1..], folder, accountId));
            |r| == |mailbox| - low + 1
            && forall i :: 0 <= i < |r| ==> r[i] == MapMessage(mailbox[|mailbox| - 1 - i], folder, accountId)
  {
    var fetched := mailbox[low - 1..];
    var ms := MapMessages(fetched, folder, accountId);
    var r := Reverse(ms);
    forall i | 0 <= i < |r|
      ensures r[i] == MapMessage(mailbox[|mailbox| - 1 - i], folder, accountId)
    {
      assert r[i] == ms[|ms| - 1 - i];
      assert fetched[|fetched| - 1 - i] == mailbox[|mailbox| - 1 - i];
    }
  }

  /** `listEmails` depends on the criteria only through `limit`. */
  lemma ListIgnoresFilters(client: Client, folder: string, c1: Criteria, c2: Criteria, accountId: string,
                           mailbox: seq<RawMessage>)
    requires PageSize(c1) == PageSize(c2)
    ensures ListEmails(client, folder, c1, accountId, mailbox) == ListEmails(client, folder, c2, accountId, mailbox)
  {
  }

  /** A negative limit makes the range run past the end, so only the newest message comes back. */
  lemma NegativeLimitFetchesNewest(client: Client, folder: string, c: Criteria, accountId: string,
                                   mailbox: seq<RawMessage>)
    requires client.connected && |mailbox| > 0 && PageSize(c) < 0
    ensures ListEmails(client, folder, c, accountId, mailbox)
              == Ok([MapMessage(mailbox[|mailbox| - 1], folder, accountId)])
  {
    var total := |mailbox|;
    assert RangeStart(total, PageSize(c)) > total;
    assert |mailbox[total - 1..]| == 1;
    var r := ListEmails(client, folder, c, accountId, mailbox).value;
    assert |r| == 1 && r[0] == MapMessage(mailbox[total - 1], folder, accountId);
    assert r == [r[0]];
  }

  /**
   * `readEmail(folder, uid)` as written. `fetchOne(String(uid), …)` is called
   * without the `{ uid: true }` option every other UID-addressed call passes,
   * so the envelope, flags and structure come from the message whose sequence
   * number is `uid` (there is none numbered 0 or past the end), while the body
   * text is downloaded with `{ uid: true }`: `body` is that download's
   * outcome, for the message whose UID is `uid`. `mailbox` lists the folder
   * in sequence order, as for `listEmails`.
   */
  function ReadEmail(client: Client, folder: string, accountId: string, mailbox: seq<RawMessage>, uid: nat,
                     body: Option<string>): (r: Result<Option<EmailMessage>, ImapError>)
    ensures r.Err? <==> !client.connected
    ensures r.Ok? ==> (r.value.Some? <==> 1 <= uid <= |mailbox|)
    ensures r.Ok? && r.value.Some? ==> r.value.value == MapMessage(mailbox[uid - 1], folder, accountId).(bodyText := body)
  {
    if !client.connected then Err(NotConnected)
    else if 1 <= uid <= |mailbox| then Ok(Some(MapMessage(mailbox[uid - 1], folder, accountId).(bodyText := body)))
    else Ok(None)
  }

  /** The first message of the folder carrying a UID, or none iff no message carries it. */
  function FindByUid(mailbox: seq<RawMessage>, uid: nat): (r: Option<RawMessage>)
    ensures r.Some? <==> exists i :: 0 <= i < |mailbox| && mailbox[i].uid == uid
    ensures r.Some? ==> r.value in mailbox && r.value.uid == uid
  {
    if |mailbox| == 0 then None
    else if mailbox[0].uid == uid then Some(mailbox[0])
    else
      var rest := FindByUid(mailbox[1..], uid);
      assert forall i :: 1 <= i < |mailbox| ==> mailbox[i] == mailbox[1..][i - 1];
      rest
  }

  /**
   * `readEmail` as evidently intended: the message is fetched by UID, like its
   * body, so the record read back is the one its UID names.
   */
  function ReadEmailByUid(client: Client, folder: string, accountId: string, mailbox: seq<RawMessage>, uid: nat,
                          body: Option<string>): (r: Result<Option<EmailMessage>, ImapError>)
    ensures r.Err? <==> !client.connected
    ensures r.Ok? ==> (r.value.Some? <==> exists i :: 0 <= i < |mailbox| && mailbox[i].uid == uid)
    ensures r.Ok? && r.value.Some? ==>
              r.value.value.id == NatToDecimal(uid)
              && exists m :: m in mailbox && m.uid == uid && r.value.value == MapMessage(m, folder, accountId).(bodyText := body)
  {
    if !client.connected then Err(NotConnected)
    else match FindByUid(mailbox, uid)
      case None => Ok(None)
      case Some(msg) => Ok(Some(MapMessage(msg, folder, accountId).(bodyText := body)))
  }

  /** UIDs tell the messages of a folder apart. */
  predicate UniqueUids(mailbox: seq<RawMessage>)
  {
    forall i, j :: 0 <= i < j < |mailbox| ==> mailbox[i].uid != mailbox[j].uid
  }

  /** In a folder with distinct UIDs, every message reads back by its own UID, wherever it sits. */
  lemma ReadByUidFindsMessage(client: Client, folder: string, accountId: string, mailbox: seq<RawMessage>, i: nat,
                              body: Option<string>)
    requires client.connected && UniqueUids(mailbox) && i < |mailbox|
    ensures ReadEmailByUid(client, folder, accountId, mailbox, mailbox[i].uid, body)
            == Ok(Some(MapMessage(mailbox[i], folder, accountId).(bodyText := body)))
  {
    FindByUidAt(mailbox, i);
  }

  lemma {:induction false} FindByUidAt(mailbox: seq<RawMessage>, i: nat)
    requires UniqueUids(mailbox) && i < |mailbox|
    ensures FindByUid(mailbox, mailbox[i].uid) == Some(mailbox[i])
  {
    if i > 0 {
      assert mailbox[0].uid != mailbox[i].uid;
      var rest := mailbox[1..];
      assert UniqueUids(rest) by {
        forall a, b | 0 <= a < b < |rest|
          ensures rest[a].uid != rest[b].uid
        {
          assert rest[a] == mailbox[a + 1] && rest[b] == mailbox[b + 1];
        }
      }
      assert rest[i - 1] == mailbox[i];
      FindByUidAt(rest, i - 1);
    }
  }

  /**
   * Where the folder's UIDs are exactly 1, 2, …, n (sequence number equals
   * UID, as in a fresh mailbox) the as-written read and the read by UID agree.
   */
  lemma ReadEmailAgreesOnDenseUids(client: Client, folder: string, accountId: string, mailbox: seq<RawMessage>,
                                   uid: nat, body: Option<string>)
    requires forall i :: 0 <= i < |mailbox| ==> mailbox[i].uid == i + 1
    ensures ReadEmail(client, folder, accountId, mailbox, uid, body)
            == ReadEmailByUid(client, folder, accountId, mailbox, uid, body)
  {
    if client.connected {
      if 1 <= uid <= |mailbox| {
        assert UniqueUids(mailbox);
        ReadByUidFindsMessage(client, folder, accountId, mailbox, uid - 1, body);
      }
    }
  }

  /**
   * Once a folder's UIDs are no longer 1…n (here 10, 11, 12), the as-written
   * read misses the newest message by its UID and pairs UID 1's body with the
   * envelope of UID 10; the read by UID finds message 12.
   */
  lemma ReadEmailBySequenceNumber(folder: string, accountId: string, body: Option<string>)
    ensures var mailbox := [RawMessage(10, None, None, None, None), RawMessage(11, None, None, None, None),
                            RawMessage(12, None, None, None, None)];
            && ReadEmail(Client(true), folder, accountId, mailbox, 12, body) == Ok(None)
            && ReadEmail(Client(true), folder, accountId, mailbox, 1, body).value.value.id == NatToDecimal(10)
            && ReadEmailByUid(Client(true), folder, accountId, mailbox, 12, body)
               == Ok(Some(MapMessage(mailbox[2], folder, accountId).(bodyText := body)))
  {
    var mailbox := [RawMessage(10, None, None, None, None), RawMessage(11, None, None, None, None),
                    RawMessage(12, None, None, None, None)];
    assert UniqueUids(mailbox);
    ReadByUidFindsMessage(Client(true), folder, accountId, mailbox, 2, body);
  }
}

=== FILE: input_request.dfy ===
/**
 * The secure-input request shapes of src/core/types.ts: a request shown to
 * the user in the browser, and the fields it asks for.
 */
module InputRequest {
  import opened Wrappers

  datatype FieldKind = PasswordField | TextField | EmailField | SelectField | NumberField

  datatype SelectOption = SelectOption(value: string, labelText: string)

  datatype Validation = Validation(
    pattern: Option<string>, minLength: Option<int>, maxLength: Option<int>, message: Option<string>)

  datatype Field = Field(
    name: string,
    labelText: string,
    kind: FieldKind,
    required: bool,
    placeholder: Option<string>,
    value: Option<string>,
    readOnly: Option<bool>,
    options: Option<seq<SelectOption>>,
    validation: Option<Validation>)

  datatype RequestKind = PasswordRequest | OAuthCallback | AccountSetup | MultiField

  datatype Request = Request(kind: RequestKind, title: string, message: string, fields: Option<seq<Field>>)

  /** JavaScript truthiness of an optional string: missing and '' are falsy. */
  predicate TruthyString(v: Option<string>)
  {
    v.Some? && v.value != ""
  }

  /** JavaScript truthiness of an optional boolean flag. */
  predicate TruthyFlag(v: Option<bool>)
  {
    v == Some(true)
  }

  /** JavaScript truthiness of an optional integer: missing and 0 are falsy. */
  predicate TruthyInt(v: Option<int>)
  {
    v.Some? && v.value != 0
  }

  /** A field with only the mandatory parts set. */
  function PlainField(name: string, labelText: string, kind: FieldKind, required: bool, placeholder: string): (f: Field)
    ensures f.name == name && f.labelText == labelText && f.kind == kind && f.required == required
    ensures f.value.None? && !TruthyFlag(f.readOnly) && f.options.None? && f.validation.None?
  {
    Field(name, labelText, kind, required, Some(placeholder), None, None, None, None)
  }
}

=== FILE: json.dfy ===
/**
 * The JavaScript values the configuration file and webhook payloads hold,
 * with the few operations the code applies to them: property access
 * (`o?.[key]`), own-key enumeration, object spread and `String(v)`.
 */
module JsValues {
  import opened Wrappers
  import opened Text

  /** A JSON-shaped JavaScript value; numbers are integers and `NaN` is its own case. */
  datatype Value =
    | Undefined
    | Null
    | Bool(b: bool)
    | Num(n: int)
    | NotANumber
    | Str(s: string)
    | Arr(items: seq<Value>, props: seq<Field>)
    | Obj(fields: seq<Field>)

  /**
   * One own property of an object, in insertion order. An array's `props` are
   * its named (non-index) own properties, which only an assignment such as
   * `arr.port = 3000` creates; `JSON.parse` never does.
   */
  datatype Field = Field(key: string, val: Value)

  /** `typeof v === 'object' && v !== null`: objects and arrays. */
  predicate IsObjectLike(v: Value)
  {
    v.Obj? || v.Arr?
  }

  /** JavaScript truthiness: `undefined`, `null`, `false`, `0`, `NaN` and `""` are falsy. */
  predicate Truthy(v: Value)
  {
    match v
    case Undefined => false
    case Null => false
    case Bool(b) => b
    case Num(n) => n != 0
    case NotANumber => false
    case Str(s) => s != ""
    case _ => true
  }

  /** `v || fallback`. */
  function Or(v: Value, fallback: Value): (r: Value)
    ensures Truthy(v) ==> r == v
    ensures !Truthy(v) ==> r == fallback
  {
    if Truthy(v) then v else fallback
  }

  // ---------------------------------------------------------------- property lists

  function Keys(fs: seq<Field>): (ks: seq<string>)
    ensures |ks| == |fs|
    ensures forall i :: 0 <= i < |fs| ==> ks[i] == fs[i].key
  {
    if fs == [] then [] else [fs[0].key] + Keys(fs[1..])
  }

  /** An object holds each key at most once. */
  predicate UniqueKeys(fs: seq<Field>)
  {
    forall i, j :: 0 <= i < j < |fs| ==> fs[i].key != fs[j].key
  }

  /** The value stored under `key`, if the object has that own property. */
  function Lookup(fs: seq<Field>, key: string): (r: Option<Value>)
    ensures r.Some? <==> key in Keys(fs)
    ensures r.Some? ==> Field(key, r.value) in fs
  {
    if fs == [] then None
    else if fs[0].key == key then Some(fs[0].val)
    else Lookup(fs[1..], key)
  }

  /** In an object with unique keys, each field is what its key looks up. */
  lemma {:induction false} LookupAt(fs: seq<Field>, i: nat)
    requires UniqueKeys(fs) && i < |fs|
    ensures Lookup(fs, fs[i].key) == Some(fs[i].val)
  {
    if i > 0 {
      assert fs[0].key != fs[i].key;
      assert fs[1..][i - 1] == fs[i];
      LookupAt(fs[1..], i - 1);
    }
  }

  /** `o[key] = v`: overwrites in place when the key exists, else appends. */
  function Put(fs: seq<Field>, key: string, v: Value): (r: seq<Field>)
    ensures Lookup(r, key) == Some(v)
    ensures forall k :: k != key ==> Lookup(r, k) == Lookup(fs, k)
  {
    if fs == [] then [Field(key, v)]
    else if fs[0].key == key then
      assert ([Field(key, v)] + fs[1..])[1..] == fs[1..];
      [Field(key, v)] + fs[1..]
    else
      var rest := Put(fs[1..], key, v);
      assert ([fs[0]] + rest)[1..] == rest;
      [fs[0]] + rest
  }

  /** `Put` keeps the key order, appending a new key at the end. */
  lemma {:induction false} PutKeys(fs: seq<Field>, key: string, v: Value)
    ensures key in Keys(fs) ==> Keys(Put(fs, key, v)) == Keys(fs)
    ensures key !in Keys(fs) ==> Keys(Put(fs, key, v)) == Keys(fs) + [key]
  {
    if fs != [] {
      var r := Put(fs, key, v);
      if fs[0].key == key {
        assert r[1..] == fs[1..];
      } else {
        PutKeys(fs[1..], key, v);
        assert r[1..] == Put(fs[1..], key, v);
        assert Keys(fs)[1..] == Keys(fs[1..]);
      }
    }
  }

  /** A property list with unique keys keeps them unique under `Put`. */
  lemma {:induction false} PutUnique(fs: seq<Field>, key: string, v: Value)
    requires UniqueKeys(fs)
    ensures UniqueKeys(Put(fs, key, v))
  {
    var r := Put(fs, key, v);
    var ks := Keys(r);
    PutKeys(fs, key, v);
    if key in Keys(fs) {
      assert Keys(r) == Keys(fs);
    } else {
      assert Keys(r) == Keys(fs) + [key];
    }
    forall i, j | 0 <= i < j < |r|
      ensures r[i].key != r[j].key
    {
      assert ks[i] == r[i].key && ks[j] == r[j].key;
      if key in Keys(fs) {
        assert Keys(fs)[i] == fs[i].key && Keys(fs)[j] == fs[j].key;
      } else if j < |fs| {
        assert Keys(fs)[i] == fs[i].key && Keys(fs)[j] == fs[j].key;
      } else {
        assert ks[j] == key && ks[i] == Keys(fs)[i];
      }
    }
  }

  // ---------------------------------------------------------------- array indices

  /** A canonical array index: digits without a leading zero (except "0" itself). */
  function ArrayIndex(key: string): (r: Option<nat>)
    ensures r.Some? ==> key == NatToDecimal(r.value)
  {
    if |key| > 0 && (forall i :: 0 <= i < |key| ==> IsDigit(key[i])) && (key == "0" || key[0] != '0')
    then
      CanonicalDigits(key);
      Some(DigitsValue(key))
    else None
  }

  lemma {:induction false} CanonicalDigits(key: string)
    requires |key| > 0 && (forall i :: 0 <= i < |key| ==> IsDigit(key[i])) && (key == "0" || key[0] != '0')
    ensures NatToDecimal(DigitsValue(key)) == key
    decreases |key|
  {
    var last := key[|key| - 1] as int - '0' as int;
    var init := key[..|key| - 1];
    if |key| == 1 {
      assert DigitsValue(key) == DigitsValue(init) * 10 + last;
      assert init == [];
      assert DigitChar(last) == key[0];
    } else {
      assert key[0] != '0';
      assert init[0] == key[0];
      CanonicalDigits(init);
      var v := DigitsValue(init);
      assert NatToDecimal(v)[0] != '0';
      assert v != 0;
      assert DigitsValue(key) == v * 10 + last;
      var n := v * 10 + last;
      assert n / 10 == v && n % 10 == last;
      assert NatToDecimal(n) == NatToDecimal(v) + [DigitChar(last)];
      assert DigitChar(last) == key[|key| - 1];
      assert init + [key[|key| - 1]] == key;
    }
  }

  /** The array-index key of position `i`. */
  lemma ArrayIndexOfDecimal(i: nat)
    ensures ArrayIndex(NatToDecimal(i)) == Some(i)
  {
    var key := NatToDecimal(i);
    DigitsValueOfDecimal(i);
    if key != "0" && key[0] == '0' {
      LeadingDigitNonZero(i);
    }
  }

  lemma {:induction false} LeadingDigitNonZero(n: nat)
    ensures NatToDecimal(n) == "0" || NatToDecimal(n)[0] != '0'
  {
    if n >= 10 {
      LeadingDigitNonZero(n / 10);
      DigitsValueOfDecimal(n / 10);
      assert NatToDecimal(n / 10) != "0";
      assert NatToDecimal(n)[0] == NatToDecimal(n / 10)[0];
    }
  }

  // ---------------------------------------------------------------- enumeration and spread

  /** The index-keyed fields of an array, as `{...arr}` or `Object.keys` see them. */
  function IndexFields(items: seq<Value>, from: nat): (fs: seq<Field>)
    ensures |fs| == |items|
    ensures forall i :: 0 <= i < |items| ==> fs[i] == Field(NatToDecimal(from + i), items[i])
    decreases |items|
  {
    if items == [] then [] else [Field(NatToDecimal(from), items[0])] + IndexFields(items[1..], from + 1)
  }

  /** The characters of a string as one-character strings, keyed by index. */
  function CharFields(s: string, from: nat): (fs: seq<Field>)
    ensures |fs| == |s|
    ensures forall i :: 0 <= i < |s| ==> fs[i] == Field(NatToDecimal(from + i), Str([s[i]]))
    decreases |s|
  {
    if s == [] then [] else [Field(NatToDecimal(from), Str([s[0]]))] + CharFields(s[1..], from + 1)
  }

  /**
   * `Object.keys(v)` paired with `v[key]`: `None` where `Object.keys` throws
   * (on `null` and `undefined`); primitives other than strings have no own keys.
   */
  function OwnEntries(v: Value): (r: Option<seq<Field>>)
    ensures r.None? <==> v.Null? || v.Undefined?
    ensures v.Obj? ==> r == Some(v.fields)
  {
    match v
    case Undefined => None
    case Null => None
    case Obj(fs) => Some(fs)
    case Arr(items, props) => Some(IndexFields(items, 0) + props)
    case Str(s) => Some(CharFields(s, 0))
    case _ => Some([])
  }

  /** `{...v}` for an object-like value. */
  function Spread(v: Value): (fs: seq<Field>)
    requires IsObjectLike(v)
    ensures v.Obj? ==> fs == v.fields
  {
    if v.Obj? then v.fields else IndexFields(v.items, 0) + v.props
  }

  // ---------------------------------------------------------------- property access

  /** `o?.[key]` on JSON values; properties of prototypes are not modelled. */
  function Get(o: Value, key: string): (r: Value)
    ensures (o.Undefined? || o.Null?) ==> r == Undefined
    ensures o.Obj? ==> r == Lookup(o.fields, key).GetOr(Undefined)
  {
    match o
    case Obj(fs) => Lookup(fs, key).GetOr(Undefined)
    case Arr(items, props) =>
      if key == "length" then Num(|items|)
      else (match ArrayIndex(key)
            case Some(i) => if i < |items| then items[i] else Undefined
            case None => Lookup(props, key).GetOr(Undefined))
    case Str(s) =>
      if key == "length" then Num(Utf16Length(s))
      else (match ArrayIndex(key)
            case Some(i) => if i < |s| then Str([s[i]]) else Undefined
            case None => Undefined)
    case _ => Undefined
  }

  /** A string's `length` counts code units, so it is the number of characters only on Basic Multilingual Plane text. */
  lemma BmpStringLength(s: string)
    ensures Get(Str(s), "length") == Num(|s|) <==> forall i :: 0 <= i < |s| ==> InBmp(s[i])
  {
    Utf16LengthBmp(s);
  }

  /** Array elements are reached by their decimal index. */
  lemma GetArrayElement(items: seq<Value>, props: seq<Field>, i: nat)
    requires i < |items|
    ensures Get(Arr(items, props), NatToDecimal(i)) == items[i]
  {
    ArrayIndexOfDecimal(i);
    assert NatToDecimal(i) != "length" by {
      assert IsDigit(NatToDecimal(i)[0]);
    }
  }

  /** A property name that is neither `length` nor an array index: on an array it names an own property. */
  predicate NamedKey(key: string)
  {
    key != "length" && ArrayIndex(key).None?
  }

  /** A key that starts with a letter other than the one of `length` is a named key. */
  lemma LetterKeyNamed(key: string)
    requires |key| > 0 && !IsDigit(key[0]) && key[0] != 'l'
    ensures NamedKey(key)
  {
  }

  /**
   * `o[key] = x` for a named key, in strict mode: an object or an array gets
   * the own property (an array's elements and length stay as they were);
   * assigning a property of a primitive, `null` or `undefined` throws (`None`).
   */
  function SetProperty(o: Value, key: string, x: Value): (r: Option<Value>)
    requires NamedKey(key)
    ensures r.Some? <==> IsObjectLike(o)
    ensures r.Some? ==> (r.value.Obj? <==> o.Obj?) && IsObjectLike(r.value) && Get(r.value, key) == x
    ensures r.Some? ==> forall k :: k != key ==> Get(r.value, k) == Get(o, k)
  {
    match o
    case Obj(fs) => Some(Obj(Put(fs, key, x)))
    case Arr(items, props) =>
      ArrayPutFrame(items, props, key, x);
      Some(Arr(items, Put(props, key, x)))
    case _ => None
  }

  /** A named property set on an array reads back, and every other key reads as before. */
  lemma ArrayPutFrame(items: seq<Value>, props: seq<Field>, key: string, x: Value)
    requires NamedKey(key)
    ensures Get(Arr(items, Put(props, key, x)), key) == x
    ensures forall k :: k != key ==> Get(Arr(items, Put(props, key, x)), k) == Get(Arr(items, props), k)
  {
  }

  /** `keys.reduce((o, key) => o?.[key], v)`. */
  function GetPath(v: Value, keys: seq<string>): (r: Value)
    ensures keys == [] ==> r == v
    decreases |keys|
  {
    if keys == [] then v else GetPath(Get(v, keys[0]), keys[1..])
  }

  /** Once a step of the path is missing, the rest of the walk stays `undefined`. */
  lemma {:induction false} GetPathUndefined(keys: seq<string>)
    ensures GetPath(Undefined, keys) == Undefined
    decreases |keys|
  {
    if keys != [] {
      GetPathUndefined(keys[1..]);
    }
  }

  // ---------------------------------------------------------------- String(v)

  /** `String(v)`; inside an array `null` and `undefined` become empty strings. */
  function ToJsString(v: Value): (r: string)
    ensures v.Str? ==> r == v.s
    ensures v.Obj? ==> r == "[object Object]"
    decreases v, 1
  {
    match v
    case Undefined => "undefined"
    case Null => "null"
    case Bool(b) => if b then "true" else "false"
    case Num(n) => IntToDecimal(n)
    case NotANumber => "NaN"
    case Str(s) => s
    case Arr(items, _) => Join(ItemStrings(v, items), ",")
    case Obj(_) => "[object Object]"
  }

  function ItemStrings(v: Value, items: seq<Value>): (r: seq<string>)
    requires forall i :: 0 <= i < |items| ==> items[i] < v
    ensures |r| == |items|
    decreases v, 0, |items|
  {
    if items == [] then []
    else
      var first := if items[0].Null? || items[0].Undefined? then "" else ToJsString(items[0]);
      [first] + ItemStrings(v, items[1..])
  }

  /** `String(arr)` joins the strings of the items with commas. */
  lemma ArrayOfStringsToString(xs: seq<string>)
    ensures ToJsString(Arr(seq(|xs|, i requires 0 <= i < |xs| => Str(xs[i])), [])) == Join(xs, ",")
  {
    var v := Arr(seq(|xs|, i requires 0 <= i < |xs| => Str(xs[i])), []);
    ItemStringsOfStrings(v, v.items, xs);
  }

  lemma {:induction false} ItemStringsOfStrings(v: Value, items: seq<Value>, xs: seq<string>)
    requires forall i :: 0 <= i < |items| ==> items[i] < v
    requires |items| == |xs| && forall i :: 0 <= i < |xs| ==> items[i] == Str(xs[i])
    ensures ItemStrings(v, items) == xs
    decreases |items|
  {
    if items != [] {
      ItemStringsOfStrings(v, items[1..], xs[1..]);
    }
  }
}

=== FILE: secure_input.dfy ===
/**
 * `SecureInput` (src/secure-input/index.ts): the requests it sends to the
 * capture server and how it reads the captured fields back. A capture is
 * the settlement of the capture server's promise.
 */
module SecureInput {
  import opened Wrappers
  import opened Text
  import opened InputRequest
  import CaptureServer

  type Fields = map<string, string>

  datatype InputError = CaptureRejected(why: CaptureServer.Failure) | PasswordsDoNotMatch | Cancelled

  /** The value of a captured field; absent keys read as `undefined`. */
  function Get(fields: Fields, key: string): Option<string>
  {
    if key in fields then Some(fields[key]) else None
  }

  function PasswordRequestOf(message: string, title: Option<string>): (r: Request)
    ensures r.kind == PasswordRequest && r.message == message && r.fields.None?
  {
    Request(PasswordRequest, if TruthyString(title) then title.value else "\U{1F510} Password Required", message, None)
  }

  /** `password(message)`: exactly the captured 'password' field. */
  function Password(capture: Result<Fields, CaptureServer.Failure>): (r: Result<Option<string>, InputError>)
    ensures capture.Err? ==> r == Err(CaptureRejected(capture.error))
    ensures capture.Ok? ==> r == Ok(Get(capture.value, "password"))
  {
    match capture
    case Err(why) => Err(CaptureRejected(why))
    case Ok(fields) => Ok(Get(fields, "password"))
  }

  /** `masterKeyUnlock()`: a password request with the unlock wording. */
  function MasterKeyUnlockRequest(): (r: Request)
    ensures r.kind == PasswordRequest
  {
    PasswordRequestOf("Enter your master password to unlock", Some("\U{1F513} Unlock Vault"))
  }

  function MasterKeyUnlock(capture: Result<Fields, CaptureServer.Failure>): (r: Result<Option<string>, InputError>)
    ensures r == Password(capture)
  {
    Password(capture)
  }

  /** The two fields of the setup form; the 12-character minimum is only a form attribute. */
  function MasterKeySetupRequest(): (r: Request)
    ensures r.kind == MultiField && r.fields.Some? && |r.fields.value| == 2
    ensures r.fields.value[0].name == "password" && r.fields.value[1].name == "confirm"
    ensures r.fields.value[0].validation == Some(Validation(None, Some(12), None, Some("Minimum 12 characters")))
  {
    var pw := PlainField("password", "Master Password", PasswordField, true, "");
    Request(MultiField, "\U{1F511} Master Key Setup", "Create a master password to encrypt all your data",
            Some([pw.(validation := Some(Validation(None, Some(12), None, Some("Minimum 12 characters")))),
                  PlainField("confirm", "Confirm Master Password", PasswordField, true, "")]))
  }

  /** `masterKeySetup()`: the password, provided both captured fields are identical. */
  function MasterKeySetup(capture: Result<Fields, CaptureServer.Failure>): (r: Result<Option<string>, InputError>)
    ensures capture.Err? ==> r == Err(CaptureRejected(capture.error))
    ensures capture.Ok? && Get(capture.value, "password") != Get(capture.value, "confirm") ==> r == Err(PasswordsDoNotMatch)
    ensures r.Ok? ==> capture.Ok? && r.value == Get(capture.value, "password") == Get(capture.value, "confirm")
  {
    match capture
    case Err(why) => Err(CaptureRejected(why))
    case Ok(fields) =>
      if Get(fields, "password") != Get(fields, "confirm") then Err(PasswordsDoNotMatch)
      else Ok(Get(fields, "password"))
  }

  /** No length rule is applied after capture: any matching pair is accepted. */
  lemma SetupAcceptsShortPasswords(p: string)
    requires |p| < 12
    ensures MasterKeySetup(Ok(map["password" := p, "confirm" := p])) == Ok(Some(p))
  {
  }

  // ---------------------------------------------------------------- account setup

  /** `Partial<AccountCredentials>` as far as the form prefills it. */
  datatype InitialAccount = InitialAccount(
    email: Option<string>, provider: Option<string>,
    imapHost: Option<string>, imapPort: Option<int>,
    smtpHost: Option<string>, smtpPort: Option<int>)

  const NoInitial := InitialAccount(None, None, None, None, None, None)

  /** A port read back from the form: not given, a number, or NaN from `parseInt`. */
  datatype PortValue = NoPort | Port(n: int) | NotANumber

  /** The `AccountCredentials` the form produces. */
  datatype Credentials = Credentials(
    email: string, password: Option<string>, provider: Option<string>,
    imapHost: Option<string>, imapPort: PortValue,
    smtpHost: Option<string>, smtpPort: PortValue)

  function PortPrefill(p: Option<int>): Option<string>
  {
    if p.Some? then Some(IntToDecimal(p.value)) else None
  }

  function Prefilled(f: Field, value: Option<string>, readOnly: bool): Field
  {
    f.(value := value, readOnly := Some(readOnly))
  }

  const ProviderOptions: seq<SelectOption> := [
    SelectOption("gmail", "Gmail"),
    SelectOption("outlook", "Outlook / Microsoft 365"),
    SelectOption("yahoo", "Yahoo Mail"),
    SelectOption("icloud", "iCloud Mail"),
    SelectOption("fastmail", "Fastmail"),
    SelectOption("custom", "Custom IMAP/SMTP")
  ]

  /** The seven fields of the account form; each prefillable field is read-only iff its initial value is truthy. */
  function AccountSetupFields(init: InitialAccount): (fs: seq<Field>)
    ensures |fs| == 7
    ensures fs[0].name == "email" && fs[0].value == init.email
    ensures fs[2].name == "provider" && fs[2].value == init.provider && fs[2].kind == SelectField
    ensures fs[3].name == "imapHost" && fs[4].name == "imapPort" && fs[5].name == "smtpHost" && fs[6].name == "smtpPort"
    ensures fs[4].value == PortPrefill(init.imapPort) && fs[6].value == PortPrefill(init.smtpPort)
    ensures fs[1].name == "password" && !TruthyFlag(fs[1].readOnly)
    ensures TruthyFlag(fs[0].readOnly) <==> TruthyString(init.email)
    ensures TruthyFlag(fs[2].readOnly) <==> TruthyString(init.provider)
    ensures TruthyFlag(fs[3].readOnly) <==> TruthyString(init.imapHost)
    ensures TruthyFlag(fs[4].readOnly) <==> TruthyInt(init.imapPort)
    ensures TruthyFlag(fs[5].readOnly) <==> TruthyString(init.smtpHost)
    ensures TruthyFlag(fs[6].readOnly) <==> TruthyInt(init.smtpPort)
  {
    [ Prefilled(PlainField("email", "Email Address", EmailField, true, "you@example.com"), init.email, TruthyString(init.email)),
      PlainField("password", "Password or App Password", PasswordField, true, ""),
      Prefilled(Field("provider", "Email Provider", SelectField, true, None, None, None, Some(ProviderOptions), None),
                init.provider, TruthyString(init.provider)),
      Prefilled(PlainField("imapHost", "IMAP Server (custom only)", TextField, false, "imap.example.com"),
                init.imapHost, TruthyString(init.imapHost)),
      Prefilled(PlainField("imapPort", "IMAP Port (custom only)", NumberField, false, "993"),
                PortPrefill(init.imapPort), TruthyInt(init.imapPort)),
      Prefilled(PlainField("smtpHost", "SMTP Server (custom only)", TextField, false, "smtp.example.com"),
                init.smtpHost, TruthyString(init.smtpHost)),
      Prefilled(PlainField("smtpPort", "SMTP Port (custom only)", NumberField, false, "587"),
                PortPrefill(init.smtpPort), TruthyInt(init.smtpPort)) ]
  }

  /** `raw.port ? parseInt(raw.port, 10) : undefined`. */
  function ReadPort(v: Option<string>): (r: PortValue)
    ensures !TruthyString(v) ==> r == NoPort
    ensures TruthyString(v) && ParseInt(v.value).Some? ==> r == Port(ParseInt(v.value).value)
    ensures TruthyString(v) && ParseInt(v.value).None? ==> r == NotANumber
  {
    if !TruthyString(v) then NoPort
    else match ParseInt(v.value)
         case Some(n) => Port(n)
         case None => NotANumber
  }

  /**
   * `accountSetup`: a falsy capture result is an error; email falls back to
   * '', ports are parsed, every other field is copied as captured.
   */
  function AccountSetup(capture: Result<Option<Fields>, CaptureServer.Failure>): (r: Result<Credentials, InputError>)
    ensures capture.Err? ==> r == Err(CaptureRejected(capture.error))
    ensures capture == Ok(None) ==> r == Err(Cancelled)
    ensures r.Ok? ==> capture.Ok? && capture.value.Some?
    ensures r.Ok? ==> var raw := capture.value.value;
              (r.value.email == if TruthyString(Get(raw, "email")) then raw["email"] else "")
              && r.value.password == Get(raw, "password") && r.value.provider == Get(raw, "provider")
              && r.value.imapHost == Get(raw, "imapHost") && r.value.smtpHost == Get(raw, "smtpHost")
              && r.value.imapPort == ReadPort(Get(raw, "imapPort"))
              && r.value.smtpPort == ReadPort(Get(raw, "smtpPort"))
  {
    match capture
    case Err(why) => Err(CaptureRejected(why))
    case Ok(None) => Err(Cancelled)
    case Ok(Some(raw)) =>
      var email := Get(raw, "email");
      Ok(Credentials(
        if TruthyString(email) then email.value else "",
        Get(raw, "password"), Get(raw, "provider"),
        Get(raw, "imapHost"), ReadPort(Get(raw, "imapPort")),
        Get(raw, "smtpHost"), ReadPort(Get(raw, "smtpPort"))))
  }

  /** A non-negative prefilled port that comes back unchanged is read as the same number. */
  lemma PrefilledPortRoundTrip(p: nat)
    ensures ReadPort(PortPrefill(Some(p))) == Port(p)
  {
    ParseIntOfDecimal(p);
    assert IntToDecimal(p) == NatToDecimal(p);
  }

  /** Port 0 is prefilled but stays editable, since 0 is falsy. */
  lemma ZeroPortNotReadOnly()
    ensures var fs := AccountSetupFields(NoInitial.(imapPort := Some(0)));
            fs[4].value == Some("0") && !TruthyFlag(fs[4].readOnly)
  {
    assert NatToDecimal(0) == "0";
  }
}

=== FILE: sync_service.dfy ===
// The sync loop: list the newest messages of a folder, store each one not yet
// stored until the first that already is, and count what was stored.  The
// pool's client, the mailbox contents and the per-message read outcome are
// parameters.
module SyncService {
  import opened Wrappers
  import opened Text
  import opened Types
  import Database
  import ImapClient

  /** What `readEmail(folder, parseInt(id))` gave for a listed message. */
  datatype Fetched = Threw | Missing | Body(text: Option<string>, attachments: seq<Attachment>)

  datatype SyncError = ConnectionUnavailable | DatabaseClosed

  datatype SyncResult = SyncResult(synced: nat, total: nat, logged: bool)

  const DefaultCap := 100

  /** `config.tasks.syncMaxEmails || 100`; `None` stands for a missing or `NaN` value. */
  function Cap(syncMaxEmails: Option<int>): (n: int)
    ensures n != 0
    ensures syncMaxEmails.Some? && syncMaxEmails.value != 0 ==> n == syncMaxEmails.value
  {
    if syncMaxEmails.Some? && syncMaxEmails.value != 0 then syncMaxEmails.value else DefaultCap
  }

  /** The listing criteria: the cap, and the UID after the last synced one when there is one. */
  function SyncCriteria(cap: int, lastUid: int): (c: ImapClient.Criteria)
    ensures c.limit == Some(cap)
    ensures c.minUid.Some? <==> lastUid > 0
    ensures c.minUid.Some? ==> c.minUid.value == lastUid + 1
  {
    ImapClient.Criteria(None, None, None, None, None, None, None,
                        if lastUid > 0 then Some(lastUid + 1) else None,
                        None, None, None, Some(cap), None)
  }

  function Addresses(xs: seq<EmailAddress>): seq<string>
  {
    if |xs| == 0 then [] else [xs[0].address] + Addresses(xs[1..])
  }

  function FileNames(xs: seq<Attachment>): seq<string>
  {
    if |xs| == 0 then [] else [xs[0].filename] + FileNames(xs[1..])
  }

  /** The `email_search` row saved for a listed message and its full read. */
  function RowOf(e: EmailMessage, accountId: string, folder: string, text: Option<string>,
                 attachments: seq<Attachment>, date: string): (r: Database.EmailRow)
    ensures r.messageId == e.id && r.accountId == accountId && r.folder == folder
  {
    Database.EmailRow(e.id, accountId, folder, e.from.address, Join(Addresses(e.to), ", "), e.subject,
                      text.GetOr(""), Join(FileNames(attachments), ", "), date)
  }

  /**
   * The rows the loop appends, in order: it stops at the first message already
   * stored for the account, and skips messages whose read threw or found nothing.
   */
  function Plan(rows: seq<Database.EmailRow>, emails: seq<EmailMessage>, accountId: string, folder: string,
                read: string -> Fetched, dateOf: string -> string): (r: seq<Database.EmailRow>)
    ensures |r| <= |emails|
    ensures forall i :: 0 <= i < |r| ==> r[i].accountId == accountId && r[i].folder == folder
    decreases |emails|
  {
    if |emails| == 0 then []
    else
      var e := emails[0];
      if Database.Stored(rows, e.id, accountId) then []
      else match read(e.id)
        case Body(text, attachments) =>
          var row := RowOf(e, accountId, folder, text, attachments, dateOf(e.id));
          [row] + Plan(rows + [row], emails[1..], accountId, folder, read, dateOf)
        case _ => Plan(rows, emails[1..], accountId, folder, read, dateOf)
  }

  /**
   * `syncAccount`: reads the last synced UID, lists up to the cap newest
   * messages, saves them as the plan says, and logs an activity row iff
   * anything was saved.
   */
  method SyncAccount(db: Database.Store, accountId: string, folder: string, syncMaxEmails: Option<int>,
                     imapAvailable: bool, mailbox: seq<ImapClient.RawMessage>,
                     read: string -> Fetched, dateOf: string -> string)
    returns (db': Database.Store, r: Result<SyncResult, SyncError>)
    ensures !imapAvailable ==> db' == db && r == Err(ConnectionUnavailable)
    ensures imapAvailable && !db.open ==> db' == db && r == Err(DatabaseClosed)
    ensures r.Ok? <==> imapAvailable && db.open
    ensures r.Ok? ==>
              var listed := Listed(db, accountId, folder, syncMaxEmails, mailbox);
              var saved := Plan(db.emails, listed, accountId, folder, read, dateOf);
              db' == db.(emails := db.emails + saved)
              && r.value.synced == |saved| && r.value.total == |listed| && r.value.synced <= r.value.total
              && (r.value.logged <==> r.value.synced > 0)
  {
    if !imapAvailable {
      return db, Err(ConnectionUnavailable);
    }
    if !db.open {
      return db, Err(DatabaseClosed);
    }
    var emails := Listed(db, accountId, folder, syncMaxEmails, mailbox);
    var synced;
    db', synced := SaveAll(db, emails, accountId, folder, read, dateOf);
    r := Ok(SyncResult(synced, |emails|, synced > 0));
  }

  /** The messages `listEmails` returns for the sync's criteria. */
  function Listed(db: Database.Store, accountId: string, folder: string, syncMaxEmails: Option<int>,
                  mailbox: seq<ImapClient.RawMessage>): (listed: seq<EmailMessage>)
    requires db.open
    ensures |listed| <= |mailbox|
    ensures Cap(syncMaxEmails) >= 1 ==> |listed| == if Cap(syncMaxEmails) < |mailbox| then Cap(syncMaxEmails) else |mailbox|
  {
    var lastUid := Database.GetLastSyncedUid(db, accountId, folder).value;
    var criteria := SyncCriteria(Cap(syncMaxEmails), lastUid);
    assert ImapClient.PageSize(criteria) == Cap(syncMaxEmails) || Cap(syncMaxEmails) < 1;
    ImapClient.ListEmails(ImapClient.Client(true), folder, criteria, accountId, mailbox).value
  }

  /** The loop of `syncAccount`: saves each listed message as the plan says. */
  method SaveAll(db: Database.Store, emails: seq<EmailMessage>, accountId: string, folder: string,
                 read: string -> Fetched, dateOf: string -> string)
    returns (db': Database.Store, synced: nat)
    requires db.open
    ensures db' == db.(emails := db.emails + Plan(db.emails, emails, accountId, folder, read, dateOf))
    ensures synced == |Plan(db.emails, emails, accountId, folder, read, dateOf)| <= |emails|
  {
    ghost var plan := Plan(db.emails, emails, accountId, folder, read, dateOf);
    PlanBound(db.emails, emails, accountId, folder, read, dateOf);
    synced := 0;
    db' := db;
    var i := 0;
    while i < |emails|
      invariant 0 <= i <= |emails|
      invariant db' == db.(emails := db'.emails)
      invariant db'.emails + Plan(db'.emails, emails[i..], accountId, folder, read, dateOf) == db.emails + plan
      invariant synced + |Plan(db'.emails, emails[i..], accountId, folder, read, dateOf)| == |plan|
    {
      var e := emails[i];
      assert emails[i..][0] == e && emails[i..][1..] == emails[i + 1..];
      if Database.Stored(db'.emails, e.id, accountId) {
        break;
      }
      match read(e.id) {
        case Body(text, attachments) =>
          var row := RowOf(e, accountId, folder, text, attachments, dateOf(e.id));
          db' := Database.SaveEmail(db', row).value;
          synced := synced + 1;
        case _ =>
      }
      i := i + 1;
    }
    assert db'.emails == db.emails + plan;
  }

  /** At most one row per listed message. */
  lemma {:induction false} PlanBound(rows: seq<Database.EmailRow>, emails: seq<EmailMessage>, accountId: string,
                                     folder: string, read: string -> Fetched, dateOf: string -> string)
    ensures |Plan(rows, emails, accountId, folder, read, dateOf)| <= |emails|
    decreases |emails|
  {
    if |emails| > 0 && !Database.Stored(rows, emails[0].id, accountId) {
      match read(emails[0].id) {
        case Body(text, attachments) =>
          PlanBound(rows + [RowOf(emails[0], accountId, folder, text, attachments, dateOf(emails[0].id))],
                    emails[1..], accountId, folder, read, dateOf);
        case _ =>
          PlanBound(rows, emails[1..], accountId, folder, read, dateOf);
      }
    }
  }

  /** Nothing listed after the first already-stored message is saved. */
  lemma {:induction false} StopsAtFirstStored(rows: seq<Database.EmailRow>, emails: seq<EmailMessage>, k: nat,
                                              accountId: string, folder: string, read: string -> Fetched,
                                              dateOf: string -> string)
    requires k < |emails| && Database.Stored(rows, emails[k].id, accountId)
    ensures Plan(rows, emails, accountId, folder, read, dateOf) == Plan(rows, emails[..k], accountId, folder, read, dateOf)
    decreases k
  {
    if k == 0 {
    } else if !Database.Stored(rows, emails[0].id, accountId) {
      assert emails[..k][0] == emails[0] && emails[..k][1..] == emails[1..][..k - 1];
      match read(emails[0].id) {
        case Body(text, attachments) =>
          var row := RowOf(emails[0], accountId, folder, text, attachments, dateOf(emails[0].id));
          StoredGrows(rows, row, emails[k].id, accountId);
          StopsAtFirstStored(rows + [row], emails[1..], k - 1, accountId, folder, read, dateOf);
        case _ =>
          StopsAtFirstStored(rows, emails[1..], k - 1, accountId, folder, read, dateOf);
      }
    }
  }

  lemma StoredGrows(rows: seq<Database.EmailRow>, row: Database.EmailRow, id: string, accountId: string)
    requires Database.Stored(rows, id, accountId)
    ensures Database.Stored(rows + [row], id, accountId)
  {
    var i :| 0 <= i < |rows| && rows[i].messageId == id && rows[i].accountId == accountId;
    assert (rows + [row])[i] == rows[i];
  }

  /** A message whose read threw or found nothing is skipped and the loop goes on. */
  lemma SkipsFailedReads(rows: seq<Database.EmailRow>, emails: seq<EmailMessage>, accountId: string, folder: string,
                         read: string -> Fetched, dateOf: string -> string)
    requires |emails| > 0 && !Database.Stored(rows, emails[0].id, accountId) && !read(emails[0].id).Body?
    ensures Plan(rows, emails, accountId, folder, read, dateOf) == Plan(rows, emails[1..], accountId, folder, read, dateOf)
  {
  }

  /** The sync never stores a message twice for the account. */
  lemma {:induction false} PlanKeepsUnique(rows: seq<Database.EmailRow>, emails: seq<EmailMessage>, accountId: string,
                                           folder: string, read: string -> Fetched, dateOf: string -> string)
    requires Database.UniquePerAccount(rows)
    ensures Database.UniquePerAccount(rows + Plan(rows, emails, accountId, folder, read, dateOf))
    decreases |emails|
  {
    if |emails| == 0 {
      assert rows + [] == rows;
    } else if !Database.Stored(rows, emails[0].id, accountId) {
      match read(emails[0].id) {
        case Body(text, attachments) =>
          var row := RowOf(emails[0], accountId, folder, text, attachments, dateOf(emails[0].id));
          Database.SaveEmailKeepsUnique(Database.Store(true, rows, {}), row);
          PlanKeepsUnique(rows + [row], emails[1..], accountId, folder, read, dateOf);
          assert rows + [row] + Plan(rows + [row], emails[1..], accountId, folder, read, dateOf)
                 == rows + Plan(rows, emails, accountId, folder, read, dateOf);
        case _ =>
          PlanKeepsUnique(rows, emails[1..], accountId, folder, read, dateOf);
      }
    }
  }

  /** The row was saved for a listed message whose full read succeeded. */
  predicate FromListed(row: Database.EmailRow, emails: seq<EmailMessage>, read: string -> Fetched)
  {
    exists j :: 0 <= j < |emails| && emails[j].id == row.messageId && read(emails[j].id).Body?
  }

  /** Every row belongs to the account and folder and comes from a listed message. */
  predicate AllFromListed(saved: seq<Database.EmailRow>, emails: seq<EmailMessage>, accountId: string, folder: string,
                          read: string -> Fetched)
  {
    forall k :: 0 <= k < |saved| ==>
      saved[k].accountId == accountId && saved[k].folder == folder && FromListed(saved[k], emails, read)
  }

  /** Every saved row belongs to the account and folder and comes from a listed message. */
  lemma {:induction false} PlanRowsFromListed(rows: seq<Database.EmailRow>, emails: seq<EmailMessage>, accountId: string,
                                              folder: string, read: string -> Fetched, dateOf: string -> string)
    ensures AllFromListed(Plan(rows, emails, accountId, folder, read, dateOf), emails, accountId, folder, read)
    decreases |emails|
  {
    if |emails| > 0 && !Database.Stored(rows, emails[0].id, accountId) {
      var e := emails[0];
      var tail := emails[1..];
      match read(e.id) {
        case Body(text, attachments) =>
          var row := RowOf(e, accountId, folder, text, attachments, dateOf(e.id));
          PlanRowsFromListed(rows + [row], tail, accountId, folder, read, dateOf);
          FromListedCons(row, Plan(rows + [row], tail, accountId, folder, read, dateOf), emails, accountId, folder, read);
        case _ =>
          PlanRowsFromListed(rows, tail, accountId, folder, read, dateOf);
          FromListedTail(Plan(rows, tail, accountId, folder, read, dateOf), emails, accountId, folder, read);
      }
    }
  }

  lemma FromListedTail(saved: seq<Database.EmailRow>, emails: seq<EmailMessage>, accountId: string, folder: string,
                       read: string -> Fetched)
    requires |emails| > 0 && AllFromListed(saved, emails[1..], accountId, folder, read)
    ensures AllFromListed(saved, emails, accountId, folder, read)
  {
    forall k | 0 <= k < |saved| ensures FromListed(saved[k], emails, read) {
      var j :| 0 <= j < |emails[1..]| && emails[1..][j].id == saved[k].messageId && read(emails[1..][j].id).Body?;
      assert emails[j + 1] == emails[1..][j];
    }
  }

  lemma FromListedCons(row: Database.EmailRow, saved: seq<Database.EmailRow>, emails: seq<EmailMessage>,
                       accountId: string, folder: string, read: string -> Fetched)
    requires |emails| > 0 && row.messageId == emails[0].id && read(emails[0].id).Body?
    requires row.accountId == accountId && row.folder == folder
    requires AllFromListed(saved, emails[1..], accountId, folder, read)
    ensures AllFromListed([row] + saved, emails, accountId, folder, read)
  {
    FromListedTail(saved, emails, accountId, folder, read);
    assert FromListed(row, emails, read);
    var all := [row] + saved;
    forall k | 0 < k < |all| ensures all[k] == saved[k - 1] {}
  }

  /** When no listed message is stored yet, the ids are distinct and every read succeeds, all are saved. */
  lemma {:induction false} SavesAllFresh(rows: seq<Database.EmailRow>, emails: seq<EmailMessage>, accountId: string,
                                         folder: string, read: string -> Fetched, dateOf: string -> string)
    requires forall j :: 0 <= j < |emails| ==> !Database.Stored(rows, emails[j].id, accountId) && read(emails[j].id).Body?
    requires forall j, k :: 0 <= j < k < |emails| ==> emails[j].id != emails[k].id
    ensures |Plan(rows, emails, accountId, folder, read, dateOf)| == |emails|
    decreases |emails|
  {
    if |emails| > 0 {
      var e := emails[0];
      var row := RowOf(e, accountId, folder, read(e.id).text, read(e.id).attachments, dateOf(e.id));
      var tail := emails[1..];
      forall j | 0 <= j < |tail|
        ensures !Database.Stored(rows + [row], tail[j].id, accountId) && read(tail[j].id).Body?
      {
        assert tail[j] == emails[j + 1];
      }
      forall j, k | 0 <= j < k < |tail| ensures tail[j].id != tail[k].id {
        assert tail[j] == emails[j + 1] && tail[k] == emails[k + 1];
      }
      SavesAllFresh(rows + [row], tail, accountId, folder, read, dateOf);
    }
  }
}

=== FILE: task_engine.dfy ===
// The task engine: the tasks table and the map of scheduled jobs that keeps
// active cron and interval tasks firing.  The database is a map from task id
// to row; the scheduler's job map is a map from task id to job.  The clock,
// the id generator and the cron parser are parameters: `now` is the ISO time
// stamp an operation reads, `id` the UUID `create` draws, and `accepts` says
// whether croner constructs a job for an expression and time zone.
module TaskEngine {
  import opened Wrappers
  import opened Text
  import opened Types

  /** A running job: a croner job, or the `setInterval` fallback (a `None` delay is `NaN`). */
  datatype Job = CronJob(expression: string, timezone: Option<string>) | IntervalTimer(delayMs: Option<int>)

  /** A row of the `tasks` table. */
  datatype Row = Row(task: Task, createdAt: string, updatedAt: string)

  datatype Engine = Engine(rows: map<string, Row>, jobs: map<string, Job>)

  datatype TaskError =
    | NotFound(id: string)
    | DuplicateId(id: string)
    | InvalidCron(expression: string)
    | ExecutionFailed(message: string)

  /** The state after an operation together with its result; a thrown error keeps the writes made before it. */
  datatype Outcome<T> = Outcome(engine: Engine, result: Result<T, TaskError>)

  /** Whether croner accepts an expression with an optional time zone. */
  type CronParser = (string, Option<string>) -> bool

  /** A JavaScript-truthy optional string. */
  predicate Given(o: Option<string>)
  {
    o.Some? && o.value != ""
  }

  /** `x || undefined` on an optional string, as a row reads back. */
  function OrNone(o: Option<string>): (r: Option<string>)
    ensures r.Some? <==> Given(o)
    ensures r.Some? ==> r == o
  {
    if Given(o) then o else None
  }

  // ---------------------------------------------------------------- scheduling

  function TimezoneOrUtc(s: Schedule): string
  {
    if s.timezone == "" then "UTC" else s.timezone
  }

  /** A schedule the engine keeps a job for: cron or interval, with a non-empty value. */
  predicate Recurring(s: Schedule)
  {
    (s.kind == CronSchedule || s.kind == IntervalSchedule) && Given(s.value)
  }

  /** A cron task whose expression croner refuses: scheduling it throws. */
  predicate Rejected(t: Task, accepts: CronParser)
  {
    t.schedule.kind == CronSchedule && Given(t.schedule.value)
    && !accepts(t.schedule.value.value, Some(TimezoneOrUtc(t.schedule)))
  }

  // The cron expression for an interval of `seconds` (`None` is `NaN`): a
  // seconds field stepping by max(1, floor(seconds * 1000 / 1000)), then five stars.
  function IntervalExpression(seconds: Option<int>): string
  {
    var step := match seconds
      case None => "NaN"
      case Some(n) => IntToDecimal(if n < 1 then 1 else n);
    "*/" + step + " * * * * *"
  }

  /** The job scheduling a task starts, if any. */
  function JobFor(t: Task, accepts: CronParser): (j: Option<Job>)
    ensures j.Some? <==> Recurring(t.schedule) && !Rejected(t, accepts)
    ensures j.Some? && t.schedule.kind == CronSchedule ==>
              j.value == CronJob(t.schedule.value.value, Some(TimezoneOrUtc(t.schedule)))
  {
    var s := t.schedule;
    if s.kind == CronSchedule && Given(s.value) then
      if accepts(s.value.value, Some(TimezoneOrUtc(s))) then
        Some(CronJob(s.value.value, Some(TimezoneOrUtc(s))))
      else None
    else if s.kind == IntervalSchedule && Given(s.value) then
      var seconds := ParseInt(s.value.value);
      var expression := IntervalExpression(seconds);
      if accepts(expression, None) then Some(CronJob(expression, None))
      else Some(IntervalTimer(if seconds.Some? then Some(seconds.value * 1000) else None))
    else None
  }

  /** `scheduleTask`: registers the task's job under its id; a rejected cron expression throws. */
  function ScheduleTask(jobs: map<string, Job>, t: Task, accepts: CronParser): (r: Result<map<string, Job>, TaskError>)
    ensures r.Err? <==> Rejected(t, accepts)
    ensures r.Ok? ==> (t.id in r.value <==> t.id in jobs || Recurring(t.schedule))
    ensures r.Ok? ==> forall id :: id != t.id ==> (id in r.value <==> id in jobs)
    ensures r.Ok? ==> forall id :: id != t.id && id in jobs ==> r.value[id] == jobs[id]
  {
    if Rejected(t, accepts) then Err(InvalidCron(t.schedule.value.value))
    else match JobFor(t, accepts)
      case Some(j) => Ok(jobs[t.id := j])
      case None => Ok(jobs)
  }

  /** `unscheduleTask`: stops and forgets the task's job. */
  function Unschedule(jobs: map<string, Job>, id: string): map<string, Job>
  {
    jobs - {id}
  }

  /** The interval fallback: an interval of `n` seconds runs every `max(1, n)` seconds under croner. */
  lemma IntervalJob(t: Task, accepts: CronParser, n: int)
    requires t.schedule.kind == IntervalSchedule && Given(t.schedule.value)
    requires ParseInt(t.schedule.value.value) == Some(n)
    ensures var expression := "*/" + NatToDecimal(if n < 1 then 1 else n) + " * * * * *";
            JobFor(t, accepts) == Some(if accepts(expression, None) then CronJob(expression, None)
                                       else IntervalTimer(Some(n * 1000)))
  {
  }

  /** The step field of an interval's cron expression reads back as the interval, at least one second. */
  lemma IntervalStepReadsBack(n: int)
    ensures var e := IntervalExpression(Some(n));
            e[..2] == "*/" && ParseInt(e[2..]) == Some(if n < 1 then 1 else n)
  {
    var k: nat := if n < 1 then 1 else n;
    var e := IntervalExpression(Some(n));
    assert e == "*/" + NatToDecimal(k) + " * * * * *";
    assert e[2..] == NatToDecimal(k) + " * * * * *";
    ParseIntDecimalPrefix(k, " * * * * *");
  }

  // ---------------------------------------------------------------- consistency

  /** Every row is stored under its task's id. */
  predicate WellKeyed(rows: map<string, Row>)
  {
    forall id :: id in rows ==> rows[id].task.id == id
  }

  /** The job map the scheduler should hold: one job per active task whose schedule yields one. */
  function Expected(rows: map<string, Row>, accepts: CronParser): map<string, Job>
  {
    map id | id in rows && rows[id].task.status == Active && JobFor(rows[id].task, accepts).Some?
      :: JobFor(rows[id].task, accepts).value
  }

  /** The scheduler's jobs are exactly those of the active recurring tasks. */
  predicate Consistent(e: Engine, accepts: CronParser)
  {
    WellKeyed(e.rows) && e.jobs == Expected(e.rows, accepts)
  }

  /** Rescheduling one row keeps the job map in step with the table. */
  lemma RescheduleKeeps(e: Engine, rows': map<string, Row>, id: string, accepts: CronParser)
    requires Consistent(e, accepts)
    requires WellKeyed(rows') && id in rows'
    requires forall x :: x != id ==> (x in rows' <==> x in e.rows)
    requires forall x :: x != id && x in rows' ==> rows'[x] == e.rows[x]
    ensures var jobs1 := Unschedule(e.jobs, id);
            var t := rows'[id].task;
            if t.status == Active then
              ScheduleTask(jobs1, t, accepts).Ok? ==> ScheduleTask(jobs1, t, accepts).value == Expected(rows', accepts)
            else jobs1 == Expected(rows', accepts)
    ensures var t := rows'[id].task;
            t.status == Active && Rejected(t, accepts) ==> Unschedule(e.jobs, id) == Expected(rows', accepts)
  {
    var jobs1 := Unschedule(e.jobs, id);
    var t := rows'[id].task;
    RescheduleExpected(e, rows', id, accepts);
    if t.status == Active && ScheduleTask(jobs1, t, accepts).Ok? {
      assert t.id == id;
      ScheduledJobs(jobs1, t, accepts);
    }
  }

  /** The expected jobs after one row changed: the unscheduled map, plus that row's job if it is active and has one. */
  lemma RescheduleExpected(e: Engine, rows': map<string, Row>, id: string, accepts: CronParser)
    requires Consistent(e, accepts)
    requires id in rows'
    requires forall x :: x != id ==> (x in rows' <==> x in e.rows)
    requires forall x :: x != id && x in rows' ==> rows'[x] == e.rows[x]
    ensures var jobs1, t := Unschedule(e.jobs, id), rows'[id].task;
            Expected(rows', accepts)
            == if t.status == Active && JobFor(t, accepts).Some? then jobs1[id := JobFor(t, accepts).value] else jobs1
  {
    var jobs1 := Unschedule(e.jobs, id);
    var t := rows'[id].task;
    var ex := Expected(rows', accepts);
    ExpectedOffRow(e, rows', id, accepts);
    var m := if t.status == Active && JobFor(t, accepts).Some? then jobs1[id := JobFor(t, accepts).value] else jobs1;
    forall x ensures x in m <==> x in ex {
      if x == id {
        assert x in ex <==> t.status == Active && JobFor(t, accepts).Some?;
      }
    }
    forall x | x in m ensures m[x] == ex[x] {
    }
  }

  /** Away from the changed row, the unscheduled job map already holds exactly the expected jobs. */
  lemma ExpectedOffRow(e: Engine, rows': map<string, Row>, id: string, accepts: CronParser)
    requires Consistent(e, accepts)
    requires forall x :: x != id ==> (x in rows' <==> x in e.rows)
    requires forall x :: x != id && x in rows' ==> rows'[x] == e.rows[x]
    ensures var jobs1, ex := Unschedule(e.jobs, id), Expected(rows', accepts);
            id !in jobs1 && forall x :: x != id ==> (x in jobs1 <==> x in ex) && (x in jobs1 ==> jobs1[x] == ex[x])
  {
    var jobs1, ex := Unschedule(e.jobs, id), Expected(rows', accepts);
    forall x | x != id
      ensures x in jobs1 <==> x in ex
      ensures x in jobs1 ==> jobs1[x] == ex[x]
    {
      if x in rows' {
        assert rows'[x] == e.rows[x];
      }
    }
  }

  // ---------------------------------------------------------------- create

  /** The fields a caller passes to `create`. */
  datatype NewTask = NewTask(
    accountId: string,
    kind: TaskType,
    name: string,
    description: Option<string>,
    schedule: Schedule,
    personaId: Option<string>,
    status: Option<TaskStatus>)

  /** `create`: inserts the row (0 runs, status defaulting to 'active'), then schedules it when active. */
  function Create(e: Engine, id: string, now: string, data: NewTask, accepts: CronParser): (r: Outcome<Task>)
    ensures id in e.rows ==> r == Outcome(e, Err(DuplicateId(id)))
    ensures id !in e.rows ==> id in r.engine.rows && r.engine.rows == e.rows[id := Row(r.engine.rows[id].task, now, now)]
    ensures id !in e.rows ==>
              var t := r.engine.rows[id].task;
              t.id == id && t.runCount == 0 && t.lastRun.None? && t.lastError.None?
              && t.status == (if data.status.Some? then data.status.value else Active)
              && (data.description.Some? ==> t.description == data.description.value)
    ensures r.result.Ok? ==> r.result.value == r.engine.rows[id].task
    ensures r.result.Err? && id !in e.rows ==>
              Given(data.schedule.value) && r.result == Err(InvalidCron(data.schedule.value.value))
  {
    if id in e.rows then Outcome(e, Err(DuplicateId(id)))
    else
      var t := Task(id, data.accountId, data.kind, data.name, data.description.GetOr(""),
                    data.schedule, OrNone(data.personaId), data.status.GetOr(Active),
                    None, None, 0, None);
      var rows := e.rows[id := Row(t, now, now)];
      if t.status == Active then
        match ScheduleTask(e.jobs, t, accepts)
        case Ok(jobs) => Outcome(Engine(rows, jobs), Ok(t))
        case Err(err) => Outcome(Engine(rows, e.jobs), Err(err))
      else Outcome(Engine(rows, e.jobs), Ok(t))
  }

  /** A created task gets a job iff it is active with a cron or interval schedule that has a value. */
  lemma CreateSchedules(e: Engine, id: string, now: string, data: NewTask, accepts: CronParser)
    requires id !in e.rows && id !in e.jobs
    ensures var r := Create(e, id, now, data, accepts);
            r.result.Ok? ==>
              (id in r.engine.jobs <==>
                 (data.status.None? || data.status == Some(Active)) && Recurring(data.schedule))
    ensures data.schedule.kind == Immediate || data.schedule.kind == TriggerSchedule ==>
              id !in Create(e, id, now, data, accepts).engine.jobs
  {
  }

  lemma CreateKeepsConsistent(e: Engine, id: string, now: string, data: NewTask, accepts: CronParser)
    requires Consistent(e, accepts)
    ensures Consistent(Create(e, id, now, data, accepts).engine, accepts)
  {
    if id !in e.rows {
      var r := Create(e, id, now, data, accepts);
      assert WellKeyed(r.engine.rows);
      assert id !in e.jobs;
      assert Unschedule(e.jobs, id) == e.jobs;
      RescheduleKeeps(e, r.engine.rows, id, accepts);
    }
  }

  // ---------------------------------------------------------------- update

  /** A `Partial<Task>`: `None` is an absent field; `parameters` only records whether one was supplied. */
  datatype TaskUpdate = TaskUpdate(
    name: Option<string>,
    description: Option<string>,
    schedule: Option<Schedule>,
    parameters: bool,
    personaId: Option<string>,
    status: Option<TaskStatus>,
    lastRun: Option<string>,
    nextRun: Option<string>,
    lastError: Option<string>)

  function StatusUpdate(status: TaskStatus): TaskUpdate
  {
    TaskUpdate(None, None, None, false, None, Some(status), None, None, None)
  }

  predicate AnySupplied(u: TaskUpdate)
  {
    u.name.Some? || u.description.Some? || u.schedule.Some? || u.parameters || u.personaId.Some?
    || u.status.Some? || u.lastRun.Some? || u.nextRun.Some? || u.lastError.Some?
  }

  /** The task as read back after writing the supplied fields of `u`. */
  function Apply(t: Task, u: TaskUpdate): (r: Task)
    ensures r.id == t.id && r.accountId == t.accountId && r.kind == t.kind && r.runCount == t.runCount
    ensures u.name.None? ==> r.name == t.name
    ensures u.description.None? ==> r.description == t.description
    ensures u.schedule.None? ==> r.schedule == t.schedule
    ensures u.personaId.None? ==> r.personaId == t.personaId
    ensures u.status.None? ==> r.status == t.status
    ensures u.lastRun.None? ==> r.lastRun == t.lastRun
    ensures u.nextRun.None? ==> r.nextRun == t.nextRun
    ensures u.lastError.None? ==> r.lastError == t.lastError
  {
    t.(name := u.name.GetOr(t.name),
       description := u.description.GetOr(t.description),
       schedule := u.schedule.GetOr(t.schedule),
       personaId := if u.personaId.Some? then OrNone(u.personaId) else t.personaId,
       status := u.status.GetOr(t.status),
       lastRun := if u.lastRun.Some? then OrNone(u.lastRun) else t.lastRun,
       nextRun := if u.nextRun.Some? then OrNone(u.nextRun) else t.nextRun,
       lastError := if u.lastError.Some? then OrNone(u.lastError) else t.lastError)
  }

  /** Writing the same fields twice changes nothing more. */
  lemma ApplyIdempotent(t: Task, u: TaskUpdate)
    ensures Apply(Apply(t, u), u) == Apply(t, u)
  {
  }

  /**
   * `update`: an unknown id throws; otherwise the supplied fields are written
   * (with `updated_at` only when there is one), the job is dropped, and the
   * task is scheduled again when the result is active.
   */
  function Update(e: Engine, id: string, u: TaskUpdate, now: string, accepts: CronParser): (r: Outcome<Task>)
    ensures id !in e.rows ==> r == Outcome(e, Err(NotFound(id)))
    ensures id in e.rows ==> r.engine.rows.Keys == e.rows.Keys
    ensures id in e.rows ==> forall x :: x in e.rows && x != id ==> r.engine.rows[x] == e.rows[x]
    ensures id in e.rows ==> r.engine.rows[id].task == Apply(e.rows[id].task, u)
    ensures id in e.rows ==> r.engine.rows[id].createdAt == e.rows[id].createdAt
    ensures r.result.Ok? ==> r.result.value == r.engine.rows[id].task
    ensures id in e.rows && r.engine.rows[id].task.status != Active ==> id !in r.engine.jobs && r.result.Ok?
    ensures r.result.Err? && id in e.rows ==> Rejected(r.engine.rows[id].task, accepts) && id !in r.engine.jobs
  {
    if id !in e.rows then Outcome(e, Err(NotFound(id)))
    else
      var row := e.rows[id];
      var rows := if AnySupplied(u) then e.rows[id := Row(Apply(row.task, u), row.createdAt, now)] else e.rows;
      var updated := rows[id].task;
      var jobs := Unschedule(e.jobs, id);
      if updated.status == Active then
        match ScheduleTask(jobs, updated, accepts)
        case Ok(jobs') => Outcome(Engine(rows, jobs'), Ok(updated))
        case Err(err) => Outcome(Engine(rows, jobs), Err(err))
      else Outcome(Engine(rows, jobs), Ok(updated))
  }

  /** `updated_at` moves to the current time iff some field was supplied. */
  lemma UpdateStampsOnlyWrites(e: Engine, id: string, u: TaskUpdate, now: string, accepts: CronParser)
    requires id in e.rows && e.rows[id].updatedAt != now
    ensures Update(e, id, u, now, accepts).engine.rows[id].updatedAt == now <==> AnySupplied(u)
  {
  }

  /** An update that supplies nothing leaves the table as it was. */
  lemma EmptyUpdateKeepsRows(e: Engine, id: string, now: string, accepts: CronParser)
    requires WellKeyed(e.rows) && id in e.rows
    ensures var none := TaskUpdate(None, None, None, false, None, None, None, None, None);
            Update(e, id, none, now, accepts).engine.rows == e.rows
  {
  }

  lemma UpdateKeepsConsistent(e: Engine, id: string, u: TaskUpdate, now: string, accepts: CronParser)
    requires Consistent(e, accepts)
    ensures Consistent(Update(e, id, u, now, accepts).engine, accepts)
  {
    if id in e.rows {
      var r := Update(e, id, u, now, accepts);
      assert WellKeyed(r.engine.rows);
      RescheduleKeeps(e, r.engine.rows, id, accepts);
      var t := r.engine.rows[id].task;
      if t.status == Active && Rejected(t, accepts) {
        assert r.engine.jobs == Unschedule(e.jobs, id);
      }
    }
  }

  // ---------------------------------------------------------------- delete, pause, resume

  /** `delete`: drops the job, then the row; an unknown id is not an error. */
  function Delete(e: Engine, id: string): (r: Engine)
    ensures id !in r.rows && id !in r.jobs
    ensures forall x :: x != id ==> (x in r.rows <==> x in e.rows) && (x in r.jobs <==> x in e.jobs)
  {
    Engine(e.rows - {id}, Unschedule(e.jobs, id))
  }

  lemma DeleteKeepsConsistent(e: Engine, id: string, accepts: CronParser)
    requires Consistent(e, accepts)
    ensures Consistent(Delete(e, id), accepts)
  {
    var r := Delete(e, id);
    forall x ensures x in r.jobs <==> x in Expected(r.rows, accepts) {
    }
  }

  function Pause(e: Engine, id: string, now: string, accepts: CronParser): (r: Outcome<Task>)
    ensures id !in e.rows ==> r == Outcome(e, Err(NotFound(id)))
    ensures id in e.rows ==> r.result.Ok? && r.result.value.status == Paused && id !in r.engine.jobs
    ensures id in e.rows ==>
              r.engine.rows.Keys == e.rows.Keys && forall x :: x in e.rows && x != id ==> r.engine.rows[x] == e.rows[x]
  {
    Update(e, id, StatusUpdate(Paused), now, accepts)
  }

  function Resume(e: Engine, id: string, now: string, accepts: CronParser): (r: Outcome<Task>)
    ensures id !in e.rows ==> r == Outcome(e, Err(NotFound(id)))
    ensures id in e.rows ==> id in r.engine.rows && r.engine.rows[id].task.status == Active
    ensures id in e.rows ==>
              r.engine.rows.Keys == e.rows.Keys && forall x :: x in e.rows && x != id ==> r.engine.rows[x] == e.rows[x]
    ensures r.result.Err? && id in e.rows ==> Rejected(r.engine.rows[id].task, accepts) && id !in r.engine.jobs
  {
    Update(e, id, StatusUpdate(Active), now, accepts)
  }

  /** Pausing a known task always succeeds and leaves it without a job. */
  lemma PauseStopsJob(e: Engine, id: string, now: string, accepts: CronParser)
    requires id in e.rows
    ensures var r := Pause(e, id, now, accepts);
            r.result.Ok? && r.result.value.status == Paused && id !in r.engine.jobs
  {
  }

  /** Resuming a known task gives it a job iff its schedule yields one; a rejected cron expression throws. */
  lemma ResumeRestartsJob(e: Engine, id: string, now: string, accepts: CronParser)
    requires WellKeyed(e.rows) && id in e.rows
    ensures var r := Resume(e, id, now, accepts);
            var t := e.rows[id].task;
            r.engine.rows[id].task.status == Active
            && (r.result.Err? <==> Rejected(t, accepts))
            && (id in r.engine.jobs <==> JobFor(t, accepts).Some?)
  {
    var r := Resume(e, id, now, accepts);
    var t := e.rows[id].task;
    assert r.engine.rows[id].task == t.(status := Active);
    assert r.engine.rows[id].task.id == id;
  }

  // ---------------------------------------------------------------- execute

  /** Where the body of `execute` throws, if at all: before or after the reset to 'active'. */
  datatype Fault = NoFault | BeforeReset(message: string) | AfterReset(message: string)

  /** The raw reset after a run: one more run, status 'active', no error, `updated_at` now. */
  function Reset(row: Row, now: string): Row
  {
    Row(row.task.(runCount := row.task.runCount + 1, status := Active, lastError := None), row.createdAt, now)
  }

  /** The catch branch: mark the task failed with the message, and rethrow. */
  function Fail(e: Engine, id: string, message: string, now: string, accepts: CronParser): Outcome<()>
  {
    FailWith(e, id, message, ExecutionFailed(message), now, accepts)
  }

  function FailWith(e: Engine, id: string, message: string, err: TaskError, now: string, accepts: CronParser): Outcome<()>
  {
    var failed := TaskUpdate(None, None, None, false, None, Some(Failed), None, None, Some(message));
    Outcome(Update(e, id, failed, now, accepts).engine, Err(err))
  }

  /** `execute` as written: the reset to 'active' is a raw write that never reschedules. */
  function ExecuteAsWritten(e: Engine, id: string, now: string, fault: Fault, accepts: CronParser): (r: Outcome<()>)
    ensures id !in e.rows ==> r == Outcome(e, Err(NotFound(id)))
    ensures id in e.rows ==> id !in r.engine.jobs
    ensures id in e.rows ==> r.engine.rows.Keys == e.rows.Keys
    ensures id in e.rows ==> forall x :: x in e.rows && x != id ==> r.engine.rows[x] == e.rows[x]
    ensures id in e.rows ==> (r.result.Ok? <==> fault.NoFault?)
    ensures id in e.rows && r.result.Ok? ==>
              var t := r.engine.rows[id].task;
              t.runCount == e.rows[id].task.runCount + 1 && t.status == Active && t.lastError.None?
              && t.lastRun == OrNone(Some(now))
    ensures id in e.rows && r.result.Err? ==>
              r.result == Err(ExecutionFailed(fault.message))
              && r.engine.rows[id].task.status == Failed
              && r.engine.rows[id].task.lastError == OrNone(Some(fault.message))
  {
    if id !in e.rows then Outcome(e, Err(NotFound(id)))
    else
      var running := TaskUpdate(None, None, None, false, None, Some(Running), Some(now), None, None);
      var e1 := Update(e, id, running, now, accepts).engine;
      if fault.BeforeReset? then Fail(e1, id, fault.message, now, accepts)
      else
        var e2 := Engine(e1.rows[id := Reset(e1.rows[id], now)], e1.jobs);
        if fault.AfterReset? then Fail(e2, id, fault.message, now, accepts)
        else Outcome(e2, Ok(()))
  }

  /**
   * A scheduled task runs once: after its first successful run it is 'active'
   * again, yet it has no job, so the scheduler is out of step with the table.
   */
  lemma RecurringTaskRunsOnce(e: Engine, id: string, now: string, accepts: CronParser)
    requires Consistent(e, accepts) && id in e.jobs
    ensures var r := ExecuteAsWritten(e, id, now, NoFault, accepts);
            r.result.Ok? && r.engine.rows[id].task.status == Active
            && id !in r.engine.jobs && !Consistent(r.engine, accepts)
  {
    var r := ExecuteAsWritten(e, id, now, NoFault, accepts);
    assert id in Expected(e.rows, accepts);
    var t := r.engine.rows[id].task;
    assert t.schedule == e.rows[id].task.schedule;
    assert JobFor(t, accepts) == JobFor(e.rows[id].task, accepts);
    assert id in Expected(r.engine.rows, accepts);
  }

  /** `execute` with the reset followed by rescheduling, as the 'active' status promises. */
  function Execute(e: Engine, id: string, now: string, fault: Fault, accepts: CronParser): (r: Outcome<()>)
    ensures id !in e.rows ==> r == Outcome(e, Err(NotFound(id)))
    ensures id in e.rows ==> r.engine.rows.Keys == e.rows.Keys
    ensures id in e.rows ==> forall x :: x in e.rows && x != id ==> r.engine.rows[x] == e.rows[x]
    ensures id in e.rows && r.result.Ok? ==>
              var t := r.engine.rows[id].task;
              t.runCount == e.rows[id].task.runCount + 1 && t.status == Active && t.lastError.None?
              && t.lastRun == OrNone(Some(now))
    ensures id in e.rows && r.result.Err? ==> r.engine.rows[id].task.status == Failed && id !in r.engine.jobs
  {
    if id !in e.rows then Outcome(e, Err(NotFound(id)))
    else
      var running := TaskUpdate(None, None, None, false, None, Some(Running), Some(now), None, None);
      var e1 := Update(e, id, running, now, accepts).engine;
      if fault.BeforeReset? then Fail(e1, id, fault.message, now, accepts)
      else
        var row := Reset(e1.rows[id], now);
        var e2 := Engine(e1.rows[id := row], e1.jobs);
        if fault.AfterReset? then Fail(e2, id, fault.message, now, accepts)
        else match ScheduleTask(e2.jobs, row.task, accepts)
          case Ok(jobs) => Outcome(Engine(e2.rows, jobs), Ok(()))
          case Err(err) => FailWith(e2, id, err.expression, err, now, accepts)
  }

  /**
   * The as-written and the corrected `execute` leave the same table and give
   * the same answer whenever croner accepts the task's schedule; they differ
   * only in the job map.
   */
  lemma ExecuteAsWrittenAgreesOnRows(e: Engine, id: string, now: string, fault: Fault, accepts: CronParser)
    requires id in e.rows ==> !Rejected(e.rows[id].task, accepts)
    ensures ExecuteAsWritten(e, id, now, fault, accepts).engine.rows == Execute(e, id, now, fault, accepts).engine.rows
    ensures ExecuteAsWritten(e, id, now, fault, accepts).result == Execute(e, id, now, fault, accepts).result
  {
  }

  /** A failing run records the error message and marks the task failed. */
  lemma ExecuteFailureRecorded(e: Engine, id: string, now: string, fault: Fault, accepts: CronParser)
    requires id in e.rows && !fault.NoFault?
    ensures var r := Execute(e, id, now, fault, accepts);
            r.result == Err(ExecutionFailed(fault.message))
            && r.engine.rows[id].task.lastError == OrNone(Some(fault.message))
            && r.engine.rows[id].task.runCount == e.rows[id].task.runCount + (if fault.AfterReset? then 1 else 0)
  {
  }

  /** The corrected `execute` keeps the scheduler in step with the table. */
  lemma ExecuteKeepsConsistent(e: Engine, id: string, now: string, fault: Fault, accepts: CronParser)
    requires Consistent(e, accepts)
    ensures Consistent(Execute(e, id, now, fault, accepts).engine, accepts)
  {
    if id in e.rows {
      var running := TaskUpdate(None, None, None, false, None, Some(Running), Some(now), None, None);
      UpdateKeepsConsistent(e, id, running, now, accepts);
      var e1 := Update(e, id, running, now, accepts).engine;
      if fault.BeforeReset? {
        var failed := TaskUpdate(None, None, None, false, None, Some(Failed), None, None, Some(fault.message));
        UpdateKeepsConsistent(e1, id, failed, now, accepts);
      } else {
        var row := Reset(e1.rows[id], now);
        var e2 := Engine(e1.rows[id := row], e1.jobs);
        assert id !in e1.jobs;
        assert WellKeyed(e2.rows);
        assert Unschedule(e1.jobs, id) == e1.jobs;
        RescheduleKeeps(e1, e2.rows, id, accepts);
        if fault.AfterReset? || ScheduleTask(e2.jobs, row.task, accepts).Err? {
          // e2 may be out of step (the task is active without its job); the failure update repairs that.
          var m := if fault.AfterReset? then fault.message else row.task.schedule.value.value;
          var u := TaskUpdate(None, None, None, false, None, Some(Failed), None, None, Some(m));
          UpdateRepairs(e1, e2, id, u, now, accepts);
        }
      }
    }
  }

  /**
   * The corrected counterpart of `RecurringTaskRunsOnce`: after a clean run a
   * scheduled task is 'active' again and still has its job.
   */
  lemma ExecuteKeepsJob(e: Engine, id: string, now: string, accepts: CronParser)
    requires Consistent(e, accepts) && id in e.jobs
    ensures var r := Execute(e, id, now, NoFault, accepts);
            r.result.Ok? && r.engine.rows[id].task.status == Active && id in r.engine.jobs
  {
    ExecuteKeepsConsistent(e, id, now, NoFault, accepts);
    var r := Execute(e, id, now, NoFault, accepts);
    assert id in Expected(e.rows, accepts);
    var t := r.engine.rows[id].task;
    assert t.schedule == e.rows[id].task.schedule;
    assert JobFor(t, accepts) == JobFor(e.rows[id].task, accepts);
    assert id in Expected(r.engine.rows, accepts);
  }

  /** Updating the one row that differs from a consistent state to a non-active status restores consistency. */
  lemma UpdateRepairs(e1: Engine, e2: Engine, id: string, u: TaskUpdate, now: string, accepts: CronParser)
    requires Consistent(e1, accepts) && id in e1.rows && id !in e1.jobs
    requires e2.jobs == e1.jobs && e2.rows.Keys == e1.rows.Keys && WellKeyed(e2.rows)
    requires forall x :: x in e1.rows && x != id ==> e2.rows[x] == e1.rows[x]
    requires u.status.Some? && u.status.value != Active
    ensures Consistent(Update(e2, id, u, now, accepts).engine, accepts)
  {
    var r := Update(e2, id, u, now, accepts);
    assert r.engine.rows[id].task.status != Active;
    assert r.engine.jobs == Unschedule(e2.jobs, id) == e1.jobs;
    assert WellKeyed(r.engine.rows) by {
      forall x | x in r.engine.rows ensures r.engine.rows[x].task.id == x {
        if x == id {
          assert r.engine.rows[id].task == Apply(e2.rows[id].task, u);
        }
      }
    }
    ExpectedIgnoresInactive(e1.rows, r.engine.rows, id, accepts);
  }

  /** Rows that agree except on one row that is not active, and has no job before, expect the same jobs. */
  lemma ExpectedIgnoresInactive(rows1: map<string, Row>, rows2: map<string, Row>, id: string, accepts: CronParser)
    requires rows1.Keys == rows2.Keys && id in rows2
    requires forall x :: x in rows1 && x != id ==> rows2[x] == rows1[x]
    requires rows2[id].task.status != Active && id !in Expected(rows1, accepts)
    ensures Expected(rows2, accepts) == Expected(rows1, accepts)
  {
    var a, b := Expected(rows2, accepts), Expected(rows1, accepts);
    forall x ensures x in a <==> x in b {
      if x != id && x in rows1 {
        assert rows2[x] == rows1[x];
      }
    }
    forall x | x in a ensures a[x] == b[x] {
      assert rows2[x] == rows1[x];
    }
  }

  // ---------------------------------------------------------------- start, stop

  /** `stopScheduler`: every job is stopped and the map emptied; the table is untouched. */
  function StopScheduler(e: Engine): (r: Engine)
    ensures r.jobs == map[] && r.rows == e.rows
  {
    Engine(e.rows, map[])
  }

  /**
   * What the loop of `startScheduler` has done after its first `i` rows: none
   * of them was rejected, each has its job, and every other job is untouched.
   */
  predicate StartedUpTo(e: Engine, active: seq<string>, i: int, jobs: map<string, Job>, accepts: CronParser)
  {
    Visited(e, active, i, accepts) && JobsPlaced(e, active, i, jobs, accepts) && JobsBounded(e, active, i, jobs, accepts)
  }

  predicate Visited(e: Engine, active: seq<string>, i: int, accepts: CronParser)
  {
    0 <= i <= |active| && forall k :: 0 <= k < i ==> active[k] in e.rows && !Rejected(e.rows[active[k]].task, accepts)
  }

  predicate JobsPlaced(e: Engine, active: seq<string>, i: int, jobs: map<string, Job>, accepts: CronParser)
  {
    forall k :: 0 <= k < i && k < |active| && active[k] in e.rows && JobFor(e.rows[active[k]].task, accepts).Some? ==>
      active[k] in jobs && jobs[active[k]] == JobFor(e.rows[active[k]].task, accepts).value
  }

  predicate JobsBounded(e: Engine, active: seq<string>, i: int, jobs: map<string, Job>, accepts: CronParser)
  {
    && 0 <= i <= |active|
    && (forall x :: x in jobs ==> x in e.jobs || x in active[..i])
    && (forall x :: x in jobs && x !in e.jobs ==> x in e.rows && JobFor(e.rows[x].task, accepts).Some?)
    && (forall x :: x in e.jobs && x !in active ==> x in jobs && jobs[x] == e.jobs[x])
  }

  /** An accepted `scheduleTask` sets the task's job when it has one and changes nothing otherwise. */
  lemma ScheduledJobs(jobs: map<string, Job>, t: Task, accepts: CronParser)
    requires ScheduleTask(jobs, t, accepts).Ok?
    ensures ScheduleTask(jobs, t, accepts).value
            == if JobFor(t, accepts).Some? then jobs[t.id := JobFor(t, accepts).value] else jobs
  {
  }

  /** One accepted row of the loop: scheduling it extends what was done by that row. */
  lemma StartStep(e: Engine, active: seq<string>, i: int, jobs: map<string, Job>, accepts: CronParser)
    requires WellKeyed(e.rows)
    requires forall k :: 0 <= k < |active| ==> active[k] in e.rows
    requires StartedUpTo(e, active, i, jobs, accepts) && i < |active|
    requires ScheduleTask(jobs, e.rows[active[i]].task, accepts).Ok?
    ensures StartedUpTo(e, active, i + 1, ScheduleTask(jobs, e.rows[active[i]].task, accepts).value, accepts)
  {
    var t := e.rows[active[i]].task;
    assert t.id == active[i];
    ScheduledJobs(jobs, t, accepts);
    StepVisited(e, active, i, jobs, accepts);
    StepPlaced(e, active, i, jobs, accepts);
    StepBounded(e, active, i, jobs, accepts);
  }

  lemma StepVisited(e: Engine, active: seq<string>, i: int, jobs: map<string, Job>, accepts: CronParser)
    requires Visited(e, active, i, accepts) && i < |active| && active[i] in e.rows
    requires ScheduleTask(jobs, e.rows[active[i]].task, accepts).Ok?
    ensures Visited(e, active, i + 1, accepts)
  {
  }

  lemma StepPlaced(e: Engine, active: seq<string>, i: int, jobs: map<string, Job>, accepts: CronParser)
    requires JobsPlaced(e, active, i, jobs, accepts) && 0 <= i < |active| && active[i] in e.rows
    requires e.rows[active[i]].task.id == active[i]
    requires ScheduleTask(jobs, e.rows[active[i]].task, accepts).Ok?
    ensures JobsPlaced(e, active, i + 1, ScheduleTask(jobs, e.rows[active[i]].task, accepts).value, accepts)
  {
    var id := active[i];
    var t := e.rows[id].task;
    var jobs' := ScheduleTask(jobs, t, accepts).value;
    ScheduledJobs(jobs, t, accepts);
    forall k | 0 <= k < i + 1 && active[k] in e.rows && JobFor(e.rows[active[k]].task, accepts).Some?
      ensures active[k] in jobs' && jobs'[active[k]] == JobFor(e.rows[active[k]].task, accepts).value
    {
      if active[k] != id {
        assert k < i;
      }
    }
  }

  lemma StepBounded(e: Engine, active: seq<string>, i: int, jobs: map<string, Job>, accepts: CronParser)
    requires JobsBounded(e, active, i, jobs, accepts) && i < |active| && active[i] in e.rows
    requires e.rows[active[i]].task.id == active[i]
    requires ScheduleTask(jobs, e.rows[active[i]].task, accepts).Ok?
    ensures JobsBounded(e, active, i + 1, ScheduleTask(jobs, e.rows[active[i]].task, accepts).value, accepts)
  {
    var id := active[i];
    var t := e.rows[id].task;
    var jobs' := ScheduleTask(jobs, t, accepts).value;
    ScheduledJobs(jobs, t, accepts);
    assert active[..i + 1] == active[..i] + [id];
    forall x | x in jobs' ensures x in e.jobs || x in active[..i + 1] {
      if x != id {
        assert x in jobs;
      }
    }
  }

  /**
   * `startScheduler`: schedules each active row in the order the query returns
   * them; the first rejected cron expression throws and ends the loop.
   */
  method StartScheduler(e: Engine, active: seq<string>, accepts: CronParser) returns (r: Outcome<()>)
    requires WellKeyed(e.rows)
    requires forall i :: 0 <= i < |active| ==> active[i] in e.rows && e.rows[active[i]].task.status == Active
    ensures r.engine.rows == e.rows
    ensures r.result.Ok? <==> forall i :: 0 <= i < |active| ==> !Rejected(e.rows[active[i]].task, accepts)
    ensures r.result.Ok? ==> forall i :: 0 <= i < |active| && JobFor(e.rows[active[i]].task, accepts).Some? ==>
              active[i] in r.engine.jobs && r.engine.jobs[active[i]] == JobFor(e.rows[active[i]].task, accepts).value
    ensures forall x :: x in r.engine.jobs ==> x in e.jobs || x in active
    ensures forall x :: x in r.engine.jobs && x !in e.jobs ==> x in e.rows && JobFor(e.rows[x].task, accepts).Some?
    ensures forall x :: x in e.jobs && x !in active ==> x in r.engine.jobs && r.engine.jobs[x] == e.jobs[x]
  {
    var jobs := e.jobs;
    var i := 0;
    while i < |active|
      invariant StartedUpTo(e, active, i, jobs, accepts)
    {
      var t := e.rows[active[i]].task;
      match ScheduleTask(jobs, t, accepts)
      case Err(err) =>
        assert Rejected(e.rows[active[i]].task, accepts);
        return Outcome(Engine(e.rows, jobs), Err(err));
      case Ok(jobs') =>
        StartStep(e, active, i, jobs, accepts);
        jobs := jobs';
      i := i + 1;
    }
    assert active[..i] == active;
    r := Outcome(Engine(e.rows, jobs), Ok(()));
  }

  /** Stopping and then starting the scheduler over the active rows leaves it in step with the table. */
  method Restart(e: Engine, active: seq<string>, accepts: CronParser) returns (r: Outcome<()>)
    requires WellKeyed(e.rows)
    requires forall i :: 0 <= i < |active| ==> active[i] in e.rows && e.rows[active[i]].task.status == Active
    requires forall id :: id in e.rows && e.rows[id].task.status == Active ==> id in active
    ensures r.result.Ok? ==> Consistent(r.engine, accepts)
  {
    r := StartScheduler(StopScheduler(e), active, accepts);
    if r.result.Ok? {
      var ex := Expected(e.rows, accepts);
      forall x ensures x in r.engine.jobs <==> x in ex {
        if x in ex {
          var i :| 0 <= i < |active| && active[i] == x;
        }
      }
      forall x | x in ex ensures r.engine.jobs[x] == ex[x] {
        var i :| 0 <= i < |active| && active[i] == x;
      }
    }
  }
}

=== FILE: text.dfy ===
/**
 * String and byte helpers shared by the model: hexadecimal in the form Node's
 * `Buffer` writes and reads it, ASCII case folding, decimal rendering and the
 * `parseInt(s, 10)` prefix parser, substring search and joining.
 */
module Text {
  import opened Wrappers

  type byte = x: int | 0 <= x < 256

  // ---------------------------------------------------------------- hex

  /** Value of a hexadecimal digit in either case. */
  function HexValue(c: char): Option<nat>
  {
    if '0' <= c <= '9' then Some(c as int - '0' as int)
    else if 'a' <= c <= 'f' then Some(c as int - 'a' as int + 10)
    else if 'A' <= c <= 'F' then Some(c as int - 'A' as int + 10)
    else None
  }

  predicate IsLowerHexChar(c: char)
  {
    '0' <= c <= '9' || 'a' <= c <= 'f'
  }

  predicate IsLowerHex(s: string)
  {
    forall i :: 0 <= i < |s| ==> IsLowerHexChar(s[i])
  }

  /** The lower-case digit Node emits for a nibble. */
  function HexChar(n: nat): (c: char)
    requires n < 16
    ensures IsLowerHexChar(c) && HexValue(c) == Some(n)
  {
    if n < 10 then ('0' as int + n) as char else ('a' as int + n - 10) as char
  }

  /** `buf.toString('hex')`: two lower-case digits per byte. */
  function HexEncode(bs: seq<byte>): (s: string)
    ensures |s| == 2 * |bs|
    ensures IsLowerHex(s)
  {
    if |bs| == 0 then ""
    else [HexChar(bs[0] / 16), HexChar(bs[0] % 16)] + HexEncode(bs[1..])
  }

  /**
   * `Buffer.from(s, 'hex')`: decodes digit pairs from the left and stops at the
   * first pair that is not two hex digits; a trailing odd digit is dropped.
   */
  function HexDecode(s: string): (bs: seq<byte>)
    ensures |bs| <= |s| / 2
    ensures IsLowerHex(s) ==> |bs| == |s| / 2
  {
    if |s| < 2 then []
    else match (HexValue(s[0]), HexValue(s[1]))
      case (Some(hi), Some(lo)) => [hi * 16 + lo] + HexDecode(s[2..])
      case _ => []
  }

  lemma {:induction false} HexDecodeEncode(bs: seq<byte>)
    ensures HexDecode(HexEncode(bs)) == bs
  {
    if |bs| > 0 {
      var s := HexEncode(bs);
      assert s[2..] == HexEncode(bs[1..]);
      HexDecodeEncode(bs[1..]);
    }
  }

  lemma {:induction false} HexEncodeDecode(s: string)
    requires |s| % 2 == 0 && IsLowerHex(s)
    ensures HexEncode(HexDecode(s)) == s
  {
    if |s| >= 2 {
      assert IsLowerHexChar(s[0]) && IsLowerHexChar(s[1]);
      assert IsLowerHex(s[2..]) by {
        forall i | 0 <= i < |s[2..]| ensures IsLowerHexChar(s[2..][i]) {
          assert s[2..][i] == s[i + 2];
        }
      }
      HexEncodeDecode(s[2..]);
      var hi := HexValue(s[0]).value;
      var lo := HexValue(s[1]).value;
      var b := hi * 16 + lo;
      assert HexDecode(s) == [b] + HexDecode(s[2..]);
      assert b / 16 == hi && b % 16 == lo;
      assert HexChar(hi) == s[0] && HexChar(lo) == s[1];
      assert HexEncode(HexDecode(s)) == [s[0], s[1]] + s[2..];
    }
  }

  // ---------------------------------------------------------------- length

  /** A character JavaScript stores as one UTF-16 code unit: one of the Basic Multilingual Plane. */
  predicate InBmp(c: char)
  {
    c as int < 0x1_0000
  }

  /**
   * JavaScript's `s.length`, which counts UTF-16 code units: one for a
   * character of the Basic Multilingual Plane, two (a surrogate pair) for any
   * other.
   */
  function Utf16Length(s: string): (n: nat)
    ensures |s| <= n <= 2 * |s|
  {
    if |s| == 0 then 0 else (if InBmp(s[0]) then 1 else 2) + Utf16Length(s[1..])
  }

  /** The code-unit length is the number of characters exactly when every character lies in the Basic Multilingual Plane. */
  lemma {:induction false} Utf16LengthBmp(s: string)
    ensures Utf16Length(s) == |s| <==> forall i :: 0 <= i < |s| ==> InBmp(s[i])
  {
    if |s| > 0 {
      Utf16LengthBmp(s[1..]);
      if InBmp(s[0]) && forall i :: 0 <= i < |s[1..]| ==> InBmp(s[1..][i]) {
        forall i | 0 <= i < |s| ensures InBmp(s[i]) {
          if i > 0 { assert s[i] == s[1..][i - 1]; }
        }
      }
      if forall i :: 0 <= i < |s| ==> InBmp(s[i]) {
        assert InBmp(s[0]);
        forall i | 0 <= i < |s[1..]| ensures InBmp(s[1..][i]) {
          assert s[1..][i] == s[i + 1];
        }
      }
    }
  }

  /** Text made only of characters outside the Basic Multilingual Plane has twice as many code units as characters. */
  lemma {:induction false} Utf16LengthAstral(s: string)
    requires forall i :: 0 <= i < |s| ==> !InBmp(s[i])
    ensures Utf16Length(s) == 2 * |s|
  {
    if |s| > 0 {
      assert !InBmp(s[0]);
      forall i | 0 <= i < |s[1..]| ensures !InBmp(s[1..][i]) {
        assert s[1..][i] == s[i + 1];
      }
      Utf16LengthAstral(s[1..]);
    }
  }

  // ---------------------------------------------------------------- case

  function LowerChar(c: char): char
  {
    if 'A' <= c <= 'Z' then (c as int + 32) as char else c
  }

  /** `toLowerCase` restricted to ASCII letters; other characters are kept. */
  function Lower(s: string): (r: string)
    ensures |r| == |s|
  {
    seq(|s|, i requires 0 <= i < |s| => LowerChar(s[i]))
  }

  /** Lower-casing twice is lower-casing once. */
  lemma LowerIdempotent(s: string)
    ensures Lower(Lower(s)) == Lower(s)
  {
    forall i | 0 <= i < |s| ensures Lower(Lower(s))[i] == Lower(s)[i] {
      var c := s[i];
      assert Lower(s)[i] == LowerChar(c);
    }
  }

  // ---------------------------------------------------------------- search

  predicate OccursAt<T(==)>(s: seq<T>, sub: seq<T>, i: int)
  {
    0 <= i && i + |sub| <= |s| && s[i..i + |sub|] == sub
  }

  /** The first index at or after `from` where `sub` occurs. */
  function IndexOfFrom<T(==)>(s: seq<T>, sub: seq<T>, from: nat): (r: Option<nat>)
    decreases |s| - from
  {
    if from + |sub| > |s| then None
    else if s[from..from + |sub|] == sub then Some(from)
    else IndexOfFrom(s, sub, from + 1)
  }

  lemma {:induction false} IndexOfFromSpec<T>(s: seq<T>, sub: seq<T>, from: nat)
    ensures IndexOfFrom(s, sub, from).Some? ==>
              var i := IndexOfFrom(s, sub, from).value;
              from <= i && OccursAt(s, sub, i) &&
              forall j :: from <= j < i ==> !OccursAt(s, sub, j)
    ensures IndexOfFrom(s, sub, from).None? ==>
              forall j :: from <= j ==> !OccursAt(s, sub, j)
    decreases |s| - from
  {
    if from + |sub| > |s| {
    } else if s[from..from + |sub|] == sub {
    } else {
      IndexOfFromSpec(s, sub, from + 1);
    }
  }

  /** `s.indexOf(sub)`, as an option. */
  function IndexOf<T(==)>(s: seq<T>, sub: seq<T>): (r: Option<nat>)
    ensures r.Some? ==> OccursAt(s, sub, r.value) && forall j :: 0 <= j < r.value ==> !OccursAt(s, sub, j)
    ensures r.None? ==> forall j :: !OccursAt(s, sub, j)
  {
    IndexOfFromSpec(s, sub, 0);
    IndexOfFrom(s, sub, 0)
  }

  /** `s.includes(sub)`. */
  predicate Contains<T(==)>(s: seq<T>, sub: seq<T>)
  {
    IndexOf(s, sub).Some?
  }

  lemma ContainsIff<T>(s: seq<T>, sub: seq<T>)
    ensures Contains(s, sub) <==> exists i :: OccursAt(s, sub, i)
  {
    IndexOfFromSpec(s, sub, 0);
  }

  /** `s.replace(sub, rep)` with a string pattern: only the first occurrence. */
  function ReplaceFirst(s: string, sub: string, rep: string): string
  {
    match IndexOf(s, sub)
    case None => s
    case Some(i) =>
      if i + |sub| <= |s| then s[..i] + rep + s[i + |sub|..] else s
  }

  // ---------------------------------------------------------------- join

  /** `xs.join(sep)`. */
  function Join(xs: seq<string>, sep: string): string
  {
    if |xs| == 0 then ""
    else if |xs| == 1 then xs[0]
    else xs[0] + sep + Join(xs[1..], sep)
  }

  // ---------------------------------------------------------------- split

  /** `s.split(sep)` for a one-character separator: the pieces between separators, at least one. */
  function Split(s: string, sep: char): (parts: seq<string>)
    ensures |parts| >= 1
    ensures forall i :: 0 <= i < |parts| ==> sep !in parts[i]
  {
    if s == [] then [""]
    else
      var rest := Split(s[1..], sep);
      if s[0] == sep then [""] + rest
      else [[s[0]] + rest[0]] + rest[1..]
  }

  /** Joining the pieces with the separator gives the string back. */
  lemma {:induction false} JoinSplit(s: string, sep: char)
    ensures Join(Split(s, sep), [sep]) == s
  {
    if s != [] {
      var rest := Split(s[1..], sep);
      JoinSplit(s[1..], sep);
      if s[0] == sep {
        assert Split(s, sep) == [""] + rest;
        assert ([""] + rest)[1..] == rest;
      } else {
        var parts := Split(s, sep);
        assert parts == [[s[0]] + rest[0]] + rest[1..];
        if |rest| == 1 {
          assert Join(rest, [sep]) == rest[0];
        } else {
          assert Join(rest, [sep]) == rest[0] + [sep] + Join(rest[1..], [sep]);
          assert parts[1..] == rest[1..];
        }
      }
    }
  }

  /** A string without the separator is one piece. */
  lemma {:induction false} SplitWithoutSeparator(s: string, sep: char)
    requires sep !in s
    ensures Split(s, sep) == [s]
  {
    if s != [] {
      SplitWithoutSeparator(s[1..], sep);
      assert s[0] != sep;
      assert [s[0]] + s[1..] == s;
    }
  }

  /** A separator after a separator-free prefix ends the first piece. */
  lemma {:induction false} SplitAtSeparator(a: string, sep: char, b: string)
    requires sep !in a
    ensures Split(a + [sep] + b, sep) == [a] + Split(b, sep)
  {
    if a == [] {
      assert a + [sep] + b == [sep] + b;
      assert ([sep] + b)[1..] == b;
    } else {
      var s := a + [sep] + b;
      assert s[0] == a[0] && s[1..] == a[1..] + [sep] + b;
      SplitAtSeparator(a[1..], sep, b);
      var rest := Split(s[1..], sep);
      assert rest == [a[1..]] + Split(b, sep);
      assert a[0] != sep;
      assert Split(s, sep) == [[a[0]] + rest[0]] + rest[1..];
      assert [a[0]] + a[1..] == a;
    }
  }

  // ---------------------------------------------------------------- decimal

  predicate IsDigit(c: char)
  {
    '0' <= c <= '9'
  }

  function DigitChar(d: nat): (c: char)
    requires d < 10
    ensures IsDigit(c)
  {
    ('0' as int + d) as char
  }

  /** Canonical decimal rendering of a natural number (`String(n)`). */
  function NatToDecimal(n: nat): (s: string)
    ensures |s| > 0
    ensures forall i :: 0 <= i < |s| ==> IsDigit(s[i])
  {
    if n < 10 then [DigitChar(n)] else NatToDecimal(n / 10) + [DigitChar(n % 10)]
  }

  function IntToDecimal(n: int): string
  {
    if n < 0 then "-" + NatToDecimal(-n) else NatToDecimal(n)
  }

  /** Value of a string of decimal digits. */
  function DigitsValue(ds: string): nat
    requires forall i :: 0 <= i < |ds| ==> IsDigit(ds[i])
  {
    if |ds| == 0 then 0
    else
      assert IsDigit(ds[|ds| - 1]);
      DigitsValue(ds[..|ds| - 1]) * 10 + (ds[|ds| - 1] as int - '0' as int)
  }

  /** Length of the longest prefix made of decimal digits. */
  function DigitRun(s: string): (k: nat)
    ensures k <= |s|
    ensures forall i :: 0 <= i < k ==> IsDigit(s[i])
    ensures k < |s| ==> !IsDigit(s[k])
  {
    if |s| > 0 && IsDigit(s[0]) then 1 + DigitRun(s[1..]) else 0
  }

  /**
   * The characters JavaScript trims and `parseInt` skips: the ECMAScript
   * WhiteSpace characters (tab, vertical tab, form feed, the byte order mark
   * and every Unicode space separator) and its LineTerminator characters.
   */
  predicate IsJsSpace(c: char)
  {
    c == '\t' || c == '\U{B}' || c == '\U{C}' || c == '\U{FEFF}'
    || c == ' ' || c == '\U{A0}' || c == '\U{1680}' || '\U{2000}' <= c <= '\U{200A}'
    || c == '\U{202F}' || c == '\U{205F}' || c == '\U{3000}'
    || c == '\n' || c == '\r' || c == '\U{2028}' || c == '\U{2029}'
  }

  predicate AllSpace(s: string)
  {
    forall i :: 0 <= i < |s| ==> IsJsSpace(s[i])
  }

  /** Drops the leading white space. */
  function TrimStart(s: string): (r: string)
    ensures |r| <= |s|
  {
    if |s| > 0 && IsJsSpace(s[0]) then TrimStart(s[1..]) else s
  }

  /** `TrimStart` drops exactly the leading run of white space: a suffix remains that does not start with a space. */
  lemma {:induction false} TrimStartSpec(s: string)
    ensures var r := TrimStart(s);
            r == s[|s| - |r|..] && (r != [] ==> !IsJsSpace(r[0])) && AllSpace(s[..|s| - |r|])
  {
    if |s| > 0 && IsJsSpace(s[0]) {
      TrimStartSpec(s[1..]);
      var r := TrimStart(s);
      assert s[..|s| - |r|] == [s[0]] + s[1..][..|s| - 1 - |r|];
    }
  }

  /** Drops the trailing white space. */
  function TrimEnd(s: string): (r: string)
    ensures |r| <= |s|
  {
    if |s| > 0 && IsJsSpace(s[|s| - 1]) then TrimEnd(s[..|s| - 1]) else s
  }

  /** `TrimEnd` drops exactly the trailing run of white space: a prefix remains that does not end with a space. */
  lemma {:induction false} TrimEndSpec(s: string)
    ensures var r := TrimEnd(s);
            r == s[..|r|] && (r != [] ==> !IsJsSpace(r[|r| - 1])) && AllSpace(s[|r|..])
  {
    if |s| > 0 && IsJsSpace(s[|s| - 1]) {
      TrimEndSpec(s[..|s| - 1]);
      var r := TrimEnd(s);
      assert s[|r|..] == s[..|s| - 1][|r|..] + [s[|s| - 1]];
    }
  }

  /** `String.prototype.trim`. */
  function Trim(s: string): string
  {
    TrimEnd(TrimStart(s))
  }

  /** Leading white space is invisible to `TrimStart`. */
  lemma {:induction false} TrimStartSpacePrefix(w: string, s: string)
    requires AllSpace(w)
    ensures TrimStart(w + s) == TrimStart(s)
  {
    if w != [] {
      assert (w + s)[0] == w[0];
      assert (w + s)[1..] == w[1..] + s;
      TrimStartSpacePrefix(w[1..], s);
    } else {
      assert w + s == s;
    }
  }

  /** Trailing white space is invisible to `TrimEnd`. */
  lemma {:induction false} TrimEndSpaceSuffix(s: string, w: string)
    requires AllSpace(w)
    ensures TrimEnd(s + w) == TrimEnd(s)
  {
    if w != [] {
      var sw := s + w;
      assert sw[|sw| - 1] == w[|w| - 1];
      assert sw[..|sw| - 1] == s + w[..|w| - 1];
      TrimEndSpaceSuffix(s, w[..|w| - 1]);
    } else {
      assert s + w == s;
    }
  }

  /** Nothing is left of text that is all white space. */
  lemma {:induction false} TrimStartAllSpace(w: string)
    requires AllSpace(w)
    ensures TrimStart(w) == []
  {
    if w != [] {
      TrimStartAllSpace(w[1..]);
    }
  }

  /** Trailing white space is invisible to `Trim`. */
  lemma {:induction false} TrimSpaceSuffix(s: string, w: string)
    requires AllSpace(w)
    ensures Trim(s + w) == Trim(s)
  {
    if s == [] {
      assert s + w == w;
      TrimStartAllSpace(w);
    } else if IsJsSpace(s[0]) {
      assert (s + w)[0] == s[0];
      assert (s + w)[1..] == s[1..] + w;
      TrimSpaceSuffix(s[1..], w);
    } else {
      assert (s + w)[0] == s[0];
      TrimEndSpaceSuffix(s, w);
    }
  }

  /** The value of a digit in the given radix (0-9, then a-z in either case). */
  function RadixDigit(c: char, radix: nat): (d: Option<nat>)
    ensures d.Some? ==> d.value < radix
    ensures radix <= 10 && IsDigit(c) ==> (d.Some? <==> (c as int - '0' as int) < radix)
  {
    var v := if '0' <= c <= '9' then c as int - '0' as int
             else if 'a' <= c <= 'z' then c as int - 'a' as int + 10
             else if 'A' <= c <= 'Z' then c as int - 'A' as int + 10
             else 36;
    if v < radix then Some(v) else None
  }

  /** The value of a string of digits in the given radix; `None` if some character is not such a digit. */
  function RadixValue(ds: string, radix: nat): (r: Option<nat>)
    ensures r.Some? <==> forall i :: 0 <= i < |ds| ==> RadixDigit(ds[i], radix).Some?
  {
    if |ds| == 0 then Some(0)
    else
      var init := ds[..|ds| - 1];
      var prefix := RadixValue(init, radix);
      var d := RadixDigit(ds[|ds| - 1], radix);
      AllRadixDigitsSplit(ds, init, radix);
      if prefix.Some? && d.Some? then Some(prefix.value * radix + d.value) else None
  }

  /** Every character is a digit exactly when every character but the last is, and the last is too. */
  lemma AllRadixDigitsSplit(ds: string, init: string, radix: nat)
    requires |ds| > 0 && init == ds[..|ds| - 1]
    ensures (forall i :: 0 <= i < |ds| ==> RadixDigit(ds[i], radix).Some?) <==>
            (forall i :: 0 <= i < |init| ==> RadixDigit(init[i], radix).Some?) && RadixDigit(ds[|ds| - 1], radix).Some?
  {
    assert forall i :: 0 <= i < |init| ==> init[i] == ds[i];
  }

  /** The radix a `0x`, `0o` or `0b` prefix announces, in either case. */
  function RadixOfPrefix(c: char): Option<nat>
  {
    if c == 'x' || c == 'X' then Some(16)
    else if c == 'o' || c == 'O' then Some(8)
    else if c == 'b' || c == 'B' then Some(2)
    else None
  }

  /** Decimal digits only, and at least one. */
  predicate IsDecimal(s: string)
  {
    s != [] && forall i :: 0 <= i < |s| ==> IsDigit(s[i])
  }

  /**
   * The number trimmed text spells: empty text is 0, a `0x`/`0o`/`0b` literal
   * is read unsigned in its radix, and otherwise an optional sign precedes
   * decimal digits; `None` for anything else.
   */
  function IntegerLiteral(t: string): (r: Option<int>)
    ensures IsDecimal(t) ==> r == Some(DigitsValue(t))
  {
    if t == [] then Some(0)
    else if |t| > 2 && t[0] == '0' && RadixOfPrefix(t[1]).Some? then
      RadixValue(t[2..], RadixOfPrefix(t[1]).value)
    else if (t[0] == '-' || t[0] == '+') && IsDecimal(t[1..]) then
      var v: int := DigitsValue(t[1..]);
      Some(if t[0] == '-' then -v else v)
    else if IsDecimal(t) then Some(DigitsValue(t))
    else None
  }

  /**
   * `Number(s)` on the strings that spell an integer without a fraction or an
   * exponent: the text is trimmed first. `None` stands for `NaN`, and also for
   * the decimal forms with a fraction, an exponent or `Infinity`, which this
   * model does not evaluate.
   */
  function StringToInteger(s: string): (r: Option<int>)
    ensures Trim(s) == [] ==> r == Some(0)
    ensures IsDecimal(Trim(s)) ==> r == Some(DigitsValue(Trim(s)))
  {
    IntegerLiteral(Trim(s))
  }

  /** Surrounding white space does not change the number a string spells. */
  lemma StringToIntegerIgnoresSpace(w1: string, s: string, w2: string)
    requires AllSpace(w1) && AllSpace(w2)
    ensures StringToInteger(w1 + s + w2) == StringToInteger(s)
  {
    assert w1 + s + w2 == w1 + (s + w2);
    TrimStartSpacePrefix(w1, s + w2);
    TrimSpaceSuffix(s, w2);
    assert Trim(w1 + s + w2) == Trim(s);
  }

  /** Text that starts and ends with a non-space character is its own trim. */
  lemma TrimUnspaced(s: string)
    requires s != [] && !IsJsSpace(s[0]) && !IsJsSpace(s[|s| - 1])
    ensures Trim(s) == s
  {
  }

  /** A decimal numeral reads back as its value. */
  lemma StringToIntegerOfDecimal(n: nat)
    ensures StringToInteger(NatToDecimal(n)) == Some(n)
  {
    var d := NatToDecimal(n);
    TrimUnspaced(d);
    DigitsValueOfDecimal(n);
  }

  /** A signed decimal numeral reads back with its sign. */
  lemma StringToIntegerOfSigned(n: nat)
    ensures StringToInteger("+" + NatToDecimal(n)) == Some(n)
    ensures StringToInteger("-" + NatToDecimal(n)) == Some(-(n as int))
  {
    var d := NatToDecimal(n);
    DigitsValueOfDecimal(n);
    var p, m := "+" + d, "-" + d;
    assert p[1..] == d && p[|p| - 1] == d[|d| - 1];
    assert m[1..] == d && m[|m| - 1] == d[|d| - 1];
    TrimUnspaced(p);
    TrimUnspaced(m);
  }

  /** A `0x`, `0o` or `0b` literal is read unsigned in its radix. */
  lemma StringToIntegerOfRadix(c: char, ds: string, v: nat)
    requires RadixOfPrefix(c).Some? && ds != [] && !IsJsSpace(ds[|ds| - 1])
    requires RadixValue(ds, RadixOfPrefix(c).value) == Some(v)
    ensures StringToInteger(['0', c] + ds) == Some(v)
  {
    var t := ['0', c] + ds;
    assert t[1] == c && t[2..] == ds && t[|t| - 1] == ds[|ds| - 1];
    TrimUnspaced(t);
  }

  /**
   * `parseInt(s, 10)`: skips leading white space, reads an optional sign and
   * the longest run of digits after it; `None` stands for `NaN`.
   */
  function ParseInt(s: string): Option<int>
  {
    ParseLeadingInt(TrimStart(s))
  }

  /** The signed decimal numeral at the start of text with no leading white space. */
  function ParseLeadingInt(t: string): Option<int>
  {
    var neg := |t| > 0 && t[0] == '-';
    var body := if |t| > 0 && (t[0] == '-' || t[0] == '+') then t[1..] else t;
    var k := DigitRun(body);
    if k == 0 then None
    else
      var v: int := DigitsValue(body[..k]);
      Some(if neg then -v else v)
  }

  lemma {:induction false} DigitsValueOfDecimal(n: nat)
    ensures DigitsValue(NatToDecimal(n)) == n
  {
    if n >= 10 {
      var s := NatToDecimal(n);
      assert s[..|s| - 1] == NatToDecimal(n / 10);
      DigitsValueOfDecimal(n / 10);
    }
  }

  lemma {:induction false} DigitRunAll(s: string)
    requires forall i :: 0 <= i < |s| ==> IsDigit(s[i])
    ensures DigitRun(s) == |s|
  {
    if |s| > 0 {
      DigitRunAll(s[1..]);
    }
  }

  /** `parseInt(String(n), 10) == n` for every natural number. */
  lemma ParseIntOfDecimal(n: nat)
    ensures ParseInt(NatToDecimal(n)) == Some(n)
  {
    var s := NatToDecimal(n);
    assert !IsJsSpace(s[0]);
    assert TrimStart(s) == s;
    DigitRunAll(s);
    assert s[..|s|] == s;
    DigitsValueOfDecimal(n);
  }

  /** `parseInt` reads a decimal numeral and stops at the first non-digit after it. */
  lemma ParseIntDecimalPrefix(n: nat, rest: string)
    requires |rest| > 0 && !IsDigit(rest[0])
    ensures ParseInt(NatToDecimal(n) + rest) == Some(n)
  {
    var d := NatToDecimal(n);
    var s := d + rest;
    assert s[0] == d[0] && IsDigit(s[0]);
    assert TrimStart(s) == s;
    DigitRunPrefix(d, rest);
    assert s[..|d|] == d;
    DigitsValueOfDecimal(n);
  }

  /** `parseInt` skips any leading white space, Unicode space separators included. */
  lemma ParseIntSkipsSpace(w: string, s: string)
    requires AllSpace(w)
    ensures ParseInt(w + s) == ParseInt(s)
  {
    TrimStartSpacePrefix(w, s);
  }

  /** An ideographic space before a port number is skipped like an ASCII one. */
  lemma ParseIntAfterIdeographicSpace()
    ensures ParseInt("\U{3000}993") == Some(993)
  {
    assert "\U{3000}993" == "\U{3000}" + NatToDecimal(993);
    ParseIntSkipsSpace("\U{3000}", NatToDecimal(993));
    ParseIntOfDecimal(993);
  }

  lemma {:induction false} DigitRunPrefix(d: string, rest: string)
    requires forall i :: 0 <= i < |d| ==> IsDigit(d[i])
    requires |rest| > 0 && !IsDigit(rest[0])
    ensures DigitRun(d + rest) == |d|
  {
    if |d| > 0 {
      assert (d + rest)[1..] == d[1..] + rest;
      DigitRunPrefix(d[1..], rest);
    } else {
      assert d + rest == rest;
    }
  }
}

=== FILE: types.dfy ===
/**
 * The records the server passes between its components (src/core/types.ts)
 * and the zod schemas that guard them, read as validity predicates. A zod
 * `.default(v)` becomes an `Option` field in the matching `*Input` record and
 * a `Parse*` function that fills it in and then checks the schema.
 */
module Types {
  import opened Wrappers
  import Text

  // ---------------------------------------------------------------- shared limits

  /** `z.string().min(1).max(100)`; zod measures `length`, in UTF-16 code units. */
  predicate NameOk(s: string) { 1 <= Text.Utf16Length(s) <= 100 }

  /** `z.string().max(500)`, in UTF-16 code units. */
  predicate DescriptionOk(s: string) { Text.Utf16Length(s) <= 500 }

  /** On text of the Basic Multilingual Plane the limits count characters. */
  lemma BmpLimitsCountCharacters(s: string)
    requires forall i :: 0 <= i < |s| ==> Text.InBmp(s[i])
    ensures NameOk(s) <==> 1 <= |s| <= 100
    ensures DescriptionOk(s) <==> |s| <= 500
  {
    Text.Utf16LengthBmp(s);
  }

  /**
   * A character outside the Basic Multilingual Plane counts twice: a name of
   * 60 emoji is 120 code units and too long, though it is only 60 characters.
   */
  lemma AstralNameTooLong()
    ensures var s := seq(60, _ => '\U{1F600}'); |s| == 60 && !NameOk(s)
  {
    var s := seq(60, _ => '\U{1F600}');
    Text.Utf16LengthAstral(s);
  }

  // ---------------------------------------------------------------- email

  datatype EmailAddress = EmailAddress(name: Option<string>, address: string)

  datatype Attachment = Attachment(filename: string, contentType: string, size: int, part: Option<string>)

  /** An `EmailMessage`; the date and the header map are not modelled. */
  datatype EmailMessage = EmailMessage(
    id: string,
    accountId: string,
    messageId: string,
    folder: string,
    from: EmailAddress,
    to: seq<EmailAddress>,
    cc: Option<seq<EmailAddress>>,
    subject: string,
    bodyText: Option<string>,
    flags: seq<string>,
    attachments: seq<Attachment>,
    size: int,
    read: bool,
    flagged: bool)

  // ---------------------------------------------------------------- accounts

  datatype Provider = Gmail | Outlook | Yahoo | ICloud | Fastmail | ProtonMail | CustomProvider

  datatype AuthMethod = PasswordAuth | OAuth2 | AppPassword

  datatype Endpoint = Endpoint(host: string, port: int, tls: bool)

  datatype Account = Account(
    id: string,
    email: string,
    name: string,
    provider: Provider,
    authMethod: AuthMethod,
    imapServer: Endpoint,
    smtpServer: Endpoint,
    active: bool,
    defaultPersonaId: Option<string>)

  /** `AccountSchema`: a non-empty name and positive integer ports. */
  predicate ValidAccount(a: Account)
  {
    |a.name| >= 1 && a.imapServer.port > 0 && a.smtpServer.port > 0
  }

  /** An account as given to the schema: `tls` and `active` may be omitted. */
  datatype AccountInput = AccountInput(
    id: string,
    email: string,
    name: string,
    provider: Provider,
    authMethod: AuthMethod,
    imapHost: string,
    imapPort: int,
    imapTls: Option<bool>,
    smtpHost: string,
    smtpPort: int,
    smtpTls: Option<bool>,
    active: Option<bool>,
    defaultPersonaId: Option<string>)

  function AccountWithDefaults(i: AccountInput): Account
  {
    Account(i.id, i.email, i.name, i.provider, i.authMethod,
            Endpoint(i.imapHost, i.imapPort, i.imapTls.GetOr(true)),
            Endpoint(i.smtpHost, i.smtpPort, i.smtpTls.GetOr(true)),
            i.active.GetOr(true), i.defaultPersonaId)
  }

  function ParseAccount(i: AccountInput): (r: Option<Account>)
    ensures r.Some? ==> ValidAccount(r.value)
    ensures r.Some? <==> |i.name| >= 1 && i.imapPort > 0 && i.smtpPort > 0
    ensures r.Some? ==> (r.value.imapServer.tls == (i.imapTls != Some(false))
                         && r.value.smtpServer.tls == (i.smtpTls != Some(false))
                         && r.value.active == (i.active != Some(false)))
  {
    var a := AccountWithDefaults(i);
    if ValidAccount(a) then Some(a) else None
  }

  // ---------------------------------------------------------------- personas

  datatype Persona = Persona(id: string, accountId: string, name: string, description: string, active: bool)

  /** `PersonaSchema`, restricted to the length limits. */
  predicate ValidPersona(p: Persona)
  {
    NameOk(p.name) && DescriptionOk(p.description)
  }

  // ---------------------------------------------------------------- directives

  datatype ConditionField = Sender | Recipient | Subject | Body | Attachments | Folder | Date | Flags

  datatype Operator =
    | OpEquals | OpNotEquals | OpContains | OpNotContains | OpRegex
    | OpIn | OpNotIn | OpGreaterThan | OpLessThan

  /** `z.union([z.string(), z.array(z.string())])` */
  datatype ConditionValue = Single(text: string) | Many(items: seq<string>)

  datatype Condition = Condition(field: ConditionField, operator: Operator, value: ConditionValue, caseSensitive: bool)

  datatype TimeWindow = TimeWindow(start: string, end: string, days: seq<int>)

  datatype Trigger = Trigger(conditions: seq<Condition>, matchAll: bool, timeWindow: Option<TimeWindow>)

  datatype ActionType =
    | Reply | Forward | Archive | Delete | Move | Tag | Flag | PersonaSwitch | WebhookTrigger | TaskTrigger

  datatype Action = Action(kind: ActionType, delay: Option<int>)

  datatype DirectiveType = Inbound | Outbound | Both

  datatype Directive = Directive(
    id: string,
    accountId: string,
    name: string,
    description: string,
    priority: int,
    kind: DirectiveType,
    active: bool,
    trigger: Trigger,
    actions: seq<Action>)

  /** `TimeWindow.days`: integers from 0 (Sunday) to 6. */
  predicate ValidTimeWindow(w: TimeWindow)
  {
    forall i :: 0 <= i < |w.days| ==> 0 <= w.days[i] <= 6
  }

  predicate ValidAction(a: Action)
  {
    a.delay.Some? ==> a.delay.value >= 0
  }

  /** `DirectiveSchema`. */
  predicate ValidDirective(d: Directive)
  {
    && NameOk(d.name)
    && DescriptionOk(d.description)
    && 0 <= d.priority <= 1000
    && |d.trigger.conditions| >= 1
    && (d.trigger.timeWindow.Some? ==> ValidTimeWindow(d.trigger.timeWindow.value))
    && |d.actions| >= 1
    && forall i :: 0 <= i < |d.actions| ==> ValidAction(d.actions[i])
  }

  datatype DirectiveInput = DirectiveInput(
    id: string,
    accountId: string,
    name: string,
    description: Option<string>,
    priority: Option<int>,
    kind: DirectiveType,
    active: Option<bool>,
    conditions: seq<Condition>,
    matchAll: Option<bool>,
    timeWindow: Option<TimeWindow>,
    actions: seq<Action>)

  function DirectiveWithDefaults(i: DirectiveInput): Directive
  {
    Directive(i.id, i.accountId, i.name, i.description.GetOr(""), i.priority.GetOr(100), i.kind,
              i.active.GetOr(true), Trigger(i.conditions, i.matchAll.GetOr(true), i.timeWindow), i.actions)
  }

  function ParseDirective(i: DirectiveInput): (r: Option<Directive>)
    ensures r.Some? ==> ValidDirective(r.value)
    ensures r.Some? ==> r.value.priority == (if i.priority.Some? then i.priority.value else 100)
    ensures r.Some? ==> r.value.trigger.matchAll == (i.matchAll != Some(false))
  {
    var d := DirectiveWithDefaults(i);
    if ValidDirective(d) then Some(d) else None
  }

  /** The input that spells out every field of `d`. */
  function DirectiveAsInput(d: Directive): DirectiveInput
  {
    DirectiveInput(d.id, d.accountId, d.name, Some(d.description), Some(d.priority), d.kind, Some(d.active),
                   d.trigger.conditions, Some(d.trigger.matchAll), d.trigger.timeWindow, d.actions)
  }

  /** The schema accepts a spelled-out directive exactly when it is valid, and returns it unchanged. */
  lemma ParseDirectiveRoundTrip(d: Directive)
    ensures ParseDirective(DirectiveAsInput(d)) == (if ValidDirective(d) then Some(d) else None)
  {
  }

  /**
   * Leaving out the defaulted fields never turns a valid directive invalid:
   * the defaults (priority 100, matchAll and active true, empty description)
   * are themselves acceptable.
   */
  lemma ParseDirectiveDefaults(i: DirectiveInput)
    requires i.description.None? && i.priority.None? && i.active.None? && i.matchAll.None?
    requires NameOk(i.name) && |i.conditions| >= 1 && |i.actions| >= 1
    requires forall k :: 0 <= k < |i.actions| ==> ValidAction(i.actions[k])
    requires i.timeWindow.Some? ==> ValidTimeWindow(i.timeWindow.value)
    ensures ParseDirective(i).Some?
    ensures ParseDirective(i).value.priority == 100
    ensures ParseDirective(i).value.trigger.matchAll && ParseDirective(i).value.active
  {
  }

  // ---------------------------------------------------------------- tasks

  datatype TaskType =
    | ScheduleReply | AutoRespond | DigestGeneration | Cleanup | Backup | Sync
    | EmailFiltering | AttachmentProcessing | FollowupReminder | CustomTask

  datatype TaskStatus = Active | Paused | Completed | Failed | Running

  datatype ScheduleType = Immediate | CronSchedule | IntervalSchedule | TriggerSchedule

  datatype Schedule = Schedule(kind: ScheduleType, value: Option<string>, timezone: string)

  datatype Task = Task(
    id: string,
    accountId: string,
    kind: TaskType,
    name: string,
    description: string,
    schedule: Schedule,
    personaId: Option<string>,
    status: TaskStatus,
    lastRun: Option<string>,
    nextRun: Option<string>,
    runCount: int,
    lastError: Option<string>)

  /** `TaskSchema`. */
  predicate ValidTask(t: Task)
  {
    NameOk(t.name) && DescriptionOk(t.description) && t.runCount >= 0
  }

  datatype TaskInput = TaskInput(
    id: string,
    accountId: string,
    kind: TaskType,
    name: string,
    description: Option<string>,
    scheduleKind: ScheduleType,
    scheduleValue: Option<string>,
    timezone: Option<string>,
    personaId: Option<string>,
    status: Option<TaskStatus>,
    lastRun: Option<string>,
    nextRun: Option<string>,
    runCount: Option<int>,
    lastError: Option<string>)

  function TaskWithDefaults(i: TaskInput): Task
  {
    Task(i.id, i.accountId, i.kind, i.name, i.description.GetOr(""),
         Schedule(i.scheduleKind, i.scheduleValue, i.timezone.GetOr("UTC")),
         i.personaId, i.status.GetOr(Active), i.lastRun, i.nextRun, i.runCount.GetOr(0), i.lastError)
  }

  function ParseTask(i: TaskInput): (r: Option<Task>)
    ensures r.Some? ==> ValidTask(r.value)
    ensures r.Some? ==> r.value.status == (if i.status.Some? then i.status.value else Active)
    ensures r.Some? ==> r.value.runCount == (if i.runCount.Some? then i.runCount.value else 0)
    ensures r.Some? ==> r.value.schedule.timezone == (if i.timezone.Some? then i.timezone.value else "UTC")
  {
    var t := TaskWithDefaults(i);
    if ValidTask(t) then Some(t) else None
  }

  /** A task given without status or run count starts 'active' with 0 runs. */
  lemma ParseTaskDefaults(i: TaskInput)
    requires i.status.None? && i.runCount.None? && i.description.None?
    requires NameOk(i.name)
    ensures ParseTask(i).Some?
    ensures ParseTask(i).value.status == Active && ParseTask(i).value.runCount == 0
  {
  }

  // ---------------------------------------------------------------- webhooks

  datatype WebhookActionType =
    | ProcessEmail | TriggerTaskAction | ApplyDirective | NotifyAction | ForwardWebhook | ExecutePersona | CustomScript

  datatype WebhookAction = WebhookAction(kind: WebhookActionType, condition: Option<string>)

  /** An inbound payload filter: a dotted field path, an operator and a value. */
  datatype Filter = Filter(field: string, operator: Operator, value: ConditionValue)

  datatype InboundWebhook = InboundWebhook(
    id: string,
    name: string,
    description: string,
    endpoint: string,
    accountId: Option<string>,
    active: bool,
    actions: seq<WebhookAction>,
    filters: Option<seq<Filter>>,
    triggerCount: int)

  /** `InboundWebhookSchema`. */
  predicate ValidInbound(w: InboundWebhook)
  {
    NameOk(w.name) && DescriptionOk(w.description) && |w.endpoint| >= 1 && |w.actions| >= 1 && w.triggerCount >= 0
  }

  /** `WebhookEventSchema`. */
  predicate IsWebhookEvent(e: string)
  {
    e in {"email.received", "email.sent", "email.read", "email.deleted", "email.moved", "email.flagged",
          "email.attachment_received", "task.completed", "task.failed", "task.scheduled",
          "directive.triggered", "persona.switched", "account.connected", "account.disconnected",
          "account.error", "digest.generated", "security.alert"}
  }

  datatype HttpMethod = Post | Put | Patch

  datatype AuthType = Bearer | Basic | ApiKey | OAuth2Auth | NoAuth

  datatype Retry = Retry(enabled: bool, maxAttempts: int, backoffMs: int)

  datatype Header = Header(name: string, value: string)

  datatype OutboundWebhook = OutboundWebhook(
    id: string,
    name: string,
    description: string,
    url: string,
    httpMethod: HttpMethod,
    headers: seq<Header>,
    auth: Option<AuthType>,
    events: seq<string>,
    template: Option<string>,
    maxPayloadSizeBytes: int,
    retry: Retry,
    active: bool,
    fireCount: int,
    successCount: int,
    failureCount: int)

  /** `OutboundWebhookSchema`. */
  predicate ValidOutbound(w: OutboundWebhook)
  {
    && NameOk(w.name)
    && DescriptionOk(w.description)
    && |w.events| >= 1
    && (forall i :: 0 <= i < |w.events| ==> IsWebhookEvent(w.events[i]))
    && w.maxPayloadSizeBytes > 0
    && 1 <= w.retry.maxAttempts <= 10
    && w.retry.backoffMs > 0
    && w.fireCount >= 0 && w.successCount >= 0 && w.failureCount >= 0
  }

  datatype RetryInput = RetryInput(enabled: Option<bool>, maxAttempts: Option<int>, backoffMs: Option<int>)

  /** `retry` with its defaults: enabled, 3 attempts, 5000 ms. */
  function RetryWithDefaults(r: RetryInput): (out: Retry)
    ensures r.enabled != Some(false) <==> out.enabled
    ensures r.maxAttempts.None? ==> out.maxAttempts == 3
    ensures r.backoffMs.None? ==> out.backoffMs == 5000
  {
    Retry(r.enabled.GetOr(true), r.maxAttempts.GetOr(3), r.backoffMs.GetOr(5000))
  }

  datatype OutboundInput = OutboundInput(
    id: string,
    name: string,
    description: Option<string>,
    url: string,
    httpMethod: Option<HttpMethod>,
    headers: Option<seq<Header>>,
    auth: Option<AuthType>,
    events: seq<string>,
    template: Option<string>,
    maxPayloadSizeBytes: Option<int>,
    retry: RetryInput,
    active: Option<bool>)

  /** The input with every default filled in and every counter at 0. */
  function OutboundWithDefaults(i: OutboundInput): (w: OutboundWebhook)
    ensures w.fireCount == 0 && w.successCount == 0 && w.failureCount == 0
    ensures w.httpMethod == (if i.httpMethod.Some? then i.httpMethod.value else Post)
    ensures w.retry.maxAttempts == (if i.retry.maxAttempts.Some? then i.retry.maxAttempts.value else 3)
    ensures w.active <==> i.active != Some(false)
    ensures (w.id, w.name, w.url, w.auth, w.events, w.template) == (i.id, i.name, i.url, i.auth, i.events, i.template)
  {
    OutboundWebhook(i.id, i.name, i.description.GetOr(""), i.url, i.httpMethod.GetOr(Post),
                    i.headers.GetOr([]), i.auth, i.events, i.template,
                    i.maxPayloadSizeBytes.GetOr(5242880), RetryWithDefaults(i.retry),
                    i.active.GetOr(true), 0, 0, 0)
  }

  /** A freshly parsed webhook: defaults filled in and every counter at 0. */
  function ParseOutbound(i: OutboundInput): (r: Option<OutboundWebhook>)
    ensures r.Some? <==> ValidOutbound(OutboundWithDefaults(i))
    ensures r.Some? ==> r.value == OutboundWithDefaults(i) && ValidOutbound(r.value)
  {
    var w := OutboundWithDefaults(i);
    if ValidOutbound(w) then Some(w) else None
  }

  /** The retry and payload defaults are acceptable on their own. */
  lemma ParseOutboundDefaults(i: OutboundInput)
    requires i.retry == RetryInput(None, None, None) && i.maxPayloadSizeBytes.None? && i.description.None?
    requires NameOk(i.name) && |i.events| >= 1
    requires forall k :: 0 <= k < |i.events| ==> IsWebhookEvent(i.events[k])
    ensures ParseOutbound(i).Some?
    ensures ParseOutbound(i).value.retry == Retry(true, 3, 5000)
  {
  }
}

=== FILE: vault.dfy ===
/**
 * The vault lifecycle of `MailingManagerServer` (src/core/server.ts):
 * `ensureMasterKey`, `start`, `stop` and the `vaultUnlocked` gate consulted
 * by the tools and the event bridges. The master_key table is the optional
 * row with id 1; environment variables, the interactive capture and all
 * randomness are parameters.
 */
module Vault {
  import opened Wrappers
  import opened Text
  import opened Crypto
  import Encryption

  datatype Transport = Stdio | Http | Both

  /** The single row of the master_key table. */
  datatype MasterKeyRow = MasterKeyRow(id: int, salt: string, hash: PasswordHash, derivationConfig: KdfParams)

  datatype Server = Server(
    row: Option<MasterKeyRow>,
    encryption: Encryption.Service,
    vaultUnlocked: bool,
    transportMode: Transport)

  /** A freshly constructed server: no key loaded, transport defaulting to stdio. */
  function NewServer(row: Option<MasterKeyRow>): (s: Server)
    ensures !s.vaultUnlocked && !Encryption.IsUnlocked(s.encryption)
  {
    Server(row, Encryption.Locked, false, Stdio)
  }

  /** The two environment variables; a missing and an empty value are both falsy. */
  datatype Env = Env(masterKey: Option<string>, unlockCode: Option<string>)

  predicate Truthy(v: Option<string>)
  {
    v.Some? && v.value != ""
  }

  /** `MAILING_MANAGER_MASTER_KEY || MAILING_MANAGER_UNLOCK_CODE`, with the falsy outcomes as `None`. */
  function EnvCredential(env: Env): (r: Option<string>)
    ensures Truthy(env.masterKey) ==> r == env.masterKey
    ensures !Truthy(env.masterKey) && Truthy(env.unlockCode) ==> r == env.unlockCode
    ensures r.None? <==> !Truthy(env.masterKey) && !Truthy(env.unlockCode)
    ensures r.Some? ==> r.value != ""
  {
    if Truthy(env.masterKey) then env.masterKey
    else if Truthy(env.unlockCode) then env.unlockCode
    else None
  }

  datatype VaultError =
    | CaptureFailed(reason: string)   // the browser capture rejected (timeout, mismatch, …)
    | CryptoFailed(e: Encryption.Error)
    | InvalidMasterPassword

  /** What the outside world supplies to one `ensureMasterKey` call. */
  datatype Inputs = Inputs(
    argon2Loaded: bool,
    env: Env,
    captured: Result<string, string>,  // outcome of masterKeySetup / masterKeyUnlock if it is asked
    randomSalt: seq<byte>)

  /** The default derivation parameters used on both setup and unlock. */
  const DefaultParams := Encryption.DerivationConfig(Encryption.NoConfig)

  /**
   * The row is what first-time setup writes: id 1, the 32 default salt bytes
   * as 64 lower-case hex digits, a verification hash over the decoded salt,
   * and the default derivation config.
   */
  predicate WellFormedRow(r: MasterKeyRow)
  {
    r.id == 1 && r.hash.Argon2Encoded? && |r.salt| == 2 * DefaultParams.saltLength && IsLowerHex(r.salt)
    && r.hash.salt == HexDecode(r.salt) && r.derivationConfig == DefaultParams
  }

  /** The key that the password recorded in the row's hash derives from its salt. */
  function RowKey(r: MasterKeyRow): Key
    requires r.hash.Argon2Encoded?
  {
    Argon2Raw(r.hash.password, HexDecode(r.salt), DefaultParams)
  }

  /**
   * The lifecycle invariant: `vaultUnlocked` mirrors the key slot, an
   * unlocked vault has a row, and the loaded key is exactly the one the
   * row's verified password derives.
   */
  ghost predicate Valid(s: Server)
  {
    (s.vaultUnlocked <==> Encryption.IsUnlocked(s.encryption))
    && (s.row.Some? ==> WellFormedRow(s.row.value))
    && (s.vaultUnlocked ==> s.row.Some? && s.encryption.masterKey.value == RowKey(s.row.value))
  }

  /** The password to use: the env credential, else the capture unless the transport is stdio. */
  function Credential(s: Server, inp: Inputs): (r: Option<Result<string, string>>)
    ensures EnvCredential(inp.env).Some? ==> r == Some(Ok(EnvCredential(inp.env).value))
    ensures r.None? <==> EnvCredential(inp.env).None? && s.transportMode == Stdio
  {
    match EnvCredential(inp.env)
    case Some(p) => Some(Ok(p))
    case None => if s.transportMode == Stdio then None else Some(inp.captured)
  }

  /** `ensureMasterKey()`: `Err` is the exception; the server is then left as it was. */
  function EnsureMasterKey(s: Server, inp: Inputs): (r: Result<Server, VaultError>)
    ensures Credential(s, inp).None? ==> r == Ok(s)
    ensures r.Ok? ==> r.value.transportMode == s.transportMode
    ensures s.row.Some? && r.Ok? ==> r.value.row == s.row
    ensures s.row.None? && r.Ok? && r.value != s ==>
              r.value.row.Some? && r.value.row.value.id == 1 && r.value.vaultUnlocked
    ensures s.row.Some? && WellFormedRow(s.row.value) && Credential(s, inp) == Some(Ok(s.row.value.hash.password))
            && inp.argon2Loaded ==>
              r.Ok? && r.value.vaultUnlocked
    ensures s.row.Some? && s.row.value.hash.Argon2Encoded? && Credential(s, inp).Some? && Credential(s, inp).value.Ok?
            && Credential(s, inp).value.value != s.row.value.hash.password && inp.argon2Loaded ==>
              r == Err(InvalidMasterPassword)
    ensures s.row.Some? && s.row.value.hash.Malformed? && Credential(s, inp).Some? && Credential(s, inp).value.Ok?
            && inp.argon2Loaded ==>
              r == Err(CryptoFailed(Encryption.MalformedHash))
  {
    match Credential(s, inp)
    case None => Ok(s)
    case Some(Err(reason)) => Err(CaptureFailed(reason))
    case Some(Ok(password)) =>
      match s.row
      case None =>
        (match Encryption.DeriveMasterKey(inp.argon2Loaded, password, None, Encryption.NoConfig, inp.randomSalt)
         case Err(e) => Err(CryptoFailed(e))
         case Ok(derived) =>
           match Encryption.HashMasterKey(inp.argon2Loaded, password, derived.salt)
           case Err(e) => Err(CryptoFailed(e))
           case Ok(hash) =>
             var row := MasterKeyRow(1, derived.salt, hash, derived.config);
             Ok(s.(row := Some(row),
                   encryption := Encryption.SetMasterKey(s.encryption, derived.key),
                   vaultUnlocked := true)))
      case Some(row) =>
        match Encryption.VerifyMasterKey(inp.argon2Loaded, password, row.hash)
        case Err(e) => Err(CryptoFailed(e))
        case Ok(false) => Err(InvalidMasterPassword)
        case Ok(true) =>
          match Encryption.DeriveMasterKey(inp.argon2Loaded, password, Some(row.salt), Encryption.NoConfig, inp.randomSalt)
          case Err(e) => Err(CryptoFailed(e))
          case Ok(derived) =>
            Ok(s.(encryption := Encryption.SetMasterKey(s.encryption, derived.key), vaultUnlocked := true))
  }

  /** Every outcome of `ensureMasterKey` keeps the lifecycle invariant. */
  lemma EnsureMasterKeyKeepsValid(s: Server, inp: Inputs)
    requires Valid(s)
    requires |inp.randomSalt| == DefaultParams.saltLength
    ensures EnsureMasterKey(s, inp).Ok? ==> Valid(EnsureMasterKey(s, inp).value)
  {
    var r := EnsureMasterKey(s, inp);
    if r.Ok? && Credential(s, inp).Some? {
      var password := Credential(s, inp).value.value;
      if s.row.None? {
        var derived := Encryption.DeriveMasterKey(true, password, None, Encryption.NoConfig, inp.randomSalt).value;
        HexDecodeEncode(inp.randomSalt);
        assert derived.salt == HexEncode(inp.randomSalt);
      } else {
        var row := s.row.value;
        var derived := Encryption.DeriveMasterKey(true, password, Some(row.salt), Encryption.NoConfig, inp.randomSalt).value;
        HexEncodeDecode(row.salt);
        assert derived.salt == row.salt;
      }
    }
  }

  /**
   * Setup followed by a restart and unlock with the same password loads the
   * same key, whatever salt the restart would otherwise have drawn.
   */
  lemma SetupThenUnlockSameKey(password: string, env: Env, salt: seq<byte>, otherSalt: seq<byte>, t: Transport)
    requires EnvCredential(env) == Some(password)
    requires |salt| == DefaultParams.saltLength
    ensures var setup := EnsureMasterKey(NewServer(None).(transportMode := t), Inputs(true, env, Err(""), salt));
            setup.Ok? && setup.value.vaultUnlocked
            && var restarted := NewServer(setup.value.row).(transportMode := t);
               var unlock := EnsureMasterKey(restarted, Inputs(true, env, Err(""), otherSalt));
               unlock.Ok? && unlock.value.vaultUnlocked
               && unlock.value.encryption.masterKey == setup.value.encryption.masterKey
  {
    var s0 := NewServer(None).(transportMode := t);
    var setup := EnsureMasterKey(s0, Inputs(true, env, Err(""), salt));
    EnsureMasterKeyKeepsValid(s0, Inputs(true, env, Err(""), salt));
    var restarted := NewServer(setup.value.row).(transportMode := t);
    var row := setup.value.row.value;
    HexEncodeDecode(row.salt);
  }

  /** There is no short-circuit: an unlocked vault re-verifies and can fail. */
  lemma NoAlreadyUnlockedShortCircuit(s: Server, inp: Inputs)
    requires Valid(s) && s.vaultUnlocked && inp.argon2Loaded
    requires EnvCredential(inp.env).Some? && EnvCredential(inp.env).value != s.row.value.hash.password
    ensures EnsureMasterKey(s, inp) == Err(InvalidMasterPassword)
  {
  }

  /** With no env credential under stdio nothing is asked, persisted or unlocked. */
  lemma StdioWithoutCredentialStaysLocked(inp: Inputs, row: Option<MasterKeyRow>)
    requires EnvCredential(inp.env).None?
    ensures var s := NewServer(row);
            EnsureMasterKey(s, inp) == Ok(s) && !s.vaultUnlocked
  {
  }

  // ---------------------------------------------------------------- start / stop

  datatype Flags = Flags(webhooksEnabled: bool, schedulerEnabled: bool)

  datatype Started = Started(
    server: Server,
    stdioConnected: bool,
    unlockError: Option<VaultError>,   // logged and swallowed
    webhookServerStarted: bool,
    schedulerStarted: bool,
    poolStarted: bool)

  /** `start(transport)`: connect stdio first, try to unlock, then start the background services. */
  function Start(s: Server, transport: Transport, flags: Flags, inp: Inputs): (r: Started)
    ensures r.stdioConnected <==> transport == Stdio || transport == Both
    ensures r.server.transportMode == transport
    ensures r.unlockError.Some? ==> r.server == s.(transportMode := transport)
    ensures r.webhookServerStarted <==> flags.webhooksEnabled && r.server.vaultUnlocked
    ensures r.schedulerStarted <==> flags.schedulerEnabled && r.server.vaultUnlocked
    ensures r.poolStarted
  {
    var s1 := s.(transportMode := transport);
    var (s2, err) := match EnsureMasterKey(s1, inp)
                     case Ok(s') => (s', None)
                     case Err(e) => (s1, Some(e));
    Started(s2, transport == Stdio || transport == Both, err,
            flags.webhooksEnabled && s2.vaultUnlocked,
            flags.schedulerEnabled && s2.vaultUnlocked,
            true)
  }

  /** A wrong password at start leaves the vault exactly as locked as it was. */
  lemma StartWithWrongPasswordStaysLocked(row: MasterKeyRow, transport: Transport, flags: Flags, inp: Inputs)
    requires WellFormedRow(row) && inp.argon2Loaded
    requires EnvCredential(inp.env).Some? && EnvCredential(inp.env).value != row.hash.password
    ensures var r := Start(NewServer(Some(row)), transport, flags, inp);
            r.unlockError == Some(InvalidMasterPassword) && !r.server.vaultUnlocked
            && !r.webhookServerStarted && !r.schedulerStarted
  {
  }

  /** `stop()`: the key is cleared and the flag dropped; the stored row stays. */
  function Stop(s: Server): (r: Server)
    ensures !r.vaultUnlocked && !Encryption.IsUnlocked(r.encryption)
    ensures r.row == s.row
    ensures Valid(s) ==> Valid(r)
  {
    s.(encryption := Encryption.ClearMasterKey(s.encryption), vaultUnlocked := false)
  }

  // ---------------------------------------------------------------- gates

  /** The account count `vault_status` reports. */
  function VaultStatusAccountCount(s: Server, activeAccounts: nat): (r: nat)
    ensures !s.vaultUnlocked ==> r == 0
    ensures s.vaultUnlocked ==> r == activeAccounts
  {
    if s.vaultUnlocked then activeAccounts else 0
  }

  /** Whether a bridged email event is forwarded to the dispatcher. */
  predicate ForwardsEmailEvent(s: Server)
  {
    s.vaultUnlocked
  }

  datatype InboundAction = TriggerTask(taskId: string) | Notify | OtherAction(kind: string)

  datatype Effect = ExecuteTask(taskId: string) | DispatchEmailReceived

  /**
   * The effects of a `webhook.received` event: nothing while locked or for
   * an unknown webhook, else one effect per recognised action, in order.
   */
  function WebhookReceivedEffects(s: Server, webhookActions: Option<seq<InboundAction>>): (r: seq<Effect>)
    ensures !s.vaultUnlocked || webhookActions.None? ==> r == []
    ensures webhookActions.Some? && s.vaultUnlocked ==> |r| <= |webhookActions.value|
  {
    if !s.vaultUnlocked || webhookActions.None? then []
    else ActionEffects(webhookActions.value)
  }

  function ActionEffects(actions: seq<InboundAction>): (r: seq<Effect>)
    ensures |r| <= |actions|
    ensures forall e :: e in r ==> (e.ExecuteTask? ==> TriggerTask(e.taskId) in actions)
    ensures forall e :: e in r ==> (e.DispatchEmailReceived? ==> Notify in actions)
    ensures forall i :: 0 <= i < |actions| && actions[i].TriggerTask? ==> ExecuteTask(actions[i].taskId) in r
    ensures Notify in actions ==> DispatchEmailReceived in r
  {
    if actions == [] then []
    else
      var head := match actions[0]
                  case TriggerTask(id) => [ExecuteTask(id)]
                  case Notify => [DispatchEmailReceived]
                  case OtherAction(_) => [];
      head + ActionEffects(actions[1..])
  }
}

=== FILE: webhook_dispatcher.dfy ===
/**
 * Outbound delivery (`WebhookDispatcher`): for an event, every active
 * subscribed webhook gets a chain of HTTP attempts. A failed attempt
 * schedules the next one after an exponential back-off while retries remain;
 * the chain touches the webhook's counters exactly once, when it ends.
 *
 * Randomness (payload ids, the signing secret), the clock, template
 * rendering, `JSON.stringify`, hex encoding and every HTTP outcome are inputs.
 */
module WebhookDispatcher {
  import opened Wrappers
  import opened Text
  import opened Crypto
  import opened Encryption
  import opened Types
  import opened JsValues
  import opened WebhookManager

  // ---------------------------------------------------------------- payload

  /** `WebhookEventPayload`. */
  datatype EventPayload = EventPayload(
    id: string,
    timestamp: string,
    event: string,
    accountId: Value,
    accountEmail: Value,
    personaId: Value,
    data: Value,
    mcpVersion: string,
    webhookId: string,
    attempt: int,
    maxAttempts: int)

  /**
   * The payload of one attempt: falsy account id / e-mail become '', and the
   * metadata carries the attempt number and the webhook's configured maximum.
   */
  function PayloadFor(w: OutboundWebhook, event: string, data: Value, attempt: int, id: string, timestamp: string): (p: EventPayload)
    ensures p.attempt == attempt && p.maxAttempts == w.retry.maxAttempts && p.webhookId == w.id
    ensures p.event == event && p.data == data && p.id == id
    ensures Truthy(Get(data, "accountId")) ==> p.accountId == Get(data, "accountId")
    ensures !Truthy(Get(data, "accountId")) ==> p.accountId == Str("")
    ensures !Truthy(Get(data, "accountEmail")) ==> p.accountEmail == Str("")
  {
    EventPayload(id, timestamp, event,
                 Or(Get(data, "accountId"), Str("")),
                 Or(Get(data, "accountEmail"), Str("")),
                 Get(data, "personaId"),
                 data, "1.0.0", w.id, attempt, w.retry.maxAttempts)
  }

  // ---------------------------------------------------------------- headers

  /** `Object.assign(target, source)` for string-valued headers, in the source's order. */
  function Assign(target: seq<Field>, source: seq<Header>): (r: seq<Field>)
    decreases |source|
  {
    if source == [] then target
    else
      var last := source[|source| - 1];
      JsValues.Put(Assign(target, source[..|source| - 1]), last.name, Str(last.value))
  }

  /** A name no source header sets keeps the target's value. */
  lemma {:induction false} AssignKeeps(target: seq<Field>, source: seq<Header>, name: string)
    requires NotSetBy(source, name)
    ensures Lookup(Assign(target, source), name) == Lookup(target, name)
    decreases |source|
  {
    if source != [] {
      var init := source[..|source| - 1];
      assert forall i :: 0 <= i < |init| ==> init[i] == source[i];
      AssignKeeps(target, init, name);
    }
  }

  /** The last source header that sets a name decides its value. */
  lemma {:induction false} AssignLastWins(target: seq<Field>, source: seq<Header>, name: string, value: string)
    requires LastSetTo(source, name, value)
    ensures Lookup(Assign(target, source), name) == Some(Str(value))
    decreases |source|
  {
    var init := source[..|source| - 1];
    var last := source[|source| - 1];
    if last.name != name {
      var i :| 0 <= i < |source| && source[i] == Header(name, value) && forall j :: i < j < |source| ==> source[j].name != name;
      assert i < |init| && init[i] == source[i];
      assert forall j :: i < j < |init| ==> init[j] == source[j];
      assert LastSetTo(init, name, value);
      AssignLastWins(target, init, name, value);
    } else {
      assert last == Header(name, value);
    }
  }

  const SignatureHeader := "X-Webhook-Signature"

  /** The built-in headers of every request. */
  function DefaultHeaders(payloadId: string, timestamp: string): seq<Field>
  {
    [Field("Content-Type", Str("application/json")),
     Field("User-Agent", Str("MailingManager-MCP/1.0")),
     Field("X-Webhook-Id", Str(payloadId)),
     Field("X-Webhook-Timestamp", Str(timestamp))]
  }

  /**
   * The request headers: built-in defaults, then the webhook's own headers,
   * then the auth headers (only when an auth type other than `none` is set),
   * and the signature last.
   */
  function HeadersFor(w: OutboundWebhook, payloadId: string, timestamp: string, auth: seq<Header>, signature: string): (h: seq<Field>)
    ensures Lookup(h, SignatureHeader) == Some(Str(signature))
  {
    var base := Assign(DefaultHeaders(payloadId, timestamp), w.headers);
    var withAuth := if w.auth.Some? && w.auth.value != NoAuth then Assign(base, auth) else base;
    JsValues.Put(withAuth, SignatureHeader, Str(signature))
  }

  /** Names `hs` does not set. */
  predicate NotSetBy(hs: seq<Header>, name: string)
  {
    forall i :: 0 <= i < |hs| ==> hs[i].name != name
  }

  /** The later a source, the higher its precedence; nothing overrides the signature. */
  lemma HeaderPrecedence(w: OutboundWebhook, payloadId: string, timestamp: string, auth: seq<Header>, signature: string, name: string, value: string)
    requires name != SignatureHeader
    ensures w.auth.Some? && w.auth.value != NoAuth && LastSetTo(auth, name, value) ==>
              Lookup(HeadersFor(w, payloadId, timestamp, auth, signature), name) == Some(Str(value))
    ensures (w.auth.None? || w.auth.value == NoAuth || NotSetBy(auth, name)) && LastSetTo(w.headers, name, value) ==>
              Lookup(HeadersFor(w, payloadId, timestamp, auth, signature), name) == Some(Str(value))
    ensures (w.auth.None? || w.auth.value == NoAuth || NotSetBy(auth, name)) && NotSetBy(w.headers, name) ==>
              Lookup(HeadersFor(w, payloadId, timestamp, auth, signature), name)
              == Lookup(DefaultHeaders(payloadId, timestamp), name)
  {
    var base := Assign(DefaultHeaders(payloadId, timestamp), w.headers);
    var withAuth := if w.auth.Some? && w.auth.value != NoAuth then Assign(base, auth) else base;
    assert Lookup(HeadersFor(w, payloadId, timestamp, auth, signature), name) == Lookup(withAuth, name);
    if LastSetTo(auth, name, value) {
      AssignLastWins(base, auth, name, value);
    }
    if NotSetBy(auth, name) {
      AssignKeeps(base, auth, name);
    }
    if LastSetTo(w.headers, name, value) {
      AssignLastWins(DefaultHeaders(payloadId, timestamp), w.headers, name, value);
    }
    if NotSetBy(w.headers, name) {
      AssignKeeps(DefaultHeaders(payloadId, timestamp), w.headers, name);
    }
  }

  /** `name` ends up as `value` in `hs`: some entry sets it and no later entry sets it again. */
  predicate LastSetTo(hs: seq<Header>, name: string, value: string)
  {
    exists i :: 0 <= i < |hs| && hs[i] == Header(name, value) && forall j :: i < j < |hs| ==> hs[j].name != name
  }

  /**
   * The signature is an HMAC under a secret freshly drawn for this request,
   * not the webhook's stored one: a receiver holding any other secret cannot
   * verify it.
   */
  lemma SignatureUsesThrowawaySecret(body: string, secretBytes: seq<byte>, receiverSecret: string)
    requires receiverSecret != GenerateSecret(secretBytes)
    ensures VerifySignature(body, SignPayload(body, GenerateSecret(secretBytes), Sha256), receiverSecret, Sha256) == Ok(false)
  {
  }

  // ---------------------------------------------------------------- attempts and retries

  /** What an attempt's `fetch` produced: a status code, or `None` when it threw (network error, 30 s abort). */
  type FetchOutcome = Option<int>

  /** `response.ok`. */
  predicate Succeeded(o: FetchOutcome)
  {
    o.Some? && 200 <= o.value <= 299
  }

  function Pow2(n: nat): (p: nat)
    ensures p >= 1
  {
    if n == 0 then 1 else 2 * Pow2(n - 1)
  }

  /** `backoffMs * Math.pow(2, attempt - 1)`: the wait before attempt `attempt + 1`. */
  function RetryDelay(backoffMs: int, attempt: nat): int
    requires attempt >= 1
  {
    backoffMs * Pow2(attempt - 1)
  }

  /** Each retry waits twice as long as the one before it, starting from the configured backoff. */
  lemma {:induction false} RetryDelayDoubles(backoffMs: int, attempt: nat)
    requires attempt >= 1
    ensures RetryDelay(backoffMs, 1) == backoffMs
    ensures RetryDelay(backoffMs, attempt + 1) == 2 * RetryDelay(backoffMs, attempt)
  {
    calc {
      RetryDelay(backoffMs, attempt + 1);
      backoffMs * (2 * Pow2(attempt - 1));
      { assert backoffMs * (2 * Pow2(attempt - 1)) == 2 * (backoffMs * Pow2(attempt - 1)); }
      2 * RetryDelay(backoffMs, attempt);
    }
  }

  /**
   * One delivery chain from `attempt` on: the attempt numbers made, the delays
   * scheduled between them, and the single stats update the chain ends with
   * (`None` when rendering throws before the request, which ends the chain
   * silently).
   */
  datatype ChainResult = ChainResult(attempts: seq<int>, delays: seq<int>, stats: Option<bool>)

  /** `sendWebhook(webhook, event, data, attempt)` and the retries it schedules. */
  function Chain(retry: Retry, renders: bool, outcome: int -> FetchOutcome, attempt: int): (c: ChainResult)
    requires attempt >= 1
    ensures |c.attempts| >= 1 && |c.delays| == |c.attempts| - 1
    ensures forall i :: 0 <= i < |c.attempts| ==> c.attempts[i] == attempt + i
    ensures forall i :: 0 <= i < |c.delays| ==> c.delays[i] == RetryDelay(retry.backoffMs, attempt + i)
    ensures var last := attempt + |c.attempts| - 1;
            && (forall n :: attempt <= n < last ==> !Succeeded(outcome(n)))
            && (c.stats == Some(true) <==> renders && Succeeded(outcome(last)))
            && (c.stats.None? <==> !renders)
            && (last > attempt ==> renders && retry.enabled && last <= retry.maxAttempts)
            && (c.stats == Some(false) ==> !retry.enabled || last >= retry.maxAttempts)
    decreases retry.maxAttempts - attempt
  {
    if !renders then ChainResult([attempt], [], None)
    else if Succeeded(outcome(attempt)) then ChainResult([attempt], [], Some(true))
    else if retry.enabled && attempt < retry.maxAttempts then
      var rest := Chain(retry, renders, outcome, attempt + 1);
      ChainResult([attempt] + rest.attempts, [RetryDelay(retry.backoffMs, attempt)] + rest.delays, rest.stats)
    else ChainResult([attempt], [], Some(false))
  }

  /** At most `max(1, maxAttempts)` attempts; exactly one without retries. */
  lemma AttemptBound(retry: Retry, renders: bool, outcome: int -> FetchOutcome)
    ensures var c := Chain(retry, renders, outcome, 1);
            && |c.attempts| <= (if retry.maxAttempts < 1 then 1 else retry.maxAttempts)
            && (!retry.enabled ==> |c.attempts| == 1)
  {
  }

  /** When every attempt fails, an enabled retry policy uses up exactly `max(1, maxAttempts)` attempts and records one failure. */
  lemma AllFailuresExhaustRetries(retry: Retry, outcome: int -> FetchOutcome)
    requires retry.enabled
    requires forall n :: !Succeeded(outcome(n))
    ensures var c := Chain(retry, true, outcome, 1);
            && |c.attempts| == (if retry.maxAttempts < 1 then 1 else retry.maxAttempts)
            && c.stats == Some(false)
  {
    var c := Chain(retry, true, outcome, 1);
    var last := |c.attempts|;
    assert !Succeeded(outcome(last));
    assert c.stats.Some?;
    assert !c.stats.value;
    assert last >= retry.maxAttempts;
    assert last > 1 ==> last <= retry.maxAttempts;
  }

  /** The first successful attempt ends the chain with one success. */
  lemma SuccessStopsTheChain(retry: Retry, outcome: int -> FetchOutcome, k: int)
    requires 1 <= k && ((retry.enabled && k <= retry.maxAttempts) || k == 1)
    requires Succeeded(outcome(k)) && forall n :: 1 <= n < k ==> !Succeeded(outcome(n))
    ensures Chain(retry, true, outcome, 1) == ChainResult(
              seq(k, i => 1 + i), seq(k - 1, i requires 0 <= i < k - 1 => RetryDelay(retry.backoffMs, 1 + i)), Some(true))
  {
    var c := Chain(retry, true, outcome, 1);
    var last := |c.attempts|;
    assert c.stats.Some?;
    assert last <= k;
    assert !c.stats.value ==> last >= k;
    assert c.stats.value ==> Succeeded(outcome(last));
    assert last == k;
  }

  // ---------------------------------------------------------------- dispatch

  /** Per-webhook inputs of a dispatch: whether its body renders, and its HTTP outcomes per attempt. */
  datatype Delivery = Delivery(renders: bool, outcome: int -> FetchOutcome)

  /** The stats update a finished chain makes, if any. */
  function RecordChain(st: Store, id: string, c: ChainResult, now: int): (r: Store)
  {
    match c.stats
    case None => st
    case Some(success) => UpdateOutboundStats(st, id, success, now)
  }

  /**
   * `dispatch(event, data)`: every active subscribed webhook gets its own
   * chain, whatever happened to the others, and each chain's stats update is
   * applied to the tables.
   */
  function Dispatch(st: Store, hooks: seq<OutboundWebhook>, delivery: string -> Delivery, now: int): (r: (Store, seq<ChainResult>))
    ensures |r.1| == |hooks|
    ensures forall i :: 0 <= i < |hooks| ==>
              r.1[i] == Chain(hooks[i].retry, delivery(hooks[i].id).renders, delivery(hooks[i].id).outcome, 1)
    ensures r.0.inbound == st.inbound && |r.0.outbound| == |st.outbound|
    decreases |hooks|
  {
    if hooks == [] then (st, [])
    else
      var w := hooks[0];
      var c := Chain(w.retry, delivery(w.id).renders, delivery(w.id).outcome, 1);
      var (st', rest) := Dispatch(RecordChain(st, w.id, c, now), hooks[1..], delivery, now);
      (st', [c] + rest)
  }

  /** The webhooks `dispatch` delivers to for an event. */
  function DispatchEvent(st: Store, event: string, delivery: string -> Delivery, now: int): (r: (Store, seq<ChainResult>))
    ensures |r.1| == |OutboundsByEvent(st.outbound, event)|
  {
    Dispatch(st, OutboundsByEvent(st.outbound, event), delivery, now)
  }

  /** A dispatch keeps every webhook's fire count equal to its successes plus failures. */
  lemma {:induction false} DispatchKeepsCountersBalanced(st: Store, hooks: seq<OutboundWebhook>, delivery: string -> Delivery, now: int)
    requires AllBalanced(st)
    ensures AllBalanced(Dispatch(st, hooks, delivery, now).0)
    decreases |hooks|
  {
    if hooks != [] {
      var w := hooks[0];
      var c := Chain(w.retry, delivery(w.id).renders, delivery(w.id).outcome, 1);
      if c.stats.Some? {
        CountersStayBalanced(st, OutboundInput("", "", None, "", None, None, None, [], None, None, RetryInput(None, None, None), None),
                             "", w.id, c.stats.value, now);
      }
      DispatchKeepsCountersBalanced(RecordChain(st, w.id, c, now), hooks[1..], delivery, now);
    }
  }

  /** Webhooks outside the dispatch keep their counters. */
  lemma {:induction false} DispatchTouchesOnlyItsWebhooks(st: Store, hooks: seq<OutboundWebhook>, delivery: string -> Delivery, now: int, i: nat)
    requires i < |st.outbound|
    requires forall k :: 0 <= k < |hooks| ==> hooks[k].id != st.outbound[i].hook.id
    ensures Dispatch(st, hooks, delivery, now).0.outbound[i] == st.outbound[i]
    decreases |hooks|
  {
    if hooks != [] {
      var w := hooks[0];
      var c := Chain(w.retry, delivery(w.id).renders, delivery(w.id).outcome, 1);
      DispatchTouchesOnlyItsWebhooks(RecordChain(st, w.id, c, now), hooks[1..], delivery, now, i);
    }
  }
}

=== FILE: webhook_manager.dfy ===
/**
 * The webhook tables (`WebhookManager`): inbound webhooks with their
 * encrypted signing secret and trigger count, outbound webhooks with their
 * optional encrypted credentials and fire / success / failure counters.
 * A table is a sequence of rows in table order; ids are fresh UUIDs.
 */
module WebhookManager {
  import opened Wrappers
  import opened Text
  import opened Encryption
  import opened Types

  datatype InboundRow = InboundRow(hook: InboundWebhook, secret: Envelope, lastTriggered: Option<int>)

  datatype OutboundRow = OutboundRow(hook: OutboundWebhook, credentials: Option<Envelope>, lastFired: Option<int>)

  datatype Store = Store(inbound: seq<InboundRow>, outbound: seq<OutboundRow>)

  datatype ManagerError = WebhookNotFound(id: string) | VaultError(cause: Error)

  // ---------------------------------------------------------------- inbound

  /** What `createInbound` is given: everything but id, timestamps and trigger count. */
  datatype InboundData = InboundData(
    name: string,
    description: Option<string>,
    endpoint: string,
    accountId: Option<string>,
    active: Option<bool>,
    actions: seq<WebhookAction>,
    filters: Option<seq<Filter>>)

  predicate HasInbound(st: Store, id: string)
  {
    exists i :: 0 <= i < |st.inbound| && st.inbound[i].hook.id == id
  }

  /**
   * `createInbound`: a fresh secret (`generateSecret` over `secretBytes`) is
   * encrypted under the master key and stored with a zero trigger count; a
   * locked vault makes `encrypt` throw before anything is inserted.
   */
  function CreateInbound(st: Store, enc: Service, data: InboundData, id: string,
                         secretBytes: seq<byte>, iv: seq<byte>): (r: Result<(Store, InboundWebhook), Error>)
    ensures r.Err? <==> !IsUnlocked(enc)
    ensures r.Ok? ==> var (st', w) := r.value;
              && w.id == id && w.triggerCount == 0
              && w.active == (data.active != Some(false))
              && w.description == data.description.GetOr("")
              && (w.accountId.Some? <==> data.accountId.Some? && data.accountId.value != "")
              && (w.accountId.Some? ==> w.accountId == data.accountId)
              && |st'.inbound| == |st.inbound| + 1
              && st'.inbound[..|st.inbound|] == st.inbound
              && st'.inbound[|st.inbound|].hook == w
              && st'.outbound == st.outbound
  {
    match Encrypt(enc, GenerateSecret(secretBytes), iv)
    case Err(e) => Err(e)
    case Ok(envelope) =>
      var account := if data.accountId == Some("") then None else data.accountId;
      var w := InboundWebhook(id, data.name, data.description.GetOr(""), data.endpoint, account,
                              data.active != Some(false), data.actions, data.filters, 0);
      var st' := st.(inbound := st.inbound + [InboundRow(w, envelope, None)]);
      assert st'.inbound[..|st.inbound|] == st.inbound;
      Ok((st', w))
  }

  /** Position of the first row, in table order, with that id. */
  function FindInbound(rows: seq<InboundRow>, id: string): (r: Option<nat>)
    ensures r.Some? ==> r.value < |rows| && rows[r.value].hook.id == id
    ensures r.Some? ==> forall j :: 0 <= j < r.value ==> rows[j].hook.id != id
    ensures r.None? ==> forall j :: 0 <= j < |rows| ==> rows[j].hook.id != id
  {
    if rows == [] then None
    else if rows[0].hook.id == id then Some(0)
    else match FindInbound(rows[1..], id)
      case None => None
      case Some(k) => Some(k + 1)
  }

  /** `getInboundByEndpoint`: the first inbound webhook listening on `endpoint`. */
  function InboundByEndpoint(st: Store, endpoint: string): (r: Option<InboundWebhook>)
    ensures r.Some? ==> r.value.endpoint == endpoint
                        && exists i :: 0 <= i < |st.inbound| && st.inbound[i].hook == r.value
    ensures r.None? <==> forall i :: 0 <= i < |st.inbound| ==> st.inbound[i].hook.endpoint != endpoint
    decreases |st.inbound|
  {
    if st.inbound == [] then None
    else if st.inbound[0].hook.endpoint == endpoint then Some(st.inbound[0].hook)
    else
      var r := InboundByEndpoint(st.(inbound := st.inbound[1..]), endpoint);
      if r.Some? then
        var i :| 0 <= i < |st.inbound| - 1 && st.inbound[1..][i].hook == r.value;
        assert st.inbound[i + 1].hook == r.value;
        r
      else
        assert forall i :: 1 <= i < |st.inbound| ==> st.inbound[1..][i - 1] == st.inbound[i];
        r
  }

  /** `getInboundSecret`: the decrypted secret of the first row with that id. */
  function GetInboundSecret(st: Store, enc: Service, id: string): (r: Result<string, ManagerError>)
    ensures !HasInbound(st, id) ==> r == Err(WebhookNotFound(id))
    ensures HasInbound(st, id) && !IsUnlocked(enc) ==> r == Err(VaultError(MasterKeyNotSet))
  {
    match FindInbound(st.inbound, id)
    case None => Err(WebhookNotFound(id))
    case Some(i) =>
      match Decrypt(enc, st.inbound[i].secret)
      case Ok(s) => Ok(s)
      case Err(e) => Err(VaultError(e))
  }

  /** The secret made at creation is the one handed back later under the same key. */
  lemma InboundSecretRoundTrip(st: Store, enc: Service, data: InboundData, id: string,
                               secretBytes: seq<byte>, iv: seq<byte>)
    requires IsUnlocked(enc) && !HasInbound(st, id)
    ensures var (st', _) := CreateInbound(st, enc, data, id, secretBytes, iv).value;
            GetInboundSecret(st', enc, id) == Ok(GenerateSecret(secretBytes))
  {
    var (st', w) := CreateInbound(st, enc, data, id, secretBytes, iv).value;
    CreatedFoundLast(st, st', id);
  }

  /** A new row appended after rows without its id is the one the lookup finds. */
  lemma CreatedFoundLast(st: Store, st': Store, id: string)
    requires !HasInbound(st, id)
    requires |st'.inbound| == |st.inbound| + 1 && st'.inbound[..|st.inbound|] == st.inbound
    requires st'.inbound[|st.inbound|].hook.id == id
    ensures FindInbound(st'.inbound, id) == Some(|st.inbound|)
  {
    var n := |st.inbound|;
    forall j | 0 <= j < n ensures st'.inbound[j].hook.id != id {
      assert st'.inbound[j] == st'.inbound[..n][j];
    }
    FindFirst(st'.inbound, id, n);
  }

  lemma FindFirst(rows: seq<InboundRow>, id: string, n: nat)
    requires n < |rows| && rows[n].hook.id == id
    requires forall j :: 0 <= j < n ==> rows[j].hook.id != id
    ensures FindInbound(rows, id) == Some(n)
  {
  }

  /**
   * `updateInboundStats`: every row with that id gets one more trigger and a
   * last-triggered time; nothing else changes.
   */
  function UpdateInboundStats(st: Store, id: string, now: int): (r: Store)
    ensures r.outbound == st.outbound && |r.inbound| == |st.inbound|
    ensures forall i :: 0 <= i < |st.inbound| ==>
              if st.inbound[i].hook.id == id
              then r.inbound[i].hook == st.inbound[i].hook.(triggerCount := st.inbound[i].hook.triggerCount + 1)
                   && r.inbound[i].lastTriggered == Some(now)
                   && r.inbound[i].secret == st.inbound[i].secret
              else r.inbound[i] == st.inbound[i]
  {
    st.(inbound := seq(|st.inbound|, i requires 0 <= i < |st.inbound| =>
      var row := st.inbound[i];
      if row.hook.id == id
      then row.(hook := row.hook.(triggerCount := row.hook.triggerCount + 1), lastTriggered := Some(now))
      else row))
  }

  /** Trigger count of the webhook with id `id` (the first such row). */
  function TriggerCount(st: Store, id: string): Option<int>
  {
    match FindInbound(st.inbound, id)
    case None => None
    case Some(i) => Some(st.inbound[i].hook.triggerCount)
  }

  /** A created webhook starts at 0 and each accepted request adds exactly 1. */
  lemma TriggerCountCountsAcceptedRequests(st: Store, enc: Service, data: InboundData, id: string,
                                           secretBytes: seq<byte>, iv: seq<byte>, now: int)
    requires IsUnlocked(enc) && !HasInbound(st, id)
    ensures var (st', _) := CreateInbound(st, enc, data, id, secretBytes, iv).value;
            TriggerCount(st', id) == Some(0)
            && TriggerCount(UpdateInboundStats(st', id, now), id) == Some(1)
  {
    var (st', w) := CreateInbound(st, enc, data, id, secretBytes, iv).value;
    var n := |st.inbound|;
    CreatedFoundLast(st, st', id);
    var st2 := UpdateInboundStats(st', id, now);
    forall j | 0 <= j < n ensures st2.inbound[j].hook.id != id {
      assert st'.inbound[j] == st'.inbound[..n][j];
    }
    FindFirst(st2.inbound, id, n);
  }

  // ---------------------------------------------------------------- outbound

  /**
   * `createOutbound`: defaults applied, counters at 0, no stored credentials
   * whatever the auth type (they are set later by `updateOutboundAuth`).
   */
  function CreateOutbound(st: Store, data: OutboundInput, id: string): (r: (Store, OutboundWebhook))
    ensures var (st', w) := r;
            && w.id == id && w.fireCount == 0 && w.successCount == 0 && w.failureCount == 0
            && st'.outbound == st.outbound + [OutboundRow(w, None, None)]
            && st'.inbound == st.inbound
  {
    var w := OutboundWithDefaults(data.(id := id));
    (st.(outbound := st.outbound + [OutboundRow(w, None, None)]), w)
  }

  /** Every fire is either a success or a failure. */
  predicate Balanced(w: OutboundWebhook)
  {
    w.fireCount == w.successCount + w.failureCount
  }

  predicate AllBalanced(st: Store)
  {
    forall i :: 0 <= i < |st.outbound| ==> Balanced(st.outbound[i].hook)
  }

  /**
   * `updateOutboundStats(id, success)`: one more fire and one more success or
   * failure; only a success records the last-fired time.
   */
  function UpdateOutboundStats(st: Store, id: string, success: bool, now: int): (r: Store)
    ensures r.inbound == st.inbound && |r.outbound| == |st.outbound|
    ensures forall i :: 0 <= i < |st.outbound| ==>
              var (old_, new_) := (st.outbound[i], r.outbound[i]);
              if old_.hook.id == id
              then && new_.hook.fireCount == old_.hook.fireCount + 1
                   && new_.hook.successCount == old_.hook.successCount + (if success then 1 else 0)
                   && new_.hook.failureCount == old_.hook.failureCount + (if success then 0 else 1)
                   && new_.lastFired == (if success then Some(now) else old_.lastFired)
                   && new_.credentials == old_.credentials
              else new_ == old_
  {
    st.(outbound := seq(|st.outbound|, i requires 0 <= i < |st.outbound| =>
      var row := st.outbound[i];
      if row.hook.id != id then row
      else if success
      then row.(hook := row.hook.(fireCount := row.hook.fireCount + 1, successCount := row.hook.successCount + 1),
                lastFired := Some(now))
      else row.(hook := row.hook.(fireCount := row.hook.fireCount + 1, failureCount := row.hook.failureCount + 1))))
  }

  /** fire = success + failure holds for new webhooks and survives every stats update. */
  lemma CountersStayBalanced(st: Store, data: OutboundInput, id: string, target: string, success: bool, now: int)
    requires AllBalanced(st)
    ensures AllBalanced(CreateOutbound(st, data, id).0)
    ensures AllBalanced(UpdateOutboundStats(st, target, success, now))
  {
    var st' := CreateOutbound(st, data, id).0;
    assert forall i :: 0 <= i < |st.outbound| ==> st'.outbound[i] == st.outbound[i];
  }

  /**
   * `getOutboundsByEvent`: the active webhooks subscribed to `event`, in the
   * order of `rows`, which stands for `listOutbound()` (sorted by name).
   */
  function OutboundsByEvent(rows: seq<OutboundRow>, event: string): (r: seq<OutboundWebhook>)
    ensures |r| <= |rows|
    ensures forall w :: w in r <==> exists i :: 0 <= i < |rows| && rows[i].hook == w && w.active && event in w.events
  {
    if rows == [] then []
    else
      var rest := OutboundsByEvent(rows[1..], event);
      assert forall i :: 1 <= i < |rows| ==> rows[1..][i - 1] == rows[i];
      if rows[0].hook.active && event in rows[0].hook.events then [rows[0].hook] + rest else rest
  }

  /**
   * `updateOutboundAuth`: the credential envelope of the rows with that id is
   * replaced by `encrypt(credentials)`; a locked vault throws.
   */
  function UpdateOutboundAuth(st: Store, enc: Service, id: string, credentials: string, iv: seq<byte>): (r: Result<Store, Error>)
    ensures r.Err? <==> !IsUnlocked(enc)
    ensures r.Ok? ==> r.value.inbound == st.inbound && |r.value.outbound| == |st.outbound|
    ensures r.Ok? ==> forall i :: 0 <= i < |st.outbound| ==>
              if st.outbound[i].hook.id == id
              then r.value.outbound[i].credentials.Some?
                   && Decrypt(enc, r.value.outbound[i].credentials.value) == Ok(credentials)
                   && r.value.outbound[i].hook == st.outbound[i].hook
              else r.value.outbound[i] == st.outbound[i]
  {
    match Encrypt(enc, credentials, iv)
    case Err(e) => Err(e)
    case Ok(envelope) =>
      Ok(st.(outbound := seq(|st.outbound|, i requires 0 <= i < |st.outbound| =>
        var row := st.outbound[i];
        if row.hook.id == id then row.(credentials := Some(envelope)) else row)))
  }
}

=== FILE: webhook_server.dfy ===
/**
 * The inbound webhook listener (`WebhookServer.handleRequest`): a per-IP
 * fixed-window rate limiter, CORS preflight, a health probe, endpoint lookup,
 * optional HMAC signature check, IP whitelist, a replay cache keyed by the
 * `x-webhook-id` header, payload filters, and finally acceptance, which
 * bumps the webhook's trigger count and emits `webhook.received`.
 *
 * One request is one call of `Handle`; the clock reading, the webhook tables,
 * the vault, UTF-8 decoding, `JSON.parse` and hex decoding of the signature
 * header are inputs.
 */
module WebhookServer {
  import opened Wrappers
  import opened Text
  import opened Crypto
  import opened Encryption
  import opened Types
  import opened JsValues
  import opened Bodies
  import opened WebhookManager

  // ---------------------------------------------------------------- configuration and state

  datatype RateLimit = RateLimit(windowMs: int, maxRequests: int)

  datatype Security = Security(
    signatureValidation: bool,
    signatureHeader: string,
    signatureAlgorithm: HmacAlgorithm,
    ipWhitelist: seq<string>,
    replayProtection: bool,
    replayWindowSeconds: int)

  /** The `webhooks` section of the application configuration, as far as requests see it. */
  datatype Config = Config(basePath: string, rateLimit: RateLimit, security: Security)

  /** One IP's counter: requests seen in the current window and when the window ends. */
  datatype Window = Window(count: int, resetAt: int)

  /** `requestCounts` and `replayCache`. */
  datatype State = State(requestCounts: map<string, Window>, replayCache: map<string, int>)

  /** Bodies above 10 MiB are refused. */
  const MaxPayloadBytes := 10 * 1024 * 1024

  // ---------------------------------------------------------------- rate limiting

  /**
   * `checkRateLimit(ip)`: a first request, or one strictly after the window
   * ended, opens a new window with count 1 and passes; any other request
   * increments the count and passes iff the count is within the limit.
   */
  function CheckRateLimit(counts: map<string, Window>, limit: RateLimit, ip: string, now: int): (r: (bool, map<string, Window>))
    ensures r.1.Keys == counts.Keys + {ip}
    ensures forall k :: k in counts && k != ip ==> r.1[k] == counts[k]
    ensures ip !in counts || now > counts[ip].resetAt ==> r.0 && r.1[ip] == Window(1, now + limit.windowMs)
    ensures ip in counts && now <= counts[ip].resetAt ==>
              r.1[ip] == Window(counts[ip].count + 1, counts[ip].resetAt)
              && (r.0 <==> counts[ip].count + 1 <= limit.maxRequests)
  {
    if ip !in counts || now > counts[ip].resetAt then
      (true, counts[ip := Window(1, now + limit.windowMs)])
    else
      var w := counts[ip].(count := counts[ip].count + 1);
      (w.count <= limit.maxRequests, counts[ip := w])
  }

  /** Feeds requests from one IP at the given times; returns how many passed. */
  function RunRateLimit(counts: map<string, Window>, limit: RateLimit, ip: string, times: seq<int>): (r: (nat, map<string, Window>))
    ensures r.0 <= |times|
    ensures counts.Keys <= r.1.Keys
    decreases |times|
  {
    if times == [] then (0, counts)
    else
      var (ok, counts') := CheckRateLimit(counts, limit, ip, times[0]);
      var (n, final) := RunRateLimit(counts', limit, ip, times[1..]);
      ((if ok then 1 else 0) + n, final)
  }

  function Clamp(x: int, lo: int, hi: int): int
  {
    if x < lo then lo else if x > hi then hi else x
  }

  /**
   * Inside one open window (every request at or before its end), a window
   * that already counted `c` requests lets through exactly the requests that
   * keep the count within `maxRequests`.
   */
  lemma {:induction false} WindowPassesUpToLimit(counts: map<string, Window>, limit: RateLimit, ip: string, times: seq<int>)
    requires ip in counts
    requires forall i :: 0 <= i < |times| ==> times[i] <= counts[ip].resetAt
    ensures var (n, final) := RunRateLimit(counts, limit, ip, times);
            n == Clamp(limit.maxRequests - counts[ip].count, 0, |times|)
            && final[ip] == Window(counts[ip].count + |times|, counts[ip].resetAt)
    decreases |times|
  {
    if times != [] {
      var (ok, counts') := CheckRateLimit(counts, limit, ip, times[0]);
      WindowPassesUpToLimit(counts', limit, ip, times[1..]);
    }
  }

  /**
   * A window opened at `t0` passes at most `max(1, maxRequests)` requests
   * up to its end: the opening request always passes.
   */
  lemma WindowCap(counts: map<string, Window>, limit: RateLimit, ip: string, t0: int, later: seq<int>)
    requires ip !in counts || t0 > counts[ip].resetAt
    requires forall i :: 0 <= i < |later| ==> later[i] <= t0 + limit.windowMs
    ensures RunRateLimit(counts, limit, ip, [t0] + later).0 <= if limit.maxRequests < 1 then 1 else limit.maxRequests
  {
    var counts' := CheckRateLimit(counts, limit, ip, t0).1;
    assert ([t0] + later)[1..] == later;
    WindowPassesUpToLimit(counts', limit, ip, later);
  }

  // ---------------------------------------------------------------- replay cache

  /** `isReplay(id)`: a lookup only; it never prunes. */
  predicate IsReplay(cache: map<string, int>, id: string)
  {
    id in cache
  }

  /** Keeps the entries recorded at or after `cutoff`. */
  function Prune(cache: map<string, int>, cutoff: int): (r: map<string, int>)
    ensures forall k :: k in r <==> k in cache && cache[k] >= cutoff
    ensures forall k :: k in r ==> r[k] == cache[k]
  {
    map k | k in cache && cache[k] >= cutoff :: cache[k]
  }

  /** `markProcessed(id)`: record `id` now, then drop entries older than the replay window. */
  function MarkProcessed(cache: map<string, int>, id: string, now: int, windowSeconds: int): (r: map<string, int>)
    ensures var cutoff := now - windowSeconds * 1000;
            forall k :: k in r <==> (k == id && now >= cutoff) || (k != id && k in cache && cache[k] >= cutoff)
    ensures forall k :: k in r ==> r[k] == if k == id then now else cache[k]
  {
    Prune(cache[id := now], now - windowSeconds * 1000)
  }

  /** After `markProcessed(id)` the id is a replay, and every id recorded within the window is kept. */
  lemma MarkThenReplay(cache: map<string, int>, id: string, now: int, windowSeconds: int, other: string)
    requires windowSeconds >= 0
    ensures IsReplay(MarkProcessed(cache, id, now, windowSeconds), id)
    ensures other in cache && cache[other] >= now - windowSeconds * 1000 ==>
              IsReplay(MarkProcessed(cache, id, now, windowSeconds), other)
    ensures other != id && other in cache && cache[other] < now - windowSeconds * 1000 ==>
              !IsReplay(MarkProcessed(cache, id, now, windowSeconds), other)
  {
  }

  /**
   * `isReplay` never prunes: an entry older than the window still answers
   * 'duplicate' until some later `markProcessed` drops it.
   */
  lemma StaleEntryReplaysUntilNextMark(cache: map<string, int>, id: string, other: string, now: int, windowSeconds: int)
    requires id in cache && id != other && cache[id] < now - windowSeconds * 1000
    ensures IsReplay(cache, id)
    ensures !IsReplay(MarkProcessed(cache, other, now, windowSeconds), id)
  {
  }

  // ---------------------------------------------------------------- payload filters

  /** `getNestedValue(obj, path)`: the dotted path walked with optional chaining. */
  function GetNestedValue(obj: Value, path: string): (r: Value)
    ensures '.' !in path ==> r == Get(obj, path)
  {
    var keys := Split(path, '.');
    if '.' !in path then
      SplitWithoutSeparator(path, '.');
      GetPath(obj, keys)
    else GetPath(obj, keys)
  }

  /** A dot splits the path: the walk continues from the first component's value. */
  lemma NestedValueSteps(obj: Value, first: string, rest: string)
    requires '.' !in first
    ensures GetNestedValue(obj, first + "." + rest) == GetNestedValue(Get(obj, first), rest)
    ensures GetNestedValue(obj, first) == Get(obj, first)
  {
    SplitAtSeparator(first, '.', rest);
    assert first + "." + rest == first + ['.'] + rest;
    var parts := [first] + Split(rest, '.');
    assert parts[1..] == Split(rest, '.');
    SplitWithoutSeparator(first, '.');
  }

  /** The filter value as `includes` sees it: a list is joined with commas. */
  function FilterText(v: ConditionValue): string
  {
    match v
    case Single(t) => t
    case Many(items) => Join(items, ",")
  }

  /**
   * One filter: the field must exist; `equals`, `contains` and `not_contains`
   * compare `String(value)`; `equals` against a list never holds; every other
   * operator lets the payload through.
   */
  predicate FilterHolds(payload: Value, f: Filter)
  {
    var v := GetNestedValue(payload, f.field);
    v != Undefined &&
    var text := ToJsString(v);
    match f.operator
    case OpEquals => f.value.Single? && text == f.value.text
    case OpContains => Contains(text, FilterText(f.value))
    case OpNotContains => !Contains(text, FilterText(f.value))
    case _ => true
  }

  predicate FiltersPass(payload: Value, filters: seq<Filter>)
    ensures filters == [] ==> FiltersPass(payload, filters)
    ensures FiltersPass(payload, filters) ==>
              forall i :: 0 <= i < |filters| ==> GetNestedValue(payload, filters[i].field) != Undefined
  {
    forall i :: 0 <= i < |filters| ==> FilterHolds(payload, filters[i])
  }

  /** One iteration of `applyFilters`: read the field, then compare `String(value)` as the operator says. */
  method CheckFilter(payload: Value, f: Filter) returns (ok: bool)
    ensures ok <==> FilterHolds(payload, f)
  {
    var value := GetNestedValue(payload, f.field);
    if value == Undefined {
      return false;
    }
    var text := ToJsString(value);
    match f.operator {
      case OpEquals =>
        ok := f.value.Single? && text == f.value.text;
      case OpContains =>
        ok := Contains(text, FilterText(f.value));
      case OpNotContains =>
        ok := !Contains(text, FilterText(f.value));
      case _ =>
        ok := true;
    }
  }

  /** `applyFilters`: stops at the first filter that fails. */
  method ApplyFilters(payload: Value, filters: seq<Filter>) returns (passes: bool)
    ensures passes <==> FiltersPass(payload, filters)
    ensures !passes ==> exists i :: 0 <= i < |filters| && !FilterHolds(payload, filters[i])
  {
    var i := 0;
    while i < |filters|
      invariant 0 <= i <= |filters|
      invariant forall j :: 0 <= j < i ==> FilterHolds(payload, filters[j])
    {
      var ok := CheckFilter(payload, filters[i]);
      if !ok {
        assert !FiltersPass(payload, filters) by {
          assert !FilterHolds(payload, filters[i]);
        }
        return false;
      }
      i := i + 1;
    }
    assert FiltersPass(payload, filters);
    return true;
  }

  /** Operators other than equals / contains / not_contains only require the field to exist. */
  lemma OtherOperatorsOnlyNeedTheField(payload: Value, f: Filter)
    requires f.operator !in {OpEquals, OpContains, OpNotContains}
    ensures FilterHolds(payload, f) <==> GetNestedValue(payload, f.field) != Undefined
  {
  }

  /** A string field equals a one-string filter value exactly when the texts agree. */
  lemma StringFieldEquals(payload: Value, field: string, s: string, target: string)
    requires '.' !in field && payload.Obj? && Lookup(payload.fields, field) == Some(Str(s))
    ensures FilterHolds(payload, Filter(field, OpEquals, Single(target))) <==> s == target
  {
    NestedValueSteps(payload, field, "");
  }

  // ---------------------------------------------------------------- endpoint path

  /** Length of the run of '/' at the start of `s`. */
  function SlashRun(s: string): (k: nat)
    ensures k <= |s|
    ensures forall i :: 0 <= i < k ==> s[i] == '/'
    ensures k < |s| ==> s[k] != '/'
  {
    if |s| > 0 && s[0] == '/' then 1 + SlashRun(s[1..]) else 0
  }

  /** `.replace(/^\/+/, '/')`: a leading run of slashes becomes one slash. */
  function CollapseLeadingSlashes(s: string): (r: string)
    ensures SlashRun(s) == 0 ==> r == s
    ensures SlashRun(s) > 0 ==> r == "/" + s[SlashRun(s)..]
  {
    var k := SlashRun(s);
    if k == 0 then s else "/" + s[k..]
  }

  /** The endpoint key: the first occurrence of the base path removed, then leading slashes collapsed. */
  function EndpointPath(pathname: string, basePath: string): (r: string)
    ensures |r| <= |pathname| + 1
  {
    CollapseLeadingSlashes(ReplaceFirst(pathname, basePath, ""))
  }

  /** Under the base path, `/base//name` and `/base/name` reach the endpoint `/name`. */
  lemma EndpointUnderBasePath(basePath: string, slashes: nat, name: string)
    requires |basePath| > 0 && slashes >= 1
    requires name == [] || name[0] != '/'
    ensures EndpointPath(basePath + seq(slashes, _ => '/') + name, basePath) == "/" + name
  {
    var s := basePath + seq(slashes, _ => '/') + name;
    assert s[0..|basePath|] == basePath;
    assert IndexOf(s, basePath) == Some(0);
    var rest := seq(slashes, _ => '/') + name;
    assert ReplaceFirst(s, basePath, "") == rest by {
      assert s[|basePath|..] == rest;
    }
    SlashRunOf(slashes, name);
    assert rest[slashes..] == name;
  }

  lemma {:induction false} SlashRunOf(slashes: nat, name: string)
    requires name == [] || name[0] != '/'
    ensures SlashRun(seq(slashes, _ => '/') + name) == slashes
  {
    if slashes > 0 {
      var s := seq(slashes, _ => '/') + name;
      assert s[1..] == seq(slashes - 1, _ => '/') + name;
      SlashRunOf(slashes - 1, name);
    } else {
      assert seq(slashes, _ => '/') + name == name;
    }
  }

  /**
   * The base path is removed wherever it first occurs, not only as a prefix:
   * `/hooks/webhooks/github` under `/webhooks` reaches the endpoint `/hooks/github`.
   */
  lemma BasePathRemovedAnywhere(pre: string, basePath: string, post: string)
    requires forall j :: 0 <= j < |pre| ==> !OccursAt(pre + basePath + post, basePath, j)
    ensures EndpointPath(pre + basePath + post, basePath) == CollapseLeadingSlashes(pre + post)
  {
    var s := pre + basePath + post;
    var n := |pre|;
    SearchSkips(s, basePath, 0, n);
    assert s[n..n + |basePath|] == basePath;
    assert IndexOf(s, basePath) == Some(n);
    assert s[..n] + "" + s[n + |basePath|..] == pre + post by {
      assert s[..n] == pre && s[n + |basePath|..] == post;
    }
  }

  /** The search passes over positions where the needle does not start. */
  lemma {:induction false} SearchSkips(s: string, sub: string, k: nat, n: nat)
    requires k <= n && n + |sub| <= |s|
    requires forall j :: k <= j < n ==> !OccursAt(s, sub, j)
    ensures IndexOfFrom(s, sub, k) == IndexOfFrom(s, sub, n)
    decreases n - k
  {
    if k < n {
      assert !OccursAt(s, sub, k);
      SearchSkips(s, sub, k + 1, n);
    }
  }

  // ---------------------------------------------------------------- requests and replies

  /** A request as the listener sees it; header names are lower-case, as Node delivers them. */
  datatype Request = Request(
    remoteAddress: Option<string>,
    httpMethod: string,
    url: Option<string>,
    pathname: string,       // `new URL(req.url || '/', ...).pathname`
    headers: map<string, string>,
    chunks: seq<seq<byte>>)

  /** Everything a request consults besides the listener's own state. */
  datatype Env = Env(
    now: int,
    store: Store,
    vault: Service,
    utf8: seq<byte> -> string,
    parseJson: string -> Option<Value>,
    decodeSignature: string -> SigBytes)

  datatype Reply =
    | TooManyRequests | Preflight | HealthOk | MethodNotAllowed | NotFound
    | InvalidSignature | Forbidden | Duplicate | Filtered | Accepted | InternalError

  function StatusOf(r: Reply): int
  {
    match r
    case TooManyRequests => 429
    case Preflight => 204
    case HealthOk => 200
    case MethodNotAllowed => 405
    case NotFound => 404
    case InvalidSignature => 401
    case Forbidden => 403
    case Duplicate => 200
    case Filtered => 200
    case Accepted => 200
    case InternalError => 500
  }

  /** The `webhook.received` event. */
  datatype Received = Received(webhookId: string, payload: Value)

  datatype Outcome = Outcome(reply: Reply, state: State, store: Store, emitted: Option<Received>)

  /** `req.socket.remoteAddress || 'unknown'`. */
  function ClientIp(req: Request): (ip: string)
    ensures ip != ""
    ensures req.remoteAddress.Some? && req.remoteAddress.value != "" ==> ip == req.remoteAddress.value
    ensures ip != "unknown" ==> req.remoteAddress == Some(ip)
  {
    if req.remoteAddress.Some? && req.remoteAddress.value != "" then req.remoteAddress.value else "unknown"
  }

  /** A header's value, with an absent header read as the empty (falsy) string. */
  function HeaderValue(req: Request, name: string): string
  {
    if name in req.headers then req.headers[name] else ""
  }

  /** `JSON.parse(body)`, or `{ raw: body }` when the body is not JSON. */
  function ParsePayload(env: Env, body: string): (v: Value)
    ensures env.parseJson(body).None? ==> v == Obj([Field("raw", Str(body))])
  {
    match env.parseJson(body)
    case Some(v) => v
    case None => Obj([Field("raw", Str(body))])
  }

  /**
   * The signature stage: skipped unless validation is on and the header is
   * non-empty; a missing secret or a signature of the wrong length throws
   * (500), a mismatch is 401. `None` means the request goes on.
   */
  function SignatureVerdict(sec: Security, req: Request, env: Env, w: InboundWebhook, body: string): (v: Option<Reply>)
    ensures !sec.signatureValidation || HeaderValue(req, sec.signatureHeader) == "" ==> v.None?
    ensures v.Some? ==> v.value in {InvalidSignature, InternalError}
    ensures v.None? && sec.signatureValidation && HeaderValue(req, sec.signatureHeader) != "" ==>
              GetInboundSecret(env.store, env.vault, w.id).Ok?
              && env.decodeSignature(HeaderValue(req, sec.signatureHeader))
                 == SignPayload(body, GetInboundSecret(env.store, env.vault, w.id).value, sec.signatureAlgorithm)
    ensures (sec.signatureValidation && HeaderValue(req, sec.signatureHeader) != ""
             && GetInboundSecret(env.store, env.vault, w.id).Err?) ==> v == Some(InternalError)
    ensures (sec.signatureValidation && HeaderValue(req, sec.signatureHeader) != ""
             && GetInboundSecret(env.store, env.vault, w.id).Ok?) ==>
              var given := env.decodeSignature(HeaderValue(req, sec.signatureHeader));
              var expected := SignPayload(body, GetInboundSecret(env.store, env.vault, w.id).value, sec.signatureAlgorithm);
              && (given == expected ==> v.None?)
              && (SigLength(given) != DigestLength(sec.signatureAlgorithm) ==> v == Some(InternalError))
              && (SigLength(given) == DigestLength(sec.signatureAlgorithm) && given != expected ==>
                    v == Some(InvalidSignature))
  {
    var sig := HeaderValue(req, sec.signatureHeader);
    if !sec.signatureValidation || sig == "" then None
    else
      match GetInboundSecret(env.store, env.vault, w.id)
      case Err(_) => Some(InternalError)
      case Ok(secret) =>
        match VerifySignature(body, env.decodeSignature(sig), secret, sec.signatureAlgorithm)
        case Err(_) => Some(InternalError)
        case Ok(valid) => if valid then None else Some(InvalidSignature)
  }

  /** Whitelist, replay cache, filters and acceptance, for a request that passed the signature stage. */
  function Admit(cfg: Config, st: State, req: Request, env: Env, w: InboundWebhook, body: string): (o: Outcome)
    ensures o.reply in {Forbidden, Duplicate, Filtered, Accepted}
    ensures o.reply == Forbidden <==> |cfg.security.ipWhitelist| > 0 && ClientIp(req) !in cfg.security.ipWhitelist
    ensures o.reply != Forbidden ==>
              (o.reply == Duplicate <==> cfg.security.replayProtection && HeaderValue(req, "x-webhook-id") != ""
                                         && IsReplay(st.replayCache, HeaderValue(req, "x-webhook-id")))
    ensures o.reply !in {Forbidden, Duplicate} ==>
              (o.reply == Filtered <==> w.filters.Some? && |w.filters.value| > 0
                                        && !FiltersPass(ParsePayload(env, body), w.filters.value))
    ensures o.reply == Accepted ==> o.emitted == Some(Received(w.id, ParsePayload(env, body)))
    ensures o.state.requestCounts == st.requestCounts
    ensures o.reply == Accepted <==> o.emitted.Some?
    ensures o.reply == Accepted ==> o.store == UpdateInboundStats(env.store, w.id, env.now) && o.emitted.value.webhookId == w.id
    ensures o.reply != Accepted ==> o.store == env.store
    ensures o.state.replayCache != st.replayCache ==>
              && cfg.security.replayProtection
              && HeaderValue(req, "x-webhook-id") != ""
              && o.state.replayCache == MarkProcessed(st.replayCache, HeaderValue(req, "x-webhook-id"),
                                                      env.now, cfg.security.replayWindowSeconds)
  {
    var sec := cfg.security;
    var ip := ClientIp(req);
    if |sec.ipWhitelist| > 0 && ip !in sec.ipWhitelist then Outcome(Forbidden, st, env.store, None)
    else
      var id := HeaderValue(req, "x-webhook-id");
      if sec.replayProtection && id != "" && IsReplay(st.replayCache, id) then Outcome(Duplicate, st, env.store, None)
      else
        var st' := if sec.replayProtection && id != ""
                   then st.(replayCache := MarkProcessed(st.replayCache, id, env.now, sec.replayWindowSeconds))
                   else st;
        var payload := ParsePayload(env, body);
        if w.filters.Some? && |w.filters.value| > 0 && !FiltersPass(payload, w.filters.value)
        then Outcome(Filtered, st', env.store, None)
        else Outcome(Accepted, st', UpdateInboundStats(env.store, w.id, env.now), Some(Received(w.id, payload)))
  }

  /** `handleRequest`. */
  function Handle(cfg: Config, st: State, req: Request, env: Env): (o: Outcome)
    ensures o.state.requestCounts == CheckRateLimit(st.requestCounts, cfg.rateLimit, ClientIp(req), env.now).1
    ensures o.reply == Accepted <==> o.emitted.Some?
    ensures o.reply != Accepted ==> o.store == env.store
    ensures o.reply == Forbidden ==> |cfg.security.ipWhitelist| > 0 && ClientIp(req) !in cfg.security.ipWhitelist
    ensures o.reply == Duplicate ==>
              cfg.security.replayProtection && IsReplay(st.replayCache, HeaderValue(req, "x-webhook-id"))
              && HeaderValue(req, "x-webhook-id") != ""
    ensures o.reply == Accepted ==> o.store == UpdateInboundStats(env.store, o.emitted.value.webhookId, env.now)
    ensures o.state.replayCache != st.replayCache ==>
              && cfg.security.replayProtection
              && HeaderValue(req, "x-webhook-id") != ""
              && o.state.replayCache == MarkProcessed(st.replayCache, HeaderValue(req, "x-webhook-id"),
                                                      env.now, cfg.security.replayWindowSeconds)
  {
    var ip := ClientIp(req);
    var (allowed, counts) := CheckRateLimit(st.requestCounts, cfg.rateLimit, ip, env.now);
    var st1 := st.(requestCounts := counts);
    if !allowed then Outcome(TooManyRequests, st1, env.store, None)
    else if req.httpMethod == "OPTIONS" then Outcome(Preflight, st1, env.store, None)
    else if req.url == Some("/health") then Outcome(HealthOk, st1, env.store, None)
    else if req.httpMethod != "POST" then Outcome(MethodNotAllowed, st1, env.store, None)
    else
      match InboundByEndpoint(env.store, EndpointPath(req.pathname, cfg.basePath))
      case None => Outcome(NotFound, st1, env.store, None)
      case Some(w) =>
        if !w.active then Outcome(NotFound, st1, env.store, None)
        else
          match BodyOutcome(req.chunks, MaxPayloadBytes)
          case None => Outcome(InternalError, st1, env.store, None)
          case Some(bytes) =>
            var body := env.utf8(bytes);
            match SignatureVerdict(cfg.security, req, env, w, body)
            case Some(reply) => Outcome(reply, st1, env.store, None)
            case None => Admit(cfg, st1, req, env, w, body)
  }

  // ---------------------------------------------------------------- decision order

  /** The rate limit is checked before anything else, preflight and health probe included. */
  lemma RateLimitComesFirst(cfg: Config, st: State, req: Request, env: Env)
    requires !CheckRateLimit(st.requestCounts, cfg.rateLimit, ClientIp(req), env.now).0
    ensures Handle(cfg, st, req, env).reply == TooManyRequests
    ensures Handle(cfg, st, req, env).state.replayCache == st.replayCache
  {
  }

  /** Preflight, the health probe and the method check need no endpoint and change nothing else. */
  lemma PreflightHealthAndMethod(cfg: Config, st: State, req: Request, env: Env)
    requires CheckRateLimit(st.requestCounts, cfg.rateLimit, ClientIp(req), env.now).0
    ensures req.httpMethod == "OPTIONS" ==> Handle(cfg, st, req, env).reply == Preflight
    ensures req.httpMethod != "OPTIONS" && req.url == Some("/health") ==> Handle(cfg, st, req, env).reply == HealthOk
    ensures req.httpMethod !in {"OPTIONS", "POST"} && req.url != Some("/health") ==>
              Handle(cfg, st, req, env).reply == MethodNotAllowed
    ensures req.httpMethod != "POST" ==> Handle(cfg, st, req, env).state.replayCache == st.replayCache
  {
  }

  /** A POST to an endpoint nobody registered, or to an inactive one, is 404 before the body is read. */
  lemma UnknownEndpointNotFound(cfg: Config, st: State, req: Request, env: Env)
    requires CheckRateLimit(st.requestCounts, cfg.rateLimit, ClientIp(req), env.now).0
    requires req.httpMethod == "POST" && req.url != Some("/health")
    requires var w := InboundByEndpoint(env.store, EndpointPath(req.pathname, cfg.basePath));
             w.None? || !w.value.active
    ensures Handle(cfg, st, req, env).reply == NotFound
  {
  }

  /** Without a signature header the signature stage is skipped, as if validation were off. */
  lemma UnsignedRequestsSkipVerification(cfg: Config, st: State, req: Request, env: Env)
    requires HeaderValue(req, cfg.security.signatureHeader) == ""
    ensures Handle(cfg, st, req, env)
         == Handle(cfg.(security := cfg.security.(signatureValidation := false)), st, req, env)
  {
    var cfg' := cfg.(security := cfg.security.(signatureValidation := false));
    forall w, body ensures SignatureVerdict(cfg.security, req, env, w, body).None?
                        && SignatureVerdict(cfg'.security, req, env, w, body).None? {}
    forall st1, w, body ensures Admit(cfg, st1, req, env, w, body) == Admit(cfg', st1, req, env, w, body) {
      AdmitIgnoresSignatureFlag(cfg, st1, req, env, w, body);
    }
  }

  /** Admission never reads the signature-validation flag. */
  lemma AdmitIgnoresSignatureFlag(cfg: Config, st: State, req: Request, env: Env, w: InboundWebhook, body: string)
    ensures Admit(cfg, st, req, env, w, body)
         == Admit(cfg.(security := cfg.security.(signatureValidation := false)), st, req, env, w, body)
  {
  }

  /** An empty whitelist admits every address. */
  lemma EmptyWhitelistAdmitsAll(cfg: Config, st: State, req: Request, env: Env)
    requires cfg.security.ipWhitelist == []
    ensures Handle(cfg, st, req, env).reply != Forbidden
  {
  }

  /** A request without the `x-webhook-id` header is never recorded and never a duplicate. */
  lemma NoEventIdNoReplayTracking(cfg: Config, st: State, req: Request, env: Env)
    requires HeaderValue(req, "x-webhook-id") == ""
    ensures Handle(cfg, st, req, env).reply != Duplicate
    ensures Handle(cfg, st, req, env).state.replayCache == st.replayCache
  {
  }

  /** A filtered request is answered 200 but neither counted nor emitted; its event id is still recorded. */
  lemma FilteredIsNotCounted(cfg: Config, st: State, req: Request, env: Env)
    requires Handle(cfg, st, req, env).reply == Filtered
    ensures Handle(cfg, st, req, env).store == env.store
    ensures Handle(cfg, st, req, env).emitted.None?
  {
  }

  // ---------------------------------------------------------------- replay across requests

  /** Counting a trigger leaves the endpoint lookup on the same row, with everything but the count intact. */
  lemma {:induction false} EndpointLookupAfterStats(store: Store, id: string, now: int, endpoint: string)
    ensures var before := InboundByEndpoint(store, endpoint);
            var after := InboundByEndpoint(UpdateInboundStats(store, id, now), endpoint);
            && (before.Some? <==> after.Some?)
            && (before.Some? ==> after.value.(triggerCount := 0) == before.value.(triggerCount := 0))
    decreases |store.inbound|
  {
    var store' := UpdateInboundStats(store, id, now);
    if store.inbound != [] && store.inbound[0].hook.endpoint != endpoint {
      var tail := store.(inbound := store.inbound[1..]);
      EndpointLookupAfterStats(tail, id, now, endpoint);
      assert store'.(inbound := store'.inbound[1..]) == UpdateInboundStats(tail, id, now);
    }
  }

  /** Counting a trigger does not touch the stored secret. */
  lemma SecretAfterStats(store: Store, id: string, now: int, target: string, vault: Service)
    ensures GetInboundSecret(UpdateInboundStats(store, id, now), vault, target) == GetInboundSecret(store, vault, target)
  {
    var store' := UpdateInboundStats(store, id, now);
    assert forall i :: 0 <= i < |store.inbound| ==> store'.inbound[i].hook.id == store.inbound[i].hook.id;
    FindInboundSameIds(store.inbound, store'.inbound, target);
  }

  lemma {:induction false} FindInboundSameIds(a: seq<InboundRow>, b: seq<InboundRow>, id: string)
    requires |a| == |b| && forall i :: 0 <= i < |a| ==> a[i].hook.id == b[i].hook.id
    ensures FindInbound(a, id) == FindInbound(b, id)
    decreases |a|
  {
    if a != [] {
      FindInboundSameIds(a[1..], b[1..], id);
    }
  }

  /** The stages before the whitelist, all passed. */
  predicate ReachesAdmission(cfg: Config, st: State, req: Request, env: Env, w: InboundWebhook)
  {
    && CheckRateLimit(st.requestCounts, cfg.rateLimit, ClientIp(req), env.now).0
    && req.httpMethod == "POST" && req.url != Some("/health")
    && InboundByEndpoint(env.store, EndpointPath(req.pathname, cfg.basePath)) == Some(w)
    && w.active
    && BodyOutcome(req.chunks, MaxPayloadBytes).Some?
    && SignatureVerdict(cfg.security, req, env, w, env.utf8(BodyOutcome(req.chunks, MaxPayloadBytes).value)).None?
  }

  lemma HandleReachesAdmit(cfg: Config, st: State, req: Request, env: Env, w: InboundWebhook)
    requires ReachesAdmission(cfg, st, req, env, w)
    ensures Handle(cfg, st, req, env)
         == Admit(cfg, st.(requestCounts := CheckRateLimit(st.requestCounts, cfg.rateLimit, ClientIp(req), env.now).1),
                  req, env, w, env.utf8(BodyOutcome(req.chunks, MaxPayloadBytes).value))
  {
  }

  /**
   * A request that passes every stage, from the rate limit through the
   * whitelist and the replay cache to the filters, is accepted: the event is
   * emitted with the parsed payload and the trigger is counted.
   */
  lemma LegitimateRequestAccepted(cfg: Config, st: State, req: Request, env: Env, w: InboundWebhook)
    requires ReachesAdmission(cfg, st, req, env, w)
    requires |cfg.security.ipWhitelist| == 0 || ClientIp(req) in cfg.security.ipWhitelist
    requires !(cfg.security.replayProtection && HeaderValue(req, "x-webhook-id") != ""
               && IsReplay(st.replayCache, HeaderValue(req, "x-webhook-id")))
    requires var payload := ParsePayload(env, env.utf8(BodyOutcome(req.chunks, MaxPayloadBytes).value));
             w.filters.None? || |w.filters.value| == 0 || FiltersPass(payload, w.filters.value)
    ensures var o := Handle(cfg, st, req, env);
            o.reply == Accepted
            && o.emitted == Some(Received(w.id, ParsePayload(env, env.utf8(BodyOutcome(req.chunks, MaxPayloadBytes).value))))
            && o.store == UpdateInboundStats(env.store, w.id, env.now)
  {
    HandleReachesAdmit(cfg, st, req, env, w);
  }

  /**
   * The plain case: an unsigned POST to an active endpoint without filters,
   * under an empty whitelist, within the rate limit and the size cap, is
   * accepted.
   */
  lemma PlainRequestAccepted(cfg: Config, st: State, req: Request, env: Env, w: InboundWebhook)
    requires CheckRateLimit(st.requestCounts, cfg.rateLimit, ClientIp(req), env.now).0
    requires req.httpMethod == "POST" && req.url != Some("/health")
    requires InboundByEndpoint(env.store, EndpointPath(req.pathname, cfg.basePath)) == Some(w)
    requires w.active && w.filters.None?
    requires BodyOutcome(req.chunks, MaxPayloadBytes).Some?
    requires HeaderValue(req, cfg.security.signatureHeader) == "" && HeaderValue(req, "x-webhook-id") == ""
    requires cfg.security.ipWhitelist == []
    ensures Handle(cfg, st, req, env).reply == Accepted
  {
    LegitimateRequestAccepted(cfg, st, req, env, w);
  }

  /**
   * Once a request with an event id has got past the whitelist, the same
   * request is a duplicate at any later time the rate limit lets it
   * through: the cache is only pruned when another id is recorded.
   */
  lemma RecordedEventIsThenDuplicate(cfg: Config, st: State, req: Request, env: Env, w: InboundWebhook, later: int)
    requires cfg.security.replayProtection && cfg.security.replayWindowSeconds >= 0
    requires HeaderValue(req, "x-webhook-id") != ""
    requires ReachesAdmission(cfg, st, req, env, w)
    requires |cfg.security.ipWhitelist| == 0 || ClientIp(req) in cfg.security.ipWhitelist
    requires CheckRateLimit(Handle(cfg, st, req, env).state.requestCounts, cfg.rateLimit, ClientIp(req), later).0
    ensures Handle(cfg, st, req, env).reply in {Duplicate, Filtered, Accepted}
    ensures var o := Handle(cfg, st, req, env);
            Handle(cfg, o.state, req, env.(store := o.store, now := later)).reply == Duplicate
  {
    var o := Handle(cfg, st, req, env);
    HandleReachesAdmit(cfg, st, req, env, w);
    var id := HeaderValue(req, "x-webhook-id");
    MarkThenReplay(st.replayCache, id, env.now, cfg.security.replayWindowSeconds, id);
    assert IsReplay(o.state.replayCache, id);
    var env2 := env.(store := o.store, now := later);
    var w2 := StillReaches(cfg, st, o.state, req, env, w, o.store, later);
    HandleReachesAdmit(cfg, o.state, req, env2, w2);
  }

  /** After one admitted request, the same request reaches admission again, counted trigger or not. */
  lemma StillReaches(cfg: Config, st: State, st2: State, req: Request, env: Env, w: InboundWebhook,
                     store: Store, later: int) returns (w2: InboundWebhook)
    requires ReachesAdmission(cfg, st, req, env, w)
    requires store == env.store || store == UpdateInboundStats(env.store, w.id, env.now)
    requires CheckRateLimit(st2.requestCounts, cfg.rateLimit, ClientIp(req), later).0
    ensures ReachesAdmission(cfg, st2, req, env.(store := store, now := later), w2)
  {
    var env2 := env.(store := store, now := later);
    if store == env.store {
      w2 := w;
    } else {
      var path := EndpointPath(req.pathname, cfg.basePath);
      var body := env.utf8(BodyOutcome(req.chunks, MaxPayloadBytes).value);
      EndpointLookupAfterStats(env.store, w.id, env.now, path);
      w2 := InboundByEndpoint(env2.store, path).value;
      assert w2.id == w.id && w2.active;
      SecretAfterStats(env.store, w.id, env.now, w.id, env.vault);
      assert SignatureVerdict(cfg.security, req, env2, w2, body) == SignatureVerdict(cfg.security, req, env, w, body);
    }
  }
}

=== FILE: wrappers.dfy ===
/** Failure-compatible wrappers shared by every module of the model. */
module Wrappers {

  /** An optional value; JavaScript's `undefined` / `null` become `None`. */
  datatype Option<+T> = None | Some(value: T) {
    predicate IsFailure() { None? }

    function PropagateFailure<U>(): Option<U>
      requires None?
    {
      None
    }

    function Extract(): T
      requires Some?
    {
      value
    }

    function GetOr(default: T): T {
      match this
      case Some(v) => v
      case None => default
    }
  }

  /** A value or the error the source would have thrown. */
  datatype Result<+R, +E> = Ok(value: R) | Err(error: E) {
    predicate IsFailure() { Err? }

    function PropagateFailure<U>(): Result<U, E>
      requires Err?
    {
      Err(error)
    }

    function Extract(): R
      requires Ok?
    {
      value
    }
  }
}
